=== FILE: README.md ===
# LegalRAG knowledge-graph core in Dafny

A functional model of the retrieval-augmented question answering core of
LegalRAG-KnowledgeGraph, a system that answers questions about Indian law
(the BNS, BNSS and BSA codes and the Constitution) from a knowledge graph of
Acts, sections, articles and Supreme Court judgments plus a vector index of
text chunks, together with the data-preparation steps that build that graph
and index, the output checker that guards them, and the metrics the
evaluation scripts compute.

What is modelled, module by module:

- `QueryParser`, `QueryParserV3`, `RefScan` — the reference parser. The
  `Article\s+(\d+[A-Z]?)` and `Section\s+(\d+(?:\(\d+\))?)` patterns are
  modelled as deterministic leftmost, greedy scanners, proved sound and
  complete against a declarative statement of each pattern. The third
  version adds Act detection from `ACT_ALIASES`, including the word
  boundaries that keep "bns" from matching inside "bnss".
- `Retrieval`, `RetrieverV3`, `RetrieverV1`, `Grouping`, `Chunks` — the
  constrained vector retriever:
  - the graph constraint set and its per-kind allow-list filter;
  - must-include chunks carrying the sentinel score 1.0;
  - over-retrieval with the section and article quotas (third version only);
  - the fallback to unconstrained search;
  - `group_by_source` with its per-source maximum score.

  The FAISS search is an oracle function from a query and `k` to scored
  chunks.
- `GraphStore`, `Pipeline`, `Context`, `WorkflowV3`, `WorkflowV1` — the
  LangGraph workflows (four nodes in the first version, five in the third):
  - graph resolution and its degradation to "no constraints";
  - the rephrase node;
  - the vector node;
  - the context blocks given to the model;
  - the answer node, including its error answers;
  - the order in which `build_app` wires the nodes.

  Neo4j, the FAISS search and the Ollama model are oracles that may fail.
- `Edges` — citation extraction from judgment text and the number-to-id
  mapping that produces `CITES` edges.
- `ChunkCorpus` — sliding-window chunking over an abstract tokenizer, id
  sanitising, and the pass that makes chunk ids unique.
- `Judgments` — column lookup, year parsing, the folder and zip loaders,
  and `prepare_judgments`.
- `OutputCheck`, `Tally`, `Sorting` — the phase-1 output checker: column
  checks, duplicate reports, integrity findings and their severities, and
  the exit code.
- `EvalMetrics` — the set-based evaluation metrics of the old evaluation
  scripts, computed as exact reals.
- `Wrappers`, `Text`, `Seqs` — `Option`/`Result`, Python string built-ins
  (`strip`, `split`, `lower`, `str(n)`, `in`) and list helpers.

Where the code and its design description disagree, the model follows the
code:

- An empty per-kind allow-list inside a non-empty constraint set admits
  nothing of that kind. It does not mean "no restriction for that kind".
- The third parser's Act hint for sections or articles is the Act detected
  in the whole question. There is no proximity rule: `_detect_section_act`
  only checks that a section reference exists and then calls `_detect_act`
  on the whole text.
- Must-include chunks come from the article and section ids only, never
  from case ids.
- The folder loader treats `limit=0` as "stop after the first PDF", because
  its check runs after the row is appended. The zip loader treats `limit=0`
  as "no limit", because it tests `if limit:`. Both behaviours are modelled
  as written.

## Model

| member | source | states |
|---|---|---|
| Retrieval.TopK | phase4_rag/vector_retriever_v3.py:152 | An absent or zero `k` means the configured `top_k`; any other `k` is used as given. |
| Retrieval.ApplyConstraints | phase4_rag/vector_retriever_v3.py:111-130 | An empty constraint set keeps every chunk. Otherwise a chunk is kept exactly when the allow-list of its kind holds its source id. |
| Retrieval.ApplyConstraintsOrder | phase4_rag/vector_retriever_v3.py:120-130 | The filter keeps input order: filtering a concatenation filters each part. |
| Retrieval.EmptyKindAdmitsNothing | phase4_rag/vector_retriever_v3.py:124-129 | In a non-empty constraint set, a kind whose allow-list is empty admits no chunk of that kind. |
| Retrieval.MatchingSpec | phase4_rag/vector_retriever_v3.py:61-65 | Every must-include entry has a requested source id and the sentinel score 1.0. |
| Retrieval.ChunksBySourceIdsSpec | phase4_rag/vector_retriever_v3.py:57-68 | The must-include lookup is the first `max(max_chunks, 1)` requested metadata entries, in metadata order, each scored 1.0. An empty request gives nothing. |
| Retrieval.SemanticHits | phase4_rag/vector_retriever_v3.py:181-182 | The semantic hits are the admitted search hits whose chunk id is not already a must-include chunk. |
| Retrieval.CombineSpec | phase4_rag/vector_retriever_v3.py:185-187 | The combined list has at most `top_k` chunks. It starts with as many must-include chunks as fit and continues with hits in descending score order. |
| Retrieval.BaseK | phase4_rag/vector_retriever_v3.py:178 | The constrained search asks for at least `top_k` and at least `top_k * constrained_multiplier` hits, and for one of these two numbers. |
| Retrieval.ConstrainedPathSpec | phase4_rag/vector_retriever_v3.py:174-202 | The constrained path falls back exactly when there is no must-include chunk and no new admitted hit. A fallback returns the first `top_k` unconstrained hits. Otherwise the must-include chunks come first and no hit repeats one of their ids. |
| RetrieverV3.OverK | phase4_rag/vector_retriever_v3.py:156-160 | The over-retrieval size is never below `top_k`. Above `top_k` it is at most `top_k * diversity_multiplier` and at most the index size. |
| RetrieverV3.FillIsAppend | phase4_rag/vector_retriever_v3.py:104-107 | The fill loop appends a prefix of the remaining chunks until `top_k` are chosen. |
| RetrieverV3.QuotaPicksOk | phase4_rag/vector_retriever_v3.py:86-101 | The two quota passes keep their bookkeeping consistent, pick only input chunks, and the article pass extends the section pass. |
| RetrieverV3.DiversifyShape | phase4_rag/vector_retriever_v3.py:100-108 | The diversified list is the quota picks followed by the best of the remaining chunks, up to `top_k`. |
| RetrieverV3.LeftoverDisjoint | phase4_rag/vector_retriever_v3.py:102 | The leftover chunks share no id with the quota picks. |
| RetrieverV3.DiversifySpec | phase4_rag/vector_retriever_v3.py:71-108 | The result has at most `top_k` chunks, all from the input. With distinct input ids the result ids are distinct and there are `min(top_k, len(results))` of them. |
| RetrieverV3.SectionPicksBest | phase4_rag/vector_retriever_v3.py:86-100 | The section pass takes the `min_sections` best section chunks. |
| RetrieverV3.DiversifyQuota | phase4_rag/vector_retriever_v3.py:77-101 | With distinct ids and `min_sections + min_articles <= top_k`, the result starts with the best `min_sections` section chunks and then the best `min_articles` article chunks. A chunk without a source type counts as a case. |
| RetrieverV3.RetrieveUnavailable | phase4_rag/vector_retriever_v3.py:142-150 | An unloaded store gives no chunks, both flags false, a top similarity of 0.0 and an error naming the reason. |
| RetrieverV3.RetrieveEmptyIsNone | phase4_rag/vector_retriever_v3.py:21-23 | An empty constraint set behaves exactly like no constraints. |
| RetrieverV3.RetrieveUnconstrained | phase4_rag/vector_retriever_v3.py:155-172 | Without constraints the result has no flags and no error. Its chunks are exactly the diversified over-retrieving search, so at most `top_k` chunks of that search, and the top similarity is that search's best score. |
| RetrieverV3.RetrieveConstrained | phase4_rag/vector_retriever_v3.py:174-202 | With constraints the result is the constrained path's chunks and fallback flag with no error. The top similarity is the best score of the over-retrieving search, or after a fallback the larger of the two searches' best scores, so it bounds every score seen. |
| RetrieverV1.RetrieveUnavailable | phase4_rag/vector_retriever.py:132-139 | An unloaded store gives no chunks, no flags and an error that starts "Vector store not available". |
| RetrieverV1.RetrieveUnconstrained | phase4_rag/vector_retriever.py:141-151 | Without constraints the result is exactly the plain top-`k` search, not diversified, with no flags and no error. |
| RetrieverV1.RetrieveConstrained | phase4_rag/vector_retriever.py:153-183 | With constraints the result is the shared constrained path's chunks and fallback flag, with no error and at most `top_k` chunks. |
| Grouping.GroupBySourceLookup | phase4_rag/vector_retriever_v3.py:205-219 | The group of every (type, id) key holds exactly that source's chunks, in input order, with their maximum score. Keys without chunks have no group. Missing types and ids are grouped under "unknown". |
| Grouping.GroupBySourceKeys | phase4_rag/vector_retriever_v3.py:206-214 | No type is listed twice, and no source id is listed twice within a type. |
| Grouping.GroupsAreBuckets | phase4_rag/vector_retriever.py:186-220 | Every listed group is the complete, non-empty bucket of its key with that bucket's best score, so the grouping partitions its input. |
| Grouping.MaxScoreSnoc | phase4_rag/vector_retriever_v3.py:215-218 | A new chunk raises a group's best score only when its score is strictly higher. |
| Chunks.SortDesc | phase4_rag/vector_retriever_v3.py:185 | Sorting by score in reverse is a permutation into descending order. |
| Chunks.SortDescStable | phase4_rag/vector_retriever_v3.py:89 | The sort is stable: chunks with equal scores keep their input order. |
| Chunks.MaxScoreSpec | phase4_rag/vector_retriever_v3.py:162 | The best score of no chunks is 0.0. Otherwise it is the score of some chunk and no chunk exceeds it. |
| QueryParser.NumbersAreGroups | phase4_rag/query_parser.py:45-46 | Each captured group is already stripped, so the numbers are exactly the groups, in order and with repeats. |
| QueryParser.ParseSpec | phase4_rag/query_parser.py:35-53 | The parse keeps the query and lists the captured groups of each pattern. Article tokens are digits and at most one letter; section tokens are digits and an optional `(digits)`. The id map is left empty. There are explicit references exactly when a number was found. |
| QueryParser.ParseWithoutKeywords | phase4_rag/query_parser.py:19-20 | Text that never says "article", in any letter case, has no article numbers; the same holds for "section". |
| QueryParser.SectionLetterNotCaptured | phase4_rag/query_parser.py:20 | "Section 302A" yields the section "302". |
| RefScan.MatchSound | phase4_rag/query_parser.py:19-20 | Whatever the scanner returns at a position is a match of the pattern, and its token is the captured group. |
| RefScan.MatchComplete | phase4_rag/query_parser.py:19-20 | Wherever the pattern matches, the scanner finds a match that is at least as long as that match. |
| RefScan.ScanLeftmost | phase4_rag/query_parser.py:45-46 | `finditer` reports the leftmost match first and then resumes after it. |
| RefScan.ScanWithoutKeyword | src/edges.py:12-13 | Without the keyword there is no match. |
| RefScan.RepeatsKept | phase4_rag/query_parser_v3.py:88 | A repeated reference is reported once for each occurrence. |
| QueryParserV3.DetectActSpec | phase4_rag/query_parser_v3.py:46-53 | The detected Act is the first of BNS, BNSS, BSA and the Constitution whose patterns occur in the lower-cased text, and none when no pattern occurs. |
| QueryParserV3.FirstActSpec | phase4_rag/query_parser_v3.py:49-53 | The first alias found is named, and only when no earlier alias is found. |
| QueryParserV3.TaggedPatternsRedundant | phase4_rag/query_parser_v3.py:22-37 | The `\s*\(?\s*bns\s*\)?`-style patterns never decide anything, because each is found only where the plain phrase before it is found. |
| QueryParserV3.ConstitutionPatterns | phase4_rag/query_parser_v3.py:38-42 | The Constitution is detected exactly when the "article N of the constitution" pattern or the word "constitution" is found. |
| QueryParserV3.ArticleOfConstitutionNotRedundant | phase4_rag/query_parser_v3.py:40-41 | "article 1 constitutional" is found by the "article N constitution" pattern but not by `\bconstitution\b`. |
| QueryParserV3.BnssIsNotBns | phase4_rag/query_parser_v3.py:23-28 | A question that only says "BNSS" is about the BNSS, not the BNS. |
| QueryParserV3.ParseHints | phase4_rag/query_parser_v3.py:56-67 | A kind's hint is absent when no number of that kind is found, and is otherwise the Act detected in the whole question, so the two hints agree. |
| QueryParserV3.ParseAgreesWithV1 | phase4_rag/query_parser_v3.py:84-106 | The third parser finds the same numbers as the first, keeps the query and leaves the id map empty. It reports explicit references exactly when the first one does. |
| QueryParserV3.ParseEmpty | phase4_rag/query_parser_v3.py:79-81 | The empty question has no numbers, no hints and no explicit references. |
| GraphStore.LookupShortCircuit | phase4_rag/neo4j_client.py:65-67 | An empty request succeeds with no rows without querying the database. A non-empty request is passed on as the set of its non-empty values. |
| GraphStore.LookupsIgnoreOrderAndRepeats | phase4_rag/neo4j_client_v3.py:47-49 | Order, repeats and empty strings in a request make no difference to any lookup. |
| GraphStore.CasesCiting | phase4_rag/neo4j_client.py:101-110 | A request made only of empty ids gives no cases. |
| Pipeline.ResolveSpec | phase4_rag/langgraph_workflow_v3.py:90-101 | Resolution succeeds exactly when every lookup succeeds. The metadata holds the three lookups' rows, and the cases are looked up by the section ids followed by the article ids. |
| Pipeline.ResolveNothing | phase4_rag/langgraph_workflow.py:76-88 | Without numbers, resolution makes no query and succeeds with empty metadata, whatever the database does. |
| Pipeline.KeptConstraints | phase4_rag/langgraph_workflow_v3.py:103-112 | The constraints are dropped exactly when no case, section or article id was resolved. |
| Pipeline.VectorDownAnswer | phase4_rag/langgraph_workflow_v3.py:317-323 | The retrieval-error answer is the fixed head, the error, and the fixed tail, and the error can be read back from it. |
| Pipeline.LlmDownAnswer | phase4_rag/langgraph_workflow_v3.py:355-361 | The model-error answer starts with the fixed head. |
| Pipeline.ChainPath | phase4_rag/langgraph_workflow_v3.py:374-379 | In a chain, the run from the first node visits exactly the chain's nodes, in order. |
| Pipeline.RunNodesAppend | phase4_rag/langgraph_workflow.py:267-271 | Running a list of nodes applies each once, first to last. |
| Context.Clip | phase4_rag/langgraph_workflow_v3.py:212-213 | A text longer than `n` becomes its first `n` characters followed by "...". A shorter text is kept as it is. |
| Context.TypeLoopIsEmit | phase4_rag/langgraph_workflow_v3.py:236-253 | The nested loops with their two `break`s visit the sources exactly as a single loop over all sources would. |
| Context.EmitSpec | phase4_rag/langgraph_workflow_v3.py:236-253 | The loop writes one snippet per source, in visiting order, for a prefix of the sources. It stops early only when `max` bodies have been written. |
| Context.SnippetsSpec | phase4_rag/langgraph_workflow_v3.py:234-254 | There is one snippet per source until ten have a body. Each body is the start of the source's first chunk, at most 600 characters plus "...". |
| Context.RetrievalBlockSpec | phase4_rag/langgraph_workflow_v3.py:254 | "No legal context was retrieved." is returned exactly when there are no sources. The block never starts with whitespace. |
| Context.GroupedSnippetCount | phase4_rag/langgraph_workflow.py:182-202 | For the output of `group_by_source`, every one of the first ten sources gets a snippet with a body. |
| Context.ActDisplay | phase4_rag/langgraph_workflow_v3.py:197-201 | Both parts give "name (id)". Otherwise the non-empty part is used, or "" when neither is present. |
| Context.ItemLines | phase4_rag/langgraph_workflow_v3.py:207-218 | A provision without text writes nothing. Otherwise it writes its label and id, its Act (third version only), its clipped text and a blank line. |
| Context.ItemsLinesEmpty | phase4_rag/langgraph_workflow.py:152-179 | A list of provisions writes no line exactly when none has text. |
| Context.GraphBlockEmpty | phase4_rag/langgraph_workflow_v3.py:203-231 | The graph block is empty exactly when there is no metadata or no article or section has text. |
| Context.GraphBlockJoin | phase4_rag/langgraph_workflow_v3.py:231 | A non-empty graph block is its lines joined without the final blank line: the strip removes only that newline. |
| Context.CombinedSpec | phase4_rag/langgraph_workflow_v3.py:327-329 | A non-empty graph block comes first and is kept whole. It is followed by a blank line and the retrieval block without its trailing whitespace. |
| WorkflowV3.CollectActsSpec | phase4_rag/langgraph_workflow_v3.py:59-71 | There is one entry per distinct non-empty Act id, in first-seen order with sections before articles. Each is named by the first provision of its Act, or by its id when that provision has no name. |
| WorkflowV3.Wiring | phase4_rag/langgraph_workflow_v3.py:364-381 | The app is one chain from the parser to the answer generator and then the end. Every node has exactly one outgoing edge. |
| WorkflowV3.RunIsChain | phase4_rag/langgraph_workflow_v3.py:374-379 | A run applies the five nodes one after the other. |
| WorkflowV3.GraphNodeResolved | phase4_rag/langgraph_workflow_v3.py:90-117 | On success the graph error is cleared and the metadata and Acts are kept. The constraints are dropped exactly when nothing was resolved. |
| WorkflowV3.GraphNodeFailed | phase4_rag/langgraph_workflow_v3.py:118-123 | A failed lookup leaves no constraints, no metadata and no Acts, and records the error prefixed "neo4j_unavailable: ". |
| WorkflowV3.GraphNodeWithoutNumbers | phase4_rag/langgraph_workflow_v3.py:81-117 | A question citing no section or article never reaches the graph. The step succeeds with empty metadata and no constraints. |
| WorkflowV3.GraphNodeDown | phase4_rag/langgraph_workflow_v3.py:90-123 | A failing section lookup fails the whole graph step when the question cites a section. |
| WorkflowV3.RephraseSpec | phase4_rag/langgraph_workflow_v3.py:135-146 | The legal query is always stripped, and it is empty exactly when the question is blank. A failed or empty rewrite falls back to the stripped question. |
| WorkflowV3.VectorNodeSpec | phase4_rag/langgraph_workflow_v3.py:149-177 | The search uses the legal query, or the question when that is empty, with the graph's constraints. An error empties chunks and groups. Success groups the chunks by source and clears the error. |
| WorkflowV3.VectorNodeStore | phase4_rag/langgraph_workflow_v3.py:161-170 | An unloaded store ends retrieval with no chunks and the store's error. A loaded store never reports an error. |
| WorkflowV3.AnswerAfterVectorError | phase4_rag/langgraph_workflow_v3.py:317-323 | After a retrieval error the answer is the error message, and the model is not consulted. |
| WorkflowV3.AnswerSpec | phase4_rag/langgraph_workflow_v3.py:325-361 | Otherwise the model is asked once, with the question and a context in which a non-empty graph block comes before the retrieval block. A failed call becomes an explanatory answer. |
| WorkflowV3.AnswerFrame | phase4_rag/langgraph_workflow_v3.py:313-361 | The answer node sets the answer and its two flags and changes nothing else. |
| WorkflowV3.RunWithoutStore | phase4_rag/langgraph_workflow_v3.py:364-381 | End to end, an unloaded store makes the run answer with the store's error, whatever the graph and the model do. |
| WorkflowV3.RunWithoutGraph | phase4_rag/langgraph_workflow_v3.py:118-123 | End to end, an unreachable graph still gives an answer from an unconstrained search, and the graph error is reported. |
| WorkflowV3.AfterGraphDown | phase4_rag/langgraph_workflow_v3.py:149-177 | Without constraints and with a loaded store, the search succeeds and an answer is produced, and the graph step's outcome is kept. |
| WorkflowV3.ParsedSectionsNonEmpty | phase4_rag/query_parser_v3.py:89 | The section numbers the parser finds are non-empty. |
| WorkflowV1.Wiring | phase4_rag/langgraph_workflow.py:256-273 | The app is one chain through its four nodes and then the end. It has no rephrase step. |
| WorkflowV1.RunIsChain | phase4_rag/langgraph_workflow.py:267-271 | A run applies the four nodes one after the other. |
| WorkflowV1.GraphNodeResolved | phase4_rag/langgraph_workflow.py:76-103 | On success the error is cleared and the metadata kept. The constraints are dropped exactly when nothing was resolved. |
| WorkflowV1.GraphNodeFailed | phase4_rag/langgraph_workflow.py:104-109 | A failed lookup leaves no constraints and no metadata, and records the error with its prefix. |
| WorkflowV1.GraphNodeWithoutNumbers | phase4_rag/langgraph_workflow.py:65-103 | A question citing nothing makes no graph query and leaves the search unconstrained. |
| WorkflowV1.VectorNodeSpec | phase4_rag/langgraph_workflow.py:112-139 | The search uses the question as typed and the graph's constraints. An error empties chunks and groups; success groups the chunks by source. |
| WorkflowV1.VectorNodeUnconstrained | phase4_rag/langgraph_workflow.py:124 | Without constraints the chunks are exactly the plain top-`k` search for the question, grouped by source. |
| WorkflowV1.AnswerAfterVectorError | phase4_rag/langgraph_workflow.py:211-217 | After a retrieval error the answer is the error message, whatever the model would have said. |
| WorkflowV1.AnswerSpec | phase4_rag/langgraph_workflow.py:219-253 | Otherwise the model is asked once. Its reply is the answer, and a failed call gives an explanatory answer naming the model. |
| WorkflowV1.RunWithoutStore | phase4_rag/langgraph_workflow.py:256-273 | End to end, an unloaded store makes the run answer with the store's error. |
| WorkflowV1.RunWithoutCitations | phase4_rag/langgraph_workflow.py:65-139 | End to end, a question citing nothing is answered from the plain top-`k` search, with no graph error. |
| Edges.ExtractCitationsSpec | src/edges.py:21-32 | Each list has no repeats and holds exactly the captured groups. Every number is digits with an optional `(digits)` part. |
| Edges.ArticleTargetsSpec | src/edges.py:47-51 | An article target is emitted exactly for a cited article whose `Constitution_Art_<n>` id exists, and always as `CITES`. |
| Edges.SectionTargetsCons | src/edges.py:52-55 | A section number adds one citation per id the index lists for it, in index order. A number missing from the index adds nothing. |
| Edges.SectionTargetsSpec | src/edges.py:52-55 | A section target is emitted exactly for an id the index lists under a cited number. |
| Edges.BuildTargetIdsSpec | src/edges.py:35-56 | Article citations come before section citations, and every one is a `CITES` relation to an existing target. |
| Edges.SectionIndexSpec | src/edges.py:72-78 | The index lists the ids of the rows with each number, in row order. A number is a key exactly when some indexed row has it, so the empty number never is. |
| Edges.IdsForSpec | src/edges.py:75-78 | Every indexed id is the non-empty stripped id of a row. |
| Edges.EdgesKnown | src/edges.py:59-95 | Every edge is a `CITES` edge from a case of the input to a target that exists among the articles or sections. |
| ChunkCorpus.SanitizeIdSpec | phase3_embeddings/chunk_corpus.py:87-89 | Sanitising keeps the length and leaves only word characters, `-` and `.`. It changes exactly the characters outside that set and is idempotent. |
| ChunkCorpus.ChunkTextBlank | phase3_embeddings/chunk_corpus.py:40-41 | Blank text gives no chunk. Text gives no chunk only when it is blank or longer than one window with every window decoding to blank text. |
| ChunkCorpus.ChunkTextShort | phase3_embeddings/chunk_corpus.py:48-57 | A text of at most 500 tokens gives one chunk `<prefix>_chunk_0` whose text is the stripped input. |
| ChunkCorpus.WindowsShape | phase3_embeddings/chunk_corpus.py:59-82 | Windows start at every multiple of 400 below the token count, in order. Each holds up to 500 tokens from its start. |
| ChunkCorpus.WindowsCover | phase3_embeddings/chunk_corpus.py:63-65 | Every window has at most 500 tokens, and together the windows cover every token. |
| ChunkCorpus.ChunkTextLong | phase3_embeddings/chunk_corpus.py:59-84 | A longer text yields the non-blank stripped decodings of its windows. |
| ChunkCorpus.ChunkTextIds | phase3_embeddings/chunk_corpus.py:63-78 | The chunks carry the text's source and non-blank stripped text, numbered `_chunk_0`, `_chunk_1`, ... with only non-blank windows counted. |
| ChunkCorpus.ChunkTextDistinct | phase3_embeddings/chunk_corpus.py:69 | The chunk ids of one text are pairwise distinct. |
| ChunkCorpus.FirstFree | phase3_embeddings/chunk_corpus.py:140-143 | The inner loop stops at the first `<id>_<k>` that is not taken. |
| ChunkCorpus.NewIdSpec | phase3_embeddings/chunk_corpus.py:139-144 | The new id is the old one when that is free, and otherwise the first free `<id>_<k>`. Either way it is new. |
| ChunkCorpus.UniquifySpec | phase3_embeddings/chunk_corpus.py:136-144 | The ids after the pass are distinct and new. An id is kept exactly when neither the ids already seen nor an earlier result took it. Otherwise it becomes itself followed by `_<k>`. |
| ChunkCorpus.UniquifyKeeps | phase3_embeddings/chunk_corpus.py:141 | Ids that are already distinct and new are left unchanged. |
| ChunkCorpus.MakeUniqueSpec | phase3_embeddings/chunk_corpus.py:136-144 | After the pass all chunk ids are distinct and nothing but the ids has changed. A corpus whose ids were distinct is unchanged. |
| ChunkCorpus.MissingRowIsNan | phase3_embeddings/chunk_corpus.py:40-45 | A row whose text cell is missing is chunked as the text "nan". When that text is one window, the row gives exactly one chunk `<id>_chunk_0` with text "nan". |
| ChunkCorpus.BuildCorpusSpec | phase3_embeddings/chunk_corpus.py:107-144 | The corpus ids are pairwise distinct, and each chunk keeps the source type, source id and text it was cut with. |
| ChunkCorpus.BuildCorpusOrder | phase3_embeddings/chunk_corpus.py:109-134 | Cases come first, then sections, then articles. |
| Judgments.LastWithLowerSpec | src/judgments.py:25 | In the lower-cased dictionary the last column with a given lower-cased name wins, and there is none exactly when no column has that name. |
| Judgments.FindColumnSpec | src/judgments.py:23-29 | The result is a column matching the first matching candidate, in candidate order (the last such column when several match), and none when no candidate matches. |
| Judgments.FindColumnLastWins | src/judgments.py:25-28 | Of two columns that differ only in letter case, the later one is chosen. |
| Judgments.FirstFourDigits | src/judgments.py:41 | The search finds the first position of four consecutive digits, and none when there is no such position. |
| Judgments.ParseYear | src/judgments.py:32-45 | A parsed year always lies in [1900, 2100]. |
| Judgments.ParseYearOfString | src/judgments.py:39-45 | A string's year is read from its first run of four digits only; an out-of-range first run is not followed by a try on later runs. |
| Judgments.ParseYearFirstRunOnly | src/judgments.py:41-44 | "0001-2016" has no year. |
| Judgments.ParseYearRoundTrip | src/judgments.py:36-44 | A year in range, written as a string or given as a number, parses back to itself. |
| Judgments.FolderYearRoundTrip | src/judgments.py:91-95 | A folder named by a year in range gets that year. |
| Judgments.FolderYearNotDigits | src/judgments.py:92 | A folder whose name is not all digits gets year 0. |
| Judgments.SplitJoin | src/judgments.py:127 | Splitting on a separator and joining back is the identity, and no piece holds the separator. |
| Judgments.FirstArchiveYearSpec | src/judgments.py:128-132 | The year is the value of the first path component of four digits in [2010, 2030], and 0 exactly when there is none. |
| Judgments.ZipPathYearOfFolder | src/judgments.py:126-132 | A PDF filed under a year folder of the archive, with either kind of slash, gets that year. |
| Judgments.StemOfPdf | src/judgments.py:133 | The case id of `dir/<base>.pdf` is `<base>`, whatever dots `<base>` holds. |
| Judgments.LoadFolderSpec | src/judgments.py:70-112 | A missing folder is an error. Otherwise the loader yields every PDF of every year folder in order, with its folder's year and its text (empty when extraction fails), cut to the limit, where a limit of 0 keeps one row. |
| Judgments.WalkFoldersSpec | src/judgments.py:90-110 | The walk yields the rows still to come after those already appended, cut to the limit. |
| Judgments.ZipPdfRows | src/judgments.py:115-141 | There is one row per chosen PDF member, in archive order. Its year is 0 or an archive year in [2010, 2030], read from the path as Judgments.ZipPathYearOfFolder states, and its id is the stem that Judgments.StemOfPdf describes. A member that cannot be read gives the text "". Judgments.LoadZipSpec says which members are chosen. |
| Judgments.LoadZipSpec | src/judgments.py:144-158 | A CSV member takes precedence, and the first one is read. Only an archive without a CSV is read as PDFs, keeping PDF members in order and the first `limit` of them when the limit is positive. |
| Judgments.TextCell | src/judgments.py:191 | A text cell reads as empty exactly when it is missing, empty or exactly "nan", and otherwise as its string. |
| Judgments.ModeSpec | src/judgments.py:205-207 | The mode occurs at least as often as any value and is the smallest of the values that occur as often. |
| Judgments.PrepareTexts | src/judgments.py:181-191 | The table is rejected exactly when no text column exists. Otherwise there is one judgment per row holding that row's text cell. |
| Judgments.PrepareIds | src/judgments.py:193-196 | Without an id column row `i` gets `case_<i>`, and these ids are distinct. With an id column the id is the cell as a string. |
| Judgments.PrepareYears | src/judgments.py:198-210 | The year is 0 without a year column or when no cell parses. Otherwise each row gets its parsed year, or the most frequent parsed year when its own cell does not parse, so every year is in [1900, 2100]. |
| Judgments.ParseYears | src/judgments.py:199 | Each cell of the year column gets its own year: none for a missing cell, and otherwise only a year in [1900, 2100]. Judgments.ParseYearOfString says which year a string cell gives. |
| OutputCheck.CheckColumnsSpec | scripts/verify_phase1_output.py:40-49 | There is no issue exactly when the table has the expected columns and no others. The issues list exactly the missing and the unexpected columns. |
| OutputCheck.ReportDuplicatesSpec | scripts/verify_phase1_output.py:52-59 | The report is `(0, [])` exactly when no value repeats. Otherwise the count is the rows less the distinct values, and there are at most `max_examples` examples: distinct repeated values with their counts. |
| OutputCheck.ReportCount | scripts/verify_phase1_output.py:55-59 | A non-empty report counts at least one extra row. |
| OutputCheck.ExitCodeSpec | scripts/verify_phase1_output.py:77-79 | The exit code is 2 exactly when the directory is missing or an error was recorded, and 0 otherwise. |
| OutputCheck.MissingFileIsError | scripts/verify_phase1_output.py:88-103 | A missing table is an error and is listed among the errors. The tables are then not read: every error reported names a table that is missing. |
| OutputCheck.MissingPlotIsWarning | scripts/verify_phase1_output.py:93-97 | Every missing plot is reported as a warning and never as an error. |
| OutputCheck.ReadableWhenClean | scripts/verify_phase1_output.py:105-124 | With no missing table and no read issue, every table can be read. |
| OutputCheck.SeveritySpec | scripts/verify_phase1_output.py:133-205 | Duplicate ids and edges are errors under `--fail-on-duplicates` and warnings otherwise. Unexpected relations, unknown targets, empty texts and a non-numeric year are warnings. Null ids, no acts and null edge ends are errors. |
| OutputCheck.IntegrityErrorsNoPlot | scripts/verify_phase1_output.py:133-205 | No integrity error concerns a plot. |
| OutputCheck.ErrorFails | scripts/verify_phase1_output.py:214-219 | When every table reads cleanly, any integrity error of any table fails the run and is listed among the errors. |
| OutputCheck.OddRelationsSpec | scripts/verify_phase1_output.py:178-181 | The unexpected relations are sorted and distinct. They are exactly the non-null relation values other than `CITES`. |
| OutputCheck.UnknownTargetsSpec | scripts/verify_phase1_output.py:186-191 | The unknown targets are sorted and distinct. They are exactly the edge target ids, as strings, that are neither a section id nor an article id. |
| OutputCheck.DuplicateCaseFails | scripts/verify_phase1_output.py:168-174 | A repeated case id fails the check under `--fail-on-duplicates`. |
| Tally.ExtraIsDuplicatedRows | scripts/verify_phase1_output.py:199 | The extra rows of the repeated values are the rows that repeat an earlier value, which is what `duplicated().sum()` counts. |
| Tally.CountPositive | scripts/verify_phase1_output.py:54-55 | A value occurs in a list exactly when its count there is positive. |
| Sorting.SortSpec | scripts/verify_phase1_output.py:191 | `sorted` yields a permutation of its input in code-point order. |
| Sorting.SortMembers | scripts/verify_phase1_output.py:191 | Sorting keeps exactly the elements of its input. |
| EvalMetrics.TokenizeSpec | Old-Work/semantic_eval.py:211-216 | Content words are non-empty, contain only lower-case letters and digits, and are never stop words. |
| EvalMetrics.PunctuationSeparates | Old-Work/new_test_10_q.py:45 | Punctuation separates words just as a space does. |
| EvalMetrics.TokenizeIgnoresCase | Old-Work/test_10_queries.py:39-45 | Content words ignore letter case. |
| EvalMetrics.ExtractSectionsSpec | Old-Work/semantic_eval.py:218-223 | Every extracted section is digits and an optional upper-case letter. Text without `sec` cites no section. |
| EvalMetrics.SecDotLetter | Old-Work/test_10_queries.py:27 | "sec.63a" cites the section "63A". |
| EvalMetrics.OverlapRatioSpec | Old-Work/new_test_10_q.py:58-65 | The overlap lies in [0, 1]. It is 1 exactly when a non-empty source lies wholly in the target, and 0 exactly when nothing is shared. |
| EvalMetrics.JaccardSpec | Old-Work/semantic_eval.py:231-237 | Jaccard similarity is symmetric and lies in [0, 1]. It is 1 exactly for equal non-empty sets and 0 exactly for disjoint ones, including two empty sets. |
| EvalMetrics.GroundingScoreSpec | Old-Work/semantic_eval.py:275-288 | The grounding score lies in [0, 1] and is 1 exactly when every cited section is in the context. It is the overlap of the cited sections whenever there are any. |
| EvalMetrics.HallucinationFlagSpec | Old-Work/semantic_eval.py:291-297 | The flag is 0 or 1. With a threshold of at most 1, an answer citing no section is never flagged, and a flagged answer cites a section the context lacks. |
| EvalMetrics.FirstHitSpec | Old-Work/semantic_eval.py:241-247 | The hit is 1 exactly when some keyword occurs in the lower-cased text, and 0 otherwise. |
| EvalMetrics.OffenseHitSpec | Old-Work/semantic_eval.py:249-255 | The hit is 1 exactly when some keyword, lower-cased, occurs in the lower-cased text, and 0 otherwise. |
| EvalMetrics.SafetyDisclaimerIsHit | Old-Work/new_test_10_q.py:68-82 | The disclaimer test is the keyword-hit test on the fixed phrases, which are already lower case. |
| EvalMetrics.ConsultALawyer | Old-Work/test_10_queries.py:66-80 | "Consult a lawyer" counts as a disclaimer, whatever its letter case. |
| EvalMetrics.CoverageCountsSpec | Old-Work/semantic_eval.py:435-443 | The loop counts the phrases with content words, and among them the phrases that share a content word with the text. |
| EvalMetrics.CoverageSpec | Old-Work/semantic_eval.py:426-447 | Coverage lies in [0, 1] and is 0 when no phrase has content words. It is 1 exactly when some phrase is counted and every counted phrase is covered. |
| EvalMetrics.SemanticCaseSpec | Old-Work/semantic_eval.py:302-343 | Every semantic metric is a 0/1 flag or a ratio in [0, 1]. The flag is raised only for an answer that cites a section missing from the context. |
| EvalMetrics.QueryCaseSpec | Old-Work/new_test_10_q.py:100-127 | The grounded fraction is the grounding score, lies in [0, 1], and is 1 exactly when all the answer's sections appear in the context. The section counts are sizes of distinct-section sets, and the two overlaps lie in [0, 1]. |
| EvalMetrics.AnswerLenWordsOfJoin | Old-Work/test_10_queries.py:102 | The word count of words joined by single spaces is the number of those words. |

## Left out

- I/O: CSV reading and writing, the zip archive, directory listing, plotting and printing. Tables arrive as values. Directory contents are a map from file name to table, `NotFound` or a read failure. Folder and file order is taken as given, as `sorted` produces it.
- Neo4j is an oracle that returns rows or an error. The Cypher queries, the driver and the conversion of every driver exception into one error are not modelled. That conversion appears only as the oracle's failure.
- The FAISS search and the embedding model form one oracle from a query and `k` to scored chunks. The lazy, global initialisation of the store is an explicit value that is either ready or unavailable with a reason.
- The Ollama client is an oracle from a prompt to a reply or an error. The prompt texts themselves are a `Prompt` datatype that records the question and the context, not the literal instructions.
- The third version's post-processing of the model's answer (`_strip_internal_labels`, `_fix_markdown_layout`, `_answer_indicates_no_relevant`, `_remove_empty_sections`) is a single oracle. It is cosmetic regex rewriting of model output.
- `:.3f` formatting of a score is an oracle parameter, because floating-point rendering is out of scope.
- Scores and ratios are exact reals, not IEEE doubles.
- Character classes are ASCII only. `\d`, `\w`, letters, `lower()` and `upper()` are modelled on ASCII. Whitespace is the full set that Python's `str.isspace` accepts.
- The order of Python sets is unspecified. Where a set is turned into a list (cited numbers in `extract_citations_from_text`, request values in the Neo4j client), the model uses first-occurrence order or a Dafny `set`.
- NaN cells are a `Missing` cell. Float-valued cells are modelled as integers. Where the source calls `str()` on a cell, a missing cell is the text "nan". The source ids of the corpus rows arrive already converted to strings.
- pandas dtype inference (`is_numeric_dtype`) is derived from the cells: a column is numeric when it has at least one row and no string cell. Mixed and float-typed columns are not distinguished further.
- The first version's graph queries differ from the third's. They also match provisions that have no `IN_ACT` edge, they take `act_id` from the provision itself, and they return no Act name. The model does not relate the two: each workflow takes its own `GraphDb` oracle, and the first version calls it with no Act.
- PDF text extraction is an oracle that returns text or fails.
- Latency and timing fields of the evaluation scripts, `answer_query` and the gold-standard tables are not modelled. The metrics take the answer, the documents and the gold phrases as inputs.
- Negative `k` and negative `limit` are not modelled. Both are `Option<nat>`. In the source, `k or top_k` keeps a negative `k` and passes it on to the search, a negative `limit` makes `pdf_names[:limit]` drop the last PDFs of an archive, and the folder walk stops after its first row.
- Configuration modules only read the environment. Their defaults are constants: `top_k` 8, multipliers 3 and 4, quotas 2 and 2, must-include maximum 10, `CHUNK_SIZE` 500 and `STRIDE` 400.
- OutputCheck.ReportDuplicatesSpec: does not say which repeated values become the examples, because `value_counts` orders them by count with an unspecified order among ties. The model takes them in first-occurrence order.
- OutputCheck.Check: when a table lacks a column that an integrity check reads, pandas would raise. The model reads such a column as empty. The column stage has already recorded an error in that case and stopped, so this path is not reached.

=== FILE: chunk_corpus.dfy ===
/**
 * Chunking of the corpus for the vector index: each case, section and
 * article text is cut into overlapping windows of tokens, each window
 * becoming a chunk with an id derived from its source, and finally the
 * chunk ids of the whole corpus are made unique. The tokenizer is a pair of
 * oracle functions.
 */
module ChunkCorpus {
  import opened Wrappers
  import opened Seqs
  import opened Text
  import Judgments

  /** Tokens per window. */
  const CHUNK_SIZE: nat := 500

  /** Tokens between the starts of consecutive windows (the window size less
      an overlap of 100). */
  const STRIDE: nat := 400

  /** The tokenizer: `encode(text, add_special_tokens=False)` and
      `decode(tokens, skip_special_tokens=True)`. */
  datatype Tokenizer = Tokenizer(encode: string -> seq<int>, decode: seq<int> -> string)

  /** A chunk record of the corpus. */
  datatype CorpusChunk = CorpusChunk(chunkId: string, sourceType: string, sourceId: string, text: string)

  // ----- _sanitize_id -----

  /** The characters `[\w\-.]` keeps. */
  predicate IdChar(c: char)
  {
    IsWordChar(c) || c == '-' || c == '.'
  }

  /** `_sanitize_id`: every character outside `[\w\-.]` becomes `_`. */
  function SanitizeId(s: string): (r: string)
    ensures |r| == |s|
    ensures forall i :: 0 <= i < |s| ==> r[i] == (if IdChar(s[i]) then s[i] else '_')
  {
    seq(|s|, i requires 0 <= i < |s| => if IdChar(s[i]) then s[i] else '_')
  }

  /** Sanitising keeps the length, leaves only id characters, changes only
      the characters that are not, and is idempotent. */
  lemma SanitizeIdSpec(s: string)
    ensures |SanitizeId(s)| == |s|
    ensures forall i :: 0 <= i < |s| ==> IdChar(SanitizeId(s)[i])
    ensures forall i :: 0 <= i < |s| ==> (SanitizeId(s)[i] == s[i] <==> IdChar(s[i]) || s[i] == '_')
    ensures SanitizeId(SanitizeId(s)) == SanitizeId(s)
    ensures (forall i :: 0 <= i < |s| ==> IdChar(s[i])) <==> SanitizeId(s) == s
  {
    if SanitizeId(s) == s {
      forall i | 0 <= i < |s| ensures IdChar(s[i]) {
        assert SanitizeId(s)[i] == s[i];
      }
    }
  }

  // ----- chunk_text -----

  /** `f"{prefix}_chunk_{idx}"`. */
  function ChunkId(prefix: string, idx: nat): string
  {
    prefix + "_chunk_" + NatToString(idx)
  }

  /** The token windows from `start` on: `tokens[s:min(s + CHUNK_SIZE, n)]`
      for `s = start, start + STRIDE, ...` while `s < n`. */
  function Windows(tokens: seq<int>, start: nat): seq<seq<int>>
    decreases |tokens| - start
  {
    if start >= |tokens| then []
    else
      var end := if start + CHUNK_SIZE <= |tokens| then start + CHUNK_SIZE else |tokens|;
      [tokens[start..end]] + Windows(tokens, start + STRIDE)
  }

  /** The chunks of the windows, numbering from `idx` only those whose
      decoded text is not blank. */
  function WindowChunks(tok: Tokenizer, ws: seq<seq<int>>, prefix: string, sourceId: string, sourceType: string,
                        idx: nat): seq<CorpusChunk>
  {
    if ws == [] then []
    else
      var t := tok.decode(ws[0]);
      if Strip(t) != "" then
        [CorpusChunk(ChunkId(prefix, idx), sourceType, sourceId, Strip(t))]
          + WindowChunks(tok, ws[1..], prefix, sourceId, sourceType, idx + 1)
      else WindowChunks(tok, ws[1..], prefix, sourceId, sourceType, idx)
  }

  /** The prefix of the chunk ids of a source: the given one, else the sanitised source id. */
  function PrefixFor(sourceId: string, chunkIdPrefix: Option<string>): string
  {
    if chunkIdPrefix.Some? then chunkIdPrefix.value else SanitizeId(sourceId)
  }

  /** `chunk_text(text, tokenizer, source_id, source_type, chunk_id_prefix)`. */
  function ChunkText(text: string, tok: Tokenizer, sourceId: string, sourceType: string,
                     chunkIdPrefix: Option<string>): seq<CorpusChunk>
  {
    if Strip(text) == "" then []
    else
      var prefix := PrefixFor(sourceId, chunkIdPrefix);
      var body := Strip(text);
      var tokens := tok.encode(body);
      if |tokens| <= CHUNK_SIZE then [CorpusChunk(ChunkId(prefix, 0), sourceType, sourceId, body)]
      else WindowChunks(tok, Windows(tokens, 0), prefix, sourceId, sourceType, 0)
  }

  // ----- properties of chunk_text -----

  /** Blank text gives no chunk. */
  lemma ChunkTextBlank(text: string, tok: Tokenizer, sourceId: string, sourceType: string, chunkIdPrefix: Option<string>)
    ensures ChunkText(text, tok, sourceId, sourceType, chunkIdPrefix) == [] <==>
      (Strip(text) == "" || (|tok.encode(Strip(text))| > CHUNK_SIZE
         && WindowChunks(tok, Windows(tok.encode(Strip(text)), 0), PrefixFor(sourceId, chunkIdPrefix), sourceId, sourceType, 0) == []))
    ensures (forall i :: 0 <= i < |text| ==> IsSpace(text[i])) ==> ChunkText(text, tok, sourceId, sourceType, chunkIdPrefix) == []
  {
    StripEmptyIff(text);
  }

  /** A text of at most `CHUNK_SIZE` tokens is one chunk, numbered 0, whose
      text is the stripped input itself rather than a decoding. */
  lemma ChunkTextShort(text: string, tok: Tokenizer, sourceId: string, sourceType: string, chunkIdPrefix: Option<string>)
    requires Strip(text) != "" && |tok.encode(Strip(text))| <= CHUNK_SIZE
    ensures ChunkText(text, tok, sourceId, sourceType, chunkIdPrefix) ==
      [CorpusChunk(ChunkId(PrefixFor(sourceId, chunkIdPrefix), 0),
                   sourceType, sourceId, Strip(text))]
  {
  }

  /** The windows start at every multiple of `STRIDE` below `n`, in order;
      each holds the tokens from its start up to `CHUNK_SIZE` further or the
      end, whichever comes first. */
  lemma {:induction false} WindowsShape(tokens: seq<int>, start: nat)
    ensures var ws := Windows(tokens, start);
      && |ws| == (if start >= |tokens| then 0 else (|tokens| - start + STRIDE - 1) / STRIDE)
      && forall k :: 0 <= k < |ws| ==>
           var s := start + k * STRIDE;
           s < |tokens| && ws[k] == tokens[s..if s + CHUNK_SIZE <= |tokens| then s + CHUNK_SIZE else |tokens|]
    decreases |tokens| - start
  {
    if start < |tokens| {
      WindowsShape(tokens, start + STRIDE);
      var ws := Windows(tokens, start);
      var rest := Windows(tokens, start + STRIDE);
      forall k | 0 <= k < |ws|
        ensures var s := start + k * STRIDE;
          s < |tokens| && ws[k] == tokens[s..if s + CHUNK_SIZE <= |tokens| then s + CHUNK_SIZE else |tokens|]
      {
        if k > 0 {
          assert ws[k] == rest[k - 1];
          assert start + STRIDE + (k - 1) * STRIDE == start + k * STRIDE;
        }
      }
    }
  }

  /** Every window has at most `CHUNK_SIZE` tokens, and together the windows
      cover every token: position `p` lies in the window starting at the
      largest multiple of `STRIDE` not above it. */
  lemma WindowsCover(tokens: seq<int>, p: nat)
    requires p < |tokens|
    ensures var ws := Windows(tokens, 0);
      var k := p / STRIDE;
      && (forall j :: 0 <= j < |ws| ==> 0 < |ws[j]| <= CHUNK_SIZE)
      && k < |ws| && p - k * STRIDE < |ws[k]| && ws[k][p - k * STRIDE] == tokens[p]
  {
    WindowsShape(tokens, 0);
    var ws := Windows(tokens, 0);
    var k := p / STRIDE;
    assert k * STRIDE <= p < k * STRIDE + STRIDE;
    assert k < (|tokens| + STRIDE - 1) / STRIDE;
  }

  /** A chunk of the given source, with the given id and non-blank
      stripped text. */
  predicate ChunkOf(c: CorpusChunk, id: string, sourceId: string, sourceType: string)
  {
    && c.chunkId == id && c.sourceId == sourceId && c.sourceType == sourceType
    && c.text != "" && Strip(c.text) == c.text
  }

  /** The chunk's text is the stripped decoding of one of the windows. */
  predicate DecodedFrom(tok: Tokenizer, c: CorpusChunk, ws: seq<seq<int>>)
  {
    exists j :: 0 <= j < |ws| && c.text == Strip(tok.decode(ws[j]))
  }

  /** The window chunks are numbered consecutively from `idx`, keep the
      source fields, and hold non-blank stripped text; there are no more of
      them than windows. */
  lemma {:induction false} WindowChunksIds(tok: Tokenizer, ws: seq<seq<int>>, prefix: string, sourceId: string,
                                           sourceType: string, idx: nat)
    ensures |WindowChunks(tok, ws, prefix, sourceId, sourceType, idx)| <= |ws|
    ensures forall i :: 0 <= i < |WindowChunks(tok, ws, prefix, sourceId, sourceType, idx)| ==>
      ChunkOf(WindowChunks(tok, ws, prefix, sourceId, sourceType, idx)[i], ChunkId(prefix, idx + i), sourceId, sourceType)
  {
    if ws != [] {
      var t := tok.decode(ws[0]);
      var cs := WindowChunks(tok, ws, prefix, sourceId, sourceType, idx);
      if Strip(t) != "" {
        StripIdempotent(t);
        WindowChunksIds(tok, ws[1..], prefix, sourceId, sourceType, idx + 1);
        var rest := WindowChunks(tok, ws[1..], prefix, sourceId, sourceType, idx + 1);
        assert cs == [CorpusChunk(ChunkId(prefix, idx), sourceType, sourceId, Strip(t))] + rest;
        forall i | 0 < i < |cs| ensures ChunkOf(cs[i], ChunkId(prefix, idx + i), sourceId, sourceType) {
          assert cs[i] == rest[i - 1];
        }
      } else {
        WindowChunksIds(tok, ws[1..], prefix, sourceId, sourceType, idx);
      }
    }
  }

  /** Every window chunk's text is the stripped decoding of a window. */
  lemma {:induction false} WindowChunksTexts(tok: Tokenizer, ws: seq<seq<int>>, prefix: string, sourceId: string,
                                             sourceType: string, idx: nat)
    ensures forall i :: 0 <= i < |WindowChunks(tok, ws, prefix, sourceId, sourceType, idx)| ==>
      DecodedFrom(tok, WindowChunks(tok, ws, prefix, sourceId, sourceType, idx)[i], ws)
  {
    if ws != [] {
      var t := tok.decode(ws[0]);
      var cs := WindowChunks(tok, ws, prefix, sourceId, sourceType, idx);
      var idx' := if Strip(t) != "" then idx + 1 else idx;
      var skip := if Strip(t) != "" then 1 else 0;
      WindowChunksTexts(tok, ws[1..], prefix, sourceId, sourceType, idx');
      var rest := WindowChunks(tok, ws[1..], prefix, sourceId, sourceType, idx');
      assert cs[skip..] == rest;
      forall i | 0 <= i < |cs| ensures DecodedFrom(tok, cs[i], ws) {
        if i < skip {
          assert cs[i].text == Strip(tok.decode(ws[0]));
        } else {
          assert cs[i] == rest[i - skip];
          var j :| 0 <= j < |ws| - 1 && rest[i - skip].text == Strip(tok.decode(ws[1..][j]));
          assert ws[1..][j] == ws[j + 1];
        }
      }
    }
  }

  /** Distinct numbers give distinct chunk ids under one prefix. */
  lemma ChunkIdInjective(prefix: string, a: nat, b: nat)
    requires ChunkId(prefix, a) == ChunkId(prefix, b)
    ensures a == b
  {
    var p := prefix + "_chunk_";
    assert ChunkId(prefix, a)[|p|..] == NatToString(a);
    assert ChunkId(prefix, b)[|p|..] == NatToString(b);
    NatToStringInjective(a, b);
  }

  /** The chunks of one text carry its source and non-blank stripped text,
      and are numbered `_chunk_0`, `_chunk_1`, ... in order. */
  lemma ChunkTextIds(text: string, tok: Tokenizer, sourceId: string, sourceType: string, chunkIdPrefix: Option<string>)
    ensures forall i :: 0 <= i < |ChunkText(text, tok, sourceId, sourceType, chunkIdPrefix)| ==>
      ChunkOf(ChunkText(text, tok, sourceId, sourceType, chunkIdPrefix)[i],
              ChunkId(PrefixFor(sourceId, chunkIdPrefix), i), sourceId, sourceType)
  {
    if Strip(text) != "" {
      StripIdempotent(text);
      var tokens := tok.encode(Strip(text));
      if |tokens| > CHUNK_SIZE {
        WindowChunksIds(tok, Windows(tokens, 0), PrefixFor(sourceId, chunkIdPrefix), sourceId, sourceType, 0);
      }
    }
  }

  /** The chunk ids of one text are pairwise distinct. */
  lemma ChunkTextDistinct(text: string, tok: Tokenizer, sourceId: string, sourceType: string, chunkIdPrefix: Option<string>)
    ensures Distinct(IdsOf(ChunkText(text, tok, sourceId, sourceType, chunkIdPrefix)))
  {
    var cs := ChunkText(text, tok, sourceId, sourceType, chunkIdPrefix);
    var ids := IdsOf(cs);
    ChunkTextIds(text, tok, sourceId, sourceType, chunkIdPrefix);
    forall i, j | 0 <= i < j < |ids| ensures ids[i] != ids[j] {
      assert ids[i] == ChunkId(PrefixFor(sourceId, chunkIdPrefix), i);
      assert ids[j] == ChunkId(PrefixFor(sourceId, chunkIdPrefix), j);
      if ids[i] == ids[j] {
        ChunkIdInjective(PrefixFor(sourceId, chunkIdPrefix), i, j);
      }
    }
  }

  /** A text longer than one window yields the non-blank decodings of its
      windows, each stripped. */
  lemma ChunkTextLong(text: string, tok: Tokenizer, sourceId: string, sourceType: string, chunkIdPrefix: Option<string>)
    requires Strip(text) != "" && |tok.encode(Strip(text))| > CHUNK_SIZE
    ensures forall i :: 0 <= i < |ChunkText(text, tok, sourceId, sourceType, chunkIdPrefix)| ==>
      DecodedFrom(tok, ChunkText(text, tok, sourceId, sourceType, chunkIdPrefix)[i], Windows(tok.encode(Strip(text)), 0))
  {
    WindowChunksTexts(tok, Windows(tok.encode(Strip(text)), 0), PrefixFor(sourceId, chunkIdPrefix), sourceId, sourceType, 0);
  }

  // ----- the chunk-id uniqueness pass -----

  /** `f"{base}_{idx}"`. */
  function Candidate(base: string, idx: nat): string
  {
    base + "_" + NatToString(idx)
  }

  lemma CandidateInjective(base: string, a: nat, b: nat)
    requires Candidate(base, a) == Candidate(base, b)
    ensures a == b
  {
    assert Candidate(base, a)[|base| + 1..] == NatToString(a);
    assert Candidate(base, b)[|base| + 1..] == NatToString(b);
    NatToStringInjective(a, b);
  }

  /** The first `n` candidates. */
  function Candidates(base: string, n: nat): (r: set<string>)
    ensures forall x :: x in r <==> exists j :: 0 <= j < n && x == Candidate(base, j)
  {
    if n == 0 then {} else Candidates(base, n - 1) + {Candidate(base, n - 1)}
  }

  /** The first `n` candidates are `n` different strings. */
  lemma {:induction false} CandidatesCount(base: string, n: nat)
    ensures |Candidates(base, n)| == n
  {
    if n > 0 {
      CandidatesCount(base, n - 1);
      if Candidate(base, n - 1) in Candidates(base, n - 1) {
        var j :| 0 <= j < n - 1 && Candidate(base, n - 1) == Candidate(base, j);
        CandidateInjective(base, n - 1, j);
      }
    }
  }

  /** When the first `n` candidates are all taken, there are at least `n`
      taken names. */
  lemma Pigeonhole(base: string, seen: set<string>, n: nat)
    requires forall j :: 0 <= j < n ==> Candidate(base, j) in seen
    ensures n <= |seen|
  {
    CandidatesCount(base, n);
    assert Candidates(base, n) <= seen;
    SubsetCard(Candidates(base, n), seen);
  }

  /** The inner `while` loop from `idx` on: the first candidate not taken. */
  function FirstFree(base: string, seen: set<string>, idx: nat): (r: nat)
    requires forall j :: 0 <= j < idx ==> Candidate(base, j) in seen
    ensures idx <= r && Candidate(base, r) !in seen
    ensures forall j :: 0 <= j < r ==> Candidate(base, j) in seen
    decreases |seen| - idx
  {
    if Candidate(base, idx) !in seen then idx
    else
      Pigeonhole(base, seen, idx + 1);
      FirstFree(base, seen, idx + 1)
  }

  /** The id a chunk with id `base` ends up with, given the ids taken. */
  function NewId(base: string, seen: set<string>): (r: string)
    ensures r !in seen
  {
    if base !in seen then base else Candidate(base, FirstFree(base, seen, 0))
  }

  /** The uniqueness pass over the ids in order. */
  function Uniquify(ids: seq<string>, seen: set<string>): (r: seq<string>)
    ensures |r| == |ids|
  {
    if ids == [] then []
    else
      var id := NewId(ids[0], seen);
      [id] + Uniquify(ids[1..], seen + {id})
  }

  /** The pass over the corpus. */
  function MakeUnique(cs: seq<CorpusChunk>): (r: seq<CorpusChunk>)
    ensures |r| == |cs|
  {
    var ids := Uniquify(IdsOf(cs), {});
    seq(|cs|, i requires 0 <= i < |cs| => cs[i].(chunkId := ids[i]))
  }

  function IdsOf(cs: seq<CorpusChunk>): (r: seq<string>)
    ensures |r| == |cs|
    ensures forall i :: 0 <= i < |cs| ==> r[i] == cs[i].chunkId
  {
    seq(|cs|, i requires 0 <= i < |cs| => cs[i].chunkId)
  }

  /** The new id is the old one when that is free, else the first free
      `<id>_<k>`; either way it is new. */
  lemma NewIdSpec(base: string, seen: set<string>)
    ensures NewId(base, seen) !in seen
    ensures base !in seen ==> NewId(base, seen) == base
    ensures base in seen ==> exists k: nat :: (NewId(base, seen) == Candidate(base, k)
      && forall j :: 0 <= j < k ==> Candidate(base, j) in seen)
  {
    if base in seen {
      var k := FirstFree(base, seen, 0);
      assert NewId(base, seen) == Candidate(base, k);
    }
  }

  /** The pass yields ids that are distinct and new, keeps an id exactly
      when neither `seen` nor an earlier result took it, and otherwise
      renames it to itself followed by `_<k>`. */
  lemma {:induction false} UniquifySpec(ids: seq<string>, seen: set<string>)
    ensures var r := Uniquify(ids, seen);
      && Distinct(r)
      && (forall i :: 0 <= i < |r| ==> r[i] !in seen)
      && (forall i :: 0 <= i < |r| ==> r[i] == ids[i] || exists k: nat :: r[i] == Candidate(ids[i], k))
      && (forall i :: 0 <= i < |r| ==>
            (r[i] == ids[i] <==> ids[i] !in seen && forall j :: 0 <= j < i ==> r[j] != ids[i]))
  {
    if ids != [] {
      var id := NewId(ids[0], seen);
      NewIdSpec(ids[0], seen);
      UniquifySpec(ids[1..], seen + {id});
      var rest := Uniquify(ids[1..], seen + {id});
      var r := Uniquify(ids, seen);
      assert r == [id] + rest;
      forall i | 0 <= i < |rest| ensures rest[i] != id {
      }
      DistinctCons(id, rest);
      forall i | 0 <= i < |r| ensures r[i] == ids[i] || exists k: nat :: r[i] == Candidate(ids[i], k) {
        if i > 0 {
          assert r[i] == rest[i - 1] && ids[i] == ids[1..][i - 1];
        }
      }
      forall i | 0 <= i < |r|
        ensures r[i] == ids[i] <==> ids[i] !in seen && forall j :: 0 <= j < i ==> r[j] != ids[i]
      {
        if i > 0 {
          assert r[i] == rest[i - 1] && ids[i] == ids[1..][i - 1];
          assert (forall j :: 0 <= j < i ==> r[j] != ids[i])
             <==> id != ids[i] && forall j :: 0 <= j < i - 1 ==> rest[j] != ids[i] by {
            forall j | 0 < j < i ensures r[j] == rest[j - 1] { }
            if forall j :: 0 <= j < i ==> r[j] != ids[i] {
              forall j | 0 <= j < i - 1 ensures rest[j] != ids[i] {
                assert rest[j] == r[j + 1];
              }
            }
          }
        }
      }
    }
  }

  /** Ids that are already distinct and new are left as they are. */
  lemma {:induction false} UniquifyKeeps(ids: seq<string>, seen: set<string>)
    requires Distinct(ids)
    requires forall i :: 0 <= i < |ids| ==> ids[i] !in seen
    ensures Uniquify(ids, seen) == ids
  {
    if ids != [] {
      DistinctCons(ids[0], ids[1..]);
      assert ids == [ids[0]] + ids[1..];
      UniquifyKeeps(ids[1..], seen + {ids[0]});
    }
  }

  /** After the pass all chunk ids are distinct; everything but the ids is
      unchanged, and a corpus whose ids were distinct is unchanged. */
  lemma MakeUniqueSpec(cs: seq<CorpusChunk>)
    ensures var r := MakeUnique(cs);
      && Distinct(IdsOf(r))
      && (forall i :: 0 <= i < |cs| ==> r[i].(chunkId := cs[i].chunkId) == cs[i])
      && (Distinct(IdsOf(cs)) ==> r == cs)
  {
    var ids := Uniquify(IdsOf(cs), {});
    UniquifySpec(IdsOf(cs), {});
    var r := MakeUnique(cs);
    assert IdsOf(r) == ids;
    if Distinct(IdsOf(cs)) {
      UniquifyKeeps(IdsOf(cs), {});
      assert forall i :: 0 <= i < |cs| ==> r[i] == cs[i];
    }
  }

  // ----- the corpus -----

  /** A row of a source table: its id and its text cell as the table reader
      gives it (an empty cell is missing). */
  datatype SourceRow = SourceRow(sourceId: string, text: Judgments.Cell)

  /** The text a row is chunked from: the cell rendered as a string, so a
      missing cell becomes `"nan"`. */
  function RowText(row: SourceRow): string
  {
    Judgments.CellString(row.text)
  }

  /** The chunks of every row of one table, in row order. */
  function ChunkRows(tok: Tokenizer, rows: seq<SourceRow>, sourceType: string): seq<CorpusChunk>
  {
    if rows == [] then []
    else ChunkText(RowText(rows[0]), tok, rows[0].sourceId, sourceType, None) + ChunkRows(tok, rows[1..], sourceType)
  }

  /** A row whose text cell is missing is chunked as the text `"nan"`: when
      that is one window, the row gives exactly one chunk `<id>_chunk_0`
      with text `"nan"`. */
  lemma MissingRowIsNan(tok: Tokenizer, row: SourceRow, sourceType: string)
    requires row.text.Missing?
    ensures ChunkRows(tok, [row], sourceType) == ChunkText("nan", tok, row.sourceId, sourceType, None)
    ensures |tok.encode("nan")| <= CHUNK_SIZE ==>
      ChunkRows(tok, [row], sourceType) == [CorpusChunk(ChunkId(SanitizeId(row.sourceId), 0), sourceType, row.sourceId, "nan")]
  {
    assert [row][1..] == [];
    StripFixed("nan");
  }

  /** The chunk list: cases, then sections, then articles, with unique ids. */
  function BuildCorpus(tok: Tokenizer, cases: seq<SourceRow>, sections: seq<SourceRow>,
                       articles: seq<SourceRow>): seq<CorpusChunk>
  {
    MakeUnique(ChunkRows(tok, cases, "case") + ChunkRows(tok, sections, "section") + ChunkRows(tok, articles, "article"))
  }

  /** Every chunk of a table has that table's source type, the id of one of
      its rows, and non-blank stripped text. */
  lemma {:induction false} ChunkRowsSpec(tok: Tokenizer, rows: seq<SourceRow>, sourceType: string)
    ensures forall i :: 0 <= i < |ChunkRows(tok, rows, sourceType)| ==>
      var c := ChunkRows(tok, rows, sourceType)[i];
      && c.sourceType == sourceType && c.text != "" && Strip(c.text) == c.text
      && exists k :: 0 <= k < |rows| && c.sourceId == rows[k].sourceId
  {
    if rows != [] {
      var head := ChunkText(RowText(rows[0]), tok, rows[0].sourceId, sourceType, None);
      var rest := ChunkRows(tok, rows[1..], sourceType);
      var cs := ChunkRows(tok, rows, sourceType);
      ChunkTextIds(RowText(rows[0]), tok, rows[0].sourceId, sourceType, None);
      ChunkRowsSpec(tok, rows[1..], sourceType);
      forall i | 0 <= i < |cs|
        ensures var c := cs[i];
          && c.sourceType == sourceType && c.text != "" && Strip(c.text) == c.text
          && exists k :: 0 <= k < |rows| && c.sourceId == rows[k].sourceId
      {
        if i < |head| {
          assert cs[i] == head[i];
          assert ChunkOf(head[i], ChunkId(PrefixFor(rows[0].sourceId, None), i), rows[0].sourceId, sourceType);
        } else {
          assert cs[i] == rest[i - |head|];
          var k :| 0 <= k < |rows| - 1 && rest[i - |head|].sourceId == rows[1..][k].sourceId;
          assert rows[1..][k] == rows[k + 1];
        }
      }
    }
  }

  /** The corpus has pairwise distinct chunk ids, and each chunk keeps the
      source type, source id and text it was cut with. */
  lemma BuildCorpusSpec(tok: Tokenizer, cases: seq<SourceRow>, sections: seq<SourceRow>, articles: seq<SourceRow>)
    ensures var all := ChunkRows(tok, cases, "case") + ChunkRows(tok, sections, "section") + ChunkRows(tok, articles, "article");
      var r := BuildCorpus(tok, cases, sections, articles);
      && |r| == |all|
      && Distinct(IdsOf(r))
      && forall i :: 0 <= i < |r| ==> r[i].(chunkId := all[i].chunkId) == all[i]
  {
    MakeUniqueSpec(ChunkRows(tok, cases, "case") + ChunkRows(tok, sections, "section") + ChunkRows(tok, articles, "article"));
  }

  /** Every chunk in `cs` has source type `t`. */
  predicate AllOfType(cs: seq<CorpusChunk>, t: string)
  {
    forall i :: 0 <= i < |cs| ==> cs[i].sourceType == t
  }

  lemma ChunkRowsType(tok: Tokenizer, rows: seq<SourceRow>, sourceType: string)
    ensures AllOfType(ChunkRows(tok, rows, sourceType), sourceType)
  {
    ChunkRowsSpec(tok, rows, sourceType);
  }

  /** The pass renames chunks and touches nothing else. */
  lemma MakeUniqueAt(cs: seq<CorpusChunk>, i: nat)
    requires i < |cs|
    ensures MakeUnique(cs)[i].sourceType == cs[i].sourceType
    ensures MakeUnique(cs)[i].sourceId == cs[i].sourceId && MakeUnique(cs)[i].text == cs[i].text
  {
  }

  /** Renaming three runs of chunks keeps each run's source type. */
  lemma MakeUniqueRuns(a: seq<CorpusChunk>, b: seq<CorpusChunk>, c: seq<CorpusChunk>, ta: string, tb: string, tc: string)
    requires AllOfType(a, ta) && AllOfType(b, tb) && AllOfType(c, tc)
    ensures var r := MakeUnique(a + b + c);
      && (forall i :: 0 <= i < |a| ==> r[i].sourceType == ta)
      && (forall i :: |a| <= i < |a| + |b| ==> r[i].sourceType == tb)
      && (forall i :: |a| + |b| <= i < |r| ==> r[i].sourceType == tc)
  {
    var all := a + b + c;
    var r := MakeUnique(all);
    forall i | 0 <= i < |a| ensures r[i].sourceType == ta {
      MakeUniqueAt(all, i);
      assert all[i] == a[i];
    }
    forall i | |a| <= i < |a| + |b| ensures r[i].sourceType == tb {
      MakeUniqueAt(all, i);
      assert all[i] == b[i - |a|];
    }
    forall i | |a| + |b| <= i < |r| ensures r[i].sourceType == tc {
      MakeUniqueAt(all, i);
      assert all[i] == c[i - |a| - |b|];
    }
  }

  /** Cases come first, then sections, then articles. */
  lemma BuildCorpusOrder(tok: Tokenizer, cases: seq<SourceRow>, sections: seq<SourceRow>, articles: seq<SourceRow>)
    ensures var r := BuildCorpus(tok, cases, sections, articles);
      var nc := |ChunkRows(tok, cases, "case")|;
      var ns := |ChunkRows(tok, sections, "section")|;
      && (forall i :: 0 <= i < nc ==> r[i].sourceType == "case")
      && (forall i :: nc <= i < nc + ns ==> r[i].sourceType == "section")
      && (forall i :: nc + ns <= i < |r| ==> r[i].sourceType == "article")
  {
    ChunkRowsType(tok, cases, "case");
    ChunkRowsType(tok, sections, "section");
    ChunkRowsType(tok, articles, "article");
    MakeUniqueRuns(ChunkRows(tok, cases, "case"), ChunkRows(tok, sections, "section"), ChunkRows(tok, articles, "article"),
                   "case", "section", "article");
  }
}

=== FILE: chunks.dfy ===
/**
 * Retrieved chunks: the metadata record every retrieval path hands around,
 * the descending-by-score ordering the retrievers use, and the "highest
 * score, or 0.0" summary.
 */
module Chunks {
  import opened Wrappers
  import opened Seqs

  /** An entry of the chunk metadata list built by the corpus chunker. A
      missing `source_type` or `source_id` key is `None`. */
  datatype Meta = Meta(chunkId: string, sourceType: Option<string>, sourceId: Option<string>, text: string)

  /** A metadata entry together with the score a search (or the
      must-include lookup) attached to it. */
  datatype Chunk = Chunk(chunkId: string, sourceType: Option<string>, sourceId: Option<string>, text: string, score: real)

  /** `{**meta, "score": score}`. */
  function Scored(m: Meta, score: real): Chunk
  {
    Chunk(m.chunkId, m.sourceType, m.sourceId, m.text, score)
  }

  /** Python's `value or default` on an optional string field: both a missing
      value and the empty string fall back to `d`. */
  function OrDefault(o: Option<string>, d: string): string
  {
    if o.Some? && o.value != "" then o.value else d
  }

  /** The chunk ids of a list of chunks, in order. */
  function Ids(cs: seq<Chunk>): (ids: seq<string>)
    ensures |ids| == |cs|
    ensures forall i :: 0 <= i < |cs| ==> ids[i] == cs[i].chunkId
  {
    seq(|cs|, i requires 0 <= i < |cs| => cs[i].chunkId)
  }

  /** No two chunks of the list share a chunk id. */
  predicate DistinctIds(cs: seq<Chunk>)
  {
    forall i, j :: 0 <= i < j < |cs| ==> cs[i].chunkId != cs[j].chunkId
  }

  /** The set of chunk ids of a list. */
  function IdSet(cs: seq<Chunk>): set<string>
  {
    set i | 0 <= i < |cs| :: cs[i].chunkId
  }

  /** In a list with distinct ids, a chunk id identifies its chunk. */
  lemma SameIdSameChunk(cs: seq<Chunk>, x: Chunk, y: Chunk)
    requires DistinctIds(cs) && x in cs && y in cs && x.chunkId == y.chunkId
    ensures x == y
  {
  }

  /** A filtered list keeps distinct ids distinct. */
  lemma {:induction false} FilterDistinctIds(cs: seq<Chunk>, p: Chunk -> bool)
    requires DistinctIds(cs)
    ensures DistinctIds(Filter(cs, p))
    ensures IdSet(Filter(cs, p)) <= IdSet(cs)
  {
    if cs != [] {
      FilterDistinctIds(cs[1..], p);
      FilterMembers(cs[1..], p);
      var t := Filter(cs[1..], p);
      assert IdSet(cs[1..]) <= IdSet(cs) by {
        forall x | x in IdSet(cs[1..]) ensures x in IdSet(cs) {
          var i :| 0 <= i < |cs| - 1 && cs[1..][i].chunkId == x;
          assert cs[i + 1].chunkId == x;
        }
      }
      if p(cs[0]) {
        assert cs[0].chunkId !in IdSet(cs[1..]);
        assert Filter(cs, p) == [cs[0]] + t;
        IdSetCons(cs[0], t);
        ConsDistinctIds(cs[0], t);
        assert cs[0].chunkId == cs[0 + 0].chunkId;
      }
    }
  }

  lemma IdSetCons(c: Chunk, cs: seq<Chunk>)
    ensures IdSet([c] + cs) == {c.chunkId} + IdSet(cs)
  {
    var l := [c] + cs;
    forall x | x in IdSet(l) ensures x in {c.chunkId} + IdSet(cs) {
      var i :| 0 <= i < |l| && l[i].chunkId == x;
      if i > 0 {
        assert cs[i - 1].chunkId == x;
      }
    }
    forall x | x in IdSet(cs) ensures x in IdSet(l) {
      var i :| 0 <= i < |cs| && cs[i].chunkId == x;
      assert l[i + 1].chunkId == x;
    }
    assert l[0].chunkId == c.chunkId;
  }

  lemma ConsDistinctIds(c: Chunk, cs: seq<Chunk>)
    requires DistinctIds(cs) && c.chunkId !in IdSet(cs)
    ensures DistinctIds([c] + cs)
  {
    var l := [c] + cs;
    forall i, j | 0 <= i < j < |l| ensures l[i].chunkId != l[j].chunkId {
      assert l[j] == cs[j - 1];
      if i > 0 {
        assert l[i] == cs[i - 1];
      }
    }
  }

  /** Scores never increase along the list. */
  predicate SortedDesc(cs: seq<Chunk>)
  {
    forall i, j :: 0 <= i < j < |cs| ==> cs[i].score >= cs[j].score
  }

  /** Places `c` in front of the first element whose score is not larger
      than its own, so it precedes every equal-scored element. */
  function InsertDesc(c: Chunk, s: seq<Chunk>): (r: seq<Chunk>)
    ensures |r| == |s| + 1
    ensures multiset(r) == multiset(s) + multiset{c}
    ensures SortedDesc(s) ==> SortedDesc(r)
  {
    if s == [] || s[0].score <= c.score then [c] + s
    else
      assert s == [s[0]] + s[1..];
      var rest := InsertDesc(c, s[1..]);
      InsertDescStep(c, s, rest);
      [s[0]] + rest
  }

  /** Putting back the head in front of the insertion into the tail keeps a
      descending list descending. */
  lemma InsertDescStep(c: Chunk, s: seq<Chunk>, rest: seq<Chunk>)
    requires s != [] && s[0].score > c.score
    requires multiset(rest) == multiset(s[1..]) + multiset{c}
    requires SortedDesc(s[1..]) ==> SortedDesc(rest)
    ensures SortedDesc(s) ==> SortedDesc([s[0]] + rest)
  {
    if SortedDesc(s) {
      var t := s[1..];
      assert SortedDesc(t) by {
        forall i, j | 0 <= i < j < |t| ensures t[i].score >= t[j].score {
          assert t[i] == s[i + 1] && t[j] == s[j + 1];
        }
      }
      forall y | y in rest ensures y.score <= s[0].score {
        assert y in multiset(rest);
        assert y == c || y in multiset(t);
        if y != c {
          var k :| 0 <= k < |t| && t[k] == y;
          assert s[k + 1] == y;
        }
      }
      ConsSortedDesc(s[0], rest);
    }
  }

  /** A head no lower than any later element extends a descending list. */
  lemma ConsSortedDesc(x: Chunk, rest: seq<Chunk>)
    requires SortedDesc(rest)
    requires forall y :: y in rest ==> y.score <= x.score
    ensures SortedDesc([x] + rest)
  {
    var r := [x] + rest;
    forall i, j | 0 <= i < j < |r| ensures r[i].score >= r[j].score {
      assert r[j] == rest[j - 1];
      if i > 0 {
        assert r[i] == rest[i - 1];
      }
    }
  }

  /** `sorted(s, key=lambda r: r["score"], reverse=True)`: Python's sort is
      stable, also in reverse, so equal scores keep their input order. */
  function SortDesc(s: seq<Chunk>): (r: seq<Chunk>)
    ensures |r| == |s|
    ensures multiset(r) == multiset(s)
    ensures SortedDesc(r)
  {
    if s == [] then []
    else
      assert s == [s[0]] + s[1..];
      InsertDesc(s[0], SortDesc(s[1..]))
  }

  lemma {:induction false} InsertDescIds(c: Chunk, s: seq<Chunk>)
    ensures IdSet(InsertDesc(c, s)) == {c.chunkId} + IdSet(s)
    ensures DistinctIds(s) && c.chunkId !in IdSet(s) ==> DistinctIds(InsertDesc(c, s))
  {
    if s == [] || s[0].score <= c.score {
      IdSetCons(c, s);
      if DistinctIds(s) && c.chunkId !in IdSet(s) {
        ConsDistinctIds(c, s);
      }
    } else {
      InsertDescIds(c, s[1..]);
      assert s == [s[0]] + s[1..];
      IdSetCons(s[0], s[1..]);
      IdSetCons(s[0], InsertDesc(c, s[1..]));
      if DistinctIds(s) && c.chunkId !in IdSet(s) {
        assert DistinctIds(s[1..]);
        assert s[0].chunkId !in IdSet(s[1..]);
        ConsDistinctIds(s[0], InsertDesc(c, s[1..]));
      }
    }
  }

  /** A reordering of a list has the same chunk ids. */
  lemma PermutationIdSet(r: seq<Chunk>, s: seq<Chunk>)
    requires multiset(r) == multiset(s)
    ensures IdSet(r) == IdSet(s)
  {
    forall x | x in IdSet(r) ensures x in IdSet(s) {
      var i :| 0 <= i < |r| && r[i].chunkId == x;
      assert r[i] in multiset(s);
      var j :| 0 <= j < |s| && s[j] == r[i];
    }
    forall x | x in IdSet(s) ensures x in IdSet(r) {
      var j :| 0 <= j < |s| && s[j].chunkId == x;
      assert s[j] in multiset(r);
      var i :| 0 <= i < |r| && r[i] == s[j];
    }
  }

  /** Sorting neither loses nor adds a chunk id. */
  lemma SortDescIdSet(s: seq<Chunk>)
    ensures IdSet(SortDesc(s)) == IdSet(s)
  {
    PermutationIdSet(SortDesc(s), s);
  }

  /** Sorting does not duplicate a chunk id. */
  lemma {:induction false} SortDescDistinct(s: seq<Chunk>)
    requires DistinctIds(s)
    ensures DistinctIds(SortDesc(s))
  {
    if s != [] {
      var t := s[1..];
      SortDescDistinct(t);
      SortDescIdSet(t);
      assert s[0].chunkId !in IdSet(t);
      InsertDescIds(s[0], SortDesc(t));
    }
  }

  /** The chunks of `s` whose score is exactly `v`, in order. */
  function WithScore(s: seq<Chunk>, v: real): seq<Chunk>
  {
    Filter(s, (c: Chunk) => c.score == v)
  }

  lemma {:induction false} InsertDescWithScore(c: Chunk, s: seq<Chunk>, v: real)
    ensures WithScore(InsertDesc(c, s), v) ==
      if c.score == v then [c] + WithScore(s, v) else WithScore(s, v)
  {
    if s == [] || s[0].score <= c.score {
      assert ([c] + s)[1..] == s;
      if s != [] && s[0].score == v && c.score == v {
        assert WithScore([c] + s, v) == [c] + WithScore(s, v);
      }
    } else {
      assert ([s[0]] + InsertDesc(c, s[1..]))[1..] == InsertDesc(c, s[1..]);
      InsertDescWithScore(c, s[1..], v);
    }
  }

  /** Stability: for every score value, the chunks carrying it appear in
      `SortDesc(s)` in exactly the order they have in `s`. Together with the
      permutation and ordering guarantees this pins the result down. */
  lemma {:induction false} SortDescStable(s: seq<Chunk>, v: real)
    ensures WithScore(SortDesc(s), v) == WithScore(s, v)
  {
    if s != [] {
      SortDescStable(s[1..], v);
      InsertDescWithScore(s[0], SortDesc(s[1..]), v);
    }
  }

  /** A list that is already in descending order is left as it is. */
  lemma {:induction false} SortDescSorted(s: seq<Chunk>)
    requires SortedDesc(s)
    ensures SortDesc(s) == s
  {
    if s != [] {
      SortDescSorted(s[1..]);
      var t := s[1..];
      if t != [] {
        assert t[0].score <= s[0].score;
      }
    }
  }

  /** `max((r["score"] for r in cs), default=0.0)`. */
  function MaxScore(cs: seq<Chunk>): real
  {
    if cs == [] then 0.0
    else if |cs| == 1 then cs[0].score
    else
      var m := MaxScore(cs[1..]);
      if cs[0].score >= m then cs[0].score else m
  }

  /** The summary is 0.0 for no chunks, and otherwise the score of some chunk
      that no other chunk exceeds. */
  lemma {:induction false} MaxScoreSpec(cs: seq<Chunk>)
    ensures cs == [] ==> MaxScore(cs) == 0.0
    ensures forall i :: 0 <= i < |cs| ==> cs[i].score <= MaxScore(cs)
    ensures cs != [] ==> exists i :: 0 <= i < |cs| && cs[i].score == MaxScore(cs)
  {
    if |cs| == 1 {
      assert cs[0].score == MaxScore(cs);
    } else if |cs| > 1 {
      MaxScoreSpec(cs[1..]);
      var m := MaxScore(cs[1..]);
      if cs[0].score < m {
        var j :| 0 <= j < |cs| - 1 && cs[1..][j].score == m;
        assert cs[j + 1].score == MaxScore(cs);
      } else {
        assert cs[0].score == MaxScore(cs);
      }
    }
  }
}

=== FILE: context.dfy ===
/**
 * The two context blocks the answer prompt is built from: the retrieval
 * block (one header per retrieved source and the start of its first chunk,
 * for at most ten sources with text) and the knowledge-graph block (the full
 * text of the resolved articles, then of the resolved sections). Both
 * versions of the workflow use the same builders; the third version adds an
 * "Applicable Act" line to each graph item.
 */
module Context {
  import opened Wrappers
  import opened Seqs
  import opened Text
  import opened Chunks
  import opened Grouping
  import opened GraphStore

  /** Characters of a chunk shown in the retrieval block. */
  const SNIPPET_CHARS: nat := 600

  /** Sources with text shown in the retrieval block (`max_snippets`). */
  const MAX_SNIPPETS: nat := 10

  /** Characters of a provision shown in the graph block (`max_chars_per_item`). */
  const ITEM_CHARS: nat := 2000

  /** The retrieval block when nothing was retrieved. */
  const NO_CONTEXT := "No legal context was retrieved."

  const ARTICLE_LABEL := "[ARTICLE FROM KNOWLEDGE GRAPH]"
  const SECTION_LABEL := "[SECTION FROM KNOWLEDGE GRAPH]"

  /** The rows the graph resolved for a query. */
  datatype GraphMetadata = GraphMetadata(sections: seq<Provision>, articles: seq<Provision>, cases: seq<CaseRef>)

  /** `text[:n] + "..."` for a text longer than `n`, else the text itself. */
  function Clip(text: string, n: nat): (r: string)
    ensures |r| <= n + 3
    ensures |text| <= n ==> r == text
    ensures |text| > n ==> |r| == n + 3 && r[..n] == text[..n] && r[n..] == "..."
    ensures text != [] && !IsSpace(text[0]) && n > 0 ==> r[0] == text[0]
    ensures text != [] && !IsSpace(text[|text| - 1]) ==> r != [] && !IsSpace(r[|r| - 1])
  {
    if |text| > n then text[..n] + "..." else text
  }

  // ---------------------------------------------------------------------
  // The retrieval block
  // ---------------------------------------------------------------------

  /** One header of the retrieval block, with the clipped first chunk of its
      source when the source has a chunk. */
  datatype Snippet = Snippet(sourceType: string, sourceId: string, maxScore: real, body: Option<string>)

  /** A source as the loops visit it: its type key and its group. */
  datatype Source = Source(sourceType: string, group: Group)

  function SnippetOf(s: Source): Snippet
  {
    var g := s.group;
    Snippet(s.sourceType, g.sourceId, g.maxScore,
      if g.chunks == [] then None else Some(Clip(g.chunks[0].text, SNIPPET_CHARS)))
  }

  /** Number of snippets that carry a body. */
  function Bodies(ss: seq<Snippet>): nat
  {
    if ss == [] then 0 else (if ss[0].body.Some? then 1 else 0) + Bodies(ss[1..])
  }

  /** The inner loop, over the sources of one type, starting with `count`
      bodies already written: it stops before a source once `max` bodies
      are written. */
  function SourceLoop(stype: string, gs: seq<Group>, count: nat, max: nat): (seq<Snippet>, nat)
  {
    if gs == [] || count >= max then ([], count)
    else
      var s := SnippetOf(Source(stype, gs[0]));
      var rest := SourceLoop(stype, gs[1..], if s.body.Some? then count + 1 else count, max);
      ([s] + rest.0, rest.1)
  }

  /** The outer loop, over the source types; it also stops once `max` bodies
      are written. */
  function TypeLoop(g: Grouped, count: nat, max: nat): (seq<Snippet>, nat)
  {
    if g == [] then ([], count)
    else
      var inner := SourceLoop(g[0].sourceType, g[0].groups, count, max);
      if inner.1 >= max then inner
      else
        var rest := TypeLoop(g[1..], inner.1, max);
        (inner.0 + rest.0, rest.1)
  }

  /** The sources of one type, in order. */
  function SourcesOf(stype: string, gs: seq<Group>): (r: seq<Source>)
    ensures |r| == |gs|
    ensures forall i :: 0 <= i < |gs| ==> r[i] == Source(stype, gs[i])
  {
    seq(|gs|, i requires 0 <= i < |gs| => Source(stype, gs[i]))
  }

  /** All sources in the order the two loops visit them. */
  function Sources(g: Grouped): seq<Source>
  {
    if g == [] then [] else SourcesOf(g[0].sourceType, g[0].groups) + Sources(g[1..])
  }

  /** Reference definition: one loop over all sources, stopping before a
      source once `max` bodies are written. */
  function Emit(ss: seq<Source>, count: nat, max: nat): (seq<Snippet>, nat)
  {
    if ss == [] || count >= max then ([], count)
    else
      var s := SnippetOf(ss[0]);
      var rest := Emit(ss[1..], if s.body.Some? then count + 1 else count, max);
      ([s] + rest.0, rest.1)
  }

  /** Once the budget is spent nothing more is written. */
  lemma {:induction false} EmitSpent(ss: seq<Source>, count: nat, max: nat)
    requires count >= max
    ensures Emit(ss, count, max) == ([], count)
  {
  }

  /** Emitting over two lists in a row is emitting over their concatenation. */
  lemma {:induction false} EmitAppend(xs: seq<Source>, ys: seq<Source>, count: nat, max: nat)
    ensures var a := Emit(xs, count, max);
      Emit(xs + ys, count, max) == (a.0 + Emit(ys, a.1, max).0, Emit(ys, a.1, max).1)
    decreases |xs|
  {
    if xs == [] {
      assert xs + ys == ys;
      var e := Emit(ys, count, max);
      assert Emit(xs, count, max) == ([], count);
      assert [] + e.0 == e.0;
    } else if count >= max {
      EmitSpent(ys, count, max);
      EmitSpent(xs, count, max);
      EmitSpent(xs + ys, count, max);
      assert Emit(xs, count, max).0 + Emit(ys, count, max).0 == [];
    } else {
      assert (xs + ys)[0] == xs[0];
      assert (xs + ys)[1..] == xs[1..] + ys;
      var s := SnippetOf(xs[0]);
      var next := if s.body.Some? then count + 1 else count;
      EmitAppend(xs[1..], ys, next, max);
      var a' := Emit(xs[1..], next, max);
      var e := Emit(ys, a'.1, max);
      assert Emit(xs + ys, count, max) == ([s] + (a'.0 + e.0), e.1);
      assert Emit(xs, count, max) == ([s] + a'.0, a'.1);
      assert [s] + (a'.0 + e.0) == ([s] + a'.0) + e.0;
    }
  }

  lemma {:induction false} SourceLoopIsEmit(stype: string, gs: seq<Group>, count: nat, max: nat)
    ensures SourceLoop(stype, gs, count, max) == Emit(SourcesOf(stype, gs), count, max)
    decreases |gs|
  {
    if gs != [] && count < max {
      assert SourcesOf(stype, gs)[1..] == SourcesOf(stype, gs[1..]);
      var s := SnippetOf(Source(stype, gs[0]));
      SourceLoopIsEmit(stype, gs[1..], if s.body.Some? then count + 1 else count, max);
    }
  }

  /** The nested loops with their two `break`s visit the sources exactly as
      the single reference loop does. */
  lemma {:induction false} TypeLoopIsEmit(g: Grouped, count: nat, max: nat)
    ensures TypeLoop(g, count, max) == Emit(Sources(g), count, max)
    decreases |g|
  {
    if g != [] {
      var xs := SourcesOf(g[0].sourceType, g[0].groups);
      SourceLoopIsEmit(g[0].sourceType, g[0].groups, count, max);
      EmitAppend(xs, Sources(g[1..]), count, max);
      var inner := Emit(xs, count, max);
      if inner.1 >= max {
        EmitSpent(Sources(g[1..]), inner.1, max);
        assert inner.0 + [] == inner.0;
      } else {
        TypeLoopIsEmit(g[1..], inner.1, max);
      }
    }
  }

  /** The reference loop writes the snippets of a prefix of the sources, one
      per source in visiting order; it adds one to the count per body, never
      passes `max`, and stops early only with `max` bodies written. */
  lemma {:induction false} EmitSpec(ss: seq<Source>, count: nat, max: nat)
    requires count <= max
    ensures var (out, n) := Emit(ss, count, max);
      && |out| <= |ss|
      && (forall i :: 0 <= i < |out| ==> out[i] == SnippetOf(ss[i]))
      && n == count + Bodies(out) && n <= max
      && (|out| < |ss| ==> n == max)
  {
    if ss != [] && count < max {
      var s := SnippetOf(ss[0]);
      var next := if s.body.Some? then count + 1 else count;
      EmitSpec(ss[1..], next, max);
      var rest := Emit(ss[1..], next, max);
      assert ([s] + rest.0)[1..] == rest.0;
    }
  }

  /** The header line: the type upper-cased, the source id and the best score
      in three decimals; `scoreText` is that number formatting. */
  function Header(s: Snippet, scoreText: real -> string): string
  {
    "[" + Upper(s.sourceType) + "] " + s.sourceId + " (max_score=" + scoreText(s.maxScore) + ")"
  }

  function SnippetLines(s: Snippet, scoreText: real -> string): seq<string>
  {
    [Header(s, scoreText)] + (if s.body.Some? then [s.body.value, ""] else [])
  }

  function SnippetsLines(ss: seq<Snippet>, scoreText: real -> string): seq<string>
  {
    if ss == [] then [] else SnippetLines(ss[0], scoreText) + SnippetsLines(ss[1..], scoreText)
  }

  /** The snippets `_build_context_block` writes. */
  function Snippets(g: Grouped): seq<Snippet>
  {
    TypeLoop(g, 0, MAX_SNIPPETS).0
  }

  /** `_build_context_block(grouped_sources)`. */
  function RetrievalBlock(g: Grouped, scoreText: real -> string): string
  {
    var ss := Snippets(g);
    if ss == [] then NO_CONTEXT else JoinLines(SnippetsLines(ss, scoreText))
  }

  lemma {:induction false} SnippetsLinesHead(ss: seq<Snippet>, scoreText: real -> string)
    requires ss != []
    ensures SnippetsLines(ss, scoreText) != [] && SnippetsLines(ss, scoreText)[0] == Header(ss[0], scoreText)
  {
  }

  lemma HeaderHead(s: Snippet, scoreText: real -> string)
    ensures Header(s, scoreText) != [] && Header(s, scoreText)[0] == '['
  {
  }

  /** The retrieval block writes one snippet per source in visiting order,
      stopping once ten have a body; every body is the start of the source's
      first chunk, at most 600 characters plus "...". */
  lemma SnippetsSpec(g: Grouped)
    ensures var ss := Snippets(g);
      && |ss| <= |Sources(g)|
      && (forall i :: 0 <= i < |ss| ==> ss[i] == SnippetOf(Sources(g)[i]))
      && Bodies(ss) <= MAX_SNIPPETS
      && (|ss| < |Sources(g)| ==> Bodies(ss) == MAX_SNIPPETS)
    ensures forall i :: 0 <= i < |Snippets(g)| && Snippets(g)[i].body.Some? ==>
      |Snippets(g)[i].body.value| <= SNIPPET_CHARS + 3
  {
    TypeLoopIsEmit(g, 0, MAX_SNIPPETS);
    EmitSpec(Sources(g), 0, MAX_SNIPPETS);
  }

  /** The fixed message is written exactly when there is no source at all,
      and the block never starts with whitespace. */
  lemma RetrievalBlockSpec(g: Grouped, scoreText: real -> string)
    ensures RetrievalBlock(g, scoreText) == NO_CONTEXT <==> Sources(g) == []
    ensures RetrievalBlock(g, scoreText) != [] && !IsSpace(RetrievalBlock(g, scoreText)[0])
  {
    NoContextIff(g, scoreText);
    RetrievalBlockLead(g, scoreText);
  }

  lemma NoContextIff(g: Grouped, scoreText: real -> string)
    ensures RetrievalBlock(g, scoreText) == NO_CONTEXT <==> Sources(g) == []
  {
    SnippetsEmptyIff(g);
    if Snippets(g) != [] {
      RetrievalBlockHead(g, scoreText);
      NotNoContext(RetrievalBlock(g, scoreText));
    }
  }

  lemma RetrievalBlockLead(g: Grouped, scoreText: real -> string)
    ensures RetrievalBlock(g, scoreText) != [] && !IsSpace(RetrievalBlock(g, scoreText)[0])
  {
    if Snippets(g) != [] {
      RetrievalBlockHead(g, scoreText);
      PrintableNotSpace('[');
    } else {
      assert RetrievalBlock(g, scoreText) == NO_CONTEXT;
      assert NO_CONTEXT[0] == 'N';
      PrintableNotSpace('N');
    }
  }

  lemma SnippetsEmptyIff(g: Grouped)
    ensures Snippets(g) == [] <==> Sources(g) == []
  {
    TypeLoopIsEmit(g, 0, MAX_SNIPPETS);
    EmitSpec(Sources(g), 0, MAX_SNIPPETS);
  }

  lemma RetrievalBlockHead(g: Grouped, scoreText: real -> string)
    requires Snippets(g) != []
    ensures RetrievalBlock(g, scoreText) != [] && RetrievalBlock(g, scoreText)[0] == '['
  {
    var ss := Snippets(g);
    var lines := SnippetsLines(ss, scoreText);
    SnippetsLinesHead(ss, scoreText);
    HeaderHead(ss[0], scoreText);
    JoinLinesHead(lines);
  }

  lemma NotNoContext(x: string)
    requires x != [] && x[0] == '['
    ensures x != NO_CONTEXT
  {
    assert NO_CONTEXT[0] == 'N';
  }

  /** Every group `group_by_source` builds has a chunk, so for its output
      the retrieval block has a snippet for each of the first ten sources. */
  lemma GroupedSnippetCount(cs: seq<Chunk>)
    ensures var n := |Sources(GroupBySource(cs))|;
      |Snippets(GroupBySource(cs))| == if n < MAX_SNIPPETS then n else MAX_SNIPPETS
  {
    var g := GroupBySource(cs);
    AllGroupsNonEmpty(cs);
    TypeLoopIsEmit(g, 0, MAX_SNIPPETS);
    EmitSpec(Sources(g), 0, MAX_SNIPPETS);
    var ss := Snippets(g);
    forall i | 0 <= i < |ss| ensures ss[i].body.Some? {
      assert ss[i] == SnippetOf(Sources(g)[i]);
    }
    BodiesAll(ss);
  }

  lemma {:induction false} BodiesAll(ss: seq<Snippet>)
    requires forall i :: 0 <= i < |ss| ==> ss[i].body.Some?
    ensures Bodies(ss) == |ss|
  {
    if ss != [] {
      BodiesAll(ss[1..]);
    }
  }

  lemma {:induction false} SourcesNonEmpty(g: Grouped)
    requires forall i, j :: 0 <= i < |g| && 0 <= j < |g[i].groups| ==> g[i].groups[j].chunks != []
    ensures forall k :: 0 <= k < |Sources(g)| ==> Sources(g)[k].group.chunks != []
  {
    if g != [] {
      SourcesNonEmpty(g[1..]);
      var xs := SourcesOf(g[0].sourceType, g[0].groups);
      forall k | 0 <= k < |Sources(g)| ensures Sources(g)[k].group.chunks != [] {
        if k >= |xs| {
          assert Sources(g)[k] == Sources(g[1..])[k - |xs|];
        }
      }
    }
  }

  lemma AllGroupsNonEmpty(cs: seq<Chunk>)
    ensures forall k :: 0 <= k < |Sources(GroupBySource(cs))| ==> Sources(GroupBySource(cs))[k].group.chunks != []
  {
    var g := GroupBySource(cs);
    forall i, j | 0 <= i < |g| && 0 <= j < |g[i].groups| ensures g[i].groups[j].chunks != [] {
      GroupsAreBuckets(cs, i, j);
    }
    SourcesNonEmpty(g);
  }

  // ---------------------------------------------------------------------
  // The knowledge-graph block
  // ---------------------------------------------------------------------

  /** `_format_act_display(act_id, act_name)`. */
  function ActDisplay(actId: Option<string>, actName: Option<string>): (r: string)
    ensures OrDefault(actId, "") != "" && OrDefault(actName, "") != "" ==>
      r == actName.value + " (" + actId.value + ")"
    ensures OrDefault(actId, "") != "" && OrDefault(actName, "") == "" ==> r == actId.value
    ensures OrDefault(actId, "") == "" ==> r == OrDefault(actName, "")
  {
    if OrDefault(actId, "") != "" && OrDefault(actName, "") != "" then actName.value + " (" + actId.value + ")"
    else OrDefault(actId, OrDefault(actName, ""))
  }

  /** `(item.get("full_text") or "").strip()`. */
  function ItemText(p: Provision): string
  {
    Strip(OrDefault(p.fullText, ""))
  }

  /** The lines written for one provision: nothing for one without text,
      else its label and id, (third version) its Act, its clipped text, and
      a blank line. */
  function ItemLines(tag: string, p: Provision, withAct: bool, maxChars: nat): (r: seq<string>)
    ensures r == [] <==> ItemText(p) == ""
    ensures r != [] ==>
      && |r| >= 3
      && r[0] == tag + " " + p.provisionId
      && r[|r| - 2] == Clip(ItemText(p), maxChars)
      && r[|r| - 1] == ""
  {
    var text := ItemText(p);
    if text == "" then []
    else
      var display := ActDisplay(p.actId, p.actName);
      [tag + " " + p.provisionId]
      + (if withAct && display != "" then ["Applicable Act: " + display] else [])
      + [Clip(text, maxChars), ""]
  }

  function ItemsLines(tag: string, ps: seq<Provision>, withAct: bool, maxChars: nat): seq<string>
  {
    if ps == [] then [] else ItemLines(tag, ps[0], withAct, maxChars) + ItemsLines(tag, ps[1..], withAct, maxChars)
  }

  /** Articles first, then sections. */
  function GraphLines(m: GraphMetadata, withAct: bool, maxChars: nat): seq<string>
  {
    ItemsLines(ARTICLE_LABEL, m.articles, withAct, maxChars) + ItemsLines(SECTION_LABEL, m.sections, withAct, maxChars)
  }

  /** `_build_graph_context_block(graph_metadata)`. */
  function GraphBlock(m: Option<GraphMetadata>, withAct: bool, maxChars: nat): string
  {
    if m.None? then ""
    else
      var lines := GraphLines(m.value, withAct, maxChars);
      if lines == [] then "" else Strip(JoinLines(lines))
  }

  /** No provision of the list has text. */
  predicate NoText(ps: seq<Provision>)
  {
    forall i :: 0 <= i < |ps| ==> ItemText(ps[i]) == ""
  }

  /** The stripped text of a provision, when there is one, ends in
      non-whitespace. */
  lemma ItemTextEnd(p: Provision)
    requires ItemText(p) != ""
    ensures !IsSpace(ItemText(p)[|ItemText(p)| - 1])
  {
    StripShape(OrDefault(p.fullText, ""));
  }

  /** A text that ends in non-whitespace. */
  predicate Solid(s: string)
  {
    s != [] && !IsSpace(s[|s| - 1])
  }

  /** Lines that start with the character `c` and end with a line ending in
      non-whitespace followed by a blank line. */
  predicate Framed(lines: seq<string>, c: char)
  {
    && |lines| >= 2 && lines[0] != [] && lines[0][0] == c
    && lines[|lines| - 1] == "" && Solid(lines[|lines| - 2])
  }

  /** Two framed blocks (either possibly empty) make a framed block. */
  lemma FramedAppend(a: seq<string>, b: seq<string>, c: char)
    requires a == [] || Framed(a, c)
    requires b == [] || Framed(b, c)
    requires a + b != []
    ensures Framed(a + b, c)
  {
    var r := a + b;
    if a == [] {
      assert r == b;
    } else if b == [] {
      assert r == a;
    } else {
      assert r[0] == a[0];
      assert r[|r| - 1] == b[|b| - 1];
      assert r[|r| - 2] == b[|b| - 2];
    }
  }

  /** The lines of one provision with text start with its label and end with
      its clipped text and a blank line. */
  lemma ItemLinesFramed(tag: string, p: Provision, withAct: bool, maxChars: nat)
    requires tag != [] && ItemText(p) != ""
    ensures Framed(ItemLines(tag, p, withAct, maxChars), tag[0])
  {
    ItemTextEnd(p);
    var r := ItemLines(tag, p, withAct, maxChars);
    assert r[|r| - 2] == Clip(ItemText(p), maxChars);
    assert r[0] == tag + " " + p.provisionId;
  }

  /** The lines of a list of provisions, when there are any, start with a
      label line and end with a clipped text and a blank line. */
  lemma {:induction false} ItemsLinesFramed(tag: string, ps: seq<Provision>, withAct: bool, maxChars: nat)
    requires tag != []
    requires ItemsLines(tag, ps, withAct, maxChars) != []
    ensures Framed(ItemsLines(tag, ps, withAct, maxChars), tag[0])
  {
    var head := ItemLines(tag, ps[0], withAct, maxChars);
    var rest := ItemsLines(tag, ps[1..], withAct, maxChars);
    if head != [] {
      ItemLinesFramed(tag, ps[0], withAct, maxChars);
    }
    if rest != [] {
      ItemsLinesFramed(tag, ps[1..], withAct, maxChars);
    }
    FramedAppend(head, rest, tag[0]);
  }

  /** A list of provisions writes no line exactly when none has text. */
  lemma {:induction false} ItemsLinesEmpty(tag: string, ps: seq<Provision>, withAct: bool, maxChars: nat)
    ensures ItemsLines(tag, ps, withAct, maxChars) == [] <==> NoText(ps)
  {
    if ps != [] {
      ItemsLinesEmpty(tag, ps[1..], withAct, maxChars);
      if NoText(ps) {
        assert NoText(ps[1..]) by {
          forall i | 0 <= i < |ps| - 1 ensures ItemText(ps[1..][i]) == "" {
            assert ps[1..][i] == ps[i + 1];
          }
        }
      }
      if ItemText(ps[0]) == "" && NoText(ps[1..]) {
        forall i | 0 <= i < |ps| ensures ItemText(ps[i]) == "" {
          if i > 0 {
            assert ps[i] == ps[1..][i - 1];
          }
        }
      }
    }
  }

  /** The graph block is empty exactly when there is no metadata or no
      resolved article or section has text. */
  lemma GraphBlockEmpty(m: Option<GraphMetadata>, withAct: bool, maxChars: nat)
    ensures GraphBlock(m, withAct, maxChars) == "" <==>
      m.None? || (NoText(m.value.articles) && NoText(m.value.sections))
  {
    if m.Some? {
      ItemsLinesEmpty(ARTICLE_LABEL, m.value.articles, withAct, maxChars);
      ItemsLinesEmpty(SECTION_LABEL, m.value.sections, withAct, maxChars);
      if GraphLines(m.value, withAct, maxChars) != [] {
        GraphBlockJoin(m.value, withAct, maxChars);
      }
    }
  }

  /** The graph lines, when there are any, are framed by a label line. */
  lemma GraphLinesFramed(m: GraphMetadata, withAct: bool, maxChars: nat)
    requires GraphLines(m, withAct, maxChars) != []
    ensures Framed(GraphLines(m, withAct, maxChars), '[')
  {
    var a := ItemsLines(ARTICLE_LABEL, m.articles, withAct, maxChars);
    var s := ItemsLines(SECTION_LABEL, m.sections, withAct, maxChars);
    if a != [] {
      ItemsLinesFramed(ARTICLE_LABEL, m.articles, withAct, maxChars);
    }
    if s != [] {
      ItemsLinesFramed(SECTION_LABEL, m.sections, withAct, maxChars);
    }
    FramedAppend(a, s, '[');
  }

  /** Joining framed lines without the blank line gives a text that starts
      with the frame character and ends in non-whitespace; with the blank
      line, the strip removes exactly the final newline. */
  lemma FramedJoin(lines: seq<string>, c: char)
    requires Framed(lines, c) && !IsSpace(c)
    ensures var pre := lines[..|lines| - 1];
      && Strip(JoinLines(lines)) == JoinLines(pre)
      && JoinLines(pre) != [] && JoinLines(pre)[0] == c
  {
    var n := |lines| - 1;
    var pre := lines[..n];
    assert pre[0] == lines[0] && pre[n - 1] == lines[n - 1];
    assert lines == pre + [""];
    assert Solid(pre[n - 1]);
    JoinLinesAppend(pre, [""]);
    assert JoinLines(lines) == JoinLines(pre) + "\n";
    JoinLinesHead(pre);
    JoinLinesLast(pre);
    StripRightNewline(JoinLines(pre));
    JoinLinesHead(lines);
    StripOfLeading(JoinLines(lines));
  }

  /** A non-empty graph block is its lines joined without the final blank
      line: the strip removes only that newline. */
  lemma GraphBlockJoin(m: GraphMetadata, withAct: bool, maxChars: nat)
    requires GraphLines(m, withAct, maxChars) != []
    ensures var lines := GraphLines(m, withAct, maxChars);
      var b := GraphBlock(Some(m), withAct, maxChars);
      && |lines| >= 2 && lines[|lines| - 1] == ""
      && b == JoinLines(lines[..|lines| - 1]) && b != [] && b[0] == '['
  {
    var lines := GraphLines(m, withAct, maxChars);
    GraphLinesFramed(m, withAct, maxChars);
    PrintableNotSpace('[');
    FramedJoin(lines, '[');
  }

  // ---------------------------------------------------------------------
  // The combined context
  // ---------------------------------------------------------------------

  /** The context of the answer prompt: the graph block, a blank line and
      the retrieval block, stripped, or the retrieval block alone. */
  function Combined(graph: string, retrieval: string): string
  {
    if graph != "" then Strip(graph + "\n\n" + retrieval) else retrieval
  }

  /** A graph block that starts with a label is kept whole in front of the
      retrieval block; only the latter's trailing whitespace is stripped. */
  lemma CombinedOf(graph: string, retrieval: string)
    requires graph != [] && graph[0] == '['
    requires retrieval != [] && !IsSpace(retrieval[0])
    ensures Combined(graph, retrieval) == graph + "\n\n" + StripRight(retrieval)
  {
    var s := graph + "\n\n" + retrieval;
    assert s == (graph + "\n\n") + retrieval;
    StripRightAppend(graph + "\n\n", retrieval);
    assert s[0] == '[';
    PrintableNotSpace('[');
    StripOfLeading(s);
  }

  /** A non-empty graph block comes first and is kept whole, followed by a
      blank line and the retrieval block less its trailing whitespace. */
  lemma CombinedSpec(m: Option<GraphMetadata>, withAct: bool, g: Grouped, scoreText: real -> string)
    ensures var graph := GraphBlock(m, withAct, ITEM_CHARS);
      var retrieval := RetrievalBlock(g, scoreText);
      && (graph == "" ==> Combined(graph, retrieval) == retrieval)
      && (graph != "" ==> Combined(graph, retrieval) == graph + "\n\n" + StripRight(retrieval))
  {
    var graph := GraphBlock(m, withAct, ITEM_CHARS);
    if graph != "" {
      RetrievalBlockLead(g, scoreText);
      GraphBlockEmpty(m, withAct, ITEM_CHARS);
      GraphBlockJoin(m.value, withAct, ITEM_CHARS);
      CombinedOf(graph, RetrievalBlock(g, scoreText));
    }
  }
}

=== FILE: edges.dfy ===
/**
 * The citation edges of the knowledge graph: the section and article numbers
 * a judgment cites, mapped to the ids of the provisions that exist. An article
 * number `n` names the Constitution's article `Constitution_Art_<n>`; a
 * section number names every section with that number, in any Act.
 */
module Edges {
  import opened Seqs
  import opened Text
  import opened RefScan
  import V1 = QueryParser

  /** The only relation the extractor emits. */
  const CITES := "CITES"

  /** The id prefix of a constitutional article. */
  const ARTICLE_ID_PREFIX := "Constitution_Art_"

  /** A `(target_id, relation)` pair of `build_target_ids`. */
  datatype Citation = Citation(targetId: string, relation: string)

  /** A row of the sections table, its cells as `str()` gives them. */
  datatype SectionRow = SectionRow(sectionNumber: string, sectionId: string)

  /** A row of the cases table. */
  datatype CaseRow = CaseRow(caseId: string, judgmentText: string)

  /** A row of the edges table. */
  datatype EdgeRow = EdgeRow(sourceCaseId: string, target: string, relation: string)

  // ----- extract_citations_from_text -----

  /** `extract_citations_from_text`: the distinct section numbers and the
      distinct article numbers the text cites. Python returns `list(set)`,
      whose order is unspecified; first-occurrence order is used here. */
  function ExtractCitations(text: string): (seq<string>, seq<string>)
  {
    (Dedupe(V1.Numbers(SectionRef, text)), Dedupe(V1.Numbers(CitedArticleRef, text)))
  }

  /** Each list has no repeats and holds exactly the groups the pattern
      captures; every number is digits with an optional parenthesised
      sub-number, letters included neither after sections nor articles. */
  lemma ExtractCitationsSpec(text: string)
    ensures var (sections, articles) := ExtractCitations(text);
      && Distinct(sections) && Distinct(articles)
      && (forall x :: x in sections <==> x in FindAll(SectionRef, text))
      && (forall x :: x in articles <==> x in FindAll(CitedArticleRef, text))
      && (forall j :: 0 <= j < |sections| ==> SubsectionToken(sections[j]))
      && (forall j :: 0 <= j < |articles| ==> SubsectionToken(articles[j]))
  {
    V1.NumbersAreGroups(SectionRef, text);
    V1.NumbersAreGroups(CitedArticleRef, text);
    DedupeSpec(FindAll(SectionRef, text));
    DedupeSpec(FindAll(CitedArticleRef, text));
    var (sections, articles) := ExtractCitations(text);
    forall j | 0 <= j < |sections| ensures SubsectionToken(sections[j]) {
      var x := sections[j];
      assert x in FindAll(SectionRef, text);
      var k :| 0 <= k < |FindAll(SectionRef, text)| && FindAll(SectionRef, text)[k] == x;
      assert TokenOk(SectionRef, V1.Numbers(SectionRef, text)[k]);
    }
    forall j | 0 <= j < |articles| ensures SubsectionToken(articles[j]) {
      var x := articles[j];
      assert x in FindAll(CitedArticleRef, text);
      var k :| 0 <= k < |FindAll(CitedArticleRef, text)| && FindAll(CitedArticleRef, text)[k] == x;
      assert TokenOk(CitedArticleRef, V1.Numbers(CitedArticleRef, text)[k]);
    }
  }

  // ----- build_target_ids -----

  /** The article part of `build_target_ids`. */
  function ArticleTargets(articleNums: seq<string>, validArticleIds: set<string>): seq<Citation>
  {
    if articleNums == [] then []
    else
      var aid := ARTICLE_ID_PREFIX + articleNums[0];
      (if aid in validArticleIds then [Citation(aid, CITES)] else [])
        + ArticleTargets(articleNums[1..], validArticleIds)
  }

  /** `section_num_to_ids.get(num, [])`. */
  function IdsOf(index: map<string, seq<string>>, num: string): seq<string>
  {
    if num in index then index[num] else []
  }

  /** The section part of `build_target_ids`. */
  function SectionTargets(sectionNums: seq<string>, index: map<string, seq<string>>): seq<Citation>
  {
    if sectionNums == [] then []
    else Cites(IdsOf(index, sectionNums[0])) + SectionTargets(sectionNums[1..], index)
  }

  /** `[(sid, "CITES") for sid in ids]`. */
  function Cites(ids: seq<string>): (r: seq<Citation>)
    ensures |r| == |ids|
    ensures forall i :: 0 <= i < |ids| ==> r[i] == Citation(ids[i], CITES)
  {
    seq(|ids|, i requires 0 <= i < |ids| => Citation(ids[i], CITES))
  }

  /** `build_target_ids`. */
  function BuildTargetIds(sectionNums: seq<string>, articleNums: seq<string>,
                          index: map<string, seq<string>>, validArticleIds: set<string>): seq<Citation>
  {
    ArticleTargets(articleNums, validArticleIds) + SectionTargets(sectionNums, index)
  }

  /** An article target is emitted exactly for a cited article whose id
      exists, and always as a citation. */
  lemma {:induction false} ArticleTargetsSpec(articleNums: seq<string>, validArticleIds: set<string>)
    ensures forall c :: c in ArticleTargets(articleNums, validArticleIds) <==>
      c.relation == CITES && c.targetId in validArticleIds
      && exists n :: n in articleNums && c.targetId == ARTICLE_ID_PREFIX + n
    ensures |ArticleTargets(articleNums, validArticleIds)| <= |articleNums|
  {
    if articleNums != [] {
      ArticleTargetsSpec(articleNums[1..], validArticleIds);
      var aid := ARTICLE_ID_PREFIX + articleNums[0];
      forall c: Citation | c.relation == CITES && c.targetId in validArticleIds
          && (exists n :: n in articleNums && c.targetId == ARTICLE_ID_PREFIX + n)
        ensures c in ArticleTargets(articleNums, validArticleIds)
      {
        var n :| n in articleNums && c.targetId == ARTICLE_ID_PREFIX + n;
        if n != articleNums[0] {
          assert n in articleNums[1..];
        }
      }
      forall c | c in ArticleTargets(articleNums[1..], validArticleIds)
        ensures exists n :: n in articleNums && c.targetId == ARTICLE_ID_PREFIX + n
      {
        var n :| n in articleNums[1..] && c.targetId == ARTICLE_ID_PREFIX + n;
        assert n in articleNums;
      }
    }
  }

  /** A section number contributes one citation per id it maps to, in the
      index's order, and nothing when it is not in the index. */
  lemma SectionTargetsCons(num: string, rest: seq<string>, index: map<string, seq<string>>)
    ensures SectionTargets([num] + rest, index) == Cites(IdsOf(index, num)) + SectionTargets(rest, index)
    ensures num !in index ==> SectionTargets([num] + rest, index) == SectionTargets(rest, index)
  {
    assert ([num] + rest)[1..] == rest;
  }

  /** A section target is emitted exactly for an id the index lists under a
      cited number, and always as a citation. */
  lemma {:induction false} SectionTargetsSpec(sectionNums: seq<string>, index: map<string, seq<string>>)
    ensures forall c :: c in SectionTargets(sectionNums, index) <==>
      c.relation == CITES && exists n :: n in sectionNums && n in index && c.targetId in index[n]
  {
    if sectionNums != [] {
      SectionTargetsSpec(sectionNums[1..], index);
      var head := Cites(IdsOf(index, sectionNums[0]));
      forall c: Citation ensures c in head <==> c.relation == CITES && sectionNums[0] in index && c.targetId in index[sectionNums[0]] {
        if c in head {
          var i :| 0 <= i < |head| && head[i] == c;
        }
        if c.relation == CITES && sectionNums[0] in index && c.targetId in index[sectionNums[0]] {
          var ids := index[sectionNums[0]];
          var i :| 0 <= i < |ids| && ids[i] == c.targetId;
          assert head[i] == c;
        }
      }
      forall c: Citation | c.relation == CITES && exists n :: n in sectionNums && n in index && c.targetId in index[n]
        ensures c in SectionTargets(sectionNums, index)
      {
        var n :| n in sectionNums && n in index && c.targetId in index[n];
        if n != sectionNums[0] {
          assert n in sectionNums[1..];
        }
      }
      forall c | c in SectionTargets(sectionNums[1..], index)
        ensures exists n :: n in sectionNums && n in index && c.targetId in index[n]
      {
        var n :| n in sectionNums[1..] && n in index && c.targetId in index[n];
        assert n in sectionNums;
      }
    }
  }

  /** Article citations come first, then section citations; every one is a
      `CITES` relation to an article id that exists or to an id the index
      lists for a cited section number. */
  lemma BuildTargetIdsSpec(sectionNums: seq<string>, articleNums: seq<string>,
                           index: map<string, seq<string>>, validArticleIds: set<string>)
    ensures var r := BuildTargetIds(sectionNums, articleNums, index, validArticleIds);
      var a := ArticleTargets(articleNums, validArticleIds);
      && r[..|a|] == a && r[|a|..] == SectionTargets(sectionNums, index)
      && (forall c :: c in r ==> c.relation == CITES)
      && (forall c :: c in a ==> c.targetId in validArticleIds)
      && (forall c :: c in r[|a|..] ==> exists n :: n in sectionNums && n in index && c.targetId in index[n])
  {
    var a := ArticleTargets(articleNums, validArticleIds);
    var b := SectionTargets(sectionNums, index);
    ArticleTargetsSpec(articleNums, validArticleIds);
    SectionTargetsSpec(sectionNums, index);
    assert (a + b)[..|a|] == a && (a + b)[|a|..] == b;
    forall c: Citation | c in a + b ensures c.relation == CITES {
      assert c in a || c in b;
    }
  }

  // ----- section_num_to_ids -----

  /** The section number and id of a row, stripped, when both are
      non-empty. */
  predicate Indexed(row: SectionRow)
  {
    Strip(row.sectionNumber) != "" && Strip(row.sectionId) != ""
  }

  /** The loop building `section_num_to_ids` over the rows in order. */
  function SectionIndex(rows: seq<SectionRow>): map<string, seq<string>>
    decreases |rows|
  {
    if rows == [] then map[]
    else
      var index := SectionIndex(rows[..|rows| - 1]);
      var row := rows[|rows| - 1];
      if Indexed(row) then
        var num := Strip(row.sectionNumber);
        index[num := IdsOf(index, num) + [Strip(row.sectionId)]]
      else index
  }

  /** The stripped ids of the indexed rows with stripped number `num`, in
      row order: what the index should list under `num`. */
  function IdsFor(rows: seq<SectionRow>, num: string): seq<string>
  {
    if rows == [] then [] else IdOf(rows[0], num) + IdsFor(rows[1..], num)
  }

  /** The stripped id of an indexed row with stripped number `num`. */
  function IdOf(row: SectionRow, num: string): seq<string>
  {
    if Indexed(row) && Strip(row.sectionNumber) == num then [Strip(row.sectionId)] else []
  }

  lemma {:induction false} IdsForSnoc(rows: seq<SectionRow>, row: SectionRow, num: string)
    ensures IdsFor(rows + [row], num) == IdsFor(rows, num) + IdOf(row, num)
  {
    if rows != [] {
      var r := rows + [row];
      assert r[0] == rows[0] && r[1..] == rows[1..] + [row];
      IdsForSnoc(rows[1..], row, num);
      var h, t := IdOf(rows[0], num), IdsFor(rows[1..], num);
      assert IdsFor(r, num) == h + (t + IdOf(row, num));
      assert h + (t + IdOf(row, num)) == (h + t) + IdOf(row, num);
    } else {
      assert rows + [row] == [row];
      assert IdsFor([row], num) == IdOf(row, num) + IdsFor([], num);
    }
  }

  /** The index lists, under each number, the ids of the rows with that
      number in row order; a number is a key exactly when some indexed row
      has it, so neither the empty number nor an unlisted one is a key. */
  lemma {:induction false} SectionIndexSpec(rows: seq<SectionRow>, num: string)
    ensures num in SectionIndex(rows) <==> IdsFor(rows, num) != []
    ensures IdsOf(SectionIndex(rows), num) == IdsFor(rows, num)
    decreases |rows|
  {
    if rows != [] {
      var init := rows[..|rows| - 1];
      var row := rows[|rows| - 1];
      SectionIndexSpec(init, num);
      assert rows == init + [row];
      IdsForSnoc(init, row, num);
    }
  }

  /** Every id the index lists is the non-empty stripped id of a row. */
  lemma {:induction false} IdsForSpec(rows: seq<SectionRow>, num: string)
    ensures forall id :: id in IdsFor(rows, num) ==>
      id != "" && exists i :: (0 <= i < |rows| && Indexed(rows[i]) && Strip(rows[i].sectionNumber) == num
                              && Strip(rows[i].sectionId) == id)
  {
    if rows != [] {
      IdsForSpec(rows[1..], num);
      forall id | id in IdsFor(rows[1..], num)
        ensures exists i :: (0 <= i < |rows| && Indexed(rows[i]) && Strip(rows[i].sectionNumber) == num
                             && Strip(rows[i].sectionId) == id)
      {
        var i :| 0 <= i < |rows| - 1 && Indexed(rows[1..][i]) && Strip(rows[1..][i].sectionNumber) == num
          && Strip(rows[1..][i].sectionId) == id;
        assert rows[i + 1] == rows[1..][i];
      }
    }
  }

  // ----- build_edges_df -----

  /** The edge rows of one case. */
  function CaseEdges(c: CaseRow, index: map<string, seq<string>>, validArticleIds: set<string>): seq<EdgeRow>
  {
    var (sections, articles) := ExtractCitations(c.judgmentText);
    var targets := BuildTargetIds(sections, articles, index, validArticleIds);
    seq(|targets|, i requires 0 <= i < |targets| => EdgeRow(c.caseId, targets[i].targetId, targets[i].relation))
  }

  function EdgesOf(cases: seq<CaseRow>, index: map<string, seq<string>>, validArticleIds: set<string>): seq<EdgeRow>
  {
    if cases == [] then [] else CaseEdges(cases[0], index, validArticleIds) + EdgesOf(cases[1..], index, validArticleIds)
  }

  /** `build_edges_df`, its article ids given as `str()` gives them. */
  function BuildEdges(cases: seq<CaseRow>, articleIds: seq<string>, sections: seq<SectionRow>): seq<EdgeRow>
  {
    EdgesOf(cases, SectionIndex(sections), ToSet(articleIds))
  }

  /** Whether `target` exists: an article id, or the stripped id of a
      section row whose stripped number is not empty. */
  predicate KnownTarget(target: string, articleIds: seq<string>, sections: seq<SectionRow>)
  {
    target in articleIds || exists i :: 0 <= i < |sections| && Indexed(sections[i]) && Strip(sections[i].sectionId) == target
  }

  /** Each edge of a case is a citation from that case whose target exists. */
  lemma CaseEdgesKnown(c: CaseRow, articleIds: seq<string>, sections: seq<SectionRow>, e: EdgeRow)
    requires e in CaseEdges(c, SectionIndex(sections), ToSet(articleIds))
    ensures e.sourceCaseId == c.caseId && e.relation == CITES && KnownTarget(e.target, articleIds, sections)
  {
    var index := SectionIndex(sections);
    var (secs, arts) := ExtractCitations(c.judgmentText);
    var targets := BuildTargetIds(secs, arts, index, ToSet(articleIds));
    var es := CaseEdges(c, index, ToSet(articleIds));
    var i :| 0 <= i < |es| && es[i] == e;
    var t := targets[i];
    assert e == EdgeRow(c.caseId, t.targetId, t.relation);
    BuildTargetIdsSpec(secs, arts, index, ToSet(articleIds));
    var a := ArticleTargets(arts, ToSet(articleIds));
    assert t in targets;
    if i < |a| {
      assert t == a[i] && t in a;
    } else {
      assert t == targets[|a|..][i - |a|] && t in targets[|a|..];
      var n :| n in secs && n in index && t.targetId in index[n];
      SectionIndexSpec(sections, n);
      IdsForSpec(sections, n);
    }
  }

  /** An edge of the table is an edge of one of the cases. */
  lemma {:induction false} EdgesOfMember(cases: seq<CaseRow>, index: map<string, seq<string>>,
                                         validArticleIds: set<string>, e: EdgeRow)
    requires e in EdgesOf(cases, index, validArticleIds)
    ensures exists j :: 0 <= j < |cases| && e in CaseEdges(cases[j], index, validArticleIds)
  {
    if e !in CaseEdges(cases[0], index, validArticleIds) {
      EdgesOfMember(cases[1..], index, validArticleIds, e);
      var j :| 0 <= j < |cases| - 1 && e in CaseEdges(cases[1..][j], index, validArticleIds);
      assert cases[j + 1] == cases[1..][j];
    }
  }

  /** Every edge `build_edges_df` emits is a `CITES` edge from a case of the
      input to a target that exists. */
  lemma EdgesKnown(cases: seq<CaseRow>, articleIds: seq<string>, sections: seq<SectionRow>, e: EdgeRow)
    requires e in BuildEdges(cases, articleIds, sections)
    ensures e.relation == CITES && KnownTarget(e.target, articleIds, sections)
    ensures exists j :: 0 <= j < |cases| && cases[j].caseId == e.sourceCaseId
  {
    EdgesOfMember(cases, SectionIndex(sections), ToSet(articleIds), e);
    var j :| 0 <= j < |cases| && e in CaseEdges(cases[j], SectionIndex(sections), ToSet(articleIds));
    CaseEdgesKnown(cases[j], articleIds, sections, e);
  }
}

=== FILE: eval_metrics.dfy ===
/**
 * The set-based answer-quality metrics of the evaluation scripts: content
 * words, cited section numbers, overlap and Jaccard ratios, grounding of
 * cited sections in the retrieved context, keyword hits and coverage, and
 * the safety-disclaimer heuristic.
 *
 * Ratios are exact reals, not floats. The answer and the retrieved
 * documents come from the RAG pipeline and are inputs here; latencies are
 * left out.
 */
module EvalMetrics {
  import opened Wrappers
  import opened Text
  import opened Seqs
  import opened RefScan

  // ----- text helpers -----

  /** The stop words removed from content words. */
  const STOPWORDS: set<string> := {
    "the", "a", "an", "of", "and", "or", "to", "in", "on", "for", "by", "with",
    "is", "are", "was", "were", "be", "as", "that", "this", "it", "its", "at",
    "from", "about", "into", "than", "then", "so", "if", "but", "also", "such",
    "can", "could", "should", "would", "may", "might", "will", "shall", "have",
    "has", "had", "not", "no", "do", "does", "did", "their", "there", "which",
    "been", "being", "over", "under", "between", "within", "more", "most"
  }

  /** A character that survives `re.sub(r"[^a-z0-9\s]", " ", ...)`. */
  predicate Kept(c: char)
  {
    IsAsciiLower(c) || IsDigit(c) || IsSpace(c)
  }

  /** Every character outside `[a-z0-9\s]` becomes a space. */
  function Scrub(s: string): (r: string)
    ensures |r| == |s|
    ensures forall i :: 0 <= i < |s| ==> r[i] == if Kept(s[i]) then s[i] else ' '
  {
    seq(|s|, i requires 0 <= i < |s| => if Kept(s[i]) then s[i] else ' ')
  }

  /** `tokenize_content`: the lower-cased, scrubbed words that are not stop
      words, as a set. */
  function Tokenize(text: string): set<string>
  {
    set w | w in Words(Scrub(Lower(text))) && w !in STOPWORDS
  }

  /** A content word is made of lower-case letters and digits. */
  predicate ContentWord(w: string)
  {
    w != [] && forall i :: 0 <= i < |w| ==> IsAsciiLower(w[i]) || IsDigit(w[i])
  }

  /** Every character of a word of `split()` comes from the string split. */
  lemma {:induction false} WordsChars(s: string)
    ensures forall i, j :: 0 <= i < |Words(s)| && 0 <= j < |Words(s)[i]| ==> Words(s)[i][j] in s
    decreases |s|
  {
    if |s| == 0 {
    } else if IsSpace(s[0]) {
      WordsChars(s[1..]);
      assert forall c :: c in s[1..] ==> c in s;
    } else {
      var n := TokenLen(s);
      TokenLenShape(s);
      WordsChars(s[n..]);
      assert Words(s) == [s[..n]] + Words(s[n..]);
      assert forall c :: c in s[n..] ==> c in s;
      assert forall c :: c in s[..n] ==> c in s;
    }
  }

  /** Content words are non-empty, lower-case letters and digits only, and
      never stop words. */
  lemma TokenizeSpec(text: string)
    ensures forall w :: w in Tokenize(text) ==> ContentWord(w) && w !in STOPWORDS
  {
    var s := Scrub(Lower(text));
    WordsShape(s);
    WordsChars(s);
    forall w | w in Tokenize(text) ensures ContentWord(w) {
      var i :| 0 <= i < |Words(s)| && Words(s)[i] == w;
      forall j | 0 <= j < |w| ensures IsAsciiLower(w[j]) || IsDigit(w[j]) {
        assert w[j] in s && !IsSpace(w[j]);
      }
    }
  }

  /** Punctuation separates words like a space does. */
  lemma PunctuationSeparates(a: string, b: string, p: char)
    requires !Kept(p) && !IsAsciiUpper(p)
    ensures Tokenize(a + [p] + b) == Tokenize(a + " " + b)
  {
    assert Scrub(Lower(a + [p] + b)) == Scrub(Lower(a + " " + b));
  }

  /** Content words ignore letter case. */
  lemma TokenizeIgnoresCase(text: string)
    ensures Tokenize(Upper(text)) == Tokenize(text)
  {
    assert Lower(Upper(text)) == Lower(text);
  }

  /** `extract_sections`: the numbers after `section`, `sec` or `sec.`,
      upper-cased, as a set. */
  function ExtractSections(text: string): set<string>
  {
    set t | t in FindAll(LooseSectionRef, text) :: Upper(t)
  }

  /** A section id: digits and at most one trailing upper-case letter. */
  predicate SectionId(s: string)
  {
    && |s| > 0 && IsDigit(s[0])
    && (AllDigits(s) || (AllDigits(s[..|s| - 1]) && IsAsciiUpper(s[|s| - 1])))
  }

  /** Every extracted section is a section id; text without `sec` cites
      none. */
  lemma ExtractSectionsSpec(text: string)
    ensures forall s :: s in ExtractSections(text) ==> SectionId(s)
    ensures (forall p :: 0 <= p < |text| ==> !KeywordAt(text, p, "sec")) ==> ExtractSections(text) == {}
  {
    ExtractedAreIds(text);
    if forall p :: 0 <= p < |text| ==> !KeywordAt(text, p, "sec") {
      ScanWithoutKeyword(LooseSectionRef, text, 0);
    }
  }

  lemma ExtractedAreIds(text: string)
    ensures forall s :: s in ExtractSections(text) ==> SectionId(s)
  {
    var found := FindAll(LooseSectionRef, text);
    FoundTokens(text);
    forall s | s in ExtractSections(text) ensures SectionId(s) {
      var t :| t in found && s == Upper(t);
      UpperNumberToken(t);
    }
  }

  lemma FoundTokens(text: string)
    ensures forall t :: t in FindAll(LooseSectionRef, text) ==> NumberToken(t)
  {
    ScanTokens(LooseSectionRef, text, 0);
  }

  /** An upper-cased number token is a section id. */
  lemma UpperNumberToken(t: string)
    requires NumberToken(t)
    ensures SectionId(Upper(t))
  {
    var s := Upper(t);
    assert s[..|s| - 1] == Upper(t[..|t| - 1]);
  }

  /** `sec.` takes no space before the number, and a trailing letter is
      kept and upper-cased. */
  lemma SecDotLetter()
    ensures ExtractSections("sec.63a") == {"63A"}
  {
    var t := "sec.63a";
    assert Lower(t[0..7]) == t;
    assert !KeywordAt(t, 0, "section");
    assert Lower(t[0..4]) == "sec.";
    assert LooseKeywordEnd(t, 0) == Some(4);
    assert SpaceRun(t, 4) == 0 && DigitRun(t, 4) == 2 && LetterEnd(t, 6) == 7;
    assert t[4..7] == "63a";
    assert MatchAt(LooseSectionRef, t, 0) == Some(Match("63a", 7));
    assert FindAll(LooseSectionRef, t) == ["63a"];
    assert Upper("63a") == "63A";
  }

  // ----- ratios -----

  /** `compute_overlap_ratio`: the share of `source` found in `target`. */
  function OverlapRatio(source: set<string>, target: set<string>): real
  {
    if source == {} then 0.0 else (|source * target| as real) / (|source| as real)
  }

  /** The overlap lies in [0, 1]; it is 1 exactly when a non-empty source
      lies wholly in the target, and 0 exactly when nothing is shared. */
  lemma OverlapRatioSpec(source: set<string>, target: set<string>)
    ensures 0.0 <= OverlapRatio(source, target) <= 1.0
    ensures OverlapRatio(source, target) == 1.0 <==> source != {} && source <= target
    ensures OverlapRatio(source, target) == 0.0 <==> source * target == {}
  {
    SubsetCard(source * target, source);
    if source != {} {
      var n := |source| as real;
      var k := |source * target| as real;
      assert k / n <= 1.0;
      assert k / n == 1.0 <==> k == n;
      assert source * target == source <==> source <= target;
    }
  }

  /** `jaccard_similarity`: shared elements over all elements, 0 for two
      empty sets. (The script's second guard, an empty union, cannot be
      reached once one set is non-empty.) */
  function Jaccard(a: set<string>, b: set<string>): real
  {
    if a == {} && b == {} then 0.0 else (|a * b| as real) / (|a + b| as real)
  }

  /** Jaccard similarity is symmetric and lies in [0, 1]; it is 1 exactly
      for equal non-empty sets and 0 exactly for disjoint ones. */
  lemma JaccardSpec(a: set<string>, b: set<string>)
    ensures Jaccard(a, b) == Jaccard(b, a)
    ensures 0.0 <= Jaccard(a, b) <= 1.0
    ensures Jaccard(a, b) == 1.0 <==> a != {} && a == b
    ensures Jaccard(a, b) == 0.0 <==> a * b == {}
  {
    assert a * b == b * a && a + b == b + a;
    if !(a == {} && b == {}) {
      var i, u := a * b, a + b;
      SubsetCard(i, u);
      assert a <= u;
      RatioSpec(|i|, |u|);
      assert |i| == 0 <==> i == {};
      SameUnionMeet(a, b);
    }
  }

  /** Two sets meet in their whole union exactly when they are equal. */
  lemma SameUnionMeet(a: set<string>, b: set<string>)
    ensures a * b == a + b <==> a == b
  {
    if a * b == a + b {
      forall x | x in a ensures x in b { assert x in a + b; }
      forall x | x in b ensures x in a { assert x in a + b; }
    }
  }

  // ----- grounding -----

  /** The default threshold of the hallucination flag. */
  const HALLUCINATION_THRESHOLD: real := 0.5

  /** `hallucination_grounding_score`: the share of the sections cited in
      the answer that the context cites too; 1 when the answer cites none. */
  function GroundingScore(answer: string, context: string): real
  {
    var cited := ExtractSections(answer);
    if cited == {} then 1.0
    else (|cited * ExtractSections(context)| as real) / (|cited| as real)
  }

  /** The grounding score lies in [0, 1], is 1 exactly when every cited
      section is in the context, and is the overlap ratio of the cited
      sections whenever there are any. */
  lemma GroundingScoreSpec(answer: string, context: string)
    ensures 0.0 <= GroundingScore(answer, context) <= 1.0
    ensures GroundingScore(answer, context) == 1.0 <==> ExtractSections(answer) <= ExtractSections(context)
    ensures ExtractSections(answer) != {} ==>
      GroundingScore(answer, context) == OverlapRatio(ExtractSections(answer), ExtractSections(context))
  {
    OverlapRatioSpec(ExtractSections(answer), ExtractSections(context));
  }

  /** `hallucination_flag`: 1 when the grounding score is under the
      threshold. */
  function HallucinationFlag(answer: string, context: string, threshold: real): int
  {
    if GroundingScore(answer, context) < threshold then 1 else 0
  }

  /** The flag is 0 or 1. With a threshold of at most 1, an answer citing no
      section is never flagged, and a flagged answer cites a section the
      context does not. */
  lemma HallucinationFlagSpec(answer: string, context: string, threshold: real)
    ensures HallucinationFlag(answer, context, threshold) in {0, 1}
    ensures threshold <= 1.0 && ExtractSections(answer) == {} ==> HallucinationFlag(answer, context, threshold) == 0
    ensures threshold <= 1.0 && HallucinationFlag(answer, context, threshold) == 1 ==>
      exists s :: s in ExtractSections(answer) && s !in ExtractSections(context)
  {
    GroundingScoreSpec(answer, context);
  }

  // ----- keyword hits -----

  /** Some keyword, lower-cased, occurs in the lower-cased text. */
  predicate AnyKeywordIn(lowered: string, keywords: seq<string>)
  {
    exists i :: 0 <= i < |keywords| && Contains(lowered, Lower(keywords[i]))
  }

  /** The loop of `offense_category_hit`: return 1 at the first keyword
      found. */
  function FirstHit(lowered: string, keywords: seq<string>): int
  {
    if keywords == [] then 0
    else if Contains(lowered, Lower(keywords[0])) then 1
    else FirstHit(lowered, keywords[1..])
  }

  /** `offense_category_hit` on the answer and `retrieval_offense_hit` on
      the context: the two are the same function. */
  function OffenseHit(text: string, keywords: seq<string>): int
  {
    FirstHit(Lower(text), keywords)
  }

  /** The hit is 0 or 1, and 1 exactly when some keyword occurs in the text,
      letter case aside. */
  lemma {:induction false} FirstHitSpec(lowered: string, keywords: seq<string>)
    ensures FirstHit(lowered, keywords) in {0, 1}
    ensures FirstHit(lowered, keywords) == 1 <==> AnyKeywordIn(lowered, keywords)
  {
    if keywords != [] {
      FirstHitSpec(lowered, keywords[1..]);
      if AnyKeywordIn(lowered, keywords[1..]) {
        var i :| 0 <= i < |keywords[1..]| && Contains(lowered, Lower(keywords[1..][i]));
        assert Contains(lowered, Lower(keywords[i + 1]));
      }
      if AnyKeywordIn(lowered, keywords) && !Contains(lowered, Lower(keywords[0])) {
        var i :| 0 <= i < |keywords| && Contains(lowered, Lower(keywords[i]));
        assert i > 0 && keywords[1..][i - 1] == keywords[i];
      }
    }
  }

  lemma OffenseHitSpec(text: string, keywords: seq<string>)
    ensures OffenseHit(text, keywords) in {0, 1}
    ensures OffenseHit(text, keywords) == 1 <==> AnyKeywordIn(Lower(text), keywords)
  {
    FirstHitSpec(Lower(text), keywords);
  }

  /** The fixed phrases of `has_safety_disclaimer`. */
  const DISCLAIMERS: seq<string> := [
    "consult a lawyer", "consult an advocate", "consult a legal", "legal professional",
    "legal expert", "qualified lawyer", "human lawyer"
  ]

  /** `has_safety_disclaimer`: 1 when the lower-cased answer contains one of
      the phrases. */
  function HasSafetyDisclaimer(text: string): int
  {
    if exists i :: 0 <= i < |DISCLAIMERS| && Contains(Lower(text), DISCLAIMERS[i]) then 1 else 0
  }

  /** The phrases are already lower case, so the disclaimer test is the
      keyword-hit test on the same phrases. */
  lemma SafetyDisclaimerIsHit(text: string)
    ensures HasSafetyDisclaimer(text) == OffenseHit(text, DISCLAIMERS)
  {
    DisclaimersLower();
    OffenseHitSpec(text, DISCLAIMERS);
  }

  lemma DisclaimersLower()
    ensures forall i :: 0 <= i < |DISCLAIMERS| ==> Lower(DISCLAIMERS[i]) == DISCLAIMERS[i]
  {
    forall i | 0 <= i < |DISCLAIMERS| ensures Lower(DISCLAIMERS[i]) == DISCLAIMERS[i] {
      LowerOfLower(DISCLAIMERS[i]);
    }
  }

  /** Lower-casing leaves a string without capitals as it is. */
  lemma LowerOfLower(s: string)
    requires forall i :: 0 <= i < |s| ==> IsAsciiLower(s[i]) || s[i] == ' '
    ensures Lower(s) == s
  {
  }

  /** Advice to consult a lawyer counts, whatever its letter case. */
  lemma ConsultALawyer()
    ensures HasSafetyDisclaimer("Consult a lawyer") == 1
  {
    var t := Lower("Consult a lawyer");
    assert t == "consult a lawyer";
    assert OccursAt(t, DISCLAIMERS[0], 0);
    ContainsIff(t, DISCLAIMERS[0]);
  }

  // ----- coverage -----

  /** A phrase counts towards coverage when it has content words. */
  predicate Counted(phrase: string)
  {
    Tokenize(phrase) != {}
  }

  /** A counted phrase is covered when one of its content words occurs. */
  predicate CoveredBy(phrase: string, words: set<string>)
  {
    Tokenize(phrase) * words != {}
  }

  /** The loop of the coverage metrics: `(covered, total)` over the phrases,
      skipping phrases without content words. */
  function CoverageCounts(phrases: seq<string>, words: set<string>): (nat, nat)
  {
    if phrases == [] then (0, 0)
    else
      var (covered, total) := CoverageCounts(phrases[1..], words);
      if !Counted(phrases[0]) then (covered, total)
      else if CoveredBy(phrases[0], words) then (covered + 1, total + 1)
      else (covered, total + 1)
  }

  /** The counts are the covered phrases among the counted ones, and the
      counted ones. */
  lemma {:induction false} CoverageCountsSpec(phrases: seq<string>, words: set<string>)
    ensures CoverageCounts(phrases, words).1 == |Filter(phrases, Counted)|
    ensures CoverageCounts(phrases, words).0
      == |Filter(Filter(phrases, Counted), (p: string) => CoveredBy(p, words))|
  {
    if phrases != [] {
      CoverageCountsSpec(phrases[1..], words);
      assert phrases == [phrases[0]] + phrases[1..];
      FilterAppend([phrases[0]], phrases[1..], Counted);
      var counted := Filter(phrases, Counted);
      var rest := Filter(phrases[1..], Counted);
      if Counted(phrases[0]) {
        assert counted == [phrases[0]] + rest;
        FilterAppend([phrases[0]], rest, (p: string) => CoveredBy(p, words));
      } else {
        assert counted == rest;
      }
    }
  }

  /** `offense_keyword_coverage`, `retrieval_offense_keyword_coverage` and
      `key_issue_coverage`: the share of counted phrases with a content word
      in the text; 0 when there are no phrases or none is counted. */
  function Coverage(text: string, phrases: seq<string>): real
  {
    var words := Tokenize(text);
    if phrases == [] then 0.0
    else
      var (covered, total) := CoverageCounts(phrases, words);
      if total == 0 then 0.0 else (covered as real) / (total as real)
  }

  /** Coverage lies in [0, 1]; it is 0 when no phrase has content words, and
      1 exactly when some phrase is counted and every counted phrase shares
      a content word with the text. */
  lemma CoverageSpec(text: string, phrases: seq<string>)
    ensures 0.0 <= Coverage(text, phrases) <= 1.0
    ensures (forall i :: 0 <= i < |phrases| ==> !Counted(phrases[i])) ==> Coverage(text, phrases) == 0.0
    ensures Coverage(text, phrases) == 1.0 <==>
      && (exists i :: 0 <= i < |phrases| && Counted(phrases[i]))
      && (forall i :: 0 <= i < |phrases| && Counted(phrases[i]) ==> CoveredBy(phrases[i], Tokenize(text)))
  {
    var words := Tokenize(text);
    var counted := Filter(phrases, Counted);
    var covered := Filter(counted, (p: string) => CoveredBy(p, words));
    CoverageCountsSpec(phrases, words);
    if counted != [] {
      RatioSpec(|covered|, |counted|);
    }
    SomeCounted(phrases);
    AllCountedCovered(phrases, words);
  }

  /** `k / n` for counts `k <= n`: in [0, 1], and 1 exactly when `k == n`. */
  lemma RatioSpec(k: nat, n: nat)
    requires k <= n && n > 0
    ensures 0.0 <= (k as real) / (n as real) <= 1.0
    ensures (k as real) / (n as real) == 1.0 <==> k == n
    ensures (k as real) / (n as real) == 0.0 <==> k == 0
  {
  }

  /** Some phrase is counted exactly when the counted list is non-empty. */
  lemma SomeCounted(phrases: seq<string>)
    ensures Filter(phrases, Counted) != [] <==> exists i :: 0 <= i < |phrases| && Counted(phrases[i])
  {
    var counted := Filter(phrases, Counted);
    FilterMembers(phrases, Counted);
    if counted != [] {
      assert counted[0] in counted;
    }
    if exists i :: 0 <= i < |phrases| && Counted(phrases[i]) {
      var i :| 0 <= i < |phrases| && Counted(phrases[i]);
      assert phrases[i] in counted;
    }
  }

  /** Filtering the counted phrases by coverage keeps all of them exactly
      when every counted phrase is covered. */
  lemma AllCountedCovered(phrases: seq<string>, words: set<string>)
    ensures |Filter(Filter(phrases, Counted), (p: string) => CoveredBy(p, words))| == |Filter(phrases, Counted)|
      <==> forall i :: 0 <= i < |phrases| && Counted(phrases[i]) ==> CoveredBy(phrases[i], words)
  {
    var counted := Filter(phrases, Counted);
    var cover := (p: string) => CoveredBy(p, words);
    FilterMembers(phrases, Counted);
    if |Filter(counted, cover)| == |counted| {
      FilterKeepsAll(counted, cover);
      forall i | 0 <= i < |phrases| && Counted(phrases[i]) ensures CoveredBy(phrases[i], words) {
        assert phrases[i] in counted;
      }
    }
    if forall i :: 0 <= i < |phrases| && Counted(phrases[i]) ==> CoveredBy(phrases[i], words) {
      forall j | 0 <= j < |counted| ensures cover(counted[j]) {
        assert counted[j] in counted;
      }
      FilterAll(counted, cover);
    }
  }

  /** A filter that keeps the whole length keeps every element. */
  lemma {:induction false} FilterKeepsAll<T>(s: seq<T>, p: T -> bool)
    ensures |Filter(s, p)| == |s| ==> forall x :: x in s ==> p(x)
  {
    if s != [] {
      FilterKeepsAll(s[1..], p);
      if p(s[0]) {
        assert Filter(s, p) == [s[0]] + Filter(s[1..], p);
        assert forall x :: x in s ==> x == s[0] || x in s[1..];
      } else {
        assert Filter(s, p) == Filter(s[1..], p);
      }
    }
  }

  // ----- per-case metrics -----

  /** `"\n\n".join(...)` of the retrieved documents' texts. */
  function JoinDocs(docs: seq<string>): string
  {
    if |docs| == 0 then "" else if |docs| == 1 then docs[0] else docs[0] + "\n\n" + JoinDocs(docs[1..])
  }

  /** The gold annotation of a test case. */
  datatype Gold = Gold(offenseKeywords: seq<string>, keyIssues: seq<string>)

  /** The semantic metrics of one case. */
  datatype SemanticMetrics = SemanticMetrics(
    offenseHit: int,
    retrievalOffenseHit: int,
    offenseKeywordCoverage: real,
    retrievalOffenseKeywordCoverage: real,
    completeness: real,
    keyIssueCoverage: real,
    answerRelevance: real,
    contextRelevance: real,
    groundingScore: real,
    hallucinationFlag: int)

  /** `run_single_case` after the pipeline call: the metrics of an answer
      and its retrieved documents against the case description and gold
      annotation. */
  function SemanticCase(description: string, gold: Gold, answer: string, docs: seq<string>): SemanticMetrics
  {
    var context := JoinDocs(docs);
    SemanticMetrics(
      OffenseHit(answer, gold.offenseKeywords),
      OffenseHit(context, gold.offenseKeywords),
      Coverage(answer, gold.offenseKeywords),
      Coverage(context, gold.offenseKeywords),
      OverlapRatio(Tokenize(JoinSpace(gold.keyIssues)), Tokenize(answer)),
      Coverage(answer, gold.keyIssues),
      Jaccard(Tokenize(description), Tokenize(answer)),
      Jaccard(Tokenize(answer), Tokenize(context)),
      GroundingScore(answer, context),
      HallucinationFlag(answer, context, HALLUCINATION_THRESHOLD))
  }

  /** Every semantic metric is a 0/1 flag or a ratio in [0, 1]; the flag is
      raised only for an answer citing a section the context lacks. */
  lemma SemanticCaseSpec(description: string, gold: Gold, answer: string, docs: seq<string>)
    ensures var m := SemanticCase(description, gold, answer, docs);
      && m.offenseHit in {0, 1} && m.retrievalOffenseHit in {0, 1} && m.hallucinationFlag in {0, 1}
      && 0.0 <= m.offenseKeywordCoverage <= 1.0 && 0.0 <= m.retrievalOffenseKeywordCoverage <= 1.0
      && 0.0 <= m.completeness <= 1.0 && 0.0 <= m.keyIssueCoverage <= 1.0
      && 0.0 <= m.answerRelevance <= 1.0 && 0.0 <= m.contextRelevance <= 1.0
      && 0.0 <= m.groundingScore <= 1.0
      && (m.hallucinationFlag == 1 ==> exists s :: s in ExtractSections(answer) && s !in ExtractSections(JoinDocs(docs)))
  {
    var context := JoinDocs(docs);
    OffenseHitSpec(answer, gold.offenseKeywords);
    OffenseHitSpec(context, gold.offenseKeywords);
    CoverageSpec(answer, gold.offenseKeywords);
    CoverageSpec(context, gold.offenseKeywords);
    OverlapRatioSpec(Tokenize(JoinSpace(gold.keyIssues)), Tokenize(answer));
    CoverageSpec(answer, gold.keyIssues);
    JaccardSpec(Tokenize(description), Tokenize(answer));
    JaccardSpec(Tokenize(answer), Tokenize(context));
    GroundingScoreSpec(answer, context);
    HallucinationFlagSpec(answer, context, HALLUCINATION_THRESHOLD);
  }

  /** The metrics of the ten-query scripts, latencies aside. */
  datatype QueryMetrics = QueryMetrics(
    answerLenWords: nat,
    contextSectionCount: nat,
    answerSectionCount: nat,
    groundedSectionFraction: real,
    contextOverlapRatio: real,
    queryAnswerOverlapRatio: real,
    hasSafetyDisclaimer: int)

  /** `compute_metrics` of the ten-query scripts. */
  function QueryCase(answer: string, docs: seq<string>, rephrasedQuery: string): QueryMetrics
  {
    var context := JoinDocs(docs);
    var contextSections := ExtractSections(context);
    var answerSections := ExtractSections(answer);
    var grounded := if |answerSections| > 0 then (|answerSections * contextSections| as real) / (|answerSections| as real)
                    else 1.0;
    QueryMetrics(
      |Words(answer)|,
      |contextSections|,
      |answerSections|,
      grounded,
      OverlapRatio(Tokenize(answer), Tokenize(context)),
      OverlapRatio(Tokenize(rephrasedQuery), Tokenize(answer)),
      HasSafetyDisclaimer(answer))
  }

  /** The grounded fraction is the grounding score of the semantic
      evaluation: in [0, 1], and 1 exactly when the answer's sections all
      appear in the context. The section counts are sizes of sets of
      distinct ids, the word count is that of `split()`, and the overlaps
      lie in [0, 1]. */
  lemma QueryCaseSpec(answer: string, docs: seq<string>, rephrasedQuery: string)
    ensures var m := QueryCase(answer, docs, rephrasedQuery);
      && m.groundedSectionFraction == GroundingScore(answer, JoinDocs(docs))
      && 0.0 <= m.groundedSectionFraction <= 1.0
      && (m.groundedSectionFraction == 1.0 <==> ExtractSections(answer) <= ExtractSections(JoinDocs(docs)))
      && m.answerSectionCount == |ExtractSections(answer)|
      && m.contextSectionCount == |ExtractSections(JoinDocs(docs))|
      && 0.0 <= m.contextOverlapRatio <= 1.0 && 0.0 <= m.queryAnswerOverlapRatio <= 1.0
      && m.hasSafetyDisclaimer in {0, 1}
  {
    GroundingScoreSpec(answer, JoinDocs(docs));
    OverlapRatioSpec(Tokenize(answer), Tokenize(JoinDocs(docs)));
    OverlapRatioSpec(Tokenize(rephrasedQuery), Tokenize(answer));
  }

  /** The word count of an answer made of given words separated by single
      spaces is the number of those words. */
  lemma AnswerLenWordsOfJoin(ws: seq<string>)
    requires forall i :: 0 <= i < |ws| ==> ws[i] != [] && NoSpace(ws[i])
    ensures QueryCase(JoinSpace(ws), [], "").answerLenWords == |ws|
  {
    WordsJoinSpace(ws);
  }
}

=== FILE: graph_store.dfy ===
/**
 * The knowledge-graph lookups the workflow makes: provisions (sections or
 * articles) by number, and the cases citing a set of provision ids. The
 * Cypher queries themselves run against Neo4j and are oracles here; what is
 * modelled is the wrapper around them: the request is reduced to the set of
 * its non-empty values, an empty request is answered with no rows without
 * touching the database, and a driver failure surfaces as an error value.
 */
module GraphStore {
  import opened Wrappers

  /** A section or article row: its id, its number, and the Act it belongs
      to. The first version's queries return no Act name. */
  datatype Provision = Provision(
    provisionId: string,
    number: string,
    actId: Option<string>,
    actName: Option<string>,
    fullText: Option<string>)

  /** A case row returned by the citation lookup. */
  datatype CaseRef = CaseRef(caseId: string, year: Option<int>)

  /** The three graph queries. Each receives the de-duplicated request (and,
      for provisions, the Act to restrict to, `None` for any Act) and either
      returns its rows or fails with the driver's message; an unreachable
      database is one whose every query fails. */
  datatype GraphDb = GraphDb(
    sectionsQuery: (set<string>, Option<string>) -> Result<seq<Provision>>,
    articlesQuery: (set<string>, Option<string>) -> Result<seq<Provision>>,
    casesQuery: set<string> -> Result<seq<CaseRef>>)

  /** `{n for n in values if n}`. */
  function Requested(values: seq<string>): (r: set<string>)
    ensures forall x :: x in r <==> x in values && x != ""
  {
    set x | x in values && x != ""
  }

  /** `get_sections_by_numbers(numbers, act_id)`. */
  function SectionsByNumbers(db: GraphDb, numbers: seq<string>, actId: Option<string>): (r: Result<seq<Provision>>)
    ensures (forall i :: 0 <= i < |numbers| ==> numbers[i] == "") ==> r == Ok([])
  {
    var q := Requested(numbers);
    if q == {} then Ok([]) else db.sectionsQuery(q, actId)
  }

  /** `get_articles_by_numbers(numbers, act_id)`. */
  function ArticlesByNumbers(db: GraphDb, numbers: seq<string>, actId: Option<string>): (r: Result<seq<Provision>>)
    ensures (forall i :: 0 <= i < |numbers| ==> numbers[i] == "") ==> r == Ok([])
  {
    var q := Requested(numbers);
    if q == {} then Ok([]) else db.articlesQuery(q, actId)
  }

  /** `get_cases_citing_ids(ids)`. */
  function CasesCiting(db: GraphDb, ids: seq<string>): (r: Result<seq<CaseRef>>)
    ensures (forall i :: 0 <= i < |ids| ==> ids[i] == "") ==> r == Ok([])
  {
    var q := Requested(ids);
    if q == {} then Ok([]) else db.casesQuery(q)
  }

  /** An empty request never reaches the database, so it succeeds with no
      rows even when every query of `db` fails; a non-empty request is passed
      on as the set of its non-empty values. */
  lemma LookupShortCircuit(db: GraphDb, values: seq<string>, actId: Option<string>)
    ensures Requested(values) == {} <==> forall i :: 0 <= i < |values| ==> values[i] == ""
    ensures Requested(values) != {} ==>
      && SectionsByNumbers(db, values, actId) == db.sectionsQuery(Requested(values), actId)
      && ArticlesByNumbers(db, values, actId) == db.articlesQuery(Requested(values), actId)
      && CasesCiting(db, values) == db.casesQuery(Requested(values))
  {
    forall i | 0 <= i < |values| && values[i] != "" ensures values[i] in Requested(values) {
    }
    if Requested(values) != {} {
      var x :| x in Requested(values);
      var i :| 0 <= i < |values| && values[i] == x;
    }
  }

  /** Order, repetition and empty strings in a request make no difference
      to any lookup. */
  lemma LookupsIgnoreOrderAndRepeats(db: GraphDb, a: seq<string>, b: seq<string>, actId: Option<string>)
    requires forall x :: x != "" ==> (x in a <==> x in b)
    ensures SectionsByNumbers(db, a, actId) == SectionsByNumbers(db, b, actId)
    ensures ArticlesByNumbers(db, a, actId) == ArticlesByNumbers(db, b, actId)
    ensures CasesCiting(db, a) == CasesCiting(db, b)
  {
    assert Requested(a) == Requested(b);
  }
}

=== FILE: grouping.dfy ===
/**
 * `group_by_source`: retrieved chunks grouped by source type and then by
 * source id, each group remembering its best score. Python's nested dicts
 * keep first-insertion order, so the grouping is a list of types, each with
 * a list of groups, in order of first appearance.
 */
module Grouping {
  import opened Wrappers
  import opened Seqs
  import opened Chunks

  /** One source with the chunks retrieved from it. */
  datatype Group = Group(sourceType: string, sourceId: string, chunks: seq<Chunk>, maxScore: real)

  /** All groups of one source type. */
  datatype TypeGroups = TypeGroups(sourceType: string, groups: seq<Group>)

  type Grouped = seq<TypeGroups>

  /** `source_type or "unknown"`. */
  function TypeKey(c: Chunk): string
  {
    OrDefault(c.sourceType, "unknown")
  }

  /** `source_id or "unknown"`. */
  function IdKey(c: Chunk): string
  {
    OrDefault(c.sourceId, "unknown")
  }

  /** The group `c` lands in after being added to `o` (a new group when
      there is none yet); the best score only moves on a strictly higher
      score. */
  function Extend(o: Option<Group>, c: Chunk, stype: string, sid: string): Group
  {
    if o.None? then Group(stype, sid, [c], c.score)
    else
      var g := o.value;
      g.(chunks := g.chunks + [c], maxScore := if c.score > g.maxScore then c.score else g.maxScore)
  }

  /** `grouped[stype].setdefault(sid, ...)` followed by the append and the
      maximum update. */
  function AddToGroups(gs: seq<Group>, c: Chunk, stype: string, sid: string): seq<Group>
  {
    if gs == [] then [Extend(None, c, stype, sid)]
    else if gs[0].sourceId == sid then [Extend(Some(gs[0]), c, stype, sid)] + gs[1..]
    else [gs[0]] + AddToGroups(gs[1..], c, stype, sid)
  }

  /** One iteration of the loop of `group_by_source`. */
  function AddChunk(g: Grouped, c: Chunk): Grouped
  {
    var stype := TypeKey(c);
    if g == [] then [TypeGroups(stype, AddToGroups([], c, stype, IdKey(c)))]
    else if g[0].sourceType == stype then [g[0].(groups := AddToGroups(g[0].groups, c, stype, IdKey(c)))] + g[1..]
    else [g[0]] + AddChunk(g[1..], c)
  }

  /** `group_by_source(chunks)`. */
  function GroupBySource(cs: seq<Chunk>): Grouped
  {
    if cs == [] then [] else AddChunk(GroupBySource(cs[..|cs| - 1]), cs[|cs| - 1])
  }

  /** `grouped.get(sid)` within one source type. */
  function LookupId(gs: seq<Group>, sid: string): Option<Group>
  {
    if gs == [] then None else if gs[0].sourceId == sid then Some(gs[0]) else LookupId(gs[1..], sid)
  }

  /** `grouped.get(stype, {}).get(sid)`. */
  function Lookup(g: Grouped, stype: string, sid: string): Option<Group>
  {
    if g == [] then None else if g[0].sourceType == stype then LookupId(g[0].groups, sid) else Lookup(g[1..], stype, sid)
  }

  /** The chunks, in input order, that belong to the source `(stype, sid)`. */
  function Bucket(cs: seq<Chunk>, stype: string, sid: string): seq<Chunk>
  {
    Filter(cs, (c: Chunk) => TypeKey(c) == stype && IdKey(c) == sid)
  }

  /** The group a correct grouping holds for `(stype, sid)`: none for a
      source without chunks, otherwise all its chunks in input order and the
      highest of their scores. */
  function Expected(cs: seq<Chunk>, stype: string, sid: string): Option<Group>
  {
    var b := Bucket(cs, stype, sid);
    if b == [] then None else Some(Group(stype, sid, b, MaxScore(b)))
  }

  lemma {:induction false} AddToGroupsLookup(gs: seq<Group>, c: Chunk, stype: string, sid: string, s: string)
    ensures LookupId(AddToGroups(gs, c, stype, sid), s) ==
      if s == sid then Some(Extend(LookupId(gs, sid), c, stype, sid)) else LookupId(gs, s)
  {
    if gs != [] && gs[0].sourceId != sid {
      AddToGroupsLookup(gs[1..], c, stype, sid, s);
    }
  }

  lemma {:induction false} AddChunkLookup(g: Grouped, c: Chunk, t: string, s: string)
    ensures Lookup(AddChunk(g, c), t, s) ==
      if t == TypeKey(c) && s == IdKey(c) then Some(Extend(Lookup(g, t, s), c, t, s)) else Lookup(g, t, s)
  {
    if g == [] {
      AddToGroupsLookup([], c, TypeKey(c), IdKey(c), s);
    } else if g[0].sourceType == TypeKey(c) {
      AddToGroupsLookup(g[0].groups, c, TypeKey(c), IdKey(c), s);
    } else {
      AddChunkLookup(g[1..], c, t, s);
    }
  }

  /** Appending a chunk raises the best score only when it is strictly higher. */
  lemma {:induction false} MaxScoreSnoc(b: seq<Chunk>, c: Chunk)
    requires b != []
    ensures MaxScore(b + [c]) == if c.score > MaxScore(b) then c.score else MaxScore(b)
  {
    if |b| == 1 {
      assert (b + [c])[1..] == [c];
    } else {
      assert (b + [c])[1..] == b[1..] + [c];
      MaxScoreSnoc(b[1..], c);
    }
  }

  lemma BucketSnoc(p: seq<Chunk>, c: Chunk, t: string, s: string)
    ensures Bucket(p + [c], t, s) ==
      if TypeKey(c) == t && IdKey(c) == s then Bucket(p, t, s) + [c] else Bucket(p, t, s)
  {
    FilterAppend(p, [c], (x: Chunk) => TypeKey(x) == t && IdKey(x) == s);
  }

  /** Every source's group holds exactly that source's chunks, in input
      order, with the maximum of their scores; sources without chunks have
      no group. */
  lemma {:induction false} GroupBySourceLookup(cs: seq<Chunk>, t: string, s: string)
    ensures Lookup(GroupBySource(cs), t, s) == Expected(cs, t, s)
    decreases |cs|
  {
    if cs != [] {
      var p := cs[..|cs| - 1];
      var c := cs[|cs| - 1];
      assert cs == p + [c];
      GroupBySourceLookup(p, t, s);
      AddChunkLookup(GroupBySource(p), c, t, s);
      BucketSnoc(p, c, t, s);
      if TypeKey(c) == t && IdKey(c) == s {
        if Bucket(p, t, s) == [] {
          assert Bucket(cs, t, s) == [c];
          assert MaxScore([c]) == c.score;
        } else {
          MaxScoreSnoc(Bucket(p, t, s), c);
        }
      }
    }
  }

  /** The type keys, in order. */
  function TypeKeys(g: Grouped): seq<string>
  {
    seq(|g|, i requires 0 <= i < |g| => g[i].sourceType)
  }

  /** The source ids of one type's groups, in order. */
  function IdKeys(gs: seq<Group>): seq<string>
  {
    seq(|gs|, i requires 0 <= i < |gs| => gs[i].sourceId)
  }

  /** No key is listed twice, and each group records the type it is
      filed under. */
  predicate WellKeyed(g: Grouped)
  {
    && Distinct(TypeKeys(g))
    && (forall i :: 0 <= i < |g| ==> Distinct(IdKeys(g[i].groups)))
    && (forall i, j :: 0 <= i < |g| && 0 <= j < |g[i].groups| ==> g[i].groups[j].sourceType == g[i].sourceType)
  }

  lemma {:induction false} AddToGroupsKeys(gs: seq<Group>, c: Chunk, stype: string, sid: string)
    requires Distinct(IdKeys(gs))
    ensures Distinct(IdKeys(AddToGroups(gs, c, stype, sid)))
    ensures forall x :: x in IdKeys(AddToGroups(gs, c, stype, sid)) <==> x in IdKeys(gs) || x == sid
    ensures (forall j :: 0 <= j < |gs| ==> gs[j].sourceType == stype) ==>
      forall j :: 0 <= j < |AddToGroups(gs, c, stype, sid)| ==> AddToGroups(gs, c, stype, sid)[j].sourceType == stype
  {
    var r := AddToGroups(gs, c, stype, sid);
    if gs == [] {
      assert IdKeys(r) == [sid];
    } else if gs[0].sourceId == sid {
      assert IdKeys(r) == IdKeys(gs);
      assert IdKeys(gs)[0] == sid;
    } else {
      var rest := AddToGroups(gs[1..], c, stype, sid);
      assert IdKeys(gs[1..]) == IdKeys(gs)[1..];
      AddToGroupsKeys(gs[1..], c, stype, sid);
      assert IdKeys(r) == [gs[0].sourceId] + IdKeys(rest);
      assert IdKeys(gs) == [gs[0].sourceId] + IdKeys(gs[1..]);
      DistinctCons(gs[0].sourceId, IdKeys(gs[1..]));
      DistinctCons(gs[0].sourceId, IdKeys(rest));
      if forall j :: 0 <= j < |gs| ==> gs[j].sourceType == stype {
        forall j | 1 <= j < |r|
          ensures r[j].sourceType == stype
        {
          assert r[j] == rest[j - 1];
        }
      }
    }
  }

  lemma {:induction false} AddChunkKeys(g: Grouped, c: Chunk)
    requires WellKeyed(g)
    ensures WellKeyed(AddChunk(g, c))
    ensures forall x :: x in TypeKeys(AddChunk(g, c)) <==> x in TypeKeys(g) || x == TypeKey(c)
  {
    var stype := TypeKey(c);
    var r := AddChunk(g, c);
    if g == [] {
      assert TypeKeys(r) == [stype];
      AddToGroupsKeys([], c, stype, IdKey(c));
    } else if g[0].sourceType == stype {
      AddToGroupsKeys(g[0].groups, c, stype, IdKey(c));
      assert TypeKeys(r) == TypeKeys(g);
      assert TypeKeys(g)[0] == stype;
    } else {
      var rest := AddChunk(g[1..], c);
      assert TypeKeys(g[1..]) == TypeKeys(g)[1..];
      AddChunkKeys(g[1..], c);
      assert TypeKeys(r) == [g[0].sourceType] + TypeKeys(rest);
      assert TypeKeys(g) == [g[0].sourceType] + TypeKeys(g[1..]);
      DistinctCons(g[0].sourceType, TypeKeys(g[1..]));
      DistinctCons(g[0].sourceType, TypeKeys(rest));
      forall i | 0 <= i < |r|
        ensures Distinct(IdKeys(r[i].groups))
        ensures forall j :: 0 <= j < |r[i].groups| ==> r[i].groups[j].sourceType == r[i].sourceType
      {
        if i > 0 {
          assert r[i] == rest[i - 1];
        }
      }
    }
  }

  /** The grouping never lists a type twice, nor a source twice within a
      type. */
  lemma {:induction false} GroupBySourceKeys(cs: seq<Chunk>)
    ensures WellKeyed(GroupBySource(cs))
    decreases |cs|
  {
    if cs != [] {
      GroupBySourceKeys(cs[..|cs| - 1]);
      AddChunkKeys(GroupBySource(cs[..|cs| - 1]), cs[|cs| - 1]);
    }
  }

  lemma {:induction false} LookupIdFinds(gs: seq<Group>, j: nat)
    requires Distinct(IdKeys(gs)) && j < |gs|
    ensures LookupId(gs, gs[j].sourceId) == Some(gs[j])
  {
    if j > 0 {
      assert IdKeys(gs)[0] != IdKeys(gs)[j];
      assert IdKeys(gs[1..]) == IdKeys(gs)[1..];
      LookupIdFinds(gs[1..], j - 1);
    }
  }

  lemma {:induction false} LookupFinds(g: Grouped, i: nat, j: nat)
    requires WellKeyed(g) && i < |g| && j < |g[i].groups|
    ensures Lookup(g, g[i].sourceType, g[i].groups[j].sourceId) == Some(g[i].groups[j])
  {
    if i == 0 {
      LookupIdFinds(g[0].groups, j);
    } else {
      assert TypeKeys(g)[0] != TypeKeys(g)[i];
      assert TypeKeys(g[1..]) == TypeKeys(g)[1..];
      LookupFinds(g[1..], i - 1, j);
    }
  }

  /** Every listed group is the full, non-empty bucket of its own source,
      with that bucket's best score: the grouping is a partition of the
      input in which each chunk lands in exactly the group of its key. */
  lemma GroupsAreBuckets(cs: seq<Chunk>, i: nat, j: nat)
    requires i < |GroupBySource(cs)| && j < |GroupBySource(cs)[i].groups|
    ensures var grp := GroupBySource(cs)[i].groups[j];
      && grp.sourceType == GroupBySource(cs)[i].sourceType
      && grp.chunks == Bucket(cs, grp.sourceType, grp.sourceId) != []
      && grp.maxScore == MaxScore(grp.chunks)
  {
    var g := GroupBySource(cs);
    GroupBySourceKeys(cs);
    LookupFinds(g, i, j);
    GroupBySourceLookup(cs, g[i].sourceType, g[i].groups[j].sourceId);
  }
}

=== FILE: judgments.dfy ===
/**
 * Loading of the Supreme Court judgments: choosing the id, text and year
 * columns of a table by case-insensitive candidate names, reading a year out
 * of a cell, and the year and case id of a judgment taken from an extracted
 * folder or from the path of a PDF inside a zip archive. Reading files and
 * extracting PDF text are oracles.
 */
module Judgments {
  import opened Wrappers
  import opened Seqs
  import opened Text

  const ID_COLUMNS: seq<string> := ["case_id", "id", "case_number", "case_no", "caseid"]
  const TEXT_COLUMNS: seq<string> := ["judgment_text", "text", "judgment", "case_text", "content"]
  const YEAR_COLUMNS: seq<string> := ["year", "judgment_date", "date", "judgement_date", "decision_date"]

  // ----- _find_column -----

  /** The last column whose lower-cased name is `key`: the entry that
      survives in `{c.lower(): c for c in columns}`. */
  function LastWithLower(columns: seq<string>, key: string): (r: Option<string>)
    ensures r.Some? ==> r.value in columns && Lower(r.value) == key
  {
    if columns == [] then None
    else
      var last := columns[|columns| - 1];
      if Lower(last) == key then Some(last) else LastWithLower(columns[..|columns| - 1], key)
  }

  /** `_find_column`: the column of the first candidate that some column
      matches case-insensitively. */
  function FindColumn(columns: seq<string>, candidates: seq<string>): Option<string>
  {
    if candidates == [] then None
    else
      var m := LastWithLower(columns, Lower(candidates[0]));
      if m.Some? then m else FindColumn(columns, candidates[1..])
  }

  /** No column's lower-cased name is `key`. */
  predicate NoneLower(columns: seq<string>, key: string)
  {
    forall i :: 0 <= i < |columns| ==> Lower(columns[i]) != key
  }

  /** The lookup finds the last column with the lower-cased name, and finds
      none exactly when no column has it. */
  lemma {:induction false} LastWithLowerSpec(columns: seq<string>, key: string)
    ensures LastWithLower(columns, key).None? <==> NoneLower(columns, key)
    ensures LastWithLower(columns, key).Some? ==>
      exists i :: 0 <= i < |columns| && columns[i] == LastWithLower(columns, key).value
        && NoneLower(columns[i + 1..], key)
  {
    if columns != [] {
      var n := |columns| - 1;
      var init := columns[..n];
      if Lower(columns[n]) == key {
        assert columns[n + 1..] == [];
      } else {
        LastWithLowerSpec(init, key);
        if LastWithLower(init, key).Some? {
          var i :| 0 <= i < |init| && init[i] == LastWithLower(init, key).value && NoneLower(init[i + 1..], key);
          var tail := columns[i + 1..];
          assert tail == init[i + 1..] + [columns[n]];
          forall k | 0 <= k < |tail| ensures Lower(tail[k]) != key {
            if k < |tail| - 1 {
              assert tail[k] == init[i + 1..][k];
            }
          }
        } else {
          assert forall k :: 0 <= k < n ==> columns[k] == init[k];
        }
      }
    }
  }

  /** `_find_column` returns a column matching the first candidate, in
      candidate order, that any column matches (the last such column when
      several do), and `None` when no candidate matches. */
  lemma {:induction false} FindColumnSpec(columns: seq<string>, candidates: seq<string>)
    ensures FindColumn(columns, candidates).None? <==>
      forall k :: 0 <= k < |candidates| ==> NoneLower(columns, Lower(candidates[k]))
    ensures FindColumn(columns, candidates).Some? ==>
      exists k :: 0 <= k < |candidates|
        && FindColumn(columns, candidates) == LastWithLower(columns, Lower(candidates[k]))
        && forall j :: 0 <= j < k ==> NoneLower(columns, Lower(candidates[j]))
  {
    if candidates != [] {
      var m := LastWithLower(columns, Lower(candidates[0]));
      LastWithLowerSpec(columns, Lower(candidates[0]));
      FindColumnSpec(columns, candidates[1..]);
      if m.None? {
        assert forall k :: 1 <= k < |candidates| ==> candidates[k] == candidates[1..][k - 1];
        if FindColumn(columns, candidates).Some? {
          var k :| 0 <= k < |candidates[1..]|
            && FindColumn(columns, candidates[1..]) == LastWithLower(columns, Lower(candidates[1..][k]))
            && forall j :: 0 <= j < k ==> NoneLower(columns, Lower(candidates[1..][j]));
          assert FindColumn(columns, candidates) == LastWithLower(columns, Lower(candidates[k + 1]));
        }
      }
    }
  }

  /** When two columns differ only in case, the later one is chosen. */
  lemma FindColumnLastWins()
    ensures FindColumn(["Text", "text"], ["text"]) == Some("text")
  {
    assert Lower("text") == "text";
  }

  // ----- _parse_year -----

  /** A table cell: missing (`NaN`), a number, or a string. */
  datatype Cell = Missing | Num(n: int) | Str(s: string)

  predicate InYearRange(y: int) { 1900 <= y <= 2100 }

  /** Four digits start at `j`. */
  predicate FourDigitsAt(s: string, j: int)
  {
    0 <= j && j + 4 <= |s| && AllDigits(s[j..j + 4])
  }

  /** Where `re.search(r"(\d{4})", s)` matches, searching from `i`. */
  function FirstFourDigits(s: string, i: nat): (r: Option<nat>)
    ensures r.Some? ==> i <= r.value && FourDigitsAt(s, r.value)
    ensures r.Some? ==> forall j :: i <= j < r.value ==> !FourDigitsAt(s, j)
    ensures r.None? ==> forall j :: i <= j ==> !FourDigitsAt(s, j)
    decreases |s| - i
  {
    if i + 4 > |s| then None
    else if FourDigitsAt(s, i) then Some(i)
    else FirstFourDigits(s, i + 1)
  }

  /** `_parse_year`. */
  function ParseYear(c: Cell): (r: Option<int>)
    ensures r.Some? ==> InYearRange(r.value)
  {
    match c
    case Missing => None
    case Num(n) => if InYearRange(n) then Some(n) else None
    case Str(s) =>
      var t := Strip(s);
      match FirstFourDigits(t, 0)
      case None => None
      case Some(j) =>
        var y := DigitsValue(t[j..j + 4]);
        if InYearRange(y) then Some(y) else None
  }

  /** For a string, the year is read from the first run of four digits
      only: when that run is out of range, later runs are not tried. */
  lemma ParseYearOfString(s: string)
    ensures ParseYear(Str(s)).Some? <==>
      exists j :: FourDigitsAt(Strip(s), j) && (forall k :: 0 <= k < j ==> !FourDigitsAt(Strip(s), k))
        && InYearRange(DigitsValue(Strip(s)[j..j + 4]))
    ensures ParseYear(Str(s)).Some? ==>
      exists j :: FourDigitsAt(Strip(s), j) && ParseYear(Str(s)).value == DigitsValue(Strip(s)[j..j + 4])
  {
    var t := Strip(s);
    var f := FirstFourDigits(t, 0);
    if f.Some? {
      forall j | FourDigitsAt(t, j) && (forall k :: 0 <= k < j ==> !FourDigitsAt(t, k))
        ensures j == f.value
      {
      }
    }
  }

  /** `"0001-2016"` has no year: its first four digits are `0001`. */
  lemma ParseYearFirstRunOnly()
    ensures ParseYear(Str("0001-2016")) == None
  {
    var t := "0001-2016";
    PrintableNotSpace('0');
    PrintableNotSpace('6');
    StripFixed(t);
    assert FourDigitsAt(t, 0);
    assert t[0..4] == "0001";
    assert DigitsValue("0001") == 1 by {
      assert "0001"[..3] == "000" && "000"[..2] == "00" && "00"[..1] == "0" && "0"[..0] == "";
    }
  }

  /** A four-digit number renders as four characters. */
  lemma FourDigitString(y: nat)
    requires 1000 <= y <= 9999
    ensures |NatToString(y)| == 4
  {
    assert NatToString(y) == NatToString(y / 10) + [DigitChar(y % 10)];
    assert NatToString(y / 10) == NatToString(y / 100) + [DigitChar(y / 10 % 10)];
    assert NatToString(y / 100) == NatToString(y / 1000) + [DigitChar(y / 100 % 10)];
  }

  /** A year written out as a string parses back to itself, as does the
      number. */
  lemma ParseYearRoundTrip(y: int)
    requires InYearRange(y)
    ensures ParseYear(Str(NatToString(y))) == Some(y)
    ensures ParseYear(Num(y)) == Some(y)
  {
    var s := NatToString(y);
    FourDigitString(y);
    assert !IsSpace(s[0]) && !IsSpace(s[3]);
    StripFixed(s);
    assert s[0..4] == s;
    assert FourDigitsAt(s, 0);
    NatToStringRoundTrip(y);
  }

  // ----- the year of a folder and of a zip entry -----

  /** `str.isdigit()` on the ASCII range. */
  predicate IsDigitString(s: string) { s != [] && AllDigits(s) }

  /** The year of a folder named `name`: its number when the name is all
      digits and in range, else 0. */
  function FolderYear(name: string): (r: int)
    ensures r == 0 || InYearRange(r)
  {
    if IsDigitString(name) && InYearRange(DigitsValue(name)) then DigitsValue(name) else 0
  }

  /** A folder named by a year in range gets that year. */
  lemma FolderYearRoundTrip(y: int)
    requires InYearRange(y)
    ensures FolderYear(NatToString(y)) == y
  {
    NatToStringRoundTrip(y);
  }

  /** A folder whose name is not all digits gets year 0. */
  lemma FolderYearNotDigits(name: string, i: nat)
    requires i < |name| && !IsDigit(name[i])
    ensures FolderYear(name) == 0
  {
  }

  /** `s.split(sep)`: the pieces between occurrences of `sep`. */
  function Split(s: string, sep: char): (r: seq<string>)
    ensures |r| > 0
    decreases |s|
  {
    if sep !in s then [s]
    else
      var i := IndexOfChar(s, sep);
      [s[..i]] + Split(s[i + 1..], sep)
  }

  /** The first position of `c` in `s`. */
  function IndexOfChar(s: string, c: char): (i: nat)
    requires c in s
    ensures i < |s| && s[i] == c
    ensures forall k :: 0 <= k < i ==> s[k] != c
  {
    if s[0] == c then 0 else IndexOfChar(s[1..], c) + 1
  }

  /** `sep.join(parts)`. */
  function Join(parts: seq<string>, sep: char): string
    requires |parts| > 0
  {
    if |parts| == 1 then parts[0] else parts[0] + [sep] + Join(parts[1..], sep)
  }

  /** Splitting and joining back with the same separator is the identity,
      and no piece holds the separator. */
  lemma {:induction false} SplitJoin(s: string, sep: char)
    ensures Join(Split(s, sep), sep) == s
    ensures forall k :: 0 <= k < |Split(s, sep)| ==> sep !in Split(s, sep)[k]
    decreases |s|
  {
    if sep in s {
      var i := IndexOfChar(s, sep);
      SplitJoin(s[i + 1..], sep);
      assert s == s[..i] + [sep] + s[i + 1..];
      var r := Split(s, sep);
      assert r[1..] == Split(s[i + 1..], sep);
      forall k | 0 <= k < |r| ensures sep !in r[k] {
        if k > 0 {
          assert r[k] == r[1..][k - 1];
        }
      }
    }
  }

  /** Splitting `a + [sep] + b` with no separator in `a` cuts at that
      separator. */
  lemma SplitCons(a: string, sep: char, b: string)
    requires sep !in a
    ensures Split(a + [sep] + b, sep) == [a] + Split(b, sep)
  {
    var s := a + [sep] + b;
    assert s[|a|] == sep;
    assert forall k :: 0 <= k < |a| ==> s[k] == a[k];
    assert IndexOfChar(s, sep) == |a|;
    assert s[..|a|] == a && s[|a| + 1..] == b;
  }

  /** `name.replace("\\", "/")`. */
  function SlashPath(name: string): (r: string)
    ensures |r| == |name|
    ensures forall i :: 0 <= i < |name| ==> r[i] == (if name[i] == '\\' then '/' else name[i])
  {
    seq(|name|, i requires 0 <= i < |name| => if name[i] == '\\' then '/' else name[i])
  }

  /** A path component that names a year of the judgments archive. */
  predicate IsArchiveYear(p: string)
  {
    IsDigitString(p) && |p| == 4 && 2010 <= DigitsValue(p) <= 2030
  }

  /** The first archive year among the components, or 0. */
  function FirstArchiveYear(parts: seq<string>): (r: int)
    ensures r == 0 || 2010 <= r <= 2030
  {
    if parts == [] then 0
    else if IsArchiveYear(parts[0]) then DigitsValue(parts[0])
    else FirstArchiveYear(parts[1..])
  }

  /** The year of a PDF inside the archive, read from its path. */
  function ZipPathYear(name: string): (r: int)
    ensures r == 0 || 2010 <= r <= 2030
  {
    FirstArchiveYear(Split(SlashPath(name), '/'))
  }

  /** The year is the value of the first component of four digits in
      [2010, 2030], and 0 exactly when there is none. */
  lemma {:induction false} FirstArchiveYearSpec(parts: seq<string>)
    ensures FirstArchiveYear(parts) == 0 <==> forall k :: 0 <= k < |parts| ==> !IsArchiveYear(parts[k])
    ensures FirstArchiveYear(parts) != 0 ==>
      exists k :: 0 <= k < |parts| && IsArchiveYear(parts[k]) && FirstArchiveYear(parts) == DigitsValue(parts[k])
        && forall j :: 0 <= j < k ==> !IsArchiveYear(parts[j])
  {
    if parts != [] && !IsArchiveYear(parts[0]) {
      FirstArchiveYearSpec(parts[1..]);
      assert forall k :: 1 <= k < |parts| ==> parts[k] == parts[1..][k - 1];
      if FirstArchiveYear(parts) != 0 {
        var k :| 0 <= k < |parts[1..]| && IsArchiveYear(parts[1..][k])
          && FirstArchiveYear(parts[1..]) == DigitsValue(parts[1..][k])
          && forall j :: 0 <= j < k ==> !IsArchiveYear(parts[1..][j]);
        assert IsArchiveYear(parts[k + 1]) && FirstArchiveYear(parts) == DigitsValue(parts[k + 1]);
      }
    }
  }

  lemma SlashPathAppend(a: string, b: string)
    ensures SlashPath(a + b) == SlashPath(a) + SlashPath(b)
  {
  }

  /** A PDF filed under a year folder of the archive gets that year. */
  lemma ZipPathYearOfFolder(root: string, y: int, file: string)
    requires 2010 <= y <= 2030
    requires '/' !in root && '\\' !in root && !IsArchiveYear(root)
    ensures ZipPathYear(root + "/" + NatToString(y) + "/" + file) == y
  {
    var ys := NatToString(y);
    FourDigitString(y);
    NatToStringRoundTrip(y);
    assert IsArchiveYear(ys);
    var rest := SlashPath(file);
    assert SlashPath(root) == root;
    assert SlashPath(ys) == ys;
    assert SlashPath("/") == "/";
    SlashPathAppend(root, "/");
    SlashPathAppend(root + "/", ys);
    SlashPathAppend(root + "/" + ys, "/");
    SlashPathAppend(root + "/" + ys + "/", file);
    assert SlashPath(root + "/" + ys + "/" + file) == root + ['/'] + (ys + ['/'] + rest);
    SplitCons(root, '/', ys + ['/'] + rest);
    SplitCons(ys, '/', rest);
    ZipYearOfParts(root, ys, Split(rest, '/'));
  }

  lemma ZipYearOfParts(root: string, ys: string, more: seq<string>)
    requires !IsArchiveYear(root) && IsArchiveYear(ys)
    ensures FirstArchiveYear([root] + ([ys] + more)) == DigitsValue(ys)
  {
    assert ([root] + ([ys] + more))[1..] == [ys] + more;
  }

  /** `Path(name).stem`: the last component, less its final suffix. */
  function Stem(name: string): string
  {
    var parts := Split(name, '/');
    var last := parts[|parts| - 1];
    var i := LastDot(last);
    if 0 < i < |last| - 1 then last[..i] else last
  }

  /** `last.rfind(".")`, `-1` when there is no dot. */
  function LastDot(s: string): (i: int)
    ensures -1 <= i < |s|
    ensures i >= 0 ==> s[i] == '.'
    ensures forall k :: i < k < |s| ==> s[k] != '.'
  {
    if s == [] then -1
    else if s[|s| - 1] == '.' then |s| - 1
    else LastDot(s[..|s| - 1])
  }

  /** The stem of `dir/<base>.pdf` is `<base>`, whatever dots `<base>`
      holds. */
  lemma StemOfPdf(dir: string, base: string, ext: string)
    requires '/' !in dir && '/' !in base && base != []
    requires |ext| == 3 && '.' !in ext && '/' !in ext
    ensures Stem(dir + "/" + base + "." + ext) == base
  {
    var file := base + "." + ext;
    assert dir + "/" + base + "." + ext == dir + ['/'] + file;
    assert '/' !in file by {
      forall k | 0 <= k < |file| ensures file[k] != '/' {
        if k < |base| {
          assert file[k] == base[k];
        } else if k > |base| {
          assert file[k] == ext[k - |base| - 1];
        }
      }
    }
    SplitCons(dir, '/', file);
    assert file[|base|] == '.';
    assert forall k :: |base| < k < |file| ==> file[k] == ext[k - |base| - 1];
    assert LastDot(file) == |base|;
    assert file[..|base|] == base;
  }

  // ----- the loaders -----

  /** A PDF of an extracted year folder: its file stem and the result of
      extracting its text. */
  datatype PdfFile = PdfFile(stem: string, extracted: Result<string>)

  /** A year folder with its PDFs, both in the sorted order the loader
      visits them in. */
  datatype YearDir = YearDir(name: string, pdfs: seq<PdfFile>)

  /** A loaded judgment. */
  datatype Judgment = Judgment(caseId: string, judgmentText: string, year: int)

  /** The text of a PDF; an extraction error gives the empty text. */
  function TextOf(r: Result<string>): string
  {
    if r.Ok? then r.value else ""
  }

  /** The rows of the PDFs `pending`, all with year `year`. */
  function PendingRows(pending: seq<PdfFile>, year: int): (r: seq<Judgment>)
    ensures |r| == |pending|
    ensures forall i :: 0 <= i < |r| ==> r[i] == Judgment(pending[i].stem, TextOf(pending[i].extracted), year)
  {
    seq(|pending|, i requires 0 <= i < |pending| => Judgment(pending[i].stem, TextOf(pending[i].extracted), year))
  }

  /** Every judgment of an extracted folder, in visiting order: each PDF
      with the year of its folder. */
  function FolderRows(dirs: seq<YearDir>): seq<Judgment>
  {
    if dirs == [] then []
    else PendingRows(dirs[0].pdfs, FolderYear(dirs[0].name)) + FolderRows(dirs[1..])
  }

  /** `load_judgments_from_extracted_folder`'s walk over the folders,
      appending rows and returning as soon as `count >= limit` after an
      append; `pending` holds the PDFs of the folder being read and `acc`
      the rows appended so far. */
  function WalkFolders(dirs: seq<YearDir>, pending: seq<PdfFile>, year: int, limit: Option<nat>,
                       acc: seq<Judgment>): seq<Judgment>
    decreases dirs, |pending|
  {
    if pending != [] then
      var acc' := acc + [Judgment(pending[0].stem, TextOf(pending[0].extracted), year)];
      if limit.Some? && |acc'| >= limit.value then acc'
      else WalkFolders(dirs, pending[1..], year, limit, acc')
    else if dirs == [] then acc
    else WalkFolders(dirs[1..], dirs[0].pdfs, FolderYear(dirs[0].name), limit, acc)
  }

  /** The loader: an error when the folder does not exist, else the rows. */
  function LoadFolder(rootExists: bool, dirs: seq<YearDir>, limit: Option<nat>): Result<seq<Judgment>>
  {
    if !rootExists then Err("Extracted judgments folder not found")
    else Ok(WalkFolders(dirs, [], 0, limit, []))
  }

  /** The number of rows a limit lets through: the check comes after an
      append, so a limit of 0 still lets one row through. */
  function Cap(limit: nat): nat
  {
    if limit == 0 then 1 else limit
  }

  /** The rows kept under an optional limit. */
  function Limited(rows: seq<Judgment>, limit: Option<nat>): seq<Judgment>
  {
    if limit.None? then rows else Take(rows, Cap(limit.value))
  }

  /** Once the rows appended reach the cap, the walk's rows are exactly
      the first rows of all of them. */
  lemma LimitedStop(acc: seq<Judgment>, rest: seq<Judgment>, limit: nat)
    requires |acc| == Cap(limit)
    ensures Limited(acc + rest, Some(limit)) == acc
  {
    assert (acc + rest)[..|acc|] == acc;
  }

  lemma PendingRowsCons(pending: seq<PdfFile>, year: int)
    requires pending != []
    ensures PendingRows(pending, year) ==
      [Judgment(pending[0].stem, TextOf(pending[0].extracted), year)] + PendingRows(pending[1..], year)
  {
  }

  /** The walk yields the rows still to come after those already appended,
      cut to the limit. */
  lemma {:induction false} WalkFoldersSpec(dirs: seq<YearDir>, pending: seq<PdfFile>, year: int, limit: Option<nat>,
                                           acc: seq<Judgment>)
    requires limit.None? || |acc| < Cap(limit.value)
    ensures WalkFolders(dirs, pending, year, limit, acc) ==
      Limited(acc + (PendingRows(pending, year) + FolderRows(dirs)), limit)
    decreases dirs, |pending|
  {
    if pending != [] {
      WalkPendingSpec(dirs, pending, year, limit, acc);
    } else if dirs != [] {
      WalkFoldersSpec(dirs[1..], dirs[0].pdfs, FolderYear(dirs[0].name), limit, acc);
      WalkNextFolder(dirs, pending, year, limit, acc);
    } else {
      WalkDone(pending, year, limit, acc);
    }
  }

  /** The walk's step that appends the next PDF of the current folder. */
  lemma {:induction false} WalkPendingSpec(dirs: seq<YearDir>, pending: seq<PdfFile>, year: int, limit: Option<nat>,
                                           acc: seq<Judgment>)
    requires pending != []
    requires limit.None? || |acc| < Cap(limit.value)
    ensures WalkFolders(dirs, pending, year, limit, acc) ==
      Limited(acc + (PendingRows(pending, year) + FolderRows(dirs)), limit)
    decreases dirs, |pending|, 0
  {
    var x := Judgment(pending[0].stem, TextOf(pending[0].extracted), year);
    var acc' := acc + [x];
    var later := PendingRows(pending[1..], year) + FolderRows(dirs);
    PendingRowsCons(pending, year);
    AppendShift(acc, x, PendingRows(pending[1..], year), FolderRows(dirs));
    WalkStep(dirs, pending, year, limit, acc);
    if limit.Some? && |acc'| >= limit.value {
      LimitedStop(acc', later, limit.value);
    } else {
      WalkFoldersSpec(dirs, pending[1..], year, limit, acc');
    }
  }

  /** With the current folder read, the walk moves on to the next one. */
  lemma WalkNextFolder(dirs: seq<YearDir>, pending: seq<PdfFile>, year: int, limit: Option<nat>, acc: seq<Judgment>)
    requires pending == [] && dirs != []
    ensures WalkFolders(dirs, pending, year, limit, acc)
      == WalkFolders(dirs[1..], dirs[0].pdfs, FolderYear(dirs[0].name), limit, acc)
    ensures PendingRows(pending, year) + FolderRows(dirs)
      == PendingRows(dirs[0].pdfs, FolderYear(dirs[0].name)) + FolderRows(dirs[1..])
  {
    assert PendingRows(pending, year) == [];
  }

  /** With nothing left to read, the walk yields the rows appended so far. */
  lemma WalkDone(pending: seq<PdfFile>, year: int, limit: Option<nat>, acc: seq<Judgment>)
    requires pending == []
    requires limit.None? || |acc| < Cap(limit.value)
    ensures WalkFolders([], pending, year, limit, acc) == acc
      == Limited(acc + (PendingRows(pending, year) + FolderRows([])), limit)
  {
    assert PendingRows(pending, year) + FolderRows([]) == [];
    assert acc + [] == acc;
  }

  /** One step of the walk: append the next PDF's row, then stop or go on. */
  lemma WalkStep(dirs: seq<YearDir>, pending: seq<PdfFile>, year: int, limit: Option<nat>, acc: seq<Judgment>)
    requires pending != []
    ensures var acc' := acc + [Judgment(pending[0].stem, TextOf(pending[0].extracted), year)];
      WalkFolders(dirs, pending, year, limit, acc) ==
        if limit.Some? && |acc'| >= limit.value then acc' else WalkFolders(dirs, pending[1..], year, limit, acc')
  {
  }

  lemma AppendShift<T>(acc: seq<T>, x: T, p: seq<T>, q: seq<T>)
    ensures acc + (([x] + p) + q) == (acc + [x]) + (p + q)
  {
  }

  /** The folder loader yields every PDF of every year folder in order,
      each with its folder's year and its extracted text (empty when
      extraction failed), the first `limit` of them when a limit is given,
      and one row even under a limit of 0. */
  lemma LoadFolderSpec(dirs: seq<YearDir>, limit: Option<nat>)
    ensures LoadFolder(true, dirs, limit) == Ok(Limited(FolderRows(dirs), limit))
    ensures LoadFolder(false, dirs, limit).Err?
  {
    WalkFoldersSpec(dirs, [], 0, limit, []);
    assert [] + (PendingRows([], 0) + FolderRows(dirs)) == FolderRows(dirs);
  }

  /** `n.lower().endswith(ext)`. */
  predicate HasExtension(n: string, ext: string)
  {
    |ext| <= |n| && Lower(n)[|n| - |ext|..] == ext
  }

  predicate IsPdfName(n: string) { HasExtension(n, ".pdf") }

  predicate IsCsvName(n: string) { HasExtension(n, ".csv") }

  /** The PDFs a positive limit keeps; a limit of 0 (or none) keeps all. */
  function ChosenPdfs(names: seq<string>, limit: Option<nat>): seq<string>
  {
    var pdfs := Filter(names, IsPdfName);
    if limit.Some? && limit.value > 0 then Take(pdfs, limit.value) else pdfs
  }

  /** `load_judgments_from_zip_pdfs`, with `read` opening an archive member
      and extracting its text. Every row comes from a chosen PDF member in
      archive order; its year is 0 or an archive year in [2010, 2030], and a
      member that cannot be read gives empty text. */
  function ZipPdfRows(names: seq<string>, limit: Option<nat>, read: string -> Result<string>): (r: seq<Judgment>)
    ensures |r| == |ChosenPdfs(names, limit)|
    ensures forall i :: 0 <= i < |r| ==>
      var n := ChosenPdfs(names, limit)[i];
      r[i] == Judgment(Stem(n), TextOf(read(n)), ZipPathYear(n))
    ensures forall i :: 0 <= i < |r| ==> r[i].year == 0 || 2010 <= r[i].year <= 2030
    ensures forall i :: 0 <= i < |r| ==> (read(ChosenPdfs(names, limit)[i]).Err? ==> r[i].judgmentText == "")
  {
    var chosen := ChosenPdfs(names, limit);
    seq(|chosen|, i requires 0 <= i < |chosen| => Judgment(Stem(chosen[i]), TextOf(read(chosen[i])), ZipPathYear(chosen[i])))
  }

  /** What the archive yields: the raw table of its first CSV member, or the
      rows of its PDFs. */
  datatype ZipContents = CsvTable(member: string) | PdfTable(rows: seq<Judgment>)

  /** `load_judgments_from_zip`. */
  function LoadZip(names: seq<string>, limit: Option<nat>, read: string -> Result<string>): ZipContents
  {
    var csvs := Filter(names, IsCsvName);
    if csvs != [] then CsvTable(csvs[0]) else PdfTable(ZipPdfRows(names, limit, read))
  }

  /** A CSV member takes precedence over PDFs: the first one in the
      archive's order is read; only an archive without one is read as PDFs,
      keeping the PDF members in order, the first `limit` of them for a
      positive limit. */
  lemma LoadZipSpec(names: seq<string>, limit: Option<nat>, read: string -> Result<string>)
    ensures LoadZip(names, limit, read).CsvTable? <==> exists i :: 0 <= i < |names| && IsCsvName(names[i])
    ensures LoadZip(names, limit, read).CsvTable? ==>
      exists i :: 0 <= i < |names| && names[i] == LoadZip(names, limit, read).member
        && IsCsvName(names[i]) && forall j :: 0 <= j < i ==> !IsCsvName(names[j])
    ensures LoadZip(names, limit, read).PdfTable? ==>
      var pdfs := Filter(names, IsPdfName);
      && |LoadZip(names, limit, read).rows| == (if limit.Some? && 0 < limit.value < |pdfs| then limit.value else |pdfs|)
      && forall n :: n in ChosenPdfs(names, limit) ==> IsPdfName(n) && n in names
  {
    FilterMembers(names, IsCsvName);
    FilterMembers(names, IsPdfName);
    var csvs := Filter(names, IsCsvName);
    if csvs != [] {
      FirstFiltered(names, IsCsvName);
    }
  }

  /** The first element a filter keeps is the first element satisfying
      the predicate. */
  lemma {:induction false} FirstFiltered(s: seq<string>, p: string -> bool)
    requires Filter(s, p) != []
    ensures exists i :: 0 <= i < |s| && s[i] == Filter(s, p)[0] && p(s[i]) && forall j :: 0 <= j < i ==> !p(s[j])
  {
    if !p(s[0]) {
      FirstFiltered(s[1..], p);
      var i :| 0 <= i < |s[1..]| && s[1..][i] == Filter(s[1..], p)[0] && p(s[1..][i])
        && forall j :: 0 <= j < i ==> !p(s[1..][j]);
      assert s[i + 1] == s[1..][i];
      assert forall j :: 1 <= j < i + 1 ==> s[j] == s[1..][j - 1];
    }
  }

  // ----- prepare_judgments -----

  /** A table: column names and rows of cells, one per column. */
  datatype Frame = Frame(columns: seq<string>, rows: seq<seq<Cell>>)

  /** Column names are unique and every row has one cell per column. */
  predicate WellFormed(f: Frame)
  {
    Distinct(f.columns) && forall r :: 0 <= r < |f.rows| ==> |f.rows[r]| == |f.columns|
  }

  /** The position of column `name`. */
  function ColumnIndex(columns: seq<string>, name: string): (i: nat)
    requires name in columns
    ensures i < |columns| && columns[i] == name
  {
    if columns[0] == name then 0 else ColumnIndex(columns[1..], name) + 1
  }

  /** The cells of column `name`, top to bottom. */
  function Column(f: Frame, name: string): (r: seq<Cell>)
    requires WellFormed(f) && name in f.columns
    ensures |r| == |f.rows|
    ensures forall i :: 0 <= i < |r| ==> r[i] == f.rows[i][ColumnIndex(f.columns, name)]
  {
    var c := ColumnIndex(f.columns, name);
    seq(|f.rows|, i requires 0 <= i < |f.rows| => f.rows[i][c])
  }

  /** `str(n)` for an integer. */
  function IntToString(n: int): string
  {
    if n < 0 then "-" + NatToString(-n) else NatToString(n)
  }

  /** `astype(str)` of a cell: a missing cell becomes `"nan"`. */
  function CellString(c: Cell): string
  {
    match c
    case Missing => "nan"
    case Num(n) => IntToString(n)
    case Str(s) => s
  }

  /** The judgment text of a cell: `astype(str).replace("nan", "")`, which
      replaces whole cells equal to `"nan"`. */
  function TextCell(c: Cell): (r: string)
    ensures r == "" <==> c.Missing? || CellString(c) == "" || CellString(c) == "nan"
    ensures r != "" ==> r == CellString(c)
  {
    var s := CellString(c);
    if s == "nan" then "" else s
  }

  /** The id given to row `i` of a table without an id column. */
  function FallbackId(i: nat): string
  {
    "case_" + NatToString(i)
  }

  /** The years that were parsed, in row order. */
  function Present(ys: seq<Option<int>>): (r: seq<int>)
    ensures forall y :: y in r <==> Some(y) in ys
  {
    if ys == [] then []
    else (if ys[0].Some? then [ys[0].value] else []) + Present(ys[1..])
  }

  /** `a` comes before `b` in the order `Series.mode()` lists values: more
      frequent first, then smaller. */
  predicate Before(ms: multiset<int>, a: int, b: int)
  {
    ms[a] > ms[b] || (ms[a] == ms[b] && a < b)
  }

  /** The first of `cands` and `best` in mode order. */
  function PickMode(ms: multiset<int>, cands: seq<int>, best: int): (r: int)
    ensures r == best || r in cands
  {
    if cands == [] then best
    else PickMode(ms, cands[1..], if Before(ms, cands[0], best) then cands[0] else best)
  }

  /** `Series.mode().iloc[0]`: the most frequent value, the smallest of
      them on a tie. */
  function Mode(ys: seq<int>): (r: int)
    requires ys != []
    ensures r in ys
  {
    PickMode(multiset(ys), ys[1..], ys[0])
  }

  lemma {:induction false} PickModeSpec(ms: multiset<int>, cands: seq<int>, best: int)
    ensures var r := PickMode(ms, cands, best);
      forall y :: (y == best || y in cands) ==> y == r || Before(ms, r, y)
  {
    if cands != [] {
      var b := if Before(ms, cands[0], best) then cands[0] else best;
      PickModeSpec(ms, cands[1..], b);
      var r := PickMode(ms, cands, best);
      assert r == PickMode(ms, cands[1..], b);
      assert r == b || Before(ms, r, b);
      assert b == best || Before(ms, b, best);
      assert b == cands[0] || Before(ms, b, cands[0]);
      forall y | y == best || y in cands ensures y == r || Before(ms, r, y) {
        if y != best && y != cands[0] {
          assert y in cands[1..];
        }
      }
    }
  }

  /** The mode occurs at least as often as any value, and is the smallest
      of those that occur as often. */
  lemma ModeSpec(ys: seq<int>)
    requires ys != []
    ensures forall y :: y in ys ==> multiset(ys)[y] <= multiset(ys)[Mode(ys)]
    ensures forall y :: y in ys && multiset(ys)[y] == multiset(ys)[Mode(ys)] ==> Mode(ys) <= y
  {
    PickModeSpec(multiset(ys), ys[1..], ys[0]);
    assert forall y :: y in ys ==> y == ys[0] || y in ys[1..];
  }

  /** The year column: parsed years, the missing ones filled with the mode
      of the parsed ones; all 0 when none parsed. */
  function FillYears(ys: seq<Option<int>>): (r: seq<int>)
    ensures |r| == |ys|
  {
    var present := Present(ys);
    if present == [] then seq(|ys|, i => 0)
    else
      var m := Mode(present);
      seq(|ys|, i requires 0 <= i < |ys| => if ys[i].Some? then ys[i].value else m)
  }

  /** `df[year_col].apply(_parse_year)`: a missing cell gives no year, and
      every year found lies in [1900, 2100]. */
  function ParseYears(cells: seq<Cell>): (r: seq<Option<int>>)
    ensures |r| == |cells|
    ensures forall i :: 0 <= i < |cells| ==> r[i] == ParseYear(cells[i])
    ensures forall i :: 0 <= i < |cells| ==> cells[i].Missing? ==> r[i].None?
    ensures forall i :: 0 <= i < |r| ==> r[i].Some? ==> InYearRange(r[i].value)
  {
    seq(|cells|, i requires 0 <= i < |cells| => ParseYear(cells[i]))
  }

  /** `prepare_judgments`: the three columns of the judgments table. */
  function Prepare(f: Frame): Result<seq<Judgment>>
    requires WellFormed(f)
  {
    var idCol := FindColumn(f.columns, ID_COLUMNS);
    var textCol := FindColumn(f.columns, TEXT_COLUMNS);
    var yearCol := FindColumn(f.columns, YEAR_COLUMNS);
    if textCol.None? then Err("Could not find judgment text column")
    else
      FindColumnIn(f.columns, ID_COLUMNS);
      FindColumnIn(f.columns, TEXT_COLUMNS);
      FindColumnIn(f.columns, YEAR_COLUMNS);
      var texts := Column(f, textCol.value);
      var ids := if idCol.Some? then Column(f, idCol.value) else [];
      var years := if yearCol.Some? then FillYears(ParseYears(Column(f, yearCol.value))) else seq(|f.rows|, i => 0);
      Ok(seq(|f.rows|, i requires 0 <= i < |f.rows| =>
        Judgment(if idCol.Some? then CellString(ids[i]) else FallbackId(i), TextCell(texts[i]), years[i])))
  }

  /** A column the lookup finds is a column of the table. */
  lemma {:induction false} FindColumnIn(columns: seq<string>, candidates: seq<string>)
    ensures FindColumn(columns, candidates).Some? ==> FindColumn(columns, candidates).value in columns
  {
    if candidates != [] && LastWithLower(columns, Lower(candidates[0])).None? {
      FindColumnIn(columns, candidates[1..]);
    }
  }

  /** The table is rejected exactly when no column is a text column;
      otherwise there is one judgment per row, whose text is that row's
      text cell with missing cells and `"nan"` read as empty. */
  lemma PrepareTexts(f: Frame)
    requires WellFormed(f)
    ensures Prepare(f).Err? <==> FindColumn(f.columns, TEXT_COLUMNS).None?
    ensures Prepare(f).Ok? ==>
      var c := ColumnIndex(f.columns, FindColumn(f.columns, TEXT_COLUMNS).value);
      && |Prepare(f).value| == |f.rows|
      && forall i :: 0 <= i < |f.rows| ==> Prepare(f).value[i].judgmentText == TextCell(f.rows[i][c])
  {
  }

  /** Without an id column, row `i` gets the id `case_<i>`, and these ids
      are pairwise distinct; with one, the id is the cell as a string. */
  lemma PrepareIds(f: Frame)
    requires WellFormed(f) && Prepare(f).Ok?
    ensures var idCol := FindColumn(f.columns, ID_COLUMNS);
      forall i :: 0 <= i < |f.rows| ==> (Prepare(f).value[i].caseId ==
        (if idCol.Some? then CellString(f.rows[i][ColumnIndex(f.columns, idCol.value)]) else FallbackId(i)))
    ensures FindColumn(f.columns, ID_COLUMNS).None? ==>
      forall i, j :: 0 <= i < j < |f.rows| ==> Prepare(f).value[i].caseId != Prepare(f).value[j].caseId
  {
    FindColumnIn(f.columns, ID_COLUMNS);
    if FindColumn(f.columns, ID_COLUMNS).None? {
      forall i, j | 0 <= i < j < |f.rows| ensures FallbackId(i) != FallbackId(j) {
        if FallbackId(i) == FallbackId(j) {
          assert FallbackId(i)[5..] == NatToString(i);
          assert FallbackId(j)[5..] == NatToString(j);
          NatToStringInjective(i, j);
        }
      }
    }
  }

  /** Years: 0 without a year column or when no cell parses; otherwise
      each row's parsed year, or the most frequent parsed year when its own
      cell does not parse, so that every year is then in [1900, 2100]. */
  lemma PrepareYears(f: Frame)
    requires WellFormed(f) && Prepare(f).Ok?
    ensures var yearCol := FindColumn(f.columns, YEAR_COLUMNS);
      forall i :: 0 <= i < |f.rows| ==>
        var y := Prepare(f).value[i].year;
        if yearCol.None? then y == 0
        else
          var ys := ParseYears(Column(f, yearCol.value));
          if Present(ys) == [] then y == 0
          else
            && InYearRange(y)
            && (ys[i].Some? ==> y == ys[i].value)
            && (ys[i].None? ==> y == Mode(Present(ys)))
  {
    FindColumnIn(f.columns, YEAR_COLUMNS);
    var yearCol := FindColumn(f.columns, YEAR_COLUMNS);
    if yearCol.Some? {
      var ys := ParseYears(Column(f, yearCol.value));
      if Present(ys) != [] {
        PresentInRange(ys);
      }
    }
  }

  /** Every parsed year is in range. */
  lemma PresentInRange(ys: seq<Option<int>>)
    requires forall i :: 0 <= i < |ys| && ys[i].Some? ==> InYearRange(ys[i].value)
    ensures forall y :: y in Present(ys) ==> InYearRange(y)
  {
    forall y | y in Present(ys) ensures InYearRange(y) {
      var i :| 0 <= i < |ys| && ys[i] == Some(y);
    }
  }
}

=== FILE: output_check.dfy ===
/**
 * The structural check of the phase-1 output directory: every expected
 * table present and readable with exactly its expected columns, then the
 * integrity of ids, texts, years and citation edges. Problems are errors
 * (exit code 2) or warnings; duplicates are errors only on request.
 */
module OutputCheck {
  import opened Seqs
  import opened Tally
  import opened Sorting
  import opened Judgments

  /** The tables of the output directory. */
  datatype FileName = ActsCsv | SectionsCsv | ArticlesCsv | CasesCsv | EdgesCsv

  /** The tables, in the order they are checked. */
  const FILES: seq<FileName> := [ActsCsv, SectionsCsv, ArticlesCsv, CasesCsv, EdgesCsv]

  /** The columns each table must have, in order. */
  function Expected(f: FileName): seq<string>
  {
    match f
    case ActsCsv => ["act_id", "act_name", "act_type", "source_file"]
    case SectionsCsv => ["section_id", "act_id", "section_number", "full_text"]
    case ArticlesCsv => ["article_id", "act_id", "article_number", "full_text"]
    case CasesCsv => ["case_id", "judgment_text", "year"]
    case EdgesCsv => ["source_case_id", "target_section_or_article", "relation"]
  }

  const PLOTS: seq<string> := ["top_cited_sections.png", "top_cited_articles.png"]

  const MAX_EXAMPLES: nat := 10

  /** A table file: absent, present but unreadable, or read. */
  datatype Csv = NotFound | Unreadable(reason: string) | Table(frame: Frame)

  /** The directory's tables and the plot files present in it. */
  datatype OutputDir = OutputDir(files: FileName -> Csv, plots: set<string>)

  // ----- _check_columns -----

  datatype ColumnIssue = MissingColumns(names: seq<string>) | UnexpectedColumns(names: seq<string>)

  /** `_check_columns`: the expected columns absent, in expected order,
      and the columns not expected, in the table's order. */
  function CheckColumns(expected: seq<string>, columns: seq<string>): seq<ColumnIssue>
  {
    var missing := Filter(expected, c => c !in columns);
    var extra := Filter(columns, c => c !in expected);
    (if missing != [] then [MissingColumns(missing)] else [])
      + (if extra != [] then [UnexpectedColumns(extra)] else [])
  }

  /** No issue is reported exactly when the table has the expected columns
      and no others; the issues list exactly the columns missing and the
      columns unexpected. */
  lemma CheckColumnsSpec(expected: seq<string>, columns: seq<string>)
    ensures CheckColumns(expected, columns) == [] <==> ColumnsExact(expected, columns)
    ensures forall k :: 0 <= k < |CheckColumns(expected, columns)| ==>
      var issue := CheckColumns(expected, columns)[k];
      && issue.names != []
      && (issue.MissingColumns? ==> forall c :: c in issue.names <==> c in expected && c !in columns)
      && (issue.UnexpectedColumns? ==> forall c :: c in issue.names <==> c in columns && c !in expected)
  {
    var missing := Filter(expected, c => c !in columns);
    var extra := Filter(columns, c => c !in expected);
    FilterMembers(expected, c => c !in columns);
    FilterMembers(columns, c => c !in expected);
    if missing != [] {
      assert missing[0] in missing;
    }
    if extra != [] {
      assert extra[0] in extra;
    }
  }

  // ----- _dup_report -----

  /** A duplicated value and how many rows hold it. */
  datatype Example = Example(value: string, count: nat)

  datatype DupReport = DupReport(count: int, examples: seq<Example>)

  function Examples(vs: seq<string>, s: seq<string>): (r: seq<Example>)
    ensures |r| == |vs|
    ensures forall i :: 0 <= i < |vs| ==> r[i] == Example(vs[i], Count(s, vs[i]))
  {
    seq(|vs|, i requires 0 <= i < |vs| => Example(vs[i], Count(s, vs[i])))
  }

  /** `_dup_report` on the string values of a column: the rows beyond the
      first of each repeated value, and up to `maxExamples` repeated
      values with their counts. */
  function ReportDuplicates(s: seq<string>, maxExamples: nat): DupReport
  {
    var dups := Repeated(Dedupe(s), s);
    if dups == [] then DupReport(0, [])
    else DupReport(SumCounts(dups, s) - |dups|, Take(Examples(dups, s), maxExamples))
  }

  /** The report is `(0, [])` exactly when no value repeats; otherwise its
      count is the number of rows less the number of distinct values, and
      its examples are different repeated values with their counts, at most
      `maxExamples` of them. */
  lemma ReportDuplicatesSpec(s: seq<string>, maxExamples: nat)
    ensures ReportDuplicates(s, maxExamples) == DupReport(0, []) <==> forall v :: v in s ==> Count(s, v) == 1
    ensures ReportDuplicates(s, maxExamples).count == |s| - |Dedupe(s)| == DupRows(s, {})
    ensures var ex := ReportDuplicates(s, maxExamples).examples;
      && |ex| <= maxExamples
      && (forall i :: 0 <= i < |ex| ==> ex[i].value in s && ex[i].count == Count(s, ex[i].value) > 1)
      && (forall i, j :: 0 <= i < j < |ex| ==> ex[i].value != ex[j].value)
  {
    ReportEmptyIff(s, maxExamples);
    ReportCountSpec(s, maxExamples);
    ReportExamplesSpec(s, maxExamples);
  }

  lemma ReportEmptyIff(s: seq<string>, maxExamples: nat)
    ensures ReportDuplicates(s, maxExamples) == DupReport(0, []) <==> forall v :: v in s ==> Count(s, v) == 1
  {
    var vs := Dedupe(s);
    var dups := Repeated(vs, s);
    DedupeSpec(s);
    RepeatedSpec(vs, s);
    ExtraSum(dups, s);
    ExtraPositive(vs, s);
    forall v | v in s ensures Count(s, v) >= 1 {
      CountPositive(s, v);
    }
    if dups != [] {
      assert dups[0] in dups;
    }
  }

  lemma ReportCountSpec(s: seq<string>, maxExamples: nat)
    ensures ReportDuplicates(s, maxExamples).count == |s| - |Dedupe(s)| == DupRows(s, {})
  {
    var vs := Dedupe(s);
    var dups := Repeated(vs, s);
    ExtraIsDuplicatedRows(s);
    ExtraSum(dups, s);
    if dups == [] {
      assert Extra(dups, s) == 0;
    }
  }

  lemma ReportExamplesSpec(s: seq<string>, maxExamples: nat)
    ensures var ex := ReportDuplicates(s, maxExamples).examples;
      && |ex| <= maxExamples
      && (forall i :: 0 <= i < |ex| ==> ex[i].value in s && ex[i].count == Count(s, ex[i].value) > 1)
      && (forall i, j :: 0 <= i < j < |ex| ==> ex[i].value != ex[j].value)
  {
    var vs := Dedupe(s);
    var dups := Repeated(vs, s);
    DedupeSpec(s);
    RepeatedSpec(vs, s);
    RepeatedDistinct(vs, s);
    if dups != [] {
      var ex := Take(Examples(dups, s), maxExamples);
      forall i | 0 <= i < |ex| ensures ex[i].value in s && ex[i].count == Count(s, ex[i].value) > 1 {
        assert ex[i].value == dups[i] && dups[i] in dups;
      }
    }
  }

  /** The repeated values of a repeat-free list are repeat-free. */
  lemma {:induction false} RepeatedDistinct(vs: seq<string>, s: seq<string>)
    requires Distinct(vs)
    ensures Distinct(Repeated(vs, s))
  {
    if vs != [] {
      DistinctCons(vs[0], vs[1..]);
      assert vs == [vs[0]] + vs[1..];
      RepeatedDistinct(vs[1..], s);
      RepeatedSpec(vs[1..], s);
      if Count(s, vs[0]) > 1 {
        DistinctCons(vs[0], Repeated(vs[1..], s));
      }
    }
  }

  // ----- the findings -----

  datatype Issue =
    | MissingFile(file: FileName)
    | MissingPlot(plot: string)
    | ReadFailed(file: FileName, reason: string)
    | BadColumns(file: FileName, issues: seq<ColumnIssue>)
    | NullIds(file: FileName, column: string)
    | NoActs
    | AllTextEmpty
    | YearNotNumeric
    | DuplicateIds(file: FileName, column: string, report: DupReport)
    | UnexpectedRelations(values: seq<string>)
    | NullEdgeEnds
    | MissingTargets(count: nat, examples: seq<string>)
    | DuplicateEdges(count: nat)

  datatype Severity = Error | Warning

  /** A finding, in the order the checks make them. */
  datatype Finding = Finding(severity: Severity, issue: Issue)

  /** The findings of the given severity, in order. */
  function OfSeverity(fs: seq<Finding>, sev: Severity): (r: seq<Issue>)
    ensures |r| <= |fs|
  {
    if fs == [] then []
    else (if fs[0].severity == sev then [fs[0].issue] else []) + OfSeverity(fs[1..], sev)
  }

  lemma {:induction false} OfSeverityMembers(fs: seq<Finding>, sev: Severity)
    ensures forall x :: x in OfSeverity(fs, sev) <==> Finding(sev, x) in fs
  {
    if fs != [] {
      OfSeverityMembers(fs[1..], sev);
      assert forall f :: f in fs <==> f == fs[0] || f in fs[1..];
    }
  }

  lemma {:induction false} OfSeverityAppend(a: seq<Finding>, b: seq<Finding>, sev: Severity)
    ensures OfSeverity(a + b, sev) == OfSeverity(a, sev) + OfSeverity(b, sev)
  {
    if a != [] {
      OfSeverityAppend(a[1..], b, sev);
      assert (a + b)[0] == a[0] && (a + b)[1..] == a[1..] + b;
      var h := if a[0].severity == sev then [a[0].issue] else [];
      var x, y := OfSeverity(a[1..], sev), OfSeverity(b, sev);
      assert OfSeverity(a + b, sev) == h + (x + y);
      assert OfSeverity(a, sev) == h + x;
      assert h + (x + y) == (h + x) + y;
    } else {
      assert a + b == b;
    }
  }

  /** `[finding]` when `cond` holds. */
  function When(cond: bool, f: Finding): seq<Finding>
  {
    if cond then [f] else []
  }

  /** How duplicates are reported. */
  function DupSeverity(failOnDuplicates: bool): Severity
  {
    if failOnDuplicates then Error else Warning
  }

  // ----- the stages -----

  /** The missing tables, in order. */
  function MissingFiles(d: OutputDir, fs: seq<FileName>): seq<Issue>
  {
    if fs == [] then []
    else (if d.files(fs[0]).NotFound? then [MissingFile(fs[0])] else []) + MissingFiles(d, fs[1..])
  }

  /** The missing plots, in order. */
  function MissingPlots(d: OutputDir): seq<Issue>
  {
    (if PLOTS[0] !in d.plots then [MissingPlot(PLOTS[0])] else [])
      + (if PLOTS[1] !in d.plots then [MissingPlot(PLOTS[1])] else [])
  }

  /** The tables that could not be read or have the wrong columns. */
  function ReadIssues(d: OutputDir, fs: seq<FileName>): seq<Issue>
  {
    if fs == [] then []
    else
      var here := match d.files(fs[0])
        case NotFound => []
        case Unreadable(reason) => [ReadFailed(fs[0], reason)]
        case Table(frame) =>
          var issues := CheckColumns(Expected(fs[0]), frame.columns);
          if issues != [] then [BadColumns(fs[0], issues)] else [];
      here + ReadIssues(d, fs[1..])
  }

  /** Every table was read, has exactly its expected columns and is a
      well-formed table. */
  predicate Readable(d: OutputDir)
  {
    forall f: FileName :: d.files(f).Table? && WellFormed(d.files(f).frame)
      && ColumnsExact(Expected(f), d.files(f).frame.columns)
  }

  /** The table has the expected columns and no others. */
  predicate ColumnsExact(expected: seq<string>, columns: seq<string>)
  {
    (forall c :: c in expected ==> c in columns) && (forall c :: c in columns ==> c in expected)
  }

  /** Whether every read table is well formed, as a table read from a file
      is. */
  predicate TablesWellFormed(d: OutputDir)
  {
    forall f: FileName :: d.files(f).Table? ==> WellFormed(d.files(f).frame)
  }

  /** `isna().any()`. */
  predicate AnyMissing(cells: seq<Cell>)
  {
    exists i :: 0 <= i < |cells| && cells[i].Missing?
  }

  /** `astype(str)` of a column. */
  function Strings(cells: seq<Cell>): (r: seq<string>)
    ensures |r| == |cells|
    ensures forall i :: 0 <= i < |cells| ==> r[i] == CellString(cells[i])
  {
    seq(|cells|, i requires 0 <= i < |cells| => CellString(cells[i]))
  }

  /** `is_numeric_dtype` of a column read from a file: numbers and missing
      cells only, in a column with at least one row. */
  predicate NumericColumn(cells: seq<Cell>)
  {
    |cells| > 0 && forall i :: 0 <= i < |cells| ==> !cells[i].Str?
  }

  /** The column `name` of table `f`; the stages before the integrity
      checks ensure the table was read and has that column. */
  function Col(d: OutputDir, f: FileName, name: string): seq<Cell>
  {
    match d.files(f)
    case Table(frame) => if WellFormed(frame) && name in frame.columns then Column(frame, name) else []
    case _ => []
  }

  /** The row count of table `f`. */
  function Rows(d: OutputDir, f: FileName): nat
  {
    if d.files(f).Table? then |d.files(f).frame.rows| else 0
  }

  /** The checks of the id column of a provisions or cases table. */
  function IdFindings(d: OutputDir, f: FileName, idCol: string, failOnDuplicates: bool): seq<Finding>
  {
    var ids := Col(d, f, idCol);
    IdFindingsOf(f, idCol, AnyMissing(ids), ReportDuplicates(Strings(ids), MAX_EXAMPLES), failOnDuplicates)
  }

  /** The id-column findings, given what the column holds. */
  function IdFindingsOf(f: FileName, idCol: string, missing: bool, report: DupReport, failOnDuplicates: bool): seq<Finding>
  {
    When(missing, Finding(Error, NullIds(f, idCol)))
      + When(report.count > 0, Finding(DupSeverity(failOnDuplicates), DuplicateIds(f, idCol, report)))
  }

  /** The non-missing cells as strings. */
  function PresentStrings(cells: seq<Cell>): seq<string>
  {
    Strings(Filter(cells, (c: Cell) => !c.Missing?))
  }

  /** The relation values other than `CITES`, sorted. */
  function OddRelations(d: OutputDir): seq<string>
  {
    SortedOutside(PresentStrings(Col(d, EdgesCsv, "relation")), {"CITES"})
  }

  /** The section and article ids. */
  function LegalIds(d: OutputDir): set<string>
  {
    ToSet(Strings(Col(d, SectionsCsv, "section_id"))) + ToSet(Strings(Col(d, ArticlesCsv, "article_id")))
  }

  /** The edge targets that are neither a section nor an article id, sorted. */
  function UnknownTargets(d: OutputDir): seq<string>
  {
    SortedOutside(Strings(Col(d, EdgesCsv, "target_section_or_article")), LegalIds(d))
  }

  /** `sorted(set(vs) - known)`. */
  function SortedOutside(vs: seq<string>, known: set<string>): seq<string>
  {
    Sort(Filter(Dedupe(vs), NotIn(known)))
  }

  /** The test `v not in known`. */
  function NotIn(known: set<string>): string -> bool
  {
    v => v !in known
  }

  /** `sorted(set(vs) - known)` is sorted and repeat-free, and holds exactly
      the values of `vs` outside `known`. */
  lemma SortedOutsideSpec(vs: seq<string>, known: set<string>)
    ensures Sorted(SortedOutside(vs, known)) && Distinct(SortedOutside(vs, known))
    ensures forall v :: v in SortedOutside(vs, known) <==> v in vs && v !in known
  {
    var ds := Dedupe(vs);
    DedupeSpec(vs);
    var fs := Filter(ds, NotIn(known));
    FilterMembers(ds, NotIn(known));
    FilterDistinct(ds, NotIn(known));
    SortSpec(fs);
    SortMembers(fs);
    SortDistinct(fs);
  }

  /** The odd relations are sorted and repeat-free, and are exactly the
      present relation values other than `CITES`. */
  lemma OddRelationsSpec(d: OutputDir)
    ensures Sorted(OddRelations(d)) && Distinct(OddRelations(d))
    ensures forall v :: v in OddRelations(d) <==> v in PresentStrings(Col(d, EdgesCsv, "relation")) && v != "CITES"
  {
    SortedOutsideSpec(PresentStrings(Col(d, EdgesCsv, "relation")), {"CITES"});
  }

  /** The unknown targets are sorted and repeat-free, and are exactly the
      edge targets that are neither a section nor an article id. */
  lemma UnknownTargetsSpec(d: OutputDir)
    ensures Sorted(UnknownTargets(d)) && Distinct(UnknownTargets(d))
    ensures forall t :: t in UnknownTargets(d) <==>
      t in Strings(Col(d, EdgesCsv, "target_section_or_article")) && t !in LegalIds(d)
  {
    SortedOutsideSpec(Strings(Col(d, EdgesCsv, "target_section_or_article")), LegalIds(d));
  }

  /** An edge row's `(source, target, relation)`. */
  function EdgeKeys(d: OutputDir): seq<(Cell, Cell, Cell)>
  {
    var s := Col(d, EdgesCsv, "source_case_id");
    var t := Col(d, EdgesCsv, "target_section_or_article");
    var r := Col(d, EdgesCsv, "relation");
    var n := if |s| <= |t| && |s| <= |r| then |s| else if |t| <= |r| then |t| else |r|;
    seq(n, i requires 0 <= i < n => (s[i], t[i], r[i]))
  }

  /** The checks of the edges table. */
  function EdgeFindings(d: OutputDir, failOnDuplicates: bool): seq<Finding>
  {
    var nullEnds := AnyMissing(Col(d, EdgesCsv, "source_case_id")) || AnyMissing(Col(d, EdgesCsv, "target_section_or_article"));
    EdgeFindingsOf(OddRelations(d), nullEnds, UnknownTargets(d), DupRows(EdgeKeys(d), {}), failOnDuplicates)
  }

  /** The edge findings, given the odd relations, whether an end is null,
      the unknown targets and the duplicated rows. */
  function EdgeFindingsOf(odd: seq<string>, nullEnds: bool, unknown: seq<string>, dupEdges: nat, failOnDuplicates: bool)
    : seq<Finding>
  {
    When(odd != [], Finding(Warning, UnexpectedRelations(odd)))
      + When(nullEnds, Finding(Error, NullEdgeEnds))
      + When(unknown != [], Finding(Warning, MissingTargets(|unknown|, Take(unknown, MAX_EXAMPLES))))
      + When(dupEdges > 0, Finding(DupSeverity(failOnDuplicates), DuplicateEdges(dupEdges)))
  }

  /** The integrity checks, in order: acts, sections and articles, cases,
      edges. */
  function IntegrityFindings(d: OutputDir, failOnDuplicates: bool): seq<Finding>
  {
    ActFindings(d)
      + IdFindings(d, SectionsCsv, "section_id", failOnDuplicates)
      + IdFindings(d, ArticlesCsv, "article_id", failOnDuplicates)
      + CaseFindings(d, failOnDuplicates)
      + EdgeFindings(d, failOnDuplicates)
  }

  /** The checks of the acts table. */
  function ActFindings(d: OutputDir): seq<Finding>
  {
    ActFindingsOf(AnyMissing(Col(d, ActsCsv, "act_id")), Rows(d, ActsCsv))
  }

  function ActFindingsOf(missing: bool, rows: nat): seq<Finding>
  {
    When(missing, Finding(Error, NullIds(ActsCsv, "act_id")))
      + When(rows == 0, Finding(Error, NoActs))
  }

  /** The checks of the cases table. */
  function CaseFindings(d: OutputDir, failOnDuplicates: bool): seq<Finding>
  {
    var texts := Strings(Col(d, CasesCsv, "judgment_text"));
    CaseFindingsOf(AnyMissing(Col(d, CasesCsv, "case_id")), forall i :: 0 <= i < |texts| ==> texts[i] == "",
                   NumericColumn(Col(d, CasesCsv, "year")),
                   ReportDuplicates(Strings(Col(d, CasesCsv, "case_id")), MAX_EXAMPLES), failOnDuplicates)
  }

  /** The cases-table findings, given whether an id is null, whether every
      text is empty, whether the years are numeric and the duplicate ids. */
  function CaseFindingsOf(missing: bool, allEmpty: bool, numeric: bool, report: DupReport, failOnDuplicates: bool)
    : seq<Finding>
  {
    When(missing, Finding(Error, NullIds(CasesCsv, "case_id")))
      + When(allEmpty, Finding(Warning, AllTextEmpty))
      + When(!numeric, Finding(Warning, YearNotNumeric))
      + When(report.count > 0, Finding(DupSeverity(failOnDuplicates), DuplicateIds(CasesCsv, "case_id", report)))
  }

  /** The outcome: exit code, errors and warnings collected. */
  datatype Outcome = Outcome(exitCode: int, errors: seq<Issue>, warnings: seq<Issue>)

  /** A stage found nothing wrong with any table. */
  lemma NoReadIssues(d: OutputDir, fs: seq<FileName>, f: FileName)
    requires f in fs && MissingFiles(d, fs) == [] && ReadIssues(d, fs) == []
    ensures d.files(f).Table? && CheckColumns(Expected(f), d.files(f).frame.columns) == []
    decreases |fs|
  {
    if fs[0] != f {
      NoReadIssues(d, fs[1..], f);
    }
  }

  lemma AllFiles(f: FileName)
    ensures f in FILES
  {
  }

  /** With no missing table and no read issue, every table is readable. */
  lemma ReadableWhenClean(d: OutputDir)
    requires TablesWellFormed(d) && MissingFiles(d, FILES) == [] && ReadIssues(d, FILES) == []
    ensures Readable(d)
  {
    forall f: FileName
      ensures d.files(f).Table? && ColumnsExact(Expected(f), d.files(f).frame.columns)
    {
      AllFiles(f);
      NoReadIssues(d, FILES, f);
      CheckColumnsSpec(Expected(f), d.files(f).frame.columns);
    }
  }

  /** `main()` after argument parsing. */
  function Check(dirExists: bool, d: OutputDir, failOnDuplicates: bool): Outcome
  {
    if !dirExists then Outcome(2, [], [])
    else
      var missing := MissingFiles(d, FILES);
      var plots := MissingPlots(d);
      if missing != [] then Outcome(2, missing, plots)
      else
        var readIssues := ReadIssues(d, FILES);
        if readIssues != [] then Outcome(2, readIssues, plots)
        else
          var fs := IntegrityFindings(d, failOnDuplicates);
          var errors := OfSeverity(fs, Error);
          Outcome(if errors != [] then 2 else 0, errors, plots + OfSeverity(fs, Warning))
  }

  // ----- properties of the check -----

  /** The exit code is 2 exactly when the directory is missing or an error
      was recorded, and 0 otherwise. */
  lemma ExitCodeSpec(dirExists: bool, d: OutputDir, failOnDuplicates: bool)
    ensures var o := Check(dirExists, d, failOnDuplicates);
      && (o.exitCode == 2 <==> !dirExists || o.errors != [])
      && (o.exitCode == 0 <==> dirExists && o.errors == [])
  {
  }

  /** A missing table is an error, and the tables are then not read: every
      error reported names a missing table, so no read or integrity finding
      follows. */
  lemma MissingFileIsError(d: OutputDir, failOnDuplicates: bool, f: FileName)
    requires d.files(f).NotFound?
    ensures Check(true, d, failOnDuplicates).exitCode == 2
    ensures MissingFile(f) in Check(true, d, failOnDuplicates).errors
    ensures forall x :: x in Check(true, d, failOnDuplicates).errors ==> x.MissingFile? && d.files(x.file).NotFound?
  {
    AllFiles(f);
    MissingFilesHas(d, FILES, f);
    MissingFilesKinds(d, FILES);
  }


  lemma MissingFilesHas(d: OutputDir, fs: seq<FileName>, f: FileName)
    requires f in fs && d.files(f).NotFound?
    ensures MissingFile(f) in MissingFiles(d, fs)
    decreases |fs|
  {
    if fs[0] != f {
      MissingFilesHas(d, fs[1..], f);
    }
  }

  /** A missing plot is only ever a warning. */
  lemma MissingPlotIsWarning(dirExists: bool, d: OutputDir, failOnDuplicates: bool)
    ensures forall x :: x in Check(dirExists, d, failOnDuplicates).errors ==> !x.MissingPlot?
    ensures dirExists ==> forall p :: p in PLOTS && p !in d.plots ==>
      MissingPlot(p) in Check(dirExists, d, failOnDuplicates).warnings
  {
    CheckErrorsNoPlot(dirExists, d, failOnDuplicates);
    MissingPlotsHas(d);
    CheckWarnsPlots(dirExists, d, failOnDuplicates);
  }

  lemma CheckErrorsNoPlot(dirExists: bool, d: OutputDir, failOnDuplicates: bool)
    ensures forall x :: x in Check(dirExists, d, failOnDuplicates).errors ==> !x.MissingPlot?
  {
    var errors := Check(dirExists, d, failOnDuplicates).errors;
    if !dirExists {
    } else if MissingFiles(d, FILES) != [] {
      assert errors == MissingFiles(d, FILES);
      MissingFilesKinds(d, FILES);
    } else if ReadIssues(d, FILES) != [] {
      assert errors == ReadIssues(d, FILES);
      ReadIssuesKinds(d, FILES);
    } else {
      assert errors == OfSeverity(IntegrityFindings(d, failOnDuplicates), Error);
      IntegrityErrorsNoPlot(d, failOnDuplicates);
    }
  }

  /** Every missing plot found is among the warnings. */
  lemma CheckWarnsPlots(dirExists: bool, d: OutputDir, failOnDuplicates: bool)
    ensures dirExists ==> forall x :: x in MissingPlots(d) ==> x in Check(dirExists, d, failOnDuplicates).warnings
  {
  }

  lemma MissingPlotsHas(d: OutputDir)
    ensures forall p :: p in PLOTS && p !in d.plots ==> MissingPlot(p) in MissingPlots(d)
  {
  }

  /** No integrity error concerns a plot. */
  lemma IntegrityErrorsNoPlot(d: OutputDir, failOnDuplicates: bool)
    ensures forall x :: x in OfSeverity(IntegrityFindings(d, failOnDuplicates), Error) ==> !x.MissingPlot?
  {
    SeveritySpec(d, failOnDuplicates);
    ErrorsNoPlot(IntegrityFindings(d, failOnDuplicates), failOnDuplicates);
  }

  lemma ErrorsNoPlot(fs: seq<Finding>, failOnDuplicates: bool)
    requires AllOk(fs, failOnDuplicates)
    ensures forall x :: x in OfSeverity(fs, Error) ==> !x.MissingPlot?
  {
    OfSeverityMembers(fs, Error);
    forall x | x in OfSeverity(fs, Error) ensures !x.MissingPlot? {
      var i :| 0 <= i < |fs| && fs[i] == Finding(Error, x);
      assert FindingOk(fs[i], failOnDuplicates);
    }
  }

  /** The missing-table stage reports only listed tables that are not found. */
  lemma {:induction false} MissingFilesKinds(d: OutputDir, fs: seq<FileName>)
    ensures forall x :: x in MissingFiles(d, fs) ==> x.MissingFile? && x.file in fs && d.files(x.file).NotFound?
  {
    if fs != [] {
      MissingFilesKinds(d, fs[1..]);
    }
  }

  lemma {:induction false} ReadIssuesKinds(d: OutputDir, fs: seq<FileName>)
    ensures forall x :: x in ReadIssues(d, fs) ==> x.ReadFailed? || x.BadColumns?
  {
    if fs != [] {
      ReadIssuesKinds(d, fs[1..]);
    }
  }

  /** A finding has the severity its kind calls for: duplicates as asked,
      the relation, target, text and year findings as warnings, nulls and
      an empty acts table as errors; and no plot is an integrity finding. */
  predicate FindingOk(f: Finding, failOnDuplicates: bool)
  {
    && !f.issue.MissingPlot?
    && ((f.issue.DuplicateIds? || f.issue.DuplicateEdges?) ==> f.severity == DupSeverity(failOnDuplicates))
    && ((f.issue.UnexpectedRelations? || f.issue.MissingTargets? || f.issue.AllTextEmpty? || f.issue.YearNotNumeric?)
        ==> f.severity == Warning)
    && ((f.issue.NullIds? || f.issue.NoActs? || f.issue.NullEdgeEnds?) ==> f.severity == Error)
  }

  predicate AllOk(fs: seq<Finding>, failOnDuplicates: bool)
  {
    forall i :: 0 <= i < |fs| ==> FindingOk(fs[i], failOnDuplicates)
  }

  lemma AllOkAppend(a: seq<Finding>, b: seq<Finding>, failOnDuplicates: bool)
    requires AllOk(a, failOnDuplicates) && AllOk(b, failOnDuplicates)
    ensures AllOk(a + b, failOnDuplicates)
  {
    forall i | 0 <= i < |a + b| ensures FindingOk((a + b)[i], failOnDuplicates) {
      if i >= |a| {
        assert (a + b)[i] == b[i - |a|];
      }
    }
  }

  lemma WhenOk(cond: bool, f: Finding, failOnDuplicates: bool)
    requires FindingOk(f, failOnDuplicates)
    ensures AllOk(When(cond, f), failOnDuplicates)
  {
  }

  lemma ActFindingsOk(missing: bool, rows: nat, failOnDuplicates: bool)
    ensures AllOk(ActFindingsOf(missing, rows), failOnDuplicates)
  {
    WhenOk(missing, Finding(Error, NullIds(ActsCsv, "act_id")), failOnDuplicates);
    WhenOk(rows == 0, Finding(Error, NoActs), failOnDuplicates);
    AllOkAppend(When(missing, Finding(Error, NullIds(ActsCsv, "act_id"))), When(rows == 0, Finding(Error, NoActs)),
                failOnDuplicates);
  }

  lemma IdFindingsOk(f: FileName, idCol: string, missing: bool, report: DupReport, failOnDuplicates: bool)
    ensures AllOk(IdFindingsOf(f, idCol, missing, report, failOnDuplicates), failOnDuplicates)
  {
    var a := When(missing, Finding(Error, NullIds(f, idCol)));
    var b := When(report.count > 0, Finding(DupSeverity(failOnDuplicates), DuplicateIds(f, idCol, report)));
    WhenOk(missing, Finding(Error, NullIds(f, idCol)), failOnDuplicates);
    WhenOk(report.count > 0, Finding(DupSeverity(failOnDuplicates), DuplicateIds(f, idCol, report)), failOnDuplicates);
    AllOkAppend(a, b, failOnDuplicates);
  }

  lemma CaseFindingsOk(missing: bool, allEmpty: bool, numeric: bool, report: DupReport, failOnDuplicates: bool)
    ensures AllOk(CaseFindingsOf(missing, allEmpty, numeric, report, failOnDuplicates), failOnDuplicates)
  {
    var a := When(missing, Finding(Error, NullIds(CasesCsv, "case_id")));
    var b := When(allEmpty, Finding(Warning, AllTextEmpty));
    var c := When(!numeric, Finding(Warning, YearNotNumeric));
    var e := When(report.count > 0, Finding(DupSeverity(failOnDuplicates), DuplicateIds(CasesCsv, "case_id", report)));
    WhenOk(missing, Finding(Error, NullIds(CasesCsv, "case_id")), failOnDuplicates);
    WhenOk(allEmpty, Finding(Warning, AllTextEmpty), failOnDuplicates);
    WhenOk(!numeric, Finding(Warning, YearNotNumeric), failOnDuplicates);
    WhenOk(report.count > 0, Finding(DupSeverity(failOnDuplicates), DuplicateIds(CasesCsv, "case_id", report)),
           failOnDuplicates);
    AllOkAppend(a, b, failOnDuplicates);
    AllOkAppend(a + b, c, failOnDuplicates);
    AllOkAppend(a + b + c, e, failOnDuplicates);
  }

  lemma EdgeFindingsOk(odd: seq<string>, nullEnds: bool, unknown: seq<string>, dupEdges: nat, failOnDuplicates: bool)
    ensures AllOk(EdgeFindingsOf(odd, nullEnds, unknown, dupEdges, failOnDuplicates), failOnDuplicates)
  {
    var a := When(odd != [], Finding(Warning, UnexpectedRelations(odd)));
    var b := When(nullEnds, Finding(Error, NullEdgeEnds));
    var c := When(unknown != [], Finding(Warning, MissingTargets(|unknown|, Take(unknown, MAX_EXAMPLES))));
    var e := When(dupEdges > 0, Finding(DupSeverity(failOnDuplicates), DuplicateEdges(dupEdges)));
    WhenOk(odd != [], Finding(Warning, UnexpectedRelations(odd)), failOnDuplicates);
    WhenOk(nullEnds, Finding(Error, NullEdgeEnds), failOnDuplicates);
    WhenOk(unknown != [], Finding(Warning, MissingTargets(|unknown|, Take(unknown, MAX_EXAMPLES))), failOnDuplicates);
    WhenOk(dupEdges > 0, Finding(DupSeverity(failOnDuplicates), DuplicateEdges(dupEdges)), failOnDuplicates);
    AllOkAppend(a, b, failOnDuplicates);
    AllOkAppend(a + b, c, failOnDuplicates);
    AllOkAppend(a + b + c, e, failOnDuplicates);
  }

  /** Every integrity finding has the severity its kind calls for:
      duplicate ids and duplicate edges are errors under
      `--fail-on-duplicates` and warnings otherwise; unexpected relations,
      unknown edge targets, empty texts and a non-numeric year column only
      ever warnings; null ids, null edge ends and an empty acts table
      errors. */
  lemma SeveritySpec(d: OutputDir, failOnDuplicates: bool)
    ensures AllOk(IntegrityFindings(d, failOnDuplicates), failOnDuplicates)
  {
    var a := ActFindings(d);
    var b := IdFindings(d, SectionsCsv, "section_id", failOnDuplicates);
    var c := IdFindings(d, ArticlesCsv, "article_id", failOnDuplicates);
    var e := CaseFindings(d, failOnDuplicates);
    var g := EdgeFindings(d, failOnDuplicates);
    ActFindingsOk(AnyMissing(Col(d, ActsCsv, "act_id")), Rows(d, ActsCsv), failOnDuplicates);
    var sids := Col(d, SectionsCsv, "section_id");
    IdFindingsOk(SectionsCsv, "section_id", AnyMissing(sids), ReportDuplicates(Strings(sids), MAX_EXAMPLES), failOnDuplicates);
    var aids := Col(d, ArticlesCsv, "article_id");
    IdFindingsOk(ArticlesCsv, "article_id", AnyMissing(aids), ReportDuplicates(Strings(aids), MAX_EXAMPLES), failOnDuplicates);
    var texts := Strings(Col(d, CasesCsv, "judgment_text"));
    CaseFindingsOk(AnyMissing(Col(d, CasesCsv, "case_id")), forall i :: 0 <= i < |texts| ==> texts[i] == "",
                   NumericColumn(Col(d, CasesCsv, "year")),
                   ReportDuplicates(Strings(Col(d, CasesCsv, "case_id")), MAX_EXAMPLES), failOnDuplicates);
    var nullEnds := AnyMissing(Col(d, EdgesCsv, "source_case_id")) || AnyMissing(Col(d, EdgesCsv, "target_section_or_article"));
    EdgeFindingsOk(OddRelations(d), nullEnds, UnknownTargets(d), DupRows(EdgeKeys(d), {}), failOnDuplicates);
    AllOkAppend(a, b, failOnDuplicates);
    AllOkAppend(a + b, c, failOnDuplicates);
    AllOkAppend(a + b + c, e, failOnDuplicates);
    AllOkAppend(a + b + c + e, g, failOnDuplicates);
  }

  /** A repeated case id fails the check under `--fail-on-duplicates`. */
  lemma DuplicateCaseFails(d: OutputDir)
    requires Readable(d)
    requires exists v :: v in Strings(Col(d, CasesCsv, "case_id")) && Count(Strings(Col(d, CasesCsv, "case_id")), v) > 1
    ensures Check(true, d, true).exitCode == 2
  {
    var ids := Strings(Col(d, CasesCsv, "case_id"));
    ReportDuplicatesSpec(ids, MAX_EXAMPLES);
    CleanReads(d);
    DuplicateCaseIsError(d, ReportDuplicates(ids, MAX_EXAMPLES));
  }

  /** A non-empty report counts at least one extra row. */
  lemma ReportCount(s: seq<string>, maxExamples: nat)
    ensures ReportDuplicates(s, maxExamples) != DupReport(0, []) ==> ReportDuplicates(s, maxExamples).count > 0
  {
    var dups := Repeated(Dedupe(s), s);
    ExtraPositive(Dedupe(s), s);
    ExtraSum(dups, s);
  }

  lemma DuplicateCaseIsError(d: OutputDir, report: DupReport)
    requires MissingFiles(d, FILES) == [] && ReadIssues(d, FILES) == []
    requires report == ReportDuplicates(Strings(Col(d, CasesCsv, "case_id")), MAX_EXAMPLES) && report != DupReport(0, [])
    ensures Check(true, d, true).exitCode == 2
  {
    var dup := Finding(Error, DuplicateIds(CasesCsv, "case_id", report));
    var texts := Strings(Col(d, CasesCsv, "judgment_text"));
    ReportCount(Strings(Col(d, CasesCsv, "case_id")), MAX_EXAMPLES);
    CaseFindingsHas(AnyMissing(Col(d, CasesCsv, "case_id")), forall i :: 0 <= i < |texts| ==> texts[i] == "",
                    NumericColumn(Col(d, CasesCsv, "year")), report);
    assert dup in CaseFindings(d, true);
    assert dup in IntegrityFindings(d, true);
    ErrorFails(d, true, dup.issue);
  }

  lemma CaseFindingsHas(missing: bool, allEmpty: bool, numeric: bool, report: DupReport)
    requires report.count > 0
    ensures Finding(Error, DuplicateIds(CasesCsv, "case_id", report)) in CaseFindingsOf(missing, allEmpty, numeric, report, true)
  {
  }

  /** Any integrity error fails a run whose tables all read cleanly, and is
      reported among the errors. */
  lemma ErrorFails(d: OutputDir, failOnDuplicates: bool, x: Issue)
    requires MissingFiles(d, FILES) == [] && ReadIssues(d, FILES) == []
    requires Finding(Error, x) in IntegrityFindings(d, failOnDuplicates)
    ensures Check(true, d, failOnDuplicates).exitCode == 2
    ensures x in Check(true, d, failOnDuplicates).errors
  {
    OfSeverityMembers(IntegrityFindings(d, failOnDuplicates), Error);
  }

  /** A readable directory passes the table and column stages. */
  lemma CleanReads(d: OutputDir)
    requires Readable(d)
    ensures MissingFiles(d, FILES) == [] && ReadIssues(d, FILES) == []
  {
    forall f: FileName ensures CheckColumns(Expected(f), d.files(f).frame.columns) == [] {
      CheckColumnsSpec(Expected(f), d.files(f).frame.columns);
    }
    CleanStages(d, FILES);
  }

  lemma {:induction false} CleanStages(d: OutputDir, fs: seq<FileName>)
    requires forall f: FileName :: d.files(f).Table? && CheckColumns(Expected(f), d.files(f).frame.columns) == []
    ensures MissingFiles(d, fs) == [] && ReadIssues(d, fs) == []
  {
    if fs != [] {
      CleanStages(d, fs[1..]);
    }
  }
}

=== FILE: pipeline.dfy ===
/**
 * What the two versions of the question-answering workflow share: the
 * graph resolution step (sections and articles by number, then the cases
 * citing them, turned into retrieval constraints), the messages shown when
 * the vector store or the language model is unavailable, the prompts sent
 * to the model, and the node graph the workflow is wired as.
 */
module Pipeline {
  import opened Wrappers
  import opened Seqs
  import opened Retrieval
  import opened GraphStore
  import opened Context

  /** The start of the graph error recorded when a lookup fails. */
  const GRAPH_ERROR_PREFIX := "neo4j_unavailable: "

  const VECTOR_DOWN_HEAD := "Vector retrieval is not available right now:\n"
  const VECTOR_DOWN_TAIL := "\nPlease ensure Phase 3 artifacts are built and try again."
  const LLM_DOWN_HEAD := "The local LLM (Ollama) is not available or returned an error:\n"

  /** The answer given instead of calling the model when retrieval failed. */
  function VectorDownAnswer(error: string): (r: string)
    ensures VECTOR_DOWN_HEAD <= r && OccursAtEnd(r, VECTOR_DOWN_TAIL)
    ensures |r| == |VECTOR_DOWN_HEAD| + |error| + |VECTOR_DOWN_TAIL|
    ensures r[|VECTOR_DOWN_HEAD|..|r| - |VECTOR_DOWN_TAIL|] == error
  {
    VECTOR_DOWN_HEAD + error + VECTOR_DOWN_TAIL
  }

  /** The answer given when the model call fails, naming the model to pull. */
  function LlmDownAnswer(error: string, modelName: string): (r: string)
    ensures LLM_DOWN_HEAD <= r
  {
    LLM_DOWN_HEAD + error + "\nPlease ensure Ollama is running and the model is pulled (e.g. `ollama pull "
      + modelName + "`)."
  }

  predicate OccursAtEnd(s: string, suffix: string)
  {
    |suffix| <= |s| && s[|s| - |suffix|..] == suffix
  }

  /** The requests the workflow sends to the language model: the rewrite of
      the user's question into a formal legal query, and the answer request
      with the question and its context. The fixed instruction texts around
      these parts are not modelled. */
  datatype Prompt =
    | RephrasePrompt(userQuery: string)
    | AnswerPrompt(version: nat, userQuery: string, context: string)

  /** The language model: a reply, or the client's error message. */
  type Llm = Prompt -> Result<string>

  /** `[row["section_id"] for row in rows]` (or article ids). */
  function ProvisionIds(ps: seq<Provision>): (r: seq<string>)
    ensures |r| == |ps|
    ensures forall i :: 0 <= i < |ps| ==> r[i] == ps[i].provisionId
  {
    seq(|ps|, i requires 0 <= i < |ps| => ps[i].provisionId)
  }

  function CaseIds(cs: seq<CaseRef>): (r: seq<string>)
    ensures |r| == |cs|
    ensures forall i :: 0 <= i < |cs| ==> r[i] == cs[i].caseId
  {
    seq(|cs|, i requires 0 <= i < |cs| => cs[i].caseId)
  }

  /** The three lookups of the graph node in order: sections, articles, and
      the cases citing any of the section ids followed by the article ids.
      The first failure ends the step; nothing looked up before it is kept. */
  function Resolve(db: GraphDb, sectionNumbers: seq<string>, articleNumbers: seq<string>,
                   sectionAct: Option<string>, articleAct: Option<string>): Result<GraphMetadata>
  {
    match SectionsByNumbers(db, sectionNumbers, sectionAct)
    case Err(e) => Err(e)
    case Ok(sections) =>
      match ArticlesByNumbers(db, articleNumbers, articleAct)
      case Err(e) => Err(e)
      case Ok(articles) =>
        match CasesCiting(db, ProvisionIds(sections) + ProvisionIds(articles))
        case Err(e) => Err(e)
        case Ok(cases) => Ok(GraphMetadata(sections, articles, cases))
  }

  /** The constraints built from what the graph resolved. */
  function ConstraintsOf(m: GraphMetadata): GraphConstraints
  {
    GraphConstraints(CaseIds(m.cases), ProvisionIds(m.sections), ProvisionIds(m.articles))
  }

  /** `asdict(constraints)` when it is not empty, else `None`. */
  function KeptConstraints(m: GraphMetadata): (r: Option<GraphConstraints>)
    ensures r.None? <==> m.cases == [] && m.sections == [] && m.articles == []
    ensures r.Some? ==> r.value == ConstraintsOf(m)
  {
    var g := ConstraintsOf(m);
    if g.IsEmpty() then None else Some(g)
  }

  /** Resolution succeeds exactly when each lookup it makes succeeds; the
      metadata holds the rows of the three lookups, the cases being looked
      up by the resolved section ids followed by the article ids. */
  lemma ResolveSpec(db: GraphDb, sectionNumbers: seq<string>, articleNumbers: seq<string>,
                    sectionAct: Option<string>, articleAct: Option<string>)
    ensures var r := Resolve(db, sectionNumbers, articleNumbers, sectionAct, articleAct);
      var s := SectionsByNumbers(db, sectionNumbers, sectionAct);
      var a := ArticlesByNumbers(db, articleNumbers, articleAct);
      && (r.Ok? <==> s.Ok? && a.Ok? && CasesCiting(db, ProvisionIds(s.value) + ProvisionIds(a.value)).Ok?)
      && (r.Ok? ==>
        && r.value.sections == s.value && r.value.articles == a.value
        && Ok(r.value.cases) == CasesCiting(db, ProvisionIds(s.value) + ProvisionIds(a.value)))
      && (s.Err? ==> r == Err(s.message))
  {
  }

  /** Without any number to look up, resolution makes no query at all and
      succeeds with empty metadata, whatever state the database is in. */
  lemma ResolveNothing(db: GraphDb, sectionAct: Option<string>, articleAct: Option<string>)
    ensures Resolve(db, [], [], sectionAct, articleAct) == Ok(GraphMetadata([], [], []))
  {
    assert ProvisionIds([]) + ProvisionIds([]) == [];
  }

  // ----- the node graph -----

  /** The workflow's nodes. */
  datatype Node = QueryParser | GraphRetriever | QueryRephrase | VectorRetriever | AnswerGenerator

  /** Where an edge leads: a node, or the end of the run. */
  datatype Target = To(node: Node) | End

  datatype Edge = Edge(from: Node, to: Target)

  /** The targets of the edges leaving `n`, in the order they were added. */
  function Successors(edges: seq<Edge>, n: Node): seq<Target>
  {
    if edges == [] then []
    else (if edges[0].from == n then [edges[0].to] else []) + Successors(edges[1..], n)
  }

  lemma SuccessorsCons(e: Edge, rest: seq<Edge>, n: Node)
    ensures Successors([e] + rest, n) == (if e.from == n then [e.to] else []) + Successors(rest, n)
  {
    assert ([e] + rest)[1..] == rest;
  }

  /** The run of a graph whose nodes have one outgoing edge each, from `n`:
      the nodes visited, at most `fuel` of them. */
  function Path(edges: seq<Edge>, n: Node, fuel: nat): seq<Node>
    decreases fuel
  {
    if fuel == 0 then []
    else
      var next := Successors(edges, n);
      if |next| != 1 || next[0].End? then [n] else [n] + Path(edges, next[0].node, fuel - 1)
  }

  /** The graph is a single chain through `nodes`, in that order, ending at
      the end of the run: every listed node has exactly one outgoing edge,
      to the next node or (the last one) to the end. */
  predicate IsChain(edges: seq<Edge>, nodes: seq<Node>)
  {
    && nodes != []
    && (forall i :: 0 <= i < |nodes| - 1 ==> Successors(edges, nodes[i]) == [To(nodes[i + 1])])
    && Successors(edges, nodes[|nodes| - 1]) == [End]
  }

  /** Runs the nodes `ns` in turn, each node's function given by `step`. */
  function RunNodes<S>(step: (Node, S) -> S, ns: seq<Node>, s: S): S
  {
    if ns == [] then s else RunNodes(step, ns[1..], step(ns[0], s))
  }

  /** Running a list of nodes applies each once, first to last. */
  lemma RunNodesAppend<S>(step: (Node, S) -> S, ns: seq<Node>, n: Node, s: S)
    ensures RunNodes(step, ns + [n], s) == step(n, RunNodes(step, ns, s))
    decreases |ns|
  {
    if ns != [] {
      assert (ns + [n])[1..] == ns[1..] + [n];
      RunNodesAppend(step, ns[1..], n, step(ns[0], s));
    }
  }

  /** Running four nodes is applying their functions one after another. */
  lemma RunFour<S>(step: (Node, S) -> S, a: Node, b: Node, c: Node, d: Node, s: S)
    ensures RunNodes(step, [a, b, c, d], s) == step(d, step(c, step(b, step(a, s))))
  {
    RunNodesAppend(step, [], a, s);
    RunNodesAppend(step, [a], b, s);
    RunNodesAppend(step, [a, b], c, s);
    RunNodesAppend(step, [a, b, c], d, s);
    assert [] + [a] == [a] && [a] + [b] == [a, b] && [a, b] + [c] == [a, b, c];
    assert [a, b, c] + [d] == [a, b, c, d];
  }

  /** Running five nodes is applying their functions one after another. */
  lemma RunFive<S>(step: (Node, S) -> S, a: Node, b: Node, c: Node, d: Node, e: Node, s: S)
    ensures RunNodes(step, [a, b, c, d, e], s) == step(e, step(d, step(c, step(b, step(a, s)))))
  {
    RunNodesAppend(step, [], a, s);
    RunNodesAppend(step, [a], b, s);
    RunNodesAppend(step, [a, b], c, s);
    RunNodesAppend(step, [a, b, c], d, s);
    RunNodesAppend(step, [a, b, c, d], e, s);
    assert [] + [a] == [a] && [a] + [b] == [a, b] && [a, b] + [c] == [a, b, c];
    assert [a, b, c] + [d] == [a, b, c, d] && [a, b, c, d] + [e] == [a, b, c, d, e];
  }

  /** In a chain, the run from the first node visits exactly the chain's
      nodes, in order. */
  lemma {:induction false} ChainPath(edges: seq<Edge>, nodes: seq<Node>)
    requires IsChain(edges, nodes)
    ensures Path(edges, nodes[0], |nodes|) == nodes
    decreases |nodes|
  {
    if |nodes| > 1 {
      var rest := nodes[1..];
      assert IsChain(edges, rest) by {
        forall i | 0 <= i < |rest| - 1 ensures Successors(edges, rest[i]) == [To(rest[i + 1])] {
          assert rest[i] == nodes[i + 1] && rest[i + 1] == nodes[i + 2];
        }
        assert rest[|rest| - 1] == nodes[|nodes| - 1];
      }
      ChainPath(edges, rest);
      assert Successors(edges, nodes[0]) == [To(nodes[1])];
      assert nodes == [nodes[0]] + rest;
    }
  }
}

=== FILE: query_parser.dfy ===
/**
 * The first query parser: the article and section numbers a question
 * mentions, in order of occurrence and with repeats, and whether it names
 * any explicit reference at all.
 */
module QueryParser {
  import opened Text
  import opened RefScan

  /** `ParsedQuery`. `explicitIds` is the act-specific id map the parser
      always leaves empty. */
  datatype ParsedQuery = ParsedQuery(
    rawQuery: string,
    articleNumbers: seq<string>,
    sectionNumbers: seq<string>,
    explicitIds: map<string, seq<string>>)
  {
    /** `has_explicit_refs`. */
    predicate HasExplicitRefs()
    {
      articleNumbers != [] || sectionNumbers != [] || explicitIds != map[]
    }
  }

  /** `[s.strip() for s in ts]`. */
  function StripEach(ts: seq<string>): (r: seq<string>)
    ensures |r| == |ts|
  {
    seq(|ts|, j requires 0 <= j < |ts| => Strip(ts[j]))
  }

  /** `[m.group(1).strip() for m in pattern.finditer(text)]`. */
  function Numbers(pat: Pattern, text: string): seq<string>
  {
    StripEach(FindAll(pat, text))
  }

  /** `parse_query`. */
  function Parse(text: string): ParsedQuery
  {
    ParsedQuery(text, Numbers(ArticleRef, text), Numbers(SectionRef, text), map[])
  }

  /** A captured group neither starts nor ends with whitespace. */
  lemma TokenEdges(pat: Pattern, s: string)
    requires TokenOk(pat, s)
    ensures s != [] && !IsSpace(s[0]) && !IsSpace(s[|s| - 1])
  {
    if pat.SectionRef? || pat.CitedArticleRef? {
      DigitRunShape(s, 0);
    }
  }

  /** The `strip()` applied to each group changes nothing: the numbers are
      exactly the groups the pattern captures, in order, with repeats. */
  lemma NumbersAreGroups(pat: Pattern, text: string)
    ensures Numbers(pat, text) == FindAll(pat, text)
    ensures forall j :: 0 <= j < |Numbers(pat, text)| ==> TokenOk(pat, Numbers(pat, text)[j])
  {
    var ts := FindAll(pat, text);
    ScanTokens(pat, text, 0);
    forall j | 0 <= j < |ts| ensures Strip(ts[j]) == ts[j] {
      TokenEdges(pat, ts[j]);
      StripFixed(ts[j]);
    }
  }

  /** The parse keeps the query, lists the captured groups of each pattern
      (article numbers are digits with at most one letter; section numbers
      are digits with an optional parenthesised sub-number), leaves the id
      map empty, and reports explicit references exactly when a number was
      found. */
  lemma ParseSpec(text: string)
    ensures var q := Parse(text);
      && q.rawQuery == text
      && q.explicitIds == map[]
      && q.articleNumbers == FindAll(ArticleRef, text)
      && q.sectionNumbers == FindAll(SectionRef, text)
      && (forall j :: 0 <= j < |q.articleNumbers| ==> NumberToken(q.articleNumbers[j]))
      && (forall j :: 0 <= j < |q.sectionNumbers| ==> SubsectionToken(q.sectionNumbers[j]))
      && (q.HasExplicitRefs() <==> FindAll(ArticleRef, text) != [] || FindAll(SectionRef, text) != [])
  {
    NumbersAreGroups(ArticleRef, text);
    NumbersAreGroups(SectionRef, text);
  }

  /** Text that never says "article" (in any case) has no article numbers,
      and likewise for "section". */
  lemma ParseWithoutKeywords(text: string)
    ensures (forall p :: 0 <= p < |text| ==> !KeywordAt(text, p, "article")) ==> Parse(text).articleNumbers == []
    ensures (forall p :: 0 <= p < |text| ==> !KeywordAt(text, p, "section")) ==> Parse(text).sectionNumbers == []
  {
    NumbersAreGroups(ArticleRef, text);
    NumbersAreGroups(SectionRef, text);
    if forall p :: 0 <= p < |text| ==> !KeywordAt(text, p, "article") {
      ScanWithoutKeyword(ArticleRef, text, 0);
    }
    if forall p :: 0 <= p < |text| ==> !KeywordAt(text, p, "section") {
      ScanWithoutKeyword(SectionRef, text, 0);
    }
  }

  /** "Section 302A" refers to section 302: the letter is not captured. */
  lemma SectionLetterNotCaptured()
    ensures Parse("Section 302A").sectionNumbers == ["302"]
  {
    NumbersAreGroups(SectionRef, "Section 302A");
    SectionLetterDropped();
  }
}

=== FILE: query_parser_v3.dfy ===
/**
 * The third query parser: the first parser's numbers plus a hint of which
 * Act the question names (BNS, BNSS, BSA or the Constitution).
 *
 * The Act patterns are searched in lower-cased, stripped text, so the
 * case-insensitive flag has nothing left to do and the patterns below are
 * matched literally. Each pattern form is a deterministic matcher; for
 * these patterns the greedy choice is the only one that can succeed, so
 * the matcher agrees with the backtracking engine on whether a match
 * exists at a position.
 */
module QueryParserV3 {
  import opened Wrappers
  import opened Text
  import opened RefScan
  import V1 = QueryParser

  /** The forms the Act patterns take. */
  datatype ActPattern =
    /** `\bw1\s+w2...\s+wn\b` */
    | Bounded(words: seq<string>)
    /** `w1\s+w2...\s+wn` */
    | Phrase(words: seq<string>)
    /** `w1\s+...\s+wn\s*\(?\s*tag\s*\)?`; the trailing `\s*\)?` can match
        nothing, so it has no effect on whether the pattern is found */
    | Tagged(words: seq<string>, tag: string)
    /** `article\s+\d+[A-Z]?\s+(?:of\s+)?(?:the\s+)?constitution` */
    | ArticleOfConstitution

  /** `\b` at position `i`: a word character on exactly one side. */
  predicate Boundary(t: string, i: nat)
    requires i <= |t|
  {
    if i == 0 then |t| > 0 && IsWordChar(t[0])
    else if i == |t| then IsWordChar(t[i - 1])
    else IsWordChar(t[i - 1]) != IsWordChar(t[i])
  }

  /** Where `w1\s+w2...\s+wn` ends when it matches at `i`. */
  function PhraseEnd(ws: seq<string>, t: string, i: nat): (r: Option<nat>)
    requires i <= |t|
    ensures r.Some? ==> i <= r.value <= |t|
    decreases |ws|
  {
    if ws == [] || !OccursAt(t, ws[0], i) then None
    else if |ws| == 1 then Some(i + |ws[0]|)
    else
      var j := i + |ws[0]|;
      if SpaceRun(t, j) == 0 then None else PhraseEnd(ws[1..], t, j + SpaceRun(t, j))
  }

  /** The literal `w` at `j` followed by at least one whitespace: where the
      whitespace ends, or `j` when the optional group is skipped. */
  function OptionalWord(t: string, j: nat, w: string): (r: nat)
    requires j <= |t|
    ensures j <= r <= |t|
  {
    if OccursAt(t, w, j) && SpaceRun(t, j + |w|) > 0 then j + |w| + SpaceRun(t, j + |w|) else j
  }

  /** The pattern matches at position `i`. */
  predicate MatchesAt(pat: ActPattern, t: string, i: nat)
    requires i <= |t|
  {
    match pat
    case Bounded(ws) =>
      Boundary(t, i) && PhraseEnd(ws, t, i).Some? && Boundary(t, PhraseEnd(ws, t, i).value)
    case Phrase(ws) => PhraseEnd(ws, t, i).Some?
    case Tagged(ws, tag) =>
      && PhraseEnd(ws, t, i).Some?
      && var a := PhraseEnd(ws, t, i).value + SpaceRun(t, PhraseEnd(ws, t, i).value);
         var b := if a < |t| && t[a] == '(' then a + 1 else a;
         OccursAt(t, tag, b + SpaceRun(t, b))
    case ArticleOfConstitution =>
      && OccursAt(t, "article", i)
      && SpaceRun(t, i + 7) > 0
      && var k := i + 7 + SpaceRun(t, i + 7);
         && DigitRun(t, k) > 0
         && var e := LetterEnd(t, k + DigitRun(t, k));
            && SpaceRun(t, e) > 0
            && var m := OptionalWord(t, OptionalWord(t, e + SpaceRun(t, e), "of"), "the");
               OccursAt(t, "constitution", m)
  }

  /** `re.search`: the pattern matches somewhere from `i` on. */
  predicate SearchFrom(pat: ActPattern, t: string, i: nat)
    requires i <= |t|
    decreases |t| - i
  {
    MatchesAt(pat, t, i) || (i < |t| && SearchFrom(pat, t, i + 1))
  }

  predicate Search(pat: ActPattern, t: string)
  {
    SearchFrom(pat, t, 0)
  }

  /** `SearchFrom` holds exactly when some position from `i` on matches. */
  lemma {:induction false} SearchFromIff(pat: ActPattern, t: string, i: nat)
    requires i <= |t|
    ensures SearchFrom(pat, t, i) <==> exists p :: i <= p <= |t| && MatchesAt(pat, t, p)
    decreases |t| - i
  {
    if i < |t| {
      SearchFromIff(pat, t, i + 1);
      if exists p :: i <= p <= |t| && MatchesAt(pat, t, p) {
        var p :| i <= p <= |t| && MatchesAt(pat, t, p);
        if p != i {
          assert i + 1 <= p <= |t| && MatchesAt(pat, t, p);
        }
      }
      if SearchFrom(pat, t, i + 1) {
        var p :| i + 1 <= p <= |t| && MatchesAt(pat, t, p);
        assert i <= p <= |t| && MatchesAt(pat, t, p);
      }
    } else {
      if exists p :: i <= p <= |t| && MatchesAt(pat, t, p) {
        var p :| i <= p <= |t| && MatchesAt(pat, t, p);
        assert p == i;
      }
    }
  }

  /** An Act id and the patterns that detect it. */
  datatype Alias = Alias(actId: string, patterns: seq<ActPattern>)

  /** `ACT_ALIASES`, in the order they are tried. */
  const ACT_ALIASES: seq<Alias> := [
    Alias("BNS", [
      Bounded(["bns"]),
      Phrase(["bharatiya", "nyaya", "sanhita"]),
      Tagged(["bharatiya", "nyaya", "sanhita"], "bns")]),
    Alias("BNSS", [
      Bounded(["bnss"]),
      Phrase(["bharatiya", "nagarik", "suraksha", "sanhita"]),
      Phrase(["bharatiya", "nagrik", "suraksha", "sanhita"]),
      Tagged(["bharatiya", "nagarik", "suraksha", "sanhita"], "bnss")]),
    Alias("BSA", [
      Bounded(["bsa"]),
      Phrase(["bharatiya", "sakshya", "adhiniyam"]),
      Tagged(["bharatiya", "sakshya", "adhiniyam"], "bsa")]),
    Alias("Constitution", [
      Bounded(["constitution", "of", "india"]),
      ArticleOfConstitution,
      Bounded(["constitution"])])
  ]

  /** Some pattern of the list is found in `t`. */
  predicate AnyFound(ps: seq<ActPattern>, t: string)
  {
    exists j :: 0 <= j < |ps| && Search(ps[j], t)
  }

  /** The first alias of the list with a pattern found in `t`. */
  function FirstAct(aliases: seq<Alias>, t: string): Option<string>
  {
    if aliases == [] then None
    else if AnyFound(aliases[0].patterns, t) then Some(aliases[0].actId)
    else FirstAct(aliases[1..], t)
  }

  /** `_detect_act`. */
  function DetectAct(text: string): Option<string>
  {
    FirstAct(ACT_ALIASES, Lower(Strip(text)))
  }

  /** Alias `j` is found in `t` and no earlier alias is. */
  predicate FirstFound(aliases: seq<Alias>, t: string, j: int)
  {
    && 0 <= j < |aliases|
    && AnyFound(aliases[j].patterns, t)
    && forall x :: 0 <= x < j ==> !AnyFound(aliases[x].patterns, t)
  }

  /** `FirstAct` names the first alias that is found, and only when no
      earlier one is. */
  lemma {:induction false} FirstActSpec(aliases: seq<Alias>, t: string)
    ensures FirstAct(aliases, t).None? <==> forall j :: 0 <= j < |aliases| ==> !AnyFound(aliases[j].patterns, t)
    ensures FirstAct(aliases, t).Some? ==>
      exists j :: FirstFound(aliases, t, j) && FirstAct(aliases, t).value == aliases[j].actId
  {
    if aliases != [] {
      FirstActSpec(aliases[1..], t);
      if !AnyFound(aliases[0].patterns, t) && FirstAct(aliases, t).Some? {
        var j :| FirstFound(aliases[1..], t, j) && FirstAct(aliases, t).value == aliases[1..][j].actId;
        assert aliases[j + 1] == aliases[1..][j];
        assert forall x :: 0 < x <= j ==> aliases[x] == aliases[1..][x - 1];
        assert FirstFound(aliases, t, j + 1);
      }
      if FirstAct(aliases, t).None? {
        assert forall j :: 1 <= j < |aliases| ==> aliases[j] == aliases[1..][j - 1];
      }
    }
  }

  /** The detected Act is one of the four, the first in the order BNS, BNSS,
      BSA, Constitution whose patterns occur in the lower-cased text. */
  lemma DetectActSpec(text: string)
    ensures var r := DetectAct(text);
      var t := Lower(Strip(text));
      && (r.None? <==> forall j :: 0 <= j < |ACT_ALIASES| ==> !AnyFound(ACT_ALIASES[j].patterns, t))
      && (r.Some? ==> exists j :: FirstFound(ACT_ALIASES, t, j) && r.value == ACT_ALIASES[j].actId)
  {
    FirstActSpec(ACT_ALIASES, Lower(Strip(text)));
  }

  // ----- which patterns decide -----

  /** A tagged phrase is only found where its phrase is found. */
  lemma {:induction false} TaggedNeedsPhrase(ws: seq<string>, tag: string, t: string, i: nat)
    requires i <= |t|
    ensures SearchFrom(Tagged(ws, tag), t, i) ==> SearchFrom(Phrase(ws), t, i)
    decreases |t| - i
  {
    if i < |t| {
      TaggedNeedsPhrase(ws, tag, t, i + 1);
    }
  }

  /** Adding a pattern that is only found where an earlier one is changes
      nothing. */
  lemma RedundantLast(ps: seq<ActPattern>, t: string, j: nat)
    requires 0 <= j < |ps| - 1
    requires Search(ps[|ps| - 1], t) ==> Search(ps[j], t)
    ensures AnyFound(ps, t) <==> AnyFound(ps[..|ps| - 1], t)
  {
    if AnyFound(ps, t) {
      var x :| 0 <= x < |ps| && Search(ps[x], t);
      if x == |ps| - 1 {
        assert ps[..|ps| - 1][j] == ps[j];
      } else {
        assert ps[..|ps| - 1][x] == ps[x];
      }
    }
    if AnyFound(ps[..|ps| - 1], t) {
      var x :| 0 <= x < |ps| - 1 && Search(ps[..|ps| - 1][x], t);
      assert ps[..|ps| - 1][x] == ps[x];
    }
  }

  /** The `...\s*\(?\s*bns\s*\)?` style patterns of BNS, BNSS and BSA
      never decide anything: each is found only where the plain phrase
      before it in the same list is found. */
  lemma TaggedPatternsRedundant(t: string)
    ensures AnyFound(ACT_ALIASES[0].patterns, t) <==> AnyFound(ACT_ALIASES[0].patterns[..2], t)
    ensures AnyFound(ACT_ALIASES[1].patterns, t) <==> AnyFound(ACT_ALIASES[1].patterns[..3], t)
    ensures AnyFound(ACT_ALIASES[2].patterns, t) <==> AnyFound(ACT_ALIASES[2].patterns[..2], t)
  {
    TaggedRedundant(ACT_ALIASES[0].patterns, t, 1);
    TaggedRedundant(ACT_ALIASES[1].patterns, t, 1);
    TaggedRedundant(ACT_ALIASES[2].patterns, t, 1);
  }

  /** A list whose last pattern is the tagged form of the phrase at `j`
      is found exactly when the list without it is. */
  lemma TaggedRedundant(ps: seq<ActPattern>, t: string, j: nat)
    requires 0 <= j < |ps| - 1 && ps[|ps| - 1].Tagged? && ps[j] == Phrase(ps[|ps| - 1].words)
    ensures AnyFound(ps, t) <==> AnyFound(ps[..|ps| - 1], t)
  {
    TaggedNeedsPhrase(ps[|ps| - 1].words, ps[|ps| - 1].tag, t, 0);
    RedundantLast(ps, t, j);
  }

  /** Whitespace is not a word character. */
  lemma SpaceNotWordChar(c: char)
    requires IsSpace(c)
    ensures !IsWordChar(c)
  {
  }

  /** Where `\bconstitution\s+of\s+india\b` matches, `\bconstitution\b`
      matches too. */
  lemma {:induction false} ConstitutionOfIndiaNeedsWord(t: string, i: nat)
    requires i <= |t|
    ensures SearchFrom(Bounded(["constitution", "of", "india"]), t, i) ==> SearchFrom(Bounded(["constitution"]), t, i)
    decreases |t| - i
  {
    if MatchesAt(Bounded(["constitution", "of", "india"]), t, i) {
      var e := i + 12;
      assert PhraseEnd(["constitution"], t, i) == Some(e);
      assert t[e - 1] == "constitution"[11];
      SpaceNotWordChar(t[e]);
      assert MatchesAt(Bounded(["constitution"]), t, i);
    }
    if i < |t| {
      ConstitutionOfIndiaNeedsWord(t, i + 1);
    }
  }

  /** The Constitution is detected exactly when the "article N of the
      constitution" pattern or the word "constitution" is found; the
      "constitution of india" pattern adds nothing. */
  lemma ConstitutionPatterns(t: string)
    ensures AnyFound(ACT_ALIASES[3].patterns, t) <==>
      Search(ArticleOfConstitution, t) || Search(Bounded(["constitution"]), t)
  {
    ConstitutionOfIndiaNeedsWord(t, 0);
    var ps := ACT_ALIASES[3].patterns;
    if Search(ArticleOfConstitution, t) {
      assert Search(ps[1], t);
    }
    if Search(Bounded(["constitution"]), t) {
      assert Search(ps[2], t);
    }
  }

  /** The "article N ... constitution" pattern does decide something: it
      needs no word boundary after "constitution", so it finds
      "article 1 constitutional", where the word "constitution" is not. */
  lemma ArticleOfConstitutionNotRedundant()
    ensures Search(ArticleOfConstitution, "article 1 constitutional")
    ensures !Search(Bounded(["constitution"]), "article 1 constitutional")
  {
    ArticleOfFound();
    WordNotFound();
  }

  lemma ArticleOfFound()
    ensures MatchesAt(ArticleOfConstitution, "article 1 constitutional", 0)
  {
    var t := "article 1 constitutional";
    assert OccursAt(t, "article", 0) by {
      assert t[0..7] == "article";
    }
    assert OccursAt(t, "constitution", 10) by {
      assert t[10..22] == "constitution";
    }
    assert SpaceRun(t, 7) == 1 by {
      assert IsSpace(t[7]) && !IsSpace(t[8]);
    }
    assert DigitRun(t, 8) == 1 by {
      assert IsDigit(t[8]) && !IsDigit(t[9]);
    }
    assert LetterEnd(t, 9) == 9;
    assert SpaceRun(t, 9) == 1 by {
      assert IsSpace(t[9]) && !IsSpace(t[10]);
    }
    assert OptionalWord(t, 10, "of") == 10 by {
      assert t[10..12] != "of";
    }
    assert OptionalWord(t, 10, "the") == 10 by {
      assert t[10..13] != "the";
    }
  }

  /** "constitution" occurs in the example only at offset 10. */
  lemma ConstitutionOnlyAt10(p: nat)
    requires p <= 12 && p != 10
    ensures !OccursAt("article 1 constitutional", "constitution", p)
  {
    var t := "article 1 constitutional";
    assert t[p..p + 12][0] == t[p] && t[p..p + 12][1] == t[p + 1];
  }

  lemma WordNotFound()
    ensures !Search(Bounded(["constitution"]), "article 1 constitutional")
  {
    var t := "article 1 constitutional";
    SearchFromIff(Bounded(["constitution"]), t, 0);
    forall p | 0 <= p <= |t| ensures !MatchesAt(Bounded(["constitution"]), t, p) {
      if p == 10 {
        assert IsWordChar(t[21]) && IsWordChar(t[22]);
        assert !Boundary(t, 22);
      } else if p <= 12 {
        ConstitutionOnlyAt10(p);
      }
    }
  }

  /** A question that only says "BNSS" is about the BNSS, not the BNS: the
      word boundary keeps "bns" from matching inside "bnss". */
  lemma BnssIsNotBns()
    ensures DetectAct("BNSS") == Some("BNSS")
  {
    var t := "bnss";
    StripFixed("BNSS");
    assert Lower("BNSS") == t;
    NoBns(t);
    assert MatchesAt(Bounded(["bnss"]), t, 0);
    assert Search(ACT_ALIASES[1].patterns[0], t);
  }

  lemma NoBns(t: string)
    requires t == "bnss"
    ensures !AnyFound(ACT_ALIASES[0].patterns, t)
  {
    SearchFromIff(Bounded(["bns"]), t, 0);
    forall p | 0 <= p <= |t| ensures !MatchesAt(Bounded(["bns"]), t, p) {
      if p == 0 {
        assert IsWordChar(t[2]) && IsWordChar(t[3]);
        assert !Boundary(t, 3);
      } else if p == 1 {
        assert t[1..4][0] == 'n';
      }
    }
    NoPhrase(["bharatiya", "nyaya", "sanhita"], t);
    TaggedNeedsPhrase(["bharatiya", "nyaya", "sanhita"], "bns", t, 0);
  }

  /** A phrase whose first word is longer than the text is not found. */
  lemma NoPhrase(ws: seq<string>, t: string)
    requires ws != [] && |ws[0]| > |t|
    ensures !Search(Phrase(ws), t)
  {
    SearchFromIff(Phrase(ws), t, 0);
  }

  // ----- parse_query -----

  /** `ParsedQuery` of the third version: the first version's fields plus
      the Act hints for the section and the article numbers. */
  datatype ParsedQuery = ParsedQuery(
    rawQuery: string,
    articleNumbers: seq<string>,
    sectionNumbers: seq<string>,
    explicitIds: map<string, seq<string>>,
    sectionActId: Option<string>,
    articleActId: Option<string>)
  {
    /** `has_explicit_refs`. */
    predicate HasExplicitRefs()
    {
      articleNumbers != [] || sectionNumbers != [] || explicitIds != map[]
    }
  }

  /** `PATTERN.search(text)` succeeds exactly when `finditer` yields a match. */
  predicate Mentions(pat: Pattern, text: string)
  {
    FindAll(pat, text) != []
  }

  /** `_detect_section_act`. */
  function DetectSectionAct(text: string): Option<string>
  {
    if !Mentions(SectionRef, text) then None else DetectAct(text)
  }

  /** `_detect_article_act`. */
  function DetectArticleAct(text: string): Option<string>
  {
    if !Mentions(ArticleRef, text) then None else DetectAct(text)
  }

  /** `parse_query`: the hints are first taken from the per-kind detectors
      and, where those give nothing although numbers were found, from
      `_detect_act` directly. */
  function Parse(text: string): ParsedQuery
  {
    var articleNums := V1.Numbers(ArticleRef, text);
    var sectionNums := V1.Numbers(SectionRef, text);
    var sectionAct := if sectionNums != [] then DetectSectionAct(text) else None;
    var articleAct := if articleNums != [] then DetectArticleAct(text) else None;
    var sectionAct' := if sectionNums != [] && sectionAct.None? then DetectAct(text) else sectionAct;
    var articleAct' := if articleNums != [] && articleAct.None? then DetectAct(text) else articleAct;
    ParsedQuery(text, articleNums, sectionNums, map[], sectionAct', articleAct')
  }

  /** A kind's hint is absent when no number of that kind was found, and is
      otherwise the Act detected in the whole question; so when both kinds
      are present the two hints agree. */
  lemma ParseHints(text: string)
    ensures var q := Parse(text);
      && q.sectionActId == (if q.sectionNumbers == [] then None else DetectAct(text))
      && q.articleActId == (if q.articleNumbers == [] then None else DetectAct(text))
      && (q.sectionNumbers != [] && q.articleNumbers != [] ==> q.sectionActId == q.articleActId)
  {
  }

  /** The third parser finds the same numbers as the first, keeps the query
      and leaves the id map empty, so it reports explicit references exactly
      when the first one does. */
  lemma ParseAgreesWithV1(text: string)
    ensures var q := Parse(text);
      var q1 := V1.Parse(text);
      && q.rawQuery == q1.rawQuery == text
      && q.articleNumbers == q1.articleNumbers
      && q.sectionNumbers == q1.sectionNumbers
      && q.explicitIds == q1.explicitIds == map[]
      && (q.HasExplicitRefs() <==> q1.HasExplicitRefs())
  {
  }

  /** The empty question has no numbers, no hints and no explicit
      references. */
  lemma ParseEmpty()
    ensures var q := Parse("");
      q.articleNumbers == [] && q.sectionNumbers == [] && q.sectionActId.None? && q.articleActId.None?
      && !q.HasExplicitRefs()
  {
  }
}

=== FILE: ref_scan.dfy ===
/**
 * The reference patterns of the query parsers and of the evaluation
 * scripts, as deterministic left-to-right scanners:
 *
 *   - `Article\s+(\d+[A-Z]?)`, case-insensitive;
 *   - `Section\s+(\d+(?:\(\d+\))?)`, case-insensitive, and the same group after
 *     `Article` in the citation extractor;
 *   - `(?:section|sec\.?)\s*(\d+[A-Za-z]?)`, case-insensitive.
 *
 * `MatchAt` is what the regular-expression engine finds at one position;
 * `MatchShape` is the language of the pattern written out, and the lemmas
 * show that `MatchAt` finds a match exactly where the pattern has one, and
 * the longest one, which is the one the greedy engine returns. `Scan` is
 * `finditer`/`findall`: try each position in turn and resume after a match.
 */
module RefScan {
  import opened Wrappers
  import opened Text

  /** The four patterns. */
  datatype Pattern =
    | ArticleRef       // query parsers: `Article\s+(\d+[A-Z]?)`
    | SectionRef       // query parsers and citation extractor: `Section\s+(\d+(?:\(\d+\))?)`
    | CitedArticleRef  // citation extractor: `Article\s+(\d+(?:\(\d+\))?)`
    | LooseSectionRef  // evaluation scripts: `(?:section|sec\.?)\s*(\d+[A-Za-z]?)`

  /** A match: its captured group and the position just after it. */
  datatype Match = Match(token: string, end: nat)

  /** The length of the run of whitespace that starts at `j`. */
  function SpaceRun(t: string, j: nat): (n: nat)
    requires j <= |t|
    ensures j + n <= |t|
    decreases |t| - j
  {
    if j < |t| && IsSpace(t[j]) then 1 + SpaceRun(t, j + 1) else 0
  }

  /** The length of the run of digits that starts at `j`. */
  function DigitRun(t: string, j: nat): (n: nat)
    requires j <= |t|
    ensures j + n <= |t|
    decreases |t| - j
  {
    if j < |t| && IsDigit(t[j]) then 1 + DigitRun(t, j + 1) else 0
  }

  /** Every character from `j` up to `k` is whitespace. */
  predicate SpacesIn(t: string, j: nat, k: nat)
    requires j <= k <= |t|
  {
    forall x :: j <= x < k ==> IsSpace(t[x])
  }

  /** Every character from `j` up to `k` is a digit. */
  predicate DigitsIn(t: string, j: nat, k: nat)
    requires j <= k <= |t|
  {
    forall x :: j <= x < k ==> IsDigit(t[x])
  }

  /** `SpaceRun` measures a maximal run. */
  lemma {:induction false} SpaceRunShape(t: string, j: nat)
    requires j <= |t|
    ensures SpacesIn(t, j, j + SpaceRun(t, j))
    ensures j + SpaceRun(t, j) < |t| ==> !IsSpace(t[j + SpaceRun(t, j)])
    ensures forall k :: j <= k <= |t| && SpacesIn(t, j, k) ==> k <= j + SpaceRun(t, j)
    decreases |t| - j
  {
    if j < |t| && IsSpace(t[j]) {
      SpaceRunShape(t, j + 1);
      forall k | j + 1 <= k <= |t| && SpacesIn(t, j, k) ensures SpacesIn(t, j + 1, k) {
      }
    }
  }

  /** `DigitRun` measures a maximal run. */
  lemma {:induction false} DigitRunShape(t: string, j: nat)
    requires j <= |t|
    ensures DigitsIn(t, j, j + DigitRun(t, j))
    ensures j + DigitRun(t, j) < |t| ==> !IsDigit(t[j + DigitRun(t, j)])
    ensures forall k :: j <= k <= |t| && DigitsIn(t, j, k) ==> k <= j + DigitRun(t, j)
    decreases |t| - j
  {
    if j < |t| && IsDigit(t[j]) {
      DigitRunShape(t, j + 1);
      forall k | j + 1 <= k <= |t| && DigitsIn(t, j, k) ensures DigitsIn(t, j + 1, k) {
      }
    }
  }

  /** The keyword `kw` (lower case) occurs at `i`, ignoring ASCII case. */
  predicate KeywordAt(t: string, i: nat, kw: string)
  {
    i + |kw| <= |t| && Lower(t[i..i + |kw|]) == kw
  }

  /** `\d+[A-Za-z]?`: digits, then at most one letter. */
  predicate NumberToken(s: string)
  {
    && |s| > 0 && IsDigit(s[0])
    && (AllDigits(s) || (AllDigits(s[..|s| - 1]) && IsAsciiLetter(s[|s| - 1])))
  }

  /** `\d+(?:\(\d+\))?`: digits, optionally followed by digits in
      parentheses. `a` is the length of the leading digit run. */
  predicate SubsectionToken(s: string)
  {
    var a := DigitRun(s, 0);
    && a > 0
    && (a == |s| || (a + 2 < |s| && s[a] == '(' && DigitsIn(s, a + 1, |s| - 1) && s[|s| - 1] == ')'))
  }

  /** The end of the optional `(\d+)` part starting at `e`, or `e` itself. */
  function ParenEnd(t: string, e: nat): (r: nat)
    requires e <= |t|
    ensures e <= r <= |t|
  {
    if e < |t| && t[e] == '(' then
      var c := e + 1 + DigitRun(t, e + 1);
      if c > e + 1 && c < |t| && t[c] == ')' then c + 1 else e
    else e
  }

  /** The end of `\d+[A-Za-z]?` after the digit run ending at `e`. */
  function LetterEnd(t: string, e: nat): (r: nat)
    requires e <= |t|
    ensures e <= r <= |t|
  {
    if e < |t| && IsAsciiLetter(t[e]) then e + 1 else e
  }

  /** Where the keyword of `LooseSectionRef` ends: `section`, else `sec.`,
      else `sec`. */
  function LooseKeywordEnd(t: string, i: nat): (r: Option<nat>)
    ensures r.Some? ==> i < r.value <= |t|
  {
    if KeywordAt(t, i, "section") then Some(i + 7)
    else if KeywordAt(t, i, "sec.") then Some(i + 4)
    else if KeywordAt(t, i, "sec") then Some(i + 3)
    else None
  }

  /** What the engine matches at position `i`, if anything. */
  function MatchAt(pat: Pattern, t: string, i: nat): (r: Option<Match>)
    requires i <= |t|
    ensures r.Some? ==> i < r.value.end <= |t| && |r.value.token| <= r.value.end
  {
    match pat
    case ArticleRef => ArticleMatchAt(t, i)
    case SectionRef => SubsectionMatchAt(t, i, "section")
    case CitedArticleRef => SubsectionMatchAt(t, i, "article")
    case LooseSectionRef => LooseMatchAt(t, i)
  }

  /** `article\s+(\d+[A-Za-z]?)` at `i`. */
  function ArticleMatchAt(t: string, i: nat): (r: Option<Match>)
    requires i <= |t|
    ensures r.Some? ==> i < r.value.end <= |t| && |r.value.token| <= r.value.end
  {
    if !KeywordAt(t, i, "article") then None
    else
      var k := i + 7 + SpaceRun(t, i + 7);
      var e := k + DigitRun(t, k);
      if k == i + 7 || e == k then None else Some(Match(t[k..LetterEnd(t, e)], LetterEnd(t, e)))
  }

  /** `(?:section|sec\.?)\s*(\d+[A-Za-z]?)` at `i`. */
  function LooseMatchAt(t: string, i: nat): (r: Option<Match>)
    requires i <= |t|
    ensures r.Some? ==> i < r.value.end <= |t| && |r.value.token| <= r.value.end
  {
    match LooseKeywordEnd(t, i)
    case None => None
    case Some(j) =>
      var k := j + SpaceRun(t, j);
      var e := k + DigitRun(t, k);
      if e == k then None else Some(Match(t[k..LetterEnd(t, e)], LetterEnd(t, e)))
  }

  /** `<kw>\s+(\d+(?:\(\d+\))?)` at `i`, for a seven-letter keyword. */
  function SubsectionMatchAt(t: string, i: nat, kw: string): (r: Option<Match>)
    requires i <= |t| && |kw| == 7
    ensures r.Some? ==> i < r.value.end <= |t| && |r.value.token| <= r.value.end
  {
    if !KeywordAt(t, i, kw) then None
    else
      var k := i + 7 + SpaceRun(t, i + 7);
      var e := k + DigitRun(t, k);
      if k == i + 7 || e == k then None else Some(Match(t[k..ParenEnd(t, e)], ParenEnd(t, e)))
  }

  /** `<kw>\s+(\d+(?:\(\d+\))?)` matches `t[i..e]` with its group `t[k..e]`. */
  predicate SubsectionShape(t: string, i: nat, kw: string, k: nat, e: nat)
    requires i <= k <= e <= |t| && |kw| == 7
  {
    KeywordAt(t, i, kw) && i + 7 < k && SpacesIn(t, i + 7, k) && SubsectionToken(t[k..e])
  }

  /** `article\s+(\d+[A-Za-z]?)` matches `t[i..e]` with its group `t[k..e]`. */
  predicate ArticleShape(t: string, i: nat, k: nat, e: nat)
    requires i <= k <= e <= |t|
  {
    KeywordAt(t, i, "article") && i + 7 < k && SpacesIn(t, i + 7, k) && NumberToken(t[k..e])
  }

  /** `(?:section|sec\.?)\s*(\d+[A-Za-z]?)` matches `t[i..e]` with its group
      `t[k..e]`. */
  predicate LooseShapeAt(t: string, i: nat, k: nat, e: nat)
    requires i <= k <= e <= |t|
  {
    && NumberToken(t[k..e])
    && ((KeywordAt(t, i, "section") && i + 7 <= k && SpacesIn(t, i + 7, k))
     || (KeywordAt(t, i, "sec.") && i + 4 <= k && SpacesIn(t, i + 4, k))
     || (KeywordAt(t, i, "sec") && i + 3 <= k && SpacesIn(t, i + 3, k)))
  }

  /** The pattern matches `t[i..e]` with its group being `t[k..e]`. */
  predicate MatchShape(pat: Pattern, t: string, i: nat, k: nat, e: nat)
  {
    && i <= k <= e <= |t|
    && match pat
       case ArticleRef => ArticleShape(t, i, k, e)
       case SectionRef => SubsectionShape(t, i, "section", k, e)
       case CitedArticleRef => SubsectionShape(t, i, "article", k, e)
       case LooseSectionRef => LooseShapeAt(t, i, k, e)
  }

  /** The shape of a captured group, per pattern. */
  predicate TokenOk(pat: Pattern, s: string)
  {
    if pat.SectionRef? || pat.CitedArticleRef? then SubsectionToken(s) else NumberToken(s)
  }

  /** The run of digits from `k`, and the token built on it, are well formed. */
  lemma NumberTokenAt(t: string, k: nat, e: nat)
    requires k <= |t| && e == k + DigitRun(t, k) && e > k
    ensures NumberToken(t[k..LetterEnd(t, e)])
  {
    DigitRunShape(t, k);
    var s := t[k..LetterEnd(t, e)];
    assert s[0] == t[k];
    if LetterEnd(t, e) > e {
      assert s[..|s| - 1] == t[k..e];
    }
  }

  /** The digit run of a slice is the digit run of the text, cut at the
      slice's end. */
  lemma {:induction false} DigitRunSlice(t: string, k: nat, c: nat, x: nat)
    requires k <= x <= c <= |t|
    ensures DigitRun(t[k..c], x - k) == if x + DigitRun(t, x) <= c then DigitRun(t, x) else c - x
    decreases c - x
  {
    if x < c {
      assert t[k..c][x - k] == t[x];
      DigitRunSlice(t, k, c, x + 1);
    }
  }

  lemma SubsectionTokenAt(t: string, k: nat, e: nat)
    requires k <= |t| && e == k + DigitRun(t, k) && e > k
    ensures SubsectionToken(t[k..ParenEnd(t, e)])
  {
    var end := ParenEnd(t, e);
    DigitRunSlice(t, k, end, k);
    if end > e {
      ParenTail(t, k, e);
    }
    SubsectionTokenIntro(t[k..end], e - k);
  }

  /** A digit run followed by nothing or by one parenthesised digit run is a
      subsection token. */
  lemma SubsectionTokenIntro(s: string, a: nat)
    requires DigitRun(s, 0) == a > 0
    requires a == |s| || (a + 2 < |s| && s[a] == '(' && DigitsIn(s, a + 1, |s| - 1) && s[|s| - 1] == ')')
    ensures SubsectionToken(s)
  {
  }

  /** The parenthesised part after the digit run, seen from the slice. */
  lemma ParenTail(t: string, k: nat, e: nat)
    requires k < e <= |t| && e < ParenEnd(t, e)
    ensures var s := t[k..ParenEnd(t, e)];
      && e - k + 2 < |s| && s[e - k] == '(' && s[|s| - 1] == ')'
      && DigitsIn(s, e - k + 1, |s| - 1)
  {
    var end := ParenEnd(t, e);
    var c := e + 1 + DigitRun(t, e + 1);
    assert end == c + 1;
    DigitRunShape(t, e + 1);
    var s := t[k..end];
    forall x | e - k + 1 <= x < |s| - 1 ensures IsDigit(s[x]) {
      assert s[x] == t[k + x];
    }
  }

  /** Soundness: what `MatchAt` returns is a match of the pattern, and its
      token is the group. */
  lemma MatchSound(pat: Pattern, t: string, i: nat)
    requires i <= |t| && MatchAt(pat, t, i).Some?
    ensures var m := MatchAt(pat, t, i).value;
      && MatchShape(pat, t, i, m.end - |m.token|, m.end)
      && m.token == t[m.end - |m.token|..m.end]
      && TokenOk(pat, m.token)
  {
    if pat.ArticleRef? {
      ArticleSound(pat, t, i);
    } else if pat.LooseSectionRef? {
      LooseSound(pat, t, i);
    } else {
      SubsectionSound(pat, t, i);
    }
  }

  lemma SubsectionSound(pat: Pattern, t: string, i: nat)
    requires pat.SectionRef? || pat.CitedArticleRef?
    requires i <= |t| && MatchAt(pat, t, i).Some?
    ensures var m := MatchAt(pat, t, i).value;
      && MatchShape(pat, t, i, m.end - |m.token|, m.end)
      && m.token == t[m.end - |m.token|..m.end]
      && TokenOk(pat, m.token)
  {
    var kw := Keyword(pat);
    assert MatchAt(pat, t, i) == SubsectionMatchAt(t, i, kw);
    SectionSound(t, i, kw);
  }

  lemma ArticleSound(pat: Pattern, t: string, i: nat)
    requires pat.ArticleRef?
    requires i <= |t| && MatchAt(pat, t, i).Some?
    ensures var m := MatchAt(pat, t, i).value;
      && MatchShape(pat, t, i, m.end - |m.token|, m.end)
      && m.token == t[m.end - |m.token|..m.end]
      && TokenOk(pat, m.token)
  {
    assert MatchAt(pat, t, i) == ArticleMatchAt(t, i);
    var k := i + 7 + SpaceRun(t, i + 7);
    ArticleMatchSound(t, i, k, k + DigitRun(t, k));
  }

  /** The article match found at `i` is the number after the keyword and
      its whitespace. */
  lemma ArticleMatchSound(t: string, i: nat, k: nat, e: nat)
    requires i + 7 <= |t| && k == i + 7 + SpaceRun(t, i + 7) && e == k + DigitRun(t, k)
    requires ArticleMatchAt(t, i).Some?
    ensures ArticleMatchAt(t, i) == Some(Match(t[k..LetterEnd(t, e)], LetterEnd(t, e)))
    ensures ArticleShape(t, i, k, LetterEnd(t, e))
  {
    SpaceRunShape(t, i + 7);
    NumberTokenAt(t, k, e);
  }

  lemma SectionSound(t: string, i: nat, kw: string)
    requires |kw| == 7 && i <= |t| && SubsectionMatchAt(t, i, kw).Some?
    ensures var m := SubsectionMatchAt(t, i, kw).value;
      var k := i + 7 + SpaceRun(t, i + 7);
      && m.end - |m.token| == k
      && i <= k <= m.end <= |t|
      && SubsectionShape(t, i, kw, k, m.end) && m.token == t[k..m.end]
  {
    var k := i + 7 + SpaceRun(t, i + 7);
    var e := ParenEnd(t, k + DigitRun(t, k));
    assert SubsectionMatchAt(t, i, kw) == Some(Match(t[k..e], e));
    SpaceRunShape(t, i + 7);
    SubsectionTokenAt(t, k, k + DigitRun(t, k));
  }

  lemma LooseSound(pat: Pattern, t: string, i: nat)
    requires pat.LooseSectionRef?
    requires i <= |t| && MatchAt(pat, t, i).Some?
    ensures var m := MatchAt(pat, t, i).value;
      && MatchShape(pat, t, i, m.end - |m.token|, m.end)
      && m.token == t[m.end - |m.token|..m.end]
      && TokenOk(pat, m.token)
  {
    assert MatchAt(pat, t, i) == LooseMatchAt(t, i);
    var j := LooseKeywordEnd(t, i).value;
    var k := j + SpaceRun(t, j);
    LooseMatchSound(t, i, j, k, k + DigitRun(t, k));
  }

  /** The loose match found at `i` is the number after the keyword and its
      whitespace. */
  lemma LooseMatchSound(t: string, i: nat, j: nat, k: nat, e: nat)
    requires LooseKeywordEnd(t, i) == Some(j) && k == j + SpaceRun(t, j) && e == k + DigitRun(t, k)
    requires i <= |t| && LooseMatchAt(t, i).Some?
    ensures LooseMatchAt(t, i) == Some(Match(t[k..LetterEnd(t, e)], LetterEnd(t, e)))
    ensures i <= k <= LetterEnd(t, e) && LooseShapeAt(t, i, k, LetterEnd(t, e))
  {
    SpaceRunShape(t, j);
    NumberTokenAt(t, k, e);
    LooseKeywordShape(t, i, k);
  }

  /** Whitespace after the keyword the loose pattern found fits one of its
      three keyword alternatives. */
  lemma LooseKeywordShape(t: string, i: nat, k: nat)
    requires LooseKeywordEnd(t, i).Some?
    requires LooseKeywordEnd(t, i).value <= k <= |t| && SpacesIn(t, LooseKeywordEnd(t, i).value, k)
    ensures || (KeywordAt(t, i, "section") && i + 7 <= k && SpacesIn(t, i + 7, k))
            || (KeywordAt(t, i, "sec.") && i + 4 <= k && SpacesIn(t, i + 4, k))
            || (KeywordAt(t, i, "sec") && i + 3 <= k && SpacesIn(t, i + 3, k))
  {
  }

  /** A digit is never whitespace. */
  lemma DigitNotSpace(c: char)
    requires IsDigit(c)
    ensures !IsSpace(c)
  {
  }

  /** Whitespace ending right before a digit is the whole whitespace run. */
  lemma SpacesBeforeDigit(t: string, j: nat, k: nat)
    requires j <= k < |t| && SpacesIn(t, j, k) && IsDigit(t[k])
    ensures k == j + SpaceRun(t, j)
  {
    SpaceRunShape(t, j);
    DigitNotSpace(t[k]);
  }

  /** A number token at `k` lies within the greedy digit run and letter. */
  lemma NumberTokenEnd(t: string, k: nat, e: nat)
    requires k <= e <= |t| && NumberToken(t[k..e])
    ensures DigitRun(t, k) > 0 && e <= LetterEnd(t, k + DigitRun(t, k))
  {
    var s := t[k..e];
    DigitRunShape(t, k);
    var d := if AllDigits(s) then e else e - 1;
    assert DigitsIn(t, k, d) by {
      forall x | k <= x < d ensures IsDigit(t[x]) {
        assert t[x] == s[x - k];
      }
    }
    assert t[k] == s[0];
    if d < e {
      assert t[d] == s[|s| - 1];
    }
  }

  /** A subsection token at `k` is the greedy digit run and parenthesised
      part. */
  lemma SubsectionTokenEnd(t: string, k: nat, e: nat)
    requires k <= e <= |t| && SubsectionToken(t[k..e])
    ensures DigitRun(t, k) > 0 && e <= ParenEnd(t, k + DigitRun(t, k))
  {
    var s := t[k..e];
    DigitRunSlice(t, k, e, k);
    var a := DigitRun(s, 0);
    if a < |s| {
      var E := k + a;
      assert t[E] == s[a];
      assert t[e - 1] == s[|s| - 1];
      assert DigitsIn(t, E + 1, e - 1) by {
        forall x | E + 1 <= x < e - 1 ensures IsDigit(t[x]) {
          assert t[x] == s[x - k];
        }
      }
      ParenPart(t, E, e);
    }
  }

  /** `(digits)` right after the digit run is what `ParenEnd` takes. */
  lemma ParenPart(t: string, E: nat, e: nat)
    requires E + 2 < e <= |t| && t[E] == '(' && DigitsIn(t, E + 1, e - 1) && t[e - 1] == ')'
    ensures ParenEnd(t, E) == e
  {
    DigitRunShape(t, E + 1);
  }

  /** Completeness and greed: wherever the pattern matches at `i`, `MatchAt`
      finds a match there, and none shorter than any match of the pattern. */
  lemma MatchComplete(pat: Pattern, t: string, i: nat, k: nat, e: nat)
    requires i <= |t| && MatchShape(pat, t, i, k, e)
    ensures MatchAt(pat, t, i).Some? && e <= MatchAt(pat, t, i).value.end
  {
    match pat
    case ArticleRef => ArticleComplete(t, i, k, e);
    case SectionRef => SectionComplete(t, i, "section", k, e);
    case CitedArticleRef => SectionComplete(t, i, "article", k, e);
    case LooseSectionRef => LooseCompleteEnd(t, i, k, e);
  }

  lemma ArticleComplete(t: string, i: nat, k: nat, e: nat)
    requires i <= |t| && MatchShape(ArticleRef, t, i, k, e)
    ensures MatchAt(ArticleRef, t, i).Some? && e <= MatchAt(ArticleRef, t, i).value.end
  {
    assert t[k] == t[k..e][0];
    SpacesBeforeDigit(t, i + 7, k);
    NumberTokenEnd(t, k, e);
  }

  lemma LooseCompleteEnd(t: string, i: nat, k: nat, e: nat)
    requires i <= |t| && MatchShape(LooseSectionRef, t, i, k, e)
    ensures MatchAt(LooseSectionRef, t, i).Some? && e <= MatchAt(LooseSectionRef, t, i).value.end
  {
    assert t[k] == t[k..e][0];
    LooseComplete(t, i, k, e);
    var j := LooseKeywordEnd(t, i).value;
    SpacesBeforeDigit(t, j, k);
    NumberTokenEnd(t, k, e);
  }

  lemma SectionComplete(t: string, i: nat, kw: string, k: nat, e: nat)
    requires |kw| == 7 && i <= k <= e <= |t| && SubsectionShape(t, i, kw, k, e)
    ensures SubsectionMatchAt(t, i, kw).Some? && e <= SubsectionMatchAt(t, i, kw).value.end
  {
    assert t[k] == t[k..e][0];
    assert IsDigit(t[k]) by {
      DigitRunSlice(t, k, e, k);
    }
    SpacesBeforeDigit(t, i + 7, k);
    SubsectionTokenEnd(t, k, e);
  }

  /** Of the keyword alternatives of `LooseSectionRef` that can start a match,
      `LooseKeywordEnd` picks the one the match uses. */
  lemma LooseComplete(t: string, i: nat, k: nat, e: nat)
    requires i <= |t| && MatchShape(LooseSectionRef, t, i, k, e)
    ensures LooseKeywordEnd(t, i).Some?
    ensures var j := LooseKeywordEnd(t, i).value; j <= k && SpacesIn(t, j, k)
  {
    assert t[k] == t[k..e][0];
    DigitNotSpace(t[k]);
    if KeywordAt(t, i, "section") {
      assert LowerChar(t[i + 3]) == 't' by {
        assert Lower(t[i..i + 7])[3] == 't';
      }
    }
    if KeywordAt(t, i, "sec.") {
      assert LowerChar(t[i + 3]) == '.' by {
        assert Lower(t[i..i + 4])[3] == '.';
      }
    }
    if i + 3 <= k && SpacesIn(t, i + 3, k) && i + 3 < k {
      assert IsSpace(t[i + 3]);
    }
  }

  // ----- finditer -----

  /** `[m.group(1) for m in pattern.finditer(t[i:])]`: try each position in
      turn; after a match resume at its end. */
  function Scan(pat: Pattern, t: string, i: nat): seq<string>
    requires i <= |t|
    decreases |t| - i
  {
    if i == |t| then []
    else match MatchAt(pat, t, i)
      case Some(m) => [m.token] + Scan(pat, t, m.end)
      case None => Scan(pat, t, i + 1)
  }

  /** All captured groups of the pattern in `t`, in order of occurrence,
      repeats kept. */
  function FindAll(pat: Pattern, t: string): seq<string>
  {
    Scan(pat, t, 0)
  }

  /** The literal every match of the pattern starts with. */
  function Keyword(pat: Pattern): string
  {
    match pat
    case ArticleRef | CitedArticleRef => "article"
    case SectionRef => "section"
    case LooseSectionRef => "sec"
  }

  /** Every captured group has the shape the pattern's group allows. */
  lemma {:induction false} ScanTokens(pat: Pattern, t: string, i: nat)
    requires i <= |t|
    ensures forall j :: 0 <= j < |Scan(pat, t, i)| ==> TokenOk(pat, Scan(pat, t, i)[j])
    decreases |t| - i
  {
    if i < |t| {
      match MatchAt(pat, t, i)
      case Some(m) =>
        MatchSound(pat, t, i);
        ScanTokens(pat, t, m.end);
      case None =>
        ScanTokens(pat, t, i + 1);
    }
  }

  /** A match needs its keyword at its start. */
  lemma MatchNeedsKeyword(pat: Pattern, t: string, i: nat)
    requires i <= |t| && MatchAt(pat, t, i).Some?
    ensures KeywordAt(t, i, Keyword(pat))
  {
    if pat.LooseSectionRef? {
      if KeywordAt(t, i, "section") {
        assert Lower(t[i..i + 3]) == Lower(t[i..i + 7])[..3];
      } else if KeywordAt(t, i, "sec.") {
        assert Lower(t[i..i + 3]) == Lower(t[i..i + 4])[..3];
      }
    }
  }

  /** Without the keyword anywhere from `i` on there is no match. */
  lemma {:induction false} ScanWithoutKeyword(pat: Pattern, t: string, i: nat)
    requires i <= |t|
    requires forall p :: i <= p < |t| ==> !KeywordAt(t, p, Keyword(pat))
    ensures Scan(pat, t, i) == []
    decreases |t| - i
  {
    if i < |t| {
      if MatchAt(pat, t, i).Some? {
        MatchNeedsKeyword(pat, t, i);
      }
      ScanWithoutKeyword(pat, t, i + 1);
    }
  }

  /** The scan reports the leftmost match first and then resumes after it:
      if nothing matches between `i` and `p` and the pattern matches at `p`,
      the scan from `i` is that match's group followed by the scan from its
      end. */
  lemma {:induction false} ScanLeftmost(pat: Pattern, t: string, i: nat, p: nat)
    requires i <= p < |t|
    requires forall x :: i <= x < p ==> MatchAt(pat, t, x).None?
    requires MatchAt(pat, t, p).Some?
    ensures Scan(pat, t, i) == [MatchAt(pat, t, p).value.token] + Scan(pat, t, MatchAt(pat, t, p).value.end)
    decreases p - i
  {
    if i < p {
      assert MatchAt(pat, t, i).None?;
      ScanLeftmost(pat, t, i + 1, p);
    }
  }

  /** A letter after the number is not part of a section reference. */
  lemma SectionLetterDropped()
    ensures FindAll(SectionRef, "Section 302A") == ["302"]
  {
    var t := "Section 302A";
    assert KeywordAt(t, 0, "section");
    assert SpaceRun(t, 7) == 1;
    assert DigitRun(t, 8) == 3;
    assert ParenEnd(t, 11) == 11;
    assert t[8..11] == "302";
    assert MatchAt(SectionRef, t, 0) == Some(Match("302", 11));
    assert Scan(SectionRef, t, 11) == [];
  }

  /** A repeated reference is reported once per occurrence. */
  lemma RepeatsKept()
    ensures FindAll(ArticleRef, "Article 5 article 5") == ["5", "5"]
  {
    var t := "Article 5 article 5";
    assert KeywordAt(t, 0, "article");
    assert SpaceRun(t, 7) == 1 && DigitRun(t, 8) == 1 && LetterEnd(t, 9) == 9;
    assert t[8..9] == "5";
    assert MatchAt(ArticleRef, t, 0) == Some(Match("5", 9));
    assert !KeywordAt(t, 9, "article");
    SecondArticle(t);
  }

  lemma SecondArticle(t: string)
    requires t == "Article 5 article 5"
    ensures Scan(ArticleRef, t, 10) == ["5"]
  {
    assert KeywordAt(t, 10, "article");
    assert SpaceRun(t, 17) == 1 && DigitRun(t, 18) == 1 && LetterEnd(t, 19) == 19;
    assert t[18..19] == "5";
    assert MatchAt(ArticleRef, t, 10) == Some(Match("5", 19));
  }
}

=== FILE: retrieval.dfy ===
/**
 * The parts of the vector retriever that the first and the third version
 * share word for word: graph constraints, the allow-list filter, the
 * must-include lookup by source id, and the pieces the constrained path
 * assembles its answer from. The FAISS index, its metadata and the
 * embedding search are a `VectorStore` value.
 */
module Retrieval {
  import opened Wrappers
  import opened Seqs
  import opened Chunks

  /** The ids the knowledge graph resolved for a query; the search is
      restricted to chunks of these sources. */
  datatype GraphConstraints = GraphConstraints(caseIds: seq<string>, sectionIds: seq<string>, articleIds: seq<string>)
  {
    /** `is_empty`: no id of any kind. */
    predicate IsEmpty()
    {
      caseIds == [] && sectionIds == [] && articleIds == []
    }
  }

  /** The loaded vector store, or the reason it could not be loaded. A
      `search(query, k)` call embeds the query and returns the best `k`
      metadata entries with their similarity scores; it is an oracle here. */
  datatype VectorStore =
    | Unavailable(reason: string)
    | Ready(metadata: seq<Meta>, ntotal: nat, search: (string, nat) -> seq<Chunk>)

  /** The retrieval settings read from the environment. */
  datatype RetrievalSettings = RetrievalSettings(
    topK: nat,
    constrainedMultiplier: nat,
    diversityMultiplier: nat,
    minSections: nat,
    minArticles: nat)

  /** The settings when no environment variable overrides them. */
  const DEFAULT_SETTINGS := RetrievalSettings(8, 3, 4, 2, 2)

  /** How many chunks the must-include lookup asks for. */
  const MUST_INCLUDE_MAX := 10

  /** The start of the error reported when the store could not be loaded. */
  const UNAVAILABLE_PREFIX := "Vector store not available: "

  /** The search never returns more hits than it was asked for, which is
      what the FAISS search does (it asks the index for `min(k, ntotal)`). */
  ghost predicate SearchBounded(store: VectorStore)
  {
    store.Ready? ==> forall q: string, k: nat :: |store.search(q, k)| <= k
  }

  /** `k or settings.top_k`: an absent or zero `k` means the default. */
  function TopK(k: Option<nat>, settings: RetrievalSettings): (n: nat)
    ensures k.Some? && k.value > 0 ==> n == k.value
    ensures k.None? || k.value == 0 ==> n == settings.topK
  {
    if k.Some? && k.value != 0 then k.value else settings.topK
  }

  /** The per-kind allow-list test: the chunk's own `source_type` (not
      defaulted) names the list its `source_id` must be in. */
  predicate Admits(g: GraphConstraints, c: Chunk)
  {
    && c.sourceId.Some?
    && ((c.sourceType == Some("case") && c.sourceId.value in g.caseIds)
     || (c.sourceType == Some("section") && c.sourceId.value in g.sectionIds)
     || (c.sourceType == Some("article") && c.sourceId.value in g.articleIds))
  }

  /** `_apply_constraints`: no constraints keep everything; otherwise only the
      chunks a per-kind list admits are kept. */
  function ApplyConstraints(results: seq<Chunk>, g: GraphConstraints): (r: seq<Chunk>)
    ensures g.IsEmpty() ==> r == results
    ensures !g.IsEmpty() ==> forall c :: c in r <==> c in results && Admits(g, c)
    ensures |r| <= |results|
  {
    if g.IsEmpty() then results
    else
      FilterMembers(results, c => Admits(g, c));
      Filter(results, c => Admits(g, c))
  }

  /** The filter keeps the input order: filtering a concatenation filters
      each part. */
  lemma ApplyConstraintsOrder(a: seq<Chunk>, b: seq<Chunk>, g: GraphConstraints)
    ensures ApplyConstraints(a + b, g) == ApplyConstraints(a, g) + ApplyConstraints(b, g)
  {
    if !g.IsEmpty() {
      FilterAppend(a, b, c => Admits(g, c));
    }
  }

  /** A kind whose allow-list is empty admits nothing of that kind once some
      other list is non-empty; an empty list does not mean "unrestricted". */
  lemma EmptyKindAdmitsNothing(results: seq<Chunk>, g: GraphConstraints, kind: string)
    requires !g.IsEmpty()
    requires kind == "case" || kind == "section" || kind == "article"
    requires kind == "case" ==> g.caseIds == []
    requires kind == "section" ==> g.sectionIds == []
    requires kind == "article" ==> g.articleIds == []
    ensures forall c :: c in ApplyConstraints(results, g) ==> c.sourceType != Some(kind)
  {
  }

  /** The metadata entries whose `source_id` is requested, with the sentinel
      score 1.0, in metadata order. */
  function Matching(ms: seq<Meta>, allowed: set<string>): seq<Chunk>
  {
    if ms == [] then []
    else if ms[0].sourceId.Some? && ms[0].sourceId.value in allowed then
      [Scored(ms[0], 1.0)] + Matching(ms[1..], allowed)
    else Matching(ms[1..], allowed)
  }

  /** The loop of `get_chunks_by_source_ids`, `count` entries in: a matching
      entry is appended, and the loop stops once `count` reaches
      `maxChunks`. The test comes after the append, so at least one entry is
      returned whenever one matches. */
  function CollectBySource(ms: seq<Meta>, allowed: set<string>, maxChunks: int, count: nat): seq<Chunk>
  {
    if ms == [] then []
    else if ms[0].sourceId.Some? && ms[0].sourceId.value in allowed then
      var c := Scored(ms[0], 1.0);
      if count + 1 >= maxChunks then [c] else [c] + CollectBySource(ms[1..], allowed, maxChunks, count + 1)
    else CollectBySource(ms[1..], allowed, maxChunks, count)
  }

  /** `get_chunks_by_source_ids`: nothing when the store is not loaded, its
      metadata is empty or no id is requested. */
  function ChunksBySourceIds(store: VectorStore, sourceIds: seq<string>, maxChunks: int): seq<Chunk>
  {
    if store.Unavailable? || store.metadata == [] || sourceIds == [] then []
    else CollectBySource(store.metadata, ToSet(sourceIds), maxChunks, 0)
  }

  lemma {:induction false} CollectBySourceIsPrefix(ms: seq<Meta>, allowed: set<string>, maxChunks: int, count: nat)
    ensures CollectBySource(ms, allowed, maxChunks, count) ==
      Take(Matching(ms, allowed), AtLeastOne(maxChunks - count))
  {
    if ms != [] {
      if ms[0].sourceId.Some? && ms[0].sourceId.value in allowed {
        CollectBySourceIsPrefix(ms[1..], allowed, maxChunks, count + 1);
      } else {
        CollectBySourceIsPrefix(ms[1..], allowed, maxChunks, count);
      }
    }
  }

  /** Every matching entry carries the sentinel score and a requested id. */
  lemma {:induction false} MatchingSpec(ms: seq<Meta>, allowed: set<string>)
    ensures |Matching(ms, allowed)| <= |ms|
    ensures forall c :: c in Matching(ms, allowed) ==>
      c.score == 1.0 && c.sourceId.Some? && c.sourceId.value in allowed
  {
    if ms != [] {
      MatchingSpec(ms[1..], allowed);
    }
  }

  /** The must-include lookup is the first `max(maxChunks, 1)` requested
      entries of the metadata, each scored exactly 1.0; with nothing
      requested it is empty. */
  lemma ChunksBySourceIdsSpec(store: VectorStore, sourceIds: seq<string>, maxChunks: int)
    requires store.Ready?
    ensures var r := ChunksBySourceIds(store, sourceIds, maxChunks);
      && r == Take(Matching(store.metadata, ToSet(sourceIds)), AtLeastOne(maxChunks))
      && |r| <= AtLeastOne(maxChunks)
      && (sourceIds == [] ==> r == [])
      && forall c :: c in r ==> c.score == 1.0 && c.sourceId.Some? && c.sourceId.value in sourceIds
  {
    var allowed := ToSet(sourceIds);
    MatchingSpec(store.metadata, allowed);
    CollectBySourceIsPrefix(store.metadata, allowed, maxChunks, 0);
    if store.metadata == [] || sourceIds == [] {
      assert Matching(store.metadata, allowed) == [] by {
        MatchingEmpty(store.metadata, allowed);
      }
    }
  }

  lemma {:induction false} MatchingEmpty(ms: seq<Meta>, allowed: set<string>)
    requires ms == [] || allowed == {}
    ensures Matching(ms, allowed) == []
  {
    if ms != [] {
      MatchingEmpty(ms[1..], allowed);
    }
  }

  /** `max(n, 1)`: the loop appends before it tests the bound. */
  function AtLeastOne(n: int): nat
  {
    if n >= 1 then n else 1
  }

  /** The ids whose text must be in the context: articles, then sections. */
  function MustIncludeIds(g: GraphConstraints): seq<string>
  {
    g.articleIds + g.sectionIds
  }

  /** The must-include chunks of the constrained path. */
  function MustInclude(store: VectorStore, g: GraphConstraints): seq<Chunk>
  {
    if MustIncludeIds(g) != [] then ChunksBySourceIds(store, MustIncludeIds(g), MUST_INCLUDE_MAX) else []
  }

  /** The admitted search hits that do not repeat a must-include chunk. */
  function SemanticHits(base: seq<Chunk>, g: GraphConstraints, must: seq<Chunk>): (r: seq<Chunk>)
    ensures forall c :: c in r <==> c in base && (g.IsEmpty() || Admits(g, c)) && c.chunkId !in Ids(must)
  {
    var seen := ToSet(Ids(must));
    var admitted := ApplyConstraints(base, g);
    FilterMembers(admitted, (c: Chunk) => c.chunkId !in seen);
    Filter(admitted, (c: Chunk) => c.chunkId !in seen)
  }

  /** `(must + sorted(hits, desc)[:max(0, top_k - len(must))])[:top_k]`. */
  function Combine(must: seq<Chunk>, hits: seq<Chunk>, topK: nat): seq<Chunk>
  {
    Take(must + Take(SortDesc(hits), if topK >= |must| then topK - |must| else 0), topK)
  }

  /** The combined list is at most `top_k` long, starts with as much of the
      must-include list as fits, and continues with hits in descending score
      order. */
  lemma CombineSpec(must: seq<Chunk>, hits: seq<Chunk>, topK: nat)
    ensures var r := Combine(must, hits, topK);
      var m := if |must| <= topK then |must| else topK;
      && |r| <= topK
      && r[..m] == must[..m]
      && SortedDesc(r[m..])
      && (forall c :: c in r[m..] ==> c in hits)
      && (|must| < topK ==> |r| == (if |must| + |hits| <= topK then |must| + |hits| else topK))
  {
    var sorted := SortDesc(hits);
    var tail := Take(sorted, if topK >= |must| then topK - |must| else 0);
    assert Combine(must, hits, topK) == Take(must + tail, topK);
    SortedTake(sorted, if topK >= |must| then topK - |must| else 0);
    forall c | c in tail
      ensures c in hits
    {
      assert c in multiset(sorted);
    }
    if |must| <= topK {
      assert must + tail == Take(must + tail, topK);
      assert (must + tail)[|must|..] == tail;
    } else {
      assert tail == [];
    }
  }

  lemma SortedTake(s: seq<Chunk>, n: nat)
    requires SortedDesc(s)
    ensures SortedDesc(Take(s, n))
  {
  }

  /** `must + fallback[:max(0, top_k - len(must))]` when nothing was
      found under the constraints. */
  function FallbackChunks(must: seq<Chunk>, fallback: seq<Chunk>, topK: nat): seq<Chunk>
  {
    must + Take(fallback, if topK >= |must| then topK - |must| else 0)
  }

  /** `k_base = max(top_k * constrained_multiplier, top_k)`. */
  function BaseK(topK: nat, settings: RetrievalSettings): (n: nat)
    ensures n >= topK && n >= topK * settings.constrainedMultiplier
    ensures n == topK || n == topK * settings.constrainedMultiplier
  {
    if topK * settings.constrainedMultiplier >= topK then topK * settings.constrainedMultiplier else topK
  }

  /** What the constrained path of `retrieve_chunks` returns besides its
      flags: the chunks and whether it fell back to the unconstrained search. */
  datatype Constrained = Constrained(chunks: seq<Chunk>, usedFallback: bool)

  /** The constrained path, the same in both retriever versions: the
      must-include chunks, then the best admitted hits of an over-retrieving
      search; when both are empty, the plain top-`k` search instead. */
  function ConstrainedPath(store: VectorStore, settings: RetrievalSettings, query: string, topK: nat,
                           g: GraphConstraints): Constrained
    requires store.Ready?
  {
    var must := MustInclude(store, g);
    var hits := SemanticHits(store.search(query, BaseK(topK, settings)), g, must);
    if must != [] || hits != [] then Constrained(Combine(must, hits, topK), false)
    else Constrained(FallbackChunks(must, store.search(query, topK), topK), true)
  }

  /** The constrained path: it falls back exactly when neither a must-include
      chunk nor an admitted new hit exists, and then returns the first `top_k`
      unconstrained hits. Otherwise the must-include chunks (each scored 1.0
      and belonging to a requested article or section) come first, as many
      as fit, followed by admitted search hits in descending score order,
      none of which repeats a must-include chunk id. */
  lemma ConstrainedPathSpec(store: VectorStore, settings: RetrievalSettings, query: string, topK: nat,
                            g: GraphConstraints)
    requires store.Ready? && !g.IsEmpty()
    ensures var r := ConstrainedPath(store, settings, query, topK, g);
      var must := MustInclude(store, g);
      var base := store.search(query, BaseK(topK, settings));
      var m := if |must| <= topK then |must| else topK;
      && |r.chunks| <= topK
      && (r.usedFallback <==> must == [] && SemanticHits(base, g, must) == [])
      && (r.usedFallback ==> r.chunks == Take(store.search(query, topK), topK))
      && (!r.usedFallback ==>
            && r.chunks[..m] == must[..m]
            && SortedDesc(r.chunks[m..])
            && forall c :: c in r.chunks[m..] ==> c in base && Admits(g, c) && c.chunkId !in Ids(must))
      && (forall c :: c in must ==> c.score == 1.0 && c.sourceId.Some? && c.sourceId.value in MustIncludeIds(g))
  {
    var must := MustInclude(store, g);
    var hits := SemanticHits(store.search(query, BaseK(topK, settings)), g, must);
    if MustIncludeIds(g) != [] {
      ChunksBySourceIdsSpec(store, MustIncludeIds(g), MUST_INCLUDE_MAX);
    }
    if must != [] || hits != [] {
      CombineSpec(must, hits, topK);
    }
  }
}

=== FILE: retriever_v1.dfy ===
/**
 * The first version of the vector retriever. It shares the allow-list
 * filter, the must-include lookup and the constrained path with the third
 * version, but returns the plain top-`k` search when there are no
 * constraints and reports no similarity.
 */
module RetrieverV1 {
  import opened Wrappers
  import opened Chunks
  import opened Retrieval

  /** What `retrieve_chunks` returns. */
  datatype Retrieved = Retrieved(chunks: seq<Chunk>, usedConstraints: bool, usedFallback: bool, error: Option<string>)

  /** `retrieve_chunks`. */
  function Retrieve(store: VectorStore, settings: RetrievalSettings, query: string, k: Option<nat>,
                    constraints: Option<GraphConstraints>): Retrieved
  {
    match store
    case Unavailable(reason) => Retrieved([], false, false, Some(UNAVAILABLE_PREFIX + reason))
    case Ready(_, _, search) =>
      var topK := TopK(k, settings);
      if constraints.None? || constraints.value.IsEmpty() then
        Retrieved(search(query, topK), false, false, None)
      else
        var c := ConstrainedPath(store, settings, query, topK, constraints.value);
        Retrieved(c.chunks, true, c.usedFallback, None)
  }

  /** A store that could not be loaded yields no chunks, no flags and an
      error naming the reason. */
  lemma RetrieveUnavailable(store: VectorStore, settings: RetrievalSettings, query: string, k: Option<nat>,
                            constraints: Option<GraphConstraints>)
    requires store.Unavailable?
    ensures var r := Retrieve(store, settings, query, k, constraints);
      && r.chunks == [] && !r.usedConstraints && !r.usedFallback
      && r.error == Some(UNAVAILABLE_PREFIX + store.reason)
  {
  }

  /** Without constraints the answer is exactly the top-`k` search, not
      diversified, with no flags and no error; a bounded search keeps it
      within `top_k`. */
  lemma RetrieveUnconstrained(store: VectorStore, settings: RetrievalSettings, query: string, k: Option<nat>,
                              constraints: Option<GraphConstraints>)
    requires store.Ready?
    requires constraints.None? || constraints.value.IsEmpty()
    ensures var r := Retrieve(store, settings, query, k, constraints);
      && r.chunks == store.search(query, TopK(k, settings))
      && !r.usedConstraints && !r.usedFallback && r.error.None?
      && (SearchBounded(store) ==> |r.chunks| <= TopK(k, settings))
  {
  }

  /** With constraints: the shared constrained path's chunks and fallback
      flag, no error, and at most `top_k` chunks. */
  lemma RetrieveConstrained(store: VectorStore, settings: RetrievalSettings, query: string, k: Option<nat>,
                            g: GraphConstraints)
    requires store.Ready? && !g.IsEmpty()
    ensures var r := Retrieve(store, settings, query, k, Some(g));
      var c := ConstrainedPath(store, settings, query, TopK(k, settings), g);
      && r.chunks == c.chunks && r.usedFallback == c.usedFallback
      && r.usedConstraints && r.error.None?
      && |r.chunks| <= TopK(k, settings)
  {
    ConstrainedPathSpec(store, settings, query, TopK(k, settings), g);
  }
}

=== FILE: retriever_v3.dfy ===
/**
 * The third version of the vector retriever: over-retrieval followed by a
 * source-type diversification when there are no graph constraints, the
 * must-include / allow-list path when there are, and the unconstrained
 * fallback when the constraints leave nothing. It also reports the best
 * similarity the searches saw.
 */
module RetrieverV3 {
  import opened Wrappers
  import opened Seqs
  import opened Chunks
  import opened Retrieval

  /** What `retrieve_chunks` returns. */
  datatype Retrieved = Retrieved(
    chunks: seq<Chunk>,
    usedConstraints: bool,
    usedFallback: bool,
    topSimilarity: real,
    error: Option<string>)

  /** `r.get("source_type") or "case"`: the bucket a chunk is diversified in. */
  function Kind(c: Chunk): string
  {
    OrDefault(c.sourceType, "case")
  }

  /** `by_type[kind]`: the input chunks of one kind, in input order. */
  function OfKind(results: seq<Chunk>, kind: string): seq<Chunk>
  {
    Filter(results, (c: Chunk) => Kind(c) == kind)
  }

  /** The chosen list of the diversification and the ids it has taken. */
  datatype Picked = Picked(chosen: seq<Chunk>, seen: set<string>)

  /** The loop of `add_best` over a kind's chunks in descending score order,
      `n` chunks into its quota: it stops at the quota or once `top_k`
      chunks are chosen, and skips ids already taken. */
  function AddBest(lst: seq<Chunk>, limit: nat, n: nat, acc: Picked, topK: nat): Picked
  {
    if lst == [] || n >= limit || |acc.chosen| >= topK then acc
    else if lst[0].chunkId !in acc.seen then
      AddBest(lst[1..], limit, n + 1, Picked(acc.chosen + [lst[0]], acc.seen + {lst[0].chunkId}), topK)
    else AddBest(lst[1..], limit, n, acc, topK)
  }

  /** The fill loop: append the remaining chunks in order until `top_k`. */
  function Fill(chosen: seq<Chunk>, rest: seq<Chunk>, topK: nat): seq<Chunk>
    decreases |rest|
  {
    if rest == [] || |chosen| >= topK then chosen else Fill(chosen + [rest[0]], rest[1..], topK)
  }

  /** `add_best("section", min_sections)`. */
  function SectionPicks(results: seq<Chunk>, topK: nat, minSections: nat): Picked
  {
    AddBest(SortDesc(OfKind(results, "section")), minSections, 0, Picked([], {}), topK)
  }

  /** Both quota passes: sections first, then `add_best("article", min_articles)`. */
  function QuotaPicks(results: seq<Chunk>, topK: nat, minSections: nat, minArticles: nat): Picked
  {
    AddBest(SortDesc(OfKind(results, "article")), minArticles, 0, SectionPicks(results, topK, minSections), topK)
  }

  /** `rest`: the input chunks whose ids the quota passes did not take. */
  function Leftover(results: seq<Chunk>, seen: set<string>): seq<Chunk>
  {
    Filter(results, (c: Chunk) => c.chunkId !in seen)
  }

  /** `_diversify_by_source_type`. */
  function Diversify(results: seq<Chunk>, topK: nat, minSections: nat, minArticles: nat): seq<Chunk>
  {
    var p := QuotaPicks(results, topK, minSections, minArticles);
    Take(Fill(p.chosen, SortDesc(Leftover(results, p.seen)), topK), topK)
  }

  /** `k_over`: `top_k * diversity_multiplier` capped at the index size,
      but never below `top_k`. */
  function OverK(topK: nat, settings: RetrievalSettings, ntotal: nat): (n: nat)
    ensures n >= topK
    ensures n <= topK * settings.diversityMultiplier || n == topK
    ensures n <= ntotal || n == topK
  {
    var over := topK * settings.diversityMultiplier;
    var capped := if over <= ntotal then over else ntotal;
    if capped >= topK then capped else topK
  }

  /** `retrieve_chunks`. */
  function Retrieve(store: VectorStore, settings: RetrievalSettings, query: string, k: Option<nat>,
                    constraints: Option<GraphConstraints>): Retrieved
  {
    match store
    case Unavailable(reason) =>
      Retrieved([], false, false, 0.0, Some(UNAVAILABLE_PREFIX + reason))
    case Ready(_, ntotal, search) =>
      var topK := TopK(k, settings);
      if constraints.None? || constraints.value.IsEmpty() then
        var base := search(query, OverK(topK, settings, ntotal));
        Retrieved(Diversify(base, topK, settings.minSections, settings.minArticles), false, false, MaxScore(base), None)
      else
        var g := constraints.value;
        var top := MaxScore(search(query, BaseK(topK, settings)));
        var c := ConstrainedPath(store, settings, query, topK, g);
        if !c.usedFallback then
          Retrieved(c.chunks, true, false, top, None)
        else
          var fallbackTop := MaxScore(search(query, topK));
          Retrieved(c.chunks, true, true, if top >= fallbackTop then top else fallbackTop, None)
  }

  // ----- the diversification -----

  /** The bookkeeping `add_best` keeps: `seen` holds exactly the chosen ids,
      which are distinct, drawn from `results`, and at most `top_k` many. */
  predicate PickedOk(acc: Picked, results: seq<Chunk>, topK: nat)
  {
    && acc.seen == IdSet(acc.chosen)
    && DistinctIds(acc.chosen)
    && |acc.chosen| <= topK
    && (forall c :: c in acc.chosen ==> c in results)
  }

  lemma {:induction false} AddBestOk(lst: seq<Chunk>, limit: nat, n: nat, acc: Picked, topK: nat, results: seq<Chunk>)
    requires PickedOk(acc, results, topK)
    requires forall c :: c in lst ==> c in results
    ensures PickedOk(AddBest(lst, limit, n, acc, topK), results, topK)
    ensures |AddBest(lst, limit, n, acc, topK).chosen| >= |acc.chosen|
    ensures AddBest(lst, limit, n, acc, topK).chosen[..|acc.chosen|] == acc.chosen
  {
    if lst == [] || n >= limit || |acc.chosen| >= topK {
    } else if lst[0].chunkId !in acc.seen {
      var acc' := Picked(acc.chosen + [lst[0]], acc.seen + {lst[0].chunkId});
      IdSetSnoc(acc.chosen, lst[0]);
      SnocDistinctIds(acc.chosen, lst[0]);
      AddBestOk(lst[1..], limit, n + 1, acc', topK, results);
      var r := AddBest(lst[1..], limit, n + 1, acc', topK);
      assert r.chosen[..|acc.chosen|] == r.chosen[..|acc'.chosen|][..|acc.chosen|];
    } else {
      AddBestOk(lst[1..], limit, n, acc, topK, results);
    }
  }

  lemma IdSetSnoc(cs: seq<Chunk>, c: Chunk)
    ensures IdSet(cs + [c]) == IdSet(cs) + {c.chunkId}
  {
    var l := cs + [c];
    forall x | x in IdSet(l) ensures x in IdSet(cs) + {c.chunkId} {
      var i :| 0 <= i < |l| && l[i].chunkId == x;
      if i < |cs| {
        assert cs[i].chunkId == x;
      }
    }
    forall x | x in IdSet(cs) ensures x in IdSet(l) {
      var i :| 0 <= i < |cs| && cs[i].chunkId == x;
      assert l[i].chunkId == x;
    }
    assert l[|cs|].chunkId == c.chunkId;
  }

  lemma SnocDistinctIds(cs: seq<Chunk>, c: Chunk)
    requires DistinctIds(cs) && c.chunkId !in IdSet(cs)
    ensures DistinctIds(cs + [c])
  {
    var l := cs + [c];
    forall i, j | 0 <= i < j < |l| ensures l[i].chunkId != l[j].chunkId {
      assert l[i] == cs[i];
      if j < |cs| {
        assert l[j] == cs[j];
      }
    }
  }

  /** The fill loop appends a prefix of the remaining chunks. */
  lemma {:induction false} FillIsAppend(chosen: seq<Chunk>, rest: seq<Chunk>, topK: nat)
    requires |chosen| <= topK
    ensures Fill(chosen, rest, topK) == chosen + Take(rest, topK - |chosen|)
    decreases |rest|
  {
    if rest == [] || |chosen| >= topK {
    } else {
      FillIsAppend(chosen + [rest[0]], rest[1..], topK);
      assert chosen + [rest[0]] + Take(rest[1..], topK - |chosen| - 1) == chosen + Take(rest, topK - |chosen|);
    }
  }

  /** Dropping the chunks whose ids are in `s` removes exactly one chunk per
      id of `s` the list holds, when its ids are distinct. */
  lemma {:induction false} DropIdsCount(cs: seq<Chunk>, s: set<string>)
    requires DistinctIds(cs)
    ensures |Filter(cs, (c: Chunk) => c.chunkId !in s)| == |cs| - |s * IdSet(cs)|
  {
    if cs == [] {
      assert IdSet(cs) == {};
    } else {
      var t := cs[1..];
      assert cs == [cs[0]] + t;
      DropIdsCount(t, s);
      IdSetCons(cs[0], t);
      assert cs[0].chunkId !in IdSet(t);
      if cs[0].chunkId in s {
        assert s * IdSet(cs) == (s * IdSet(t)) + {cs[0].chunkId};
      } else {
        assert s * IdSet(cs) == s * IdSet(t);
      }
    }
  }

  /** The set-of-ids view of a distinct-id list has one id per chunk. */
  lemma {:induction false} IdSetSize(cs: seq<Chunk>)
    requires DistinctIds(cs)
    ensures |IdSet(cs)| == |cs|
  {
    if cs == [] {
      assert IdSet(cs) == {};
    } else {
      var t := cs[1..];
      assert cs == [cs[0]] + t;
      IdSetSize(t);
      IdSetCons(cs[0], t);
      assert cs[0].chunkId !in IdSet(t);
    }
  }

  lemma IdSetSubset(a: seq<Chunk>, b: seq<Chunk>)
    requires forall c :: c in a ==> c in b
    ensures IdSet(a) <= IdSet(b)
  {
    forall x | x in IdSet(a) ensures x in IdSet(b) {
      var i :| 0 <= i < |a| && a[i].chunkId == x;
      assert a[i] in b;
      var j :| 0 <= j < |b| && b[j] == a[i];
    }
  }

  /** The two quota passes together: their bookkeeping holds, they only
      pick input chunks, and the article pass extends the section pass. */
  lemma QuotaPicksOk(results: seq<Chunk>, topK: nat, minSections: nat, minArticles: nat)
    ensures PickedOk(QuotaPicks(results, topK, minSections, minArticles), results, topK)
    ensures var p1 := SectionPicks(results, topK, minSections);
      var p2 := QuotaPicks(results, topK, minSections, minArticles);
      |p2.chosen| >= |p1.chosen| && p2.chosen[..|p1.chosen|] == p1.chosen
  {
    var ss := SortDesc(OfKind(results, "section"));
    var arts := SortDesc(OfKind(results, "article"));
    FilterMembers(results, (c: Chunk) => Kind(c) == "section");
    FilterMembers(results, (c: Chunk) => Kind(c) == "article");
    forall c | c in ss ensures c in results {
      assert c in multiset(OfKind(results, "section"));
    }
    forall c | c in arts ensures c in results {
      assert c in multiset(OfKind(results, "article"));
    }
    assert IdSet([]) == {};
    AddBestOk(ss, minSections, 0, Picked([], {}), topK, results);
    AddBestOk(arts, minArticles, 0, SectionPicks(results, topK, minSections), topK, results);
  }

  /** The diversified list is the quota picks followed by the best of the
      rest, up to `top_k`. */
  lemma DiversifyShape(results: seq<Chunk>, topK: nat, minSections: nat, minArticles: nat)
    ensures var p := QuotaPicks(results, topK, minSections, minArticles);
      && |p.chosen| <= topK
      && Diversify(results, topK, minSections, minArticles) ==
           p.chosen + Take(SortDesc(Leftover(results, p.seen)), topK - |p.chosen|)
  {
    var p := QuotaPicks(results, topK, minSections, minArticles);
    QuotaPicksOk(results, topK, minSections, minArticles);
    FillIsAppend(p.chosen, SortDesc(Leftover(results, p.seen)), topK);
  }

  lemma DiversifyFromInput(results: seq<Chunk>, topK: nat, minSections: nat, minArticles: nat)
    ensures forall c :: c in Diversify(results, topK, minSections, minArticles) ==> c in results
  {
    var p := QuotaPicks(results, topK, minSections, minArticles);
    QuotaPicksOk(results, topK, minSections, minArticles);
    DiversifyShape(results, topK, minSections, minArticles);
    var rest := Leftover(results, p.seen);
    var tail := Take(SortDesc(rest), topK - |p.chosen|);
    FilterMembers(results, (c: Chunk) => c.chunkId !in p.seen);
    forall c | c in tail ensures c in results {
      assert c in multiset(SortDesc(rest));
    }
  }

  /** The leftover chunks share no id with the quota picks. */
  lemma LeftoverDisjoint(results: seq<Chunk>, seen: set<string>)
    ensures IdSet(Leftover(results, seen)) !! seen
  {
    var rest := Leftover(results, seen);
    FilterMembers(results, (c: Chunk) => c.chunkId !in seen);
    forall x | x in IdSet(rest) ensures x !in seen {
      var i :| 0 <= i < |rest| && rest[i].chunkId == x;
      assert rest[i] in rest;
    }
  }

  /** With distinct input ids, exactly the unpicked chunks are left over. */
  lemma LeftoverCount(results: seq<Chunk>, p: Picked, topK: nat)
    requires DistinctIds(results) && PickedOk(p, results, topK)
    ensures |Leftover(results, p.seen)| == |results| - |p.chosen|
  {
    DropIdsCount(results, p.seen);
    IdSetSubset(p.chosen, results);
    IdSetSize(p.chosen);
    assert p.seen * IdSet(results) == p.seen;
  }

  lemma DiversifyDistinct(results: seq<Chunk>, topK: nat, minSections: nat, minArticles: nat)
    requires DistinctIds(results)
    ensures DistinctIds(Diversify(results, topK, minSections, minArticles))
  {
    var p := QuotaPicks(results, topK, minSections, minArticles);
    QuotaPicksOk(results, topK, minSections, minArticles);
    DiversifyShape(results, topK, minSections, minArticles);
    var rest := Leftover(results, p.seen);
    var sorted := SortDesc(rest);
    var tail := Take(sorted, topK - |p.chosen|);
    FilterDistinctIds(results, (c: Chunk) => c.chunkId !in p.seen);
    SortDescDistinct(rest);
    SortDescIdSet(rest);
    assert DistinctIds(tail);
    IdSetSubset(tail, sorted);
    LeftoverDisjoint(results, p.seen);
    AppendDistinctIds(p.chosen, tail);
  }

  lemma DiversifyLength(results: seq<Chunk>, topK: nat, minSections: nat, minArticles: nat)
    requires DistinctIds(results)
    ensures var r := Diversify(results, topK, minSections, minArticles);
      |r| == if |results| <= topK then |results| else topK
  {
    var p := QuotaPicks(results, topK, minSections, minArticles);
    QuotaPicksOk(results, topK, minSections, minArticles);
    DiversifyShape(results, topK, minSections, minArticles);
    LeftoverCount(results, p, topK);
  }

  /** The diversified list is at most `top_k` long and made of input chunks;
      with distinct input ids its ids are distinct and it has
      `min(top_k, len(results))` chunks. */
  lemma DiversifySpec(results: seq<Chunk>, topK: nat, minSections: nat, minArticles: nat)
    ensures var r := Diversify(results, topK, minSections, minArticles);
      && |r| <= topK
      && (forall c :: c in r ==> c in results)
      && (DistinctIds(results) ==>
            DistinctIds(r) && |r| == if |results| <= topK then |results| else topK)
  {
    DiversifyShape(results, topK, minSections, minArticles);
    DiversifyFromInput(results, topK, minSections, minArticles);
    if DistinctIds(results) {
      DiversifyDistinct(results, topK, minSections, minArticles);
      DiversifyLength(results, topK, minSections, minArticles);
    }
  }

  /** When the quota fits and no id of `lst` is taken yet, the quota pass
      takes the first `limit - n` chunks of `lst`. */
  lemma {:induction false} AddBestFresh(lst: seq<Chunk>, limit: nat, n: nat, acc: Picked, topK: nat)
    requires DistinctIds(lst) && IdSet(lst) !! acc.seen
    requires n <= limit && |acc.chosen| + (limit - n) <= topK
    ensures AddBest(lst, limit, n, acc, topK).chosen == acc.chosen + Take(lst, limit - n)
  {
    if lst == [] || n >= limit || |acc.chosen| >= topK {
    } else {
      var acc' := Picked(acc.chosen + [lst[0]], acc.seen + {lst[0].chunkId});
      FreshTail(lst, acc.seen);
      AddBestFresh(lst[1..], limit, n + 1, acc', topK);
      TakeCons(lst, limit - n);
    }
  }

  /** Taking the head of a distinct-id list that shares no id with `seen`
      leaves a tail that shares no id with `seen` plus the head. */
  lemma FreshTail(lst: seq<Chunk>, seen: set<string>)
    requires lst != [] && DistinctIds(lst) && IdSet(lst) !! seen
    ensures lst[0].chunkId !in seen
    ensures DistinctIds(lst[1..]) && IdSet(lst[1..]) !! seen + {lst[0].chunkId}
  {
    assert lst[0].chunkId in IdSet(lst);
    assert lst == [lst[0]] + lst[1..];
    IdSetCons(lst[0], lst[1..]);
  }

  lemma TakeCons<T>(s: seq<T>, n: nat)
    requires s != [] && n > 0
    ensures Take(s, n) == [s[0]] + Take(s[1..], n - 1)
  {
  }

  /** The chunks of one kind, best first, have distinct ids. */
  lemma KindSortedDistinct(results: seq<Chunk>, kind: string)
    requires DistinctIds(results)
    ensures DistinctIds(SortDesc(OfKind(results, kind)))
    ensures forall c :: c in SortDesc(OfKind(results, kind)) ==> c in results && Kind(c) == kind
  {
    var ks := OfKind(results, kind);
    FilterDistinctIds(results, (c: Chunk) => Kind(c) == kind);
    FilterMembers(results, (c: Chunk) => Kind(c) == kind);
    SortDescDistinct(ks);
    forall c | c in SortDesc(ks) ensures c in results && Kind(c) == kind {
      assert c in multiset(ks);
    }
  }

  /** Chunks of two different kinds of a distinct-id list never share an id. */
  lemma DisjointKinds(results: seq<Chunk>, xs: seq<Chunk>, ys: seq<Chunk>, kx: string, ky: string)
    requires DistinctIds(results) && kx != ky
    requires forall c :: c in xs ==> c in results && Kind(c) == kx
    requires forall c :: c in ys ==> c in results && Kind(c) == ky
    ensures IdSet(xs) !! IdSet(ys)
  {
    forall x | x in IdSet(xs) && x in IdSet(ys) ensures false {
      var i :| 0 <= i < |xs| && xs[i].chunkId == x;
      var j :| 0 <= j < |ys| && ys[j].chunkId == x;
      assert xs[i] in xs && ys[j] in ys;
      SameIdSameChunk(results, xs[i], ys[j]);
    }
  }

  /** The section pass takes the best `min_sections` section chunks. */
  lemma SectionPicksBest(results: seq<Chunk>, topK: nat, minSections: nat)
    requires DistinctIds(results) && minSections <= topK
    ensures var p1 := SectionPicks(results, topK, minSections);
      && p1.chosen == Take(SortDesc(OfKind(results, "section")), minSections)
      && p1.seen == IdSet(p1.chosen)
  {
    var secs := SortDesc(OfKind(results, "section"));
    KindSortedDistinct(results, "section");
    assert IdSet([]) == {};
    AddBestFresh(secs, minSections, 0, Picked([], {}), topK);
    AddBestOk(secs, minSections, 0, Picked([], {}), topK, results);
  }

  /** With distinct input ids and a quota that fits, the quota passes pick
      the best sections followed by the best articles. */
  lemma QuotaPicksBest(results: seq<Chunk>, topK: nat, minSections: nat, minArticles: nat)
    requires DistinctIds(results)
    requires minSections + minArticles <= topK
    ensures QuotaPicks(results, topK, minSections, minArticles).chosen ==
      Take(SortDesc(OfKind(results, "section")), minSections)
      + Take(SortDesc(OfKind(results, "article")), minArticles)
  {
    var secs := SortDesc(OfKind(results, "section"));
    var arts := SortDesc(OfKind(results, "article"));
    var p1 := SectionPicks(results, topK, minSections);
    SectionPicksBest(results, topK, minSections);
    KindSortedDistinct(results, "section");
    KindSortedDistinct(results, "article");
    assert DistinctIds(arts) && |p1.chosen| + minArticles <= topK;
    assert IdSet(arts) !! p1.seen by {
      DisjointKinds(results, arts, p1.chosen, "article", "section");
    }
    AddBestFresh(arts, minArticles, 0, p1, topK);
  }

  /** Quota guarantee: with distinct input ids and `min_sections +
      min_articles <= top_k`, the diversified list starts with the
      `min_sections` best section chunks followed by the `min_articles` best
      article chunks (fewer when fewer exist). A chunk without a source type
      is a case chunk and so counts toward neither quota. */
  lemma DiversifyQuota(results: seq<Chunk>, topK: nat, minSections: nat, minArticles: nat)
    requires DistinctIds(results)
    requires minSections + minArticles <= topK
    ensures var best := Take(SortDesc(OfKind(results, "section")), minSections)
                      + Take(SortDesc(OfKind(results, "article")), minArticles);
      var r := Diversify(results, topK, minSections, minArticles);
      |best| <= |r| && r[..|best|] == best
  {
    QuotaPicksBest(results, topK, minSections, minArticles);
    DiversifyShape(results, topK, minSections, minArticles);
  }

  lemma AppendDistinctIds(a: seq<Chunk>, b: seq<Chunk>)
    requires DistinctIds(a) && DistinctIds(b) && IdSet(a) !! IdSet(b)
    ensures DistinctIds(a + b)
  {
    var l := a + b;
    forall i, j | 0 <= i < j < |l| ensures l[i].chunkId != l[j].chunkId {
      if j < |a| {
        assert l[i] == a[i] && l[j] == a[j];
      } else if i >= |a| {
        assert l[i] == b[i - |a|] && l[j] == b[j - |a|];
      } else {
        assert l[i] == a[i] && l[j] == b[j - |a|];
        assert a[i].chunkId in IdSet(a);
        assert b[j - |a|].chunkId in IdSet(b);
      }
    }
  }

  // ----- retrieve_chunks -----

  /** A store that could not be loaded yields no chunks, no flags, a top
      similarity of 0.0 and an error naming the reason. */
  lemma RetrieveUnavailable(store: VectorStore, settings: RetrievalSettings, query: string, k: Option<nat>,
                            constraints: Option<GraphConstraints>)
    requires store.Unavailable?
    ensures var r := Retrieve(store, settings, query, k, constraints);
      && r.chunks == [] && !r.usedConstraints && !r.usedFallback && r.topSimilarity == 0.0
      && r.error.Some? && r.error.value == UNAVAILABLE_PREFIX + store.reason
  {
  }

  /** An empty constraint set is the same as none. */
  lemma RetrieveEmptyIsNone(store: VectorStore, settings: RetrievalSettings, query: string, k: Option<nat>,
                            g: GraphConstraints)
    requires g.IsEmpty()
    ensures Retrieve(store, settings, query, k, Some(g)) == Retrieve(store, settings, query, k, None)
  {
  }

  /** Without constraints: no flags and no error; the chunks are the
      diversified over-retrieving search, so at most `top_k` of them, all
      from that search, `min(top_k, hits)` many when the hits
      have distinct ids; the top similarity is the best score of that search
      (0.0 when it found nothing). */
  lemma RetrieveUnconstrained(store: VectorStore, settings: RetrievalSettings, query: string, k: Option<nat>,
                              constraints: Option<GraphConstraints>)
    requires store.Ready?
    requires constraints.None? || constraints.value.IsEmpty()
    ensures var r := Retrieve(store, settings, query, k, constraints);
      var topK := TopK(k, settings);
      var base := store.search(query, OverK(topK, settings, store.ntotal));
      && !r.usedConstraints && !r.usedFallback && r.error.None?
      && r.chunks == Diversify(base, topK, settings.minSections, settings.minArticles)
      && |r.chunks| <= topK
      && (forall c :: c in r.chunks ==> c in base)
      && (DistinctIds(base) ==> DistinctIds(r.chunks) && |r.chunks| == if |base| <= topK then |base| else topK)
      && (forall i :: 0 <= i < |base| ==> base[i].score <= r.topSimilarity)
      && (base == [] ==> r.topSimilarity == 0.0)
      && (base != [] ==> exists i :: 0 <= i < |base| && base[i].score == r.topSimilarity)
  {
    var topK := TopK(k, settings);
    var base := store.search(query, OverK(topK, settings, store.ntotal));
    DiversifySpec(base, topK, settings.minSections, settings.minArticles);
    MaxScoreSpec(base);
  }

  /** With constraints: the constrained path's chunks and fallback flag, no
      error, and a top similarity that is the best score of the
      over-retrieving search, or after a fallback the larger of the best scores
      of both searches. */
  lemma RetrieveConstrained(store: VectorStore, settings: RetrievalSettings, query: string, k: Option<nat>,
                            g: GraphConstraints)
    requires store.Ready? && !g.IsEmpty()
    ensures var r := Retrieve(store, settings, query, k, Some(g));
      var topK := TopK(k, settings);
      var c := ConstrainedPath(store, settings, query, topK, g);
      var base := store.search(query, BaseK(topK, settings));
      var fallback := store.search(query, topK);
      && r.usedConstraints && r.error.None?
      && r.chunks == c.chunks && r.usedFallback == c.usedFallback
      && (forall i :: 0 <= i < |base| ==> base[i].score <= r.topSimilarity)
      && (r.usedFallback ==> forall i :: 0 <= i < |fallback| ==> fallback[i].score <= r.topSimilarity)
      && (!r.usedFallback ==> r.topSimilarity == MaxScore(base))
      && (r.usedFallback ==>
            r.topSimilarity == (if MaxScore(base) >= MaxScore(fallback) then MaxScore(base) else MaxScore(fallback)))
  {
    var topK := TopK(k, settings);
    MaxScoreSpec(store.search(query, BaseK(topK, settings)));
    MaxScoreSpec(store.search(query, topK));
  }
}

=== FILE: seqs.dfy ===
/**
 * Generic list operations in the shape Python code uses them: filtering
 * comprehensions, `s[:n]` slices, first-occurrence de-duplication and
 * conversion to a set.
 */
module Seqs {

  /** `[x for x in s if p(x)]`. */
  function Filter<T>(s: seq<T>, p: T -> bool): (r: seq<T>)
    ensures |r| <= |s|
  {
    if s == [] then [] else (if p(s[0]) then [s[0]] else []) + Filter(s[1..], p)
  }

  /** Filtering keeps exactly the members that satisfy the predicate. */
  lemma {:induction false} FilterMembers<T>(s: seq<T>, p: T -> bool)
    ensures forall x :: x in Filter(s, p) <==> x in s && p(x)
  {
    if s != [] {
      FilterMembers(s[1..], p);
      assert s == [s[0]] + s[1..];
    }
  }

  /** Filtering a repeat-free list leaves it repeat-free. */
  lemma {:induction false} FilterDistinct<T>(s: seq<T>, p: T -> bool)
    requires Distinct(s)
    ensures Distinct(Filter(s, p))
  {
    if s != [] {
      assert s == [s[0]] + s[1..];
      DistinctCons(s[0], s[1..]);
      FilterDistinct(s[1..], p);
      FilterMembers(s[1..], p);
      if p(s[0]) {
        DistinctCons(s[0], Filter(s[1..], p));
      }
    }
  }

  /** Filtering distributes over concatenation, which is what "keeps the
      input order" means for a filter. */
  lemma {:induction false} FilterAppend<T>(a: seq<T>, b: seq<T>, p: T -> bool)
    ensures Filter(a + b, p) == Filter(a, p) + Filter(b, p)
  {
    if a == [] {
      assert a + b == b;
    } else {
      var head := if p(a[0]) then [a[0]] else [];
      assert (a + b)[0] == a[0];
      assert (a + b)[1..] == a[1..] + b;
      FilterAppend(a[1..], b, p);
      calc {
        Filter(a + b, p);
        head + Filter(a[1..] + b, p);
        head + (Filter(a[1..], p) + Filter(b, p));
        (head + Filter(a[1..], p)) + Filter(b, p);
      }
    }
  }

  /** Filtering with a predicate every element satisfies changes nothing. */
  lemma {:induction false} FilterAll<T>(s: seq<T>, p: T -> bool)
    requires forall i :: 0 <= i < |s| ==> p(s[i])
    ensures Filter(s, p) == s
  {
    if s != [] {
      FilterAll(s[1..], p);
    }
  }

  /** Filtering keeps the number of occurrences of every kept value. */
  lemma {:induction false} FilterMultiset<T>(s: seq<T>, p: T -> bool)
    ensures forall x :: p(x) ==> multiset(Filter(s, p))[x] == multiset(s)[x]
    ensures forall x :: !p(x) ==> multiset(Filter(s, p))[x] == 0
  {
    if s != [] {
      FilterMultiset(s[1..], p);
      assert s == [s[0]] + s[1..];
    }
  }

  /** Python's `s[:n]` for a non-negative `n`. */
  function Take<T>(s: seq<T>, n: int): (r: seq<T>)
    requires n >= 0
    ensures |r| == if n <= |s| then n else |s|
    ensures forall i :: 0 <= i < |r| ==> r[i] == s[i]
  {
    if n <= |s| then s[..n] else s
  }

  /** All elements are pairwise different. */
  predicate Distinct<T(==)>(s: seq<T>)
  {
    forall i, j :: 0 <= i < j < |s| ==> s[i] != s[j]
  }

  /** A list with a new head is repeat-free when its tail is and the head is
      not in the tail. */
  lemma DistinctCons<T>(x: T, s: seq<T>)
    ensures Distinct([x] + s) <==> x !in s && Distinct(s)
  {
    if x !in s && Distinct(s) {
      forall i, j | 0 <= i < j < |[x] + s|
        ensures ([x] + s)[i] != ([x] + s)[j]
      {
        if i == 0 {
          assert ([x] + s)[j] == s[j - 1];
        } else {
          assert ([x] + s)[i] == s[i - 1] && ([x] + s)[j] == s[j - 1];
        }
      }
    }
    if x in s {
      var k :| 0 <= k < |s| && s[k] == x;
      assert ([x] + s)[0] == ([x] + s)[k + 1];
    }
    if Distinct([x] + s) {
      forall i, j | 0 <= i < j < |s|
        ensures s[i] != s[j]
      {
        assert s[i] == ([x] + s)[i + 1] && s[j] == ([x] + s)[j + 1];
      }
    }
  }

  /** The set of a list's elements, `set(s)`. */
  function ToSet<T(==,!new)>(s: seq<T>): (r: set<T>)
    ensures forall x :: x in r <==> x in s
  {
    set x | x in s
  }

  /** First-occurrence de-duplication: `list(dict.fromkeys(s))`. */
  function Dedupe<T(==)>(s: seq<T>): seq<T>
  {
    DedupeFrom(s, {})
  }

  /** De-duplication of `s` that also drops anything already in `seen`. */
  function DedupeFrom<T(==)>(s: seq<T>, seen: set<T>): seq<T>
  {
    if s == [] then []
    else if s[0] in seen then DedupeFrom(s[1..], seen)
    else [s[0]] + DedupeFrom(s[1..], seen + {s[0]})
  }

  /** De-duplication keeps exactly the unseen values, each once, in the order
      of their first occurrence. */
  lemma {:induction false} DedupeFromSpec<T>(s: seq<T>, seen: set<T>)
    ensures Distinct(DedupeFrom(s, seen))
    ensures forall x :: x in DedupeFrom(s, seen) <==> x in s && x !in seen
  {
    if s != [] {
      var rest := if s[0] in seen then seen else seen + {s[0]};
      DedupeFromSpec(s[1..], rest);
      assert s == [s[0]] + s[1..];
    }
  }

  /** `Dedupe` lists each value of its input exactly once. */
  lemma DedupeSpec<T>(s: seq<T>)
    ensures Distinct(Dedupe(s))
    ensures forall x :: x in Dedupe(s) <==> x in s
  {
    DedupeFromSpec(s, {});
  }

  /** A list without repeats is its own de-duplication. */
  lemma {:induction false} DedupeFromDistinct<T>(s: seq<T>, seen: set<T>)
    requires Distinct(s)
    requires forall i :: 0 <= i < |s| ==> s[i] !in seen
    ensures DedupeFrom(s, seen) == s
  {
    if s != [] {
      assert forall i :: 1 <= i < |s| ==> s[i] != s[0];
      DedupeFromDistinct(s[1..], seen + {s[0]});
    }
  }

  /** A subset is no larger than its superset, and of equal size only when
      the two are equal. */
  lemma SubsetCard<T>(a: set<T>, b: set<T>)
    requires a <= b
    ensures |a| <= |b|
    ensures |a| == |b| ==> a == b
  {
    assert b == a + (b - a);
  }
}

=== FILE: sorting.dfy ===
/**
 * Python's `sorted` on a list of strings: code-point lexicographic order,
 * by insertion.
 */
module Sorting {
  import opened Seqs

  /** `a <= b` for Python strings. */
  predicate Le(a: string, b: string)
  {
    if a == [] then true
    else if b == [] then false
    else if a[0] != b[0] then a[0] < b[0]
    else Le(a[1..], b[1..])
  }

  /** Any two strings are ordered one way or the other. */
  lemma {:induction false} LeTotal(a: string, b: string)
    ensures Le(a, b) || Le(b, a)
  {
    if a != [] && b != [] && a[0] == b[0] {
      LeTotal(a[1..], b[1..]);
    }
  }

  predicate Sorted(s: seq<string>)
  {
    forall i :: 0 <= i < |s| - 1 ==> Le(s[i], s[i + 1])
  }

  function Insert(x: string, s: seq<string>): (r: seq<string>)
    ensures |r| == |s| + 1
    ensures r != [] && (r[0] == x || (s != [] && r[0] == s[0]))
  {
    if s == [] || Le(x, s[0]) then [x] + s else [s[0]] + Insert(x, s[1..])
  }

  /** `sorted(s)`. */
  function Sort(s: seq<string>): (r: seq<string>)
    ensures |r| == |s|
  {
    if s == [] then [] else Insert(s[0], Sort(s[1..]))
  }

  lemma {:induction false} InsertSpec(x: string, s: seq<string>)
    requires Sorted(s)
    ensures Sorted(Insert(x, s))
    ensures multiset(Insert(x, s)) == multiset(s) + multiset{x}
  {
    if s != [] && !Le(x, s[0]) {
      var t := s[1..];
      assert Sorted(t) by {
        forall i | 0 <= i < |t| - 1 ensures Le(t[i], t[i + 1]) {
          assert t[i] == s[i + 1] && t[i + 1] == s[i + 2];
        }
      }
      InsertSpec(x, t);
      LeTotal(x, s[0]);
      var r := Insert(x, s);
      var rt := Insert(x, t);
      assert r == [s[0]] + rt;
      forall i | 0 <= i < |r| - 1 ensures Le(r[i], r[i + 1]) {
        if i > 0 {
          assert r[i] == rt[i - 1] && r[i + 1] == rt[i];
        } else if rt[0] != x {
          assert rt[0] == t[0] == s[1];
        }
      }
      assert s == [s[0]] + t;
    }
  }

  /** `sorted` yields its input's elements in order. */
  lemma {:induction false} SortSpec(s: seq<string>)
    ensures Sorted(Sort(s))
    ensures multiset(Sort(s)) == multiset(s)
  {
    if s != [] {
      SortSpec(s[1..]);
      InsertSpec(s[0], Sort(s[1..]));
      assert s == [s[0]] + s[1..];
    }
  }

  /** Sorting keeps exactly the elements of its input. */
  lemma SortMembers(s: seq<string>)
    ensures forall x :: x in Sort(s) <==> x in s
  {
    SortSpec(s);
    forall x ensures x in Sort(s) <==> x in s {
      assert x in Sort(s) <==> x in multiset(Sort(s));
      assert x in s <==> x in multiset(s);
    }
  }

  /** `sorted` of a repeat-free list is repeat-free. */
  lemma {:induction false} SortDistinct(s: seq<string>)
    requires Distinct(s)
    ensures Distinct(Sort(s))
  {
    if s != [] {
      assert s == [s[0]] + s[1..];
      DistinctCons(s[0], s[1..]);
      SortDistinct(s[1..]);
      SortMembers(s[1..]);
      InsertDistinct(s[0], Sort(s[1..]));
    }
  }

  lemma {:induction false} InsertDistinct(x: string, s: seq<string>)
    requires Distinct(s) && x !in s
    ensures Distinct(Insert(x, s))
  {
    if s == [] || Le(x, s[0]) {
      DistinctCons(x, s);
    } else {
      assert s == [s[0]] + s[1..];
      DistinctCons(s[0], s[1..]);
      InsertDistinct(x, s[1..]);
      InsertMembers(x, s[1..]);
      DistinctCons(s[0], Insert(x, s[1..]));
    }
  }

  /** Inserting adds exactly the new element. */
  lemma {:induction false} InsertMembers(x: string, s: seq<string>)
    ensures forall y :: y in Insert(x, s) <==> y == x || y in s
  {
    if s != [] && !Le(x, s[0]) {
      InsertMembers(x, s[1..]);
      assert s == [s[0]] + s[1..];
    }
  }
}

=== FILE: tally.dfy ===
/**
 * Counting repeated values the way the output checks do: occurrences of a
 * value, the extra rows that duplicated values account for, and the rows a
 * table's `duplicated()` flags.
 */
module Tally {
  import opened Seqs

  /** How often `v` occurs in `s`. */
  function Count<T(==)>(s: seq<T>, v: T): nat
  {
    if s == [] then 0 else (if s[0] == v then 1 else 0) + Count(s[1..], v)
  }

  /** A value occurs in a list exactly when it is counted there. */
  lemma {:induction false} CountPositive<T>(s: seq<T>, v: T)
    ensures Count(s, v) > 0 <==> v in s
  {
    if s != [] {
      CountPositive(s[1..], v);
      assert v in s <==> s[0] == v || v in s[1..];
    }
  }

  /** The occurrences in `s` of the values listed in `vs`, summed. */
  function SumCounts<T(==)>(vs: seq<T>, s: seq<T>): nat
  {
    if vs == [] then 0 else Count(s, vs[0]) + SumCounts(vs[1..], s)
  }

  /** In a list without repeats a value is listed once or not at all. */
  lemma {:induction false} CountDistinct<T>(vs: seq<T>, x: T)
    requires Distinct(vs)
    ensures Count(vs, x) == if x in vs then 1 else 0
  {
    if vs != [] {
      DistinctCons(vs[0], vs[1..]);
      assert vs == [vs[0]] + vs[1..];
      CountDistinct(vs[1..], x);
      CountPositive(vs[1..], x);
    }
  }

  /** Removing the head of `s` removes one occurrence of it. */
  lemma {:induction false} SumCountsTail<T>(vs: seq<T>, s: seq<T>)
    requires s != []
    ensures SumCounts(vs, s) == SumCounts(vs, s[1..]) + Count(vs, s[0])
  {
    if vs != [] {
      SumCountsTail(vs[1..], s);
    }
  }

  /** Summing the counts over a repeat-free list of every value of `s`
      counts each row once. */
  lemma {:induction false} SumCountsAll<T>(vs: seq<T>, s: seq<T>)
    requires Distinct(vs)
    requires forall i :: 0 <= i < |s| ==> s[i] in vs
    ensures SumCounts(vs, s) == |s|
  {
    if s == [] {
      SumCountsEmpty(vs, s);
    } else {
      SumCountsTail(vs, s);
      CountDistinct(vs, s[0]);
      SumCountsAll(vs, s[1..]);
    }
  }

  lemma {:induction false} SumCountsEmpty<T>(vs: seq<T>, s: seq<T>)
    requires s == []
    ensures SumCounts(vs, s) == 0
  {
    if vs != [] {
      SumCountsEmpty(vs[1..], s);
    }
  }

  /** The rows beyond the first of each listed value. */
  function Extra<T(==)>(vs: seq<T>, s: seq<T>): int
  {
    if vs == [] then 0 else Count(s, vs[0]) - 1 + Extra(vs[1..], s)
  }

  lemma {:induction false} ExtraSum<T>(vs: seq<T>, s: seq<T>)
    ensures Extra(vs, s) == SumCounts(vs, s) - |vs|
  {
    if vs != [] {
      ExtraSum(vs[1..], s);
    }
  }

  /** The values of `vs` that occur more than once in `s`. */
  function Repeated<T(==)>(vs: seq<T>, s: seq<T>): (r: seq<T>)
    ensures |r| <= |vs|
  {
    if vs == [] then []
    else (if Count(s, vs[0]) > 1 then [vs[0]] else []) + Repeated(vs[1..], s)
  }

  lemma {:induction false} RepeatedSpec<T>(vs: seq<T>, s: seq<T>)
    ensures forall x :: x in Repeated(vs, s) <==> x in vs && Count(s, x) > 1
  {
    if vs != [] {
      RepeatedSpec(vs[1..], s);
      assert forall x :: x in vs <==> x == vs[0] || x in vs[1..];
    }
  }

  /** Values counted once add nothing to the extra rows, so only the
      repeated ones matter. */
  lemma {:induction false} ExtraRepeated<T>(vs: seq<T>, s: seq<T>)
    requires forall i :: 0 <= i < |vs| ==> Count(s, vs[i]) >= 1
    ensures Extra(Repeated(vs, s), s) == Extra(vs, s)
  {
    if vs != [] {
      ExtraRepeated(vs[1..], s);
      assert Count(s, vs[0]) >= 1;
      if Count(s, vs[0]) > 1 {
        assert Repeated(vs, s) == [vs[0]] + Repeated(vs[1..], s);
      } else {
        assert Repeated(vs, s) == Repeated(vs[1..], s);
      }
    }
  }

  /** Extra rows of repeated values are positive when any value repeats. */
  lemma {:induction false} ExtraPositive<T>(vs: seq<T>, s: seq<T>)
    ensures Extra(Repeated(vs, s), s) >= |Repeated(vs, s)|
  {
    if vs != [] {
      ExtraPositive(vs[1..], s);
      if Count(s, vs[0]) > 1 {
        assert Repeated(vs, s) == [vs[0]] + Repeated(vs[1..], s);
      } else {
        assert Repeated(vs, s) == Repeated(vs[1..], s);
      }
    }
  }

  /** `duplicated().sum()`: the rows equal to an earlier row (or to a value
      in `seen`). */
  function DupRows<T(==)>(s: seq<T>, seen: set<T>): nat
  {
    if s == [] then 0
    else if s[0] in seen then 1 + DupRows(s[1..], seen)
    else DupRows(s[1..], seen + {s[0]})
  }

  /** Every row is either flagged as a duplicate or kept by
      de-duplication. */
  lemma {:induction false} DupRowsDedupe<T>(s: seq<T>, seen: set<T>)
    ensures DupRows(s, seen) + |DedupeFrom(s, seen)| == |s|
  {
    if s != [] {
      DupRowsDedupe(s[1..], if s[0] in seen then seen else seen + {s[0]});
    }
  }

  lemma DedupeHas<T>(s: seq<T>, x: T)
    requires x in Dedupe(s)
    ensures x in s
  {
    DedupeSpec(s);
  }

  /** The repeated values of a list and the extra rows they account for:
      the rows that are not the first of their value. */
  lemma ExtraIsDuplicatedRows<T>(s: seq<T>)
    ensures Extra(Repeated(Dedupe(s), s), s) == |s| - |Dedupe(s)| == DupRows(s, {})
  {
    var vs := Dedupe(s);
    DedupeSpec(s);
    forall i | 0 <= i < |vs| ensures Count(s, vs[i]) >= 1 {
      DedupeHas(s, vs[i]);
      CountPositive(s, vs[i]);
    }
    ExtraRepeated(vs, s);
    ExtraSum(vs, s);
    SumCountsAll(vs, s);
    DupRowsDedupe(s, {});
  }
}

=== FILE: text.dfy ===
/**
 * The parts of Python's `str` behaviour the repository relies on:
 * `isspace` (which is also what `\s`, `split()` and `strip()` use),
 * ASCII case folding, decimal conversion and substring search.
 */
module Text {

  /** Python's `str.isspace()`: the C0 whitespace block U+0009..U+000D, the
      separators U+001C..U+001F, the space, and the Unicode space
      characters. */
  predicate IsSpace(c: char)
  {
    || '\U{0009}' <= c <= '\U{000D}'
    || '\U{001C}' <= c <= '\U{0020}'
    || c == '\U{0085}' || c == '\U{00A0}' || c == '\U{1680}'
    || '\U{2000}' <= c <= '\U{200A}'
    || c == '\U{2028}' || c == '\U{2029}' || c == '\U{202F}' || c == '\U{205F}' || c == '\U{3000}'
  }

  /** Printable ASCII characters other than the space are not whitespace. */
  lemma PrintableNotSpace(c: char)
    requires '!' <= c <= '~'
    ensures !IsSpace(c)
  {
  }

  predicate IsDigit(c: char) { '0' <= c <= '9' }

  predicate IsAsciiLower(c: char) { 'a' <= c <= 'z' }

  predicate IsAsciiUpper(c: char) { 'A' <= c <= 'Z' }

  predicate IsAsciiLetter(c: char) { IsAsciiLower(c) || IsAsciiUpper(c) }

  /** A character of the regular-expression class `\w` (ASCII part). */
  predicate IsWordChar(c: char) { IsAsciiLetter(c) || IsDigit(c) || c == '_' }

  predicate AllDigits(s: string) { forall i :: 0 <= i < |s| ==> IsDigit(s[i]) }

  predicate NoSpace(s: string) { forall i :: 0 <= i < |s| ==> !IsSpace(s[i]) }

  function LowerChar(c: char): char
  {
    if IsAsciiUpper(c) then (c as int + 32) as char else c
  }

  function UpperChar(c: char): char
  {
    if IsAsciiLower(c) then (c as int - 32) as char else c
  }

  /** `str.lower()` on the ASCII range. */
  function Lower(s: string): (r: string)
    ensures |r| == |s|
    ensures forall i :: 0 <= i < |s| ==> r[i] == LowerChar(s[i])
  {
    seq(|s|, i requires 0 <= i < |s| => LowerChar(s[i]))
  }

  /** `str.upper()` on the ASCII range. */
  function Upper(s: string): (r: string)
    ensures |r| == |s|
    ensures forall i :: 0 <= i < |s| ==> r[i] == UpperChar(s[i])
  {
    seq(|s|, i requires 0 <= i < |s| => UpperChar(s[i]))
  }

  /** Number of leading whitespace characters. */
  function LeadCount(s: string): (n: nat)
    ensures n <= |s|
  {
    if |s| > 0 && IsSpace(s[0]) then 1 + LeadCount(s[1..]) else 0
  }

  /** The leading run counted by `LeadCount` is exactly the whitespace before
      the first non-whitespace character. */
  lemma {:induction false} LeadCountShape(s: string)
    ensures forall k :: 0 <= k < LeadCount(s) ==> IsSpace(s[k])
    ensures LeadCount(s) < |s| ==> !IsSpace(s[LeadCount(s)])
  {
    if |s| > 0 && IsSpace(s[0]) {
      LeadCountShape(s[1..]);
    }
  }

  /** Number of trailing whitespace characters. */
  function TrailCount(s: string): (n: nat)
    ensures n <= |s|
  {
    if |s| > 0 && IsSpace(s[|s| - 1]) then 1 + TrailCount(s[..|s| - 1]) else 0
  }

  lemma {:induction false} TrailCountShape(s: string)
    ensures forall k :: |s| - TrailCount(s) <= k < |s| ==> IsSpace(s[k])
    ensures TrailCount(s) < |s| ==> !IsSpace(s[|s| - 1 - TrailCount(s)])
  {
    if |s| > 0 && IsSpace(s[|s| - 1]) {
      TrailCountShape(s[..|s| - 1]);
    }
  }

  /** `str.lstrip()`. */
  function StripLeft(s: string): string
  {
    s[LeadCount(s)..]
  }

  /** `str.rstrip()`. */
  function StripRight(s: string): string
  {
    s[..|s| - TrailCount(s)]
  }

  /** Python's `str.strip()` with no argument. */
  function Strip(s: string): string
  {
    StripRight(StripLeft(s))
  }

  /** `strip()` keeps a contiguous slice of its input, which has no whitespace
      at either end, and only whitespace is dropped around it. */
  lemma StripShape(s: string)
    ensures var r := Strip(s);
      var i := LeadCount(s);
      && (r == [] || (!IsSpace(r[0]) && !IsSpace(r[|r| - 1])))
      && i + |r| <= |s| && r == s[i..i + |r|]
      && (forall k :: 0 <= k < i ==> IsSpace(s[k]))
      && (forall k :: i + |r| <= k < |s| ==> IsSpace(s[k]))
  {
    var i := LeadCount(s);
    var l := s[i..];
    var j := |l| - TrailCount(l);
    LeadCountShape(s);
    StripRightShape(l);
    assert Strip(s) == l[..j] == s[i..i + j];
    SpacesAfterShift(s, i, j);
  }

  /** Whitespace from `j` on in `s[i..]` is whitespace from `i + j` on in `s`. */
  lemma SpacesAfterShift(s: string, i: nat, j: nat)
    requires i + j <= |s|
    requires forall k :: j <= k < |s[i..]| ==> IsSpace(s[i..][k])
    ensures forall k :: i + j <= k < |s| ==> IsSpace(s[k])
  {
    forall k | i + j <= k < |s|
      ensures IsSpace(s[k])
    {
      assert s[k] == s[i..][k - i];
    }
  }

  /** `rstrip()` keeps a prefix whose last character is not whitespace, when
      the input begins with non-whitespace. */
  lemma StripRightShape(l: string)
    requires l == [] || !IsSpace(l[0])
    ensures var r := StripRight(l);
      && (r == [] || (!IsSpace(r[0]) && !IsSpace(r[|r| - 1])))
      && (forall k :: |r| <= k < |l| ==> IsSpace(l[k]))
  {
    TrailCountShape(l);
    var r := StripRight(l);
    if r != [] {
      assert r[0] == l[0];
      assert r[|r| - 1] == l[|l| - 1 - TrailCount(l)];
    }
  }

  /** `strip()` gives the empty string exactly for all-whitespace input. */
  lemma StripEmptyIff(s: string)
    ensures Strip(s) == [] <==> forall i :: 0 <= i < |s| ==> IsSpace(s[i])
  {
    StripShape(s);
    var r := Strip(s);
    if r != [] {
      assert s[LeadCount(s)] == r[0];
    }
  }

  /** A string that begins and ends with non-whitespace is unchanged by `strip()`. */
  lemma StripFixed(s: string)
    requires s == [] || (!IsSpace(s[0]) && !IsSpace(s[|s| - 1]))
    ensures Strip(s) == s
  {
  }

  /** `strip()` is idempotent. */
  lemma StripIdempotent(s: string)
    ensures Strip(Strip(s)) == Strip(s)
  {
    StripShape(s);
    StripFixed(Strip(s));
  }

  /** Length of the leading run of non-whitespace characters. */
  function TokenLen(s: string): (n: nat)
    ensures n <= |s|
  {
    if |s| == 0 || IsSpace(s[0]) then 0 else 1 + TokenLen(s[1..])
  }

  /** `TokenLen` measures a maximal non-empty run of non-whitespace. */
  lemma {:induction false} TokenLenShape(s: string)
    ensures NoSpace(s[..TokenLen(s)])
    ensures TokenLen(s) < |s| ==> IsSpace(s[TokenLen(s)])
    ensures |s| > 0 && !IsSpace(s[0]) ==> TokenLen(s) >= 1
  {
    if |s| > 0 && !IsSpace(s[0]) {
      TokenLenShape(s[1..]);
      assert s[..TokenLen(s)] == [s[0]] + s[1..][..TokenLen(s[1..])];
    }
  }

  /** Python's `str.split()` with no argument: the maximal runs of
      non-whitespace characters, in order. */
  function Words(s: string): seq<string>
    decreases |s|
  {
    if |s| == 0 then []
    else if IsSpace(s[0]) then Words(s[1..])
    else
      var n := TokenLen(s);
      TokenLenShape(s);
      [s[..n]] + Words(s[n..])
  }

  /** Every word of `split()` is non-empty and free of whitespace. */
  lemma {:induction false} WordsShape(s: string)
    ensures forall i :: 0 <= i < |Words(s)| ==> Words(s)[i] != [] && NoSpace(Words(s)[i])
    decreases |s|
  {
    if |s| == 0 {
    } else if IsSpace(s[0]) {
      WordsShape(s[1..]);
    } else {
      TokenLenShape(s);
      WordsShape(s[TokenLen(s)..]);
    }
  }

  /** `" ".join(ws)`. */
  function JoinSpace(ws: seq<string>): string
  {
    if |ws| == 0 then "" else if |ws| == 1 then ws[0] else ws[0] + " " + JoinSpace(ws[1..])
  }

  /** `"\n".join(lines)`. */
  function JoinLines(lines: seq<string>): string
  {
    if |lines| == 0 then "" else if |lines| == 1 then lines[0] else lines[0] + "\n" + JoinLines(lines[1..])
  }

  /** Joining two non-empty blocks of lines puts one newline between them. */
  lemma {:induction false} JoinLinesAppend(a: seq<string>, b: seq<string>)
    requires a != [] && b != []
    ensures JoinLines(a + b) == JoinLines(a) + "\n" + JoinLines(b)
    decreases |a|
  {
    if |a| == 1 {
      assert (a + b)[1..] == b;
    } else {
      assert (a + b)[1..] == a[1..] + b;
      JoinLinesAppend(a[1..], b);
    }
  }

  /** The joined text starts with the first line's first character. */
  lemma JoinLinesHead(lines: seq<string>)
    requires lines != [] && lines[0] != []
    ensures JoinLines(lines) != [] && JoinLines(lines)[0] == lines[0][0]
  {
  }

  /** The joined text ends with the last line's last character. */
  lemma JoinLinesLast(lines: seq<string>)
    requires lines != [] && lines[|lines| - 1] != []
    ensures var j := JoinLines(lines); j != [] && j[|j| - 1] == lines[|lines| - 1][|lines[|lines| - 1]| - 1]
  {
    if |lines| > 1 {
      var n := |lines| - 1;
      assert lines == lines[..n] + [lines[n]];
      JoinLinesAppend(lines[..n], [lines[n]]);
    }
  }

  /** `rstrip()` of a text that starts with non-whitespace only looks at
      what follows a fixed prefix. */
  lemma {:induction false} StripRightAppend(a: string, b: string)
    requires b != [] && !IsSpace(b[0])
    ensures StripRight(a + b) == a + StripRight(b)
    decreases |b|
  {
    var s := a + b;
    if IsSpace(b[|b| - 1]) {
      var b' := b[..|b| - 1];
      assert s[..|s| - 1] == a + b';
      StripRightAppend(a, b');
      assert TrailCount(s) == 1 + TrailCount(a + b');
      assert TrailCount(b) == 1 + TrailCount(b');
    }
  }

  /** `strip()` of a text that starts with non-whitespace is its `rstrip()`. */
  lemma StripOfLeading(s: string)
    requires s != [] && !IsSpace(s[0])
    ensures Strip(s) == StripRight(s)
  {
  }

  /** Whitespace after a text that ends in non-whitespace is all `rstrip()`
      removes. */
  lemma StripRightNewline(s: string)
    requires s != [] && !IsSpace(s[|s| - 1])
    ensures StripRight(s + "\n") == s
  {
    var t := s + "\n";
    assert t[|t| - 1] == '\n' && IsSpace('\n');
    assert t[..|t| - 1] == s;
    assert TrailCount(s) == 0;
    assert TrailCount(t) == 1;
  }

  /** Splitting a space-joined list of words gives the words back. */
  lemma {:induction false} WordsJoinSpace(ws: seq<string>)
    requires forall i :: 0 <= i < |ws| ==> ws[i] != [] && NoSpace(ws[i])
    ensures Words(JoinSpace(ws)) == ws
  {
    if |ws| == 0 {
    } else if |ws| == 1 {
      WordsOfWord(ws[0], "");
      assert ws[0] + "" == ws[0];
    } else {
      var rest := JoinSpace(ws[1..]);
      WordsJoinSpace(ws[1..]);
      WordsOfWord(ws[0], " " + rest);
      assert ws[0] + " " + rest == ws[0] + (" " + rest);
      assert (" " + rest)[1..] == rest;
    }
  }

  /** A word followed by text that starts with whitespace (or nothing) splits off first. */
  lemma WordsOfWord(w: string, tail: string)
    requires w != [] && NoSpace(w)
    requires tail == [] || IsSpace(tail[0])
    ensures Words(w + tail) == [w] + Words(tail)
  {
    var s := w + tail;
    TokenLenOfWord(w, tail);
    assert s[..|w|] == w;
    assert s[|w|..] == tail;
  }

  lemma {:induction false} TokenLenOfWord(w: string, tail: string)
    requires NoSpace(w)
    requires tail == [] || IsSpace(tail[0])
    ensures TokenLen(w + tail) == |w|
  {
    if w != [] {
      assert (w + tail)[1..] == w[1..] + tail;
      TokenLenOfWord(w[1..], tail);
    }
  }

  /** `int(s)` for a run of ASCII digits. */
  function DigitsValue(s: string): nat
    requires AllDigits(s)
  {
    if |s| == 0 then 0 else DigitsValue(s[..|s| - 1]) * 10 + (s[|s| - 1] as int - '0' as int)
  }

  function DigitChar(d: nat): (c: char)
    requires d < 10
    ensures IsDigit(c)
  {
    ('0' as int + d) as char
  }

  /** `str(n)` for a natural number. */
  function NatToString(n: nat): (s: string)
    ensures |s| > 0 && AllDigits(s)
  {
    if n < 10 then [DigitChar(n)] else NatToString(n / 10) + [DigitChar(n % 10)]
  }

  /** `int(str(n)) == n`: the decimal rendering is read back exactly. */
  lemma {:induction false} NatToStringRoundTrip(n: nat)
    ensures DigitsValue(NatToString(n)) == n
  {
    if n >= 10 {
      var s := NatToString(n);
      assert s[..|s| - 1] == NatToString(n / 10);
      NatToStringRoundTrip(n / 10);
    }
  }

  /** Distinct numbers render as distinct strings. */
  lemma NatToStringInjective(a: nat, b: nat)
    requires NatToString(a) == NatToString(b)
    ensures a == b
  {
    NatToStringRoundTrip(a);
    NatToStringRoundTrip(b);
  }

  /** `needle` occurs in `haystack` starting at offset `i`. */
  predicate OccursAt(haystack: string, needle: string, i: int)
  {
    0 <= i <= |haystack| - |needle| && haystack[i..i + |needle|] == needle
  }

  /** Python's `needle in haystack` for strings. */
  predicate Contains(haystack: string, needle: string)
    decreases |haystack|
  {
    needle <= haystack || (|haystack| > 0 && Contains(haystack[1..], needle))
  }

  /** An occurrence at offset 0 is a prefix. */
  lemma OccursAtStart(haystack: string, needle: string)
    ensures OccursAt(haystack, needle, 0) ==> needle <= haystack
  {
    if OccursAt(haystack, needle, 0) {
      assert haystack[..|needle|] == haystack[0..|needle|];
    }
  }

  /** `needle in haystack` holds exactly when `needle` occurs at some offset. */
  lemma {:induction false} ContainsIff(haystack: string, needle: string)
    ensures Contains(haystack, needle) <==>
      exists i :: OccursAt(haystack, needle, i)
    decreases |haystack|
  {
    if needle <= haystack {
      assert OccursAt(haystack, needle, 0);
    } else if |haystack| > 0 {
      ContainsIff(haystack[1..], needle);
      if exists i :: OccursAt(haystack, needle, i) {
        var i :| OccursAt(haystack, needle, i);
        OccursAtStart(haystack, needle);
        assert haystack[1..][i - 1..i - 1 + |needle|] == needle;
        assert OccursAt(haystack[1..], needle, i - 1);
      }
      if Contains(haystack[1..], needle) {
        var j :| OccursAt(haystack[1..], needle, j);
        assert haystack[j + 1..j + 1 + |needle|] == needle;
        assert OccursAt(haystack, needle, j + 1);
      }
    }
  }
}

=== FILE: workflow_v1.dfy ===
/**
 * The first version of the question-answering workflow: parse the question,
 * resolve the cited provisions in the knowledge graph, retrieve chunks for
 * the question as typed (constrained by the graph when it resolved
 * anything), and ask the model for an answer. There is no query rewrite,
 * no Act detection and no post-processing of the answer.
 */
module WorkflowV1 {
  import opened Wrappers
  import opened Text
  import opened Chunks
  import opened Retrieval
  import opened Grouping
  import opened GraphStore
  import opened Context
  import opened Pipeline
  import R = RetrieverV1
  import P = QueryParser

  /** What a run is given: the graph, the vector store and its settings,
      the model, the three-decimal formatting of a score, and the configured
      model name. */
  datatype Services = Services(
    db: GraphDb,
    store: VectorStore,
    settings: RetrievalSettings,
    llm: Llm,
    scoreText: real -> string,
    modelName: string)

  /** The workflow state; `None` is a key not set (or set to `None`). */
  datatype State = State(
    userQuery: string,
    parsed: Option<P.ParsedQuery>,
    constraints: Option<GraphConstraints>,
    metadata: Option<GraphMetadata>,
    chunks: seq<Chunk>,
    grouped: Grouped,
    usedFallback: bool,
    graphError: Option<string>,
    vectorError: Option<string>,
    answer: Option<string>)

  /** The state a run starts from: only the question is set. */
  function Initial(userQuery: string): State
  {
    State(userQuery, None, None, None, [], [], false, None, None, None)
  }

  /** `node_query_parser`. */
  function ParserNode(s: State): State
  {
    s.(parsed := Some(P.Parse(s.userQuery)))
  }

  /** The numbers the graph node looks up: none before the parser ran. */
  function Cited(s: State): (seq<string>, seq<string>)
  {
    if s.parsed.Some? then (s.parsed.value.sectionNumbers, s.parsed.value.articleNumbers) else ([], [])
  }

  /** `node_graph_retriever`; the first version's lookups take no Act. */
  function GraphNode(db: GraphDb, s: State): State
  {
    match Resolve(db, Cited(s).0, Cited(s).1, None, None)
    case Err(e) => s.(constraints := None, metadata := None, graphError := Some(GRAPH_ERROR_PREFIX + e))
    case Ok(m) => s.(constraints := KeptConstraints(m), metadata := Some(m), graphError := None)
  }

  /** `node_vector_retriever`: the search uses the question exactly as
      typed. */
  function VectorNode(store: VectorStore, settings: RetrievalSettings, s: State): State
  {
    var r := R.Retrieve(store, settings, s.userQuery, Some(settings.topK), s.constraints);
    if r.error.Some? && r.error.value != "" then
      s.(chunks := [], grouped := [], vectorError := r.error, usedFallback := r.usedFallback)
    else
      s.(chunks := r.chunks, grouped := GroupBySource(r.chunks), vectorError := None, usedFallback := r.usedFallback)
  }

  /** The context of the answer prompt; the graph block names provisions
      without their Act. */
  function AnswerContext(sv: Services, s: State): string
  {
    Combined(GraphBlock(s.metadata, false, ITEM_CHARS), RetrievalBlock(s.grouped, sv.scoreText))
  }

  /** `node_answer_generator`: the model's reply is the answer as is. */
  function AnswerNode(sv: Services, s: State): State
  {
    if s.vectorError.Some? && s.vectorError.value != "" then
      s.(answer := Some(VectorDownAnswer(s.vectorError.value)))
    else
      match sv.llm(AnswerPrompt(1, s.userQuery, AnswerContext(sv, s)))
      case Err(e) => s.(answer := Some(LlmDownAnswer(e, sv.modelName)))
      case Ok(reply) => s.(answer := Some(reply))
  }

  /** The node function behind each node name; this version has no
      rewrite node, so that name changes nothing. */
  function Step(sv: Services, n: Node, s: State): State
  {
    match n
    case QueryParser => ParserNode(s)
    case GraphRetriever => GraphNode(sv.db, s)
    case QueryRephrase => s
    case VectorRetriever => VectorNode(sv.store, sv.settings, s)
    case AnswerGenerator => AnswerNode(sv, s)
  }

  function Steps(sv: Services): (Node, State) -> State
  {
    (n: Node, s: State) => Step(sv, n, s)
  }

  /** The nodes in the order `build_app` adds them. */
  const NODES: seq<Node> := [QueryParser, GraphRetriever, VectorRetriever, AnswerGenerator]

  /** The edges `build_app` adds. */
  const EDGES: seq<Edge> := [
    Edge(QueryParser, To(GraphRetriever)),
    Edge(GraphRetriever, To(VectorRetriever)),
    Edge(VectorRetriever, To(AnswerGenerator)),
    Edge(AnswerGenerator, End)]

  const ENTRY: Node := QueryParser

  /** `app.invoke({"user_query": question})`. */
  function Run(sv: Services, question: string): State
  {
    RunNodes(Steps(sv), Path(EDGES, ENTRY, |NODES|), Initial(question))
  }

  // ----- properties -----

  /** The edges leaving each node: one for each of the four nodes, none
      for the rewrite node this version does not have. */
  function Next(n: Node): seq<Target>
  {
    match n
    case QueryParser => [To(GraphRetriever)]
    case GraphRetriever => [To(VectorRetriever)]
    case QueryRephrase => []
    case VectorRetriever => [To(AnswerGenerator)]
    case AnswerGenerator => [End]
  }

  lemma EdgesFrom(n: Node)
    ensures Successors(EDGES, n) == Next(n)
  {
    var e3 := [Edge(AnswerGenerator, End)];
    var e2 := [Edge(VectorRetriever, To(AnswerGenerator))] + e3;
    var e1 := [Edge(GraphRetriever, To(VectorRetriever))] + e2;
    assert EDGES == [Edge(QueryParser, To(GraphRetriever))] + e1;
    assert e3 == [Edge(AnswerGenerator, End)] + [];
    SuccessorsCons(Edge(AnswerGenerator, End), [], n);
    SuccessorsCons(Edge(VectorRetriever, To(AnswerGenerator)), e3, n);
    SuccessorsCons(Edge(GraphRetriever, To(VectorRetriever)), e2, n);
    SuccessorsCons(Edge(QueryParser, To(GraphRetriever)), e1, n);
  }

  /** The app is one chain through the four nodes and then the end; no
      edge leaves a rewrite step and a run never visits one. */
  lemma Wiring()
    ensures IsChain(EDGES, NODES)
    ensures Path(EDGES, ENTRY, |NODES|) == NODES
    ensures Successors(EDGES, QueryRephrase) == []
    ensures QueryRephrase !in Path(EDGES, ENTRY, |NODES|)
  {
    EdgesFrom(QueryParser);
    EdgesFrom(GraphRetriever);
    EdgesFrom(QueryRephrase);
    EdgesFrom(VectorRetriever);
    EdgesFrom(AnswerGenerator);
    assert IsChain(EDGES, NODES) by {
      forall i | 0 <= i < |NODES| - 1 ensures Successors(EDGES, NODES[i]) == [To(NODES[i + 1])] {
        if i == 0 {} else if i == 1 {} else {}
      }
    }
    ChainPath(EDGES, NODES);
  }

  lemma RunPath()
    ensures Path(EDGES, ENTRY, |NODES|) == [QueryParser, GraphRetriever, VectorRetriever, AnswerGenerator]
  {
    Wiring();
  }

  /** A run is the four nodes applied one after the other. */
  lemma RunIsChain(sv: Services, question: string)
    ensures Run(sv, question) ==
      AnswerNode(sv, VectorNode(sv.store, sv.settings, GraphNode(sv.db, ParserNode(Initial(question)))))
  {
    RunAsSteps(sv, question);
    StepsChain(sv, Initial(question));
  }

  /** A run applies the step function along the four-node path. */
  lemma RunAsSteps(sv: Services, question: string)
    ensures var f := Steps(sv);
      Run(sv, question) == f(AnswerGenerator, f(VectorRetriever, f(GraphRetriever, f(QueryParser, Initial(question)))))
  {
    RunPath();
    RunFour(Steps(sv), QueryParser, GraphRetriever, VectorRetriever, AnswerGenerator, Initial(question));
  }

  /** The step function applied along the four nodes is the four node
      functions applied one after the other. */
  lemma StepsChain(sv: Services, s0: State)
    ensures var f := Steps(sv);
      f(AnswerGenerator, f(VectorRetriever, f(GraphRetriever, f(QueryParser, s0))))
      == AnswerNode(sv, VectorNode(sv.store, sv.settings, GraphNode(sv.db, ParserNode(s0))))
  {
    var s1 := ParserNode(s0);
    var s2 := GraphNode(sv.db, s1);
    var s3 := VectorNode(sv.store, sv.settings, s2);
    StepsAre(sv, QueryParser, s0);
    StepsAre(sv, GraphRetriever, s1);
    StepsAre(sv, VectorRetriever, s2);
    StepsAre(sv, AnswerGenerator, s3);
  }

  lemma StepsAre(sv: Services, n: Node, s: State)
    ensures Steps(sv)(n, s) == Step(sv, n, s)
  {
  }

  /** When the graph resolves, the error is cleared and the metadata kept;
      the constraints are dropped exactly when nothing was resolved. */
  lemma GraphNodeResolved(db: GraphDb, s: State, m: GraphMetadata)
    requires Resolve(db, Cited(s).0, Cited(s).1, None, None) == Ok(m)
    ensures var r := GraphNode(db, s);
      && r.graphError.None? && r.metadata == Some(m)
      && (r.constraints.None? <==> m.cases == [] && m.sections == [] && m.articles == [])
      && (r.constraints.Some? ==> r.constraints.value == ConstraintsOf(m))
      && r.(constraints := s.constraints, metadata := s.metadata, graphError := s.graphError) == s
  {
  }

  /** A failed lookup leaves no constraints and no metadata, and records
      the error with its prefix. */
  lemma GraphNodeFailed(db: GraphDb, s: State, e: string)
    requires Resolve(db, Cited(s).0, Cited(s).1, None, None) == Err(e)
    ensures var r := GraphNode(db, s);
      && r.constraints.None? && r.metadata.None? && r.graphError == Some(GRAPH_ERROR_PREFIX + e)
      && r.(constraints := s.constraints, metadata := s.metadata, graphError := s.graphError) == s
  {
  }

  /** A question citing no section or article makes no graph query and
      leaves the search unconstrained. */
  lemma GraphNodeWithoutNumbers(db: GraphDb, question: string)
    requires P.Parse(question).sectionNumbers == [] && P.Parse(question).articleNumbers == []
    ensures var r := GraphNode(db, ParserNode(Initial(question)));
      r.graphError.None? && r.constraints.None? && r.metadata == Some(GraphMetadata([], [], []))
  {
    ResolveNothing(db, None, None);
  }

  /** The search uses the question as typed and the graph node's
      constraints; an error empties the chunks and groups, success groups
      the chunks by source. */
  lemma VectorNodeSpec(store: VectorStore, settings: RetrievalSettings, s: State)
    ensures var res := R.Retrieve(store, settings, s.userQuery, Some(settings.topK), s.constraints);
      var r := VectorNode(store, settings, s);
      && r.usedFallback == res.usedFallback
      && (res.error.Some? && res.error.value != "" ==> r.chunks == [] && r.grouped == [] && r.vectorError == res.error)
      && (res.error.None? ==> r.chunks == res.chunks && r.grouped == GroupBySource(res.chunks) && r.vectorError.None?)
      && r.(chunks := s.chunks, grouped := s.grouped, vectorError := s.vectorError, usedFallback := s.usedFallback) == s
  {
  }

  /** Without constraints the chunks are exactly the plain top-`k` search
      for the question as typed, grouped by source. */
  lemma VectorNodeUnconstrained(store: VectorStore, settings: RetrievalSettings, s: State)
    requires store.Ready? && s.constraints.None?
    ensures var r := VectorNode(store, settings, s);
      && r.chunks == store.search(s.userQuery, settings.topK)
      && r.grouped == GroupBySource(r.chunks) && r.vectorError.None? && !r.usedFallback
  {
    R.RetrieveUnconstrained(store, settings, s.userQuery, Some(settings.topK), s.constraints);
  }

  /** After a retrieval error the answer is the error message, whatever
      the model would have said. */
  lemma AnswerAfterVectorError(sv: Services, s: State, other: Llm)
    requires s.vectorError.Some? && s.vectorError.value != ""
    ensures AnswerNode(sv, s).answer == Some(VectorDownAnswer(s.vectorError.value))
    ensures AnswerNode(sv, s) == AnswerNode(sv.(llm := other), s)
  {
  }

  /** Otherwise the model is asked once; its reply is the answer, a failed
      call an explanatory answer naming the model. */
  lemma AnswerSpec(sv: Services, s: State)
    requires s.vectorError.None? || s.vectorError.value == ""
    ensures var ctx := AnswerContext(sv, s);
      var graph := GraphBlock(s.metadata, false, ITEM_CHARS);
      var reply := sv.llm(AnswerPrompt(1, s.userQuery, ctx));
      var r := AnswerNode(sv, s);
      && (graph != "" ==> ctx == graph + "\n\n" + StripRight(RetrievalBlock(s.grouped, sv.scoreText)))
      && (graph == "" ==> ctx == RetrievalBlock(s.grouped, sv.scoreText))
      && (reply.Err? ==> r == s.(answer := Some(LlmDownAnswer(reply.message, sv.modelName))))
      && (reply.Ok? ==> r == s.(answer := Some(reply.value)))
  {
    CombinedSpec(s.metadata, false, s.grouped, sv.scoreText);
  }

  /** End to end: with an unloaded vector store the run answers with the
      store's error. */
  lemma RunWithoutStore(sv: Services, question: string)
    requires sv.store.Unavailable?
    ensures Run(sv, question).answer == Some(VectorDownAnswer(UNAVAILABLE_PREFIX + sv.store.reason))
    ensures Run(sv, question).chunks == []
  {
    RunIsChain(sv, question);
    var s := GraphNode(sv.db, ParserNode(Initial(question)));
    R.RetrieveUnavailable(sv.store, sv.settings, s.userQuery, Some(sv.settings.topK), s.constraints);
  }

  /** End to end: a question citing nothing is answered from the plain
      top-`k` search for it, with no graph error. */
  lemma RunWithoutCitations(sv: Services, question: string)
    requires P.Parse(question).sectionNumbers == [] && P.Parse(question).articleNumbers == []
    requires sv.store.Ready?
    ensures var r := Run(sv, question);
      && r.graphError.None? && r.constraints.None?
      && r.chunks == sv.store.search(question, sv.settings.topK)
      && r.vectorError.None? && r.answer.Some?
  {
    RunIsChain(sv, question);
    GraphNodeWithoutNumbers(sv.db, question);
    var s := GraphNode(sv.db, ParserNode(Initial(question)));
    VectorNodeUnconstrained(sv.store, sv.settings, s);
    VectorNodeSpec(sv.store, sv.settings, s);
  }
}

=== FILE: workflow_v3.dfy ===
/**
 * The third version of the question-answering workflow: parse the question
 * (with Act hints), resolve the cited provisions in the knowledge graph,
 * have the language model rewrite the question as a formal legal query,
 * retrieve chunks (diversified, or constrained by the graph), and ask the
 * model for a structured answer. Every node is a function from the
 * workflow state to the next state; the graph, the vector store and the
 * model are the services the run is given.
 */
module WorkflowV3 {
  import opened Wrappers
  import opened Seqs
  import opened Text
  import opened Chunks
  import opened Retrieval
  import opened Grouping
  import opened GraphStore
  import opened Context
  import opened Pipeline
  import R = RetrieverV3
  import P = QueryParserV3
  import Q1 = QueryParser

  /** The answer post-processing of the model's reply: the cleaned answer
      and whether its "applicable laws" and "relevant case law" sections say
      nothing relevant was found. */
  datatype Polished = Polished(answer: string, noApplicableLaws: bool, noRelevantCases: bool)

  /** What a run is given: the graph, the vector store and its settings,
      the model, the answer post-processing, the three-decimal formatting of
      a score, and the configured model name. */
  datatype Services = Services(
    db: GraphDb,
    store: VectorStore,
    settings: RetrievalSettings,
    llm: Llm,
    polish: string -> Polished,
    scoreText: real -> string,
    modelName: string)

  /** An Act the resolved provisions belong to. */
  datatype ActEntry = ActEntry(actId: string, actName: string)

  /** The workflow state; `None` is a key not set (or set to `None`). */
  datatype State = State(
    userQuery: string,
    legalQuery: Option<string>,
    parsed: Option<P.ParsedQuery>,
    constraints: Option<GraphConstraints>,
    metadata: Option<GraphMetadata>,
    acts: seq<ActEntry>,
    chunks: seq<Chunk>,
    grouped: Grouped,
    usedFallback: bool,
    topSimilarity: Option<real>,
    graphError: Option<string>,
    vectorError: Option<string>,
    answer: Option<string>,
    noApplicableLaws: Option<bool>,
    noRelevantCases: Option<bool>)

  /** The state a run starts from: only the question is set. */
  function Initial(userQuery: string): State
  {
    State(userQuery, None, None, None, None, [], [], [], false, None, None, None, None, None, None)
  }

  // ----- _collect_applicable_acts -----

  /** `row.get("act_id")`, with a missing id as the empty string. */
  function ActKey(p: Provision): string
  {
    OrDefault(p.actId, "")
  }

  /** The loop of `_collect_applicable_acts` over `ps` with the Act ids in
      `seen` already collected. */
  function CollectFrom(ps: seq<Provision>, seen: set<string>): seq<ActEntry>
  {
    if ps == [] then []
    else
      var aid := ActKey(ps[0]);
      if aid != "" && aid !in seen then
        [ActEntry(aid, OrDefault(ps[0].actName, aid))] + CollectFrom(ps[1..], seen + {aid})
      else CollectFrom(ps[1..], seen)
  }

  /** `_collect_applicable_acts(sections, articles)`. */
  function CollectActs(sections: seq<Provision>, articles: seq<Provision>): seq<ActEntry>
  {
    CollectFrom(sections + articles, {})
  }

  function ActIds(es: seq<ActEntry>): (r: seq<string>)
    ensures |r| == |es|
    ensures forall i :: 0 <= i < |es| ==> r[i] == es[i].actId
  {
    seq(|es|, i requires 0 <= i < |es| => es[i].actId)
  }

  /** The non-empty Act ids of the provisions, in order, repeats kept. */
  function ActKeys(ps: seq<Provision>): seq<string>
  {
    if ps == [] then [] else (if ActKey(ps[0]) != "" then [ActKey(ps[0])] else []) + ActKeys(ps[1..])
  }

  /** The Act name the first provision of Act `id` gives, or `id` itself
      when that provision has no name. */
  function NameFor(ps: seq<Provision>, id: string): string
  {
    if ps == [] then id
    else if ActKey(ps[0]) == id then OrDefault(ps[0].actName, id)
    else NameFor(ps[1..], id)
  }

  lemma {:induction false} CollectFromIds(ps: seq<Provision>, seen: set<string>)
    ensures ActIds(CollectFrom(ps, seen)) == DedupeFrom(ActKeys(ps), seen)
  {
    if ps != [] {
      var aid := ActKey(ps[0]);
      var ks := ActKeys(ps);
      if aid != "" {
        assert ks == [aid] + ActKeys(ps[1..]);
        assert ks[0] == aid && ks[1..] == ActKeys(ps[1..]);
      } else {
        assert ks == ActKeys(ps[1..]);
      }
      if aid != "" && aid !in seen {
        CollectFromIds(ps[1..], seen + {aid});
        assert ActIds(CollectFrom(ps, seen)) == [aid] + ActIds(CollectFrom(ps[1..], seen + {aid}));
      } else {
        CollectFromIds(ps[1..], seen);
      }
    }
  }

  /** Entry `e` carries an Act id new with respect to `seen`, named as the
      first provision of that Act in `ps` names it. */
  predicate NamedFrom(ps: seq<Provision>, seen: set<string>, e: ActEntry)
  {
    e.actId != "" && e.actId !in seen && e.actName == NameFor(ps, e.actId)
  }

  lemma {:induction false} CollectFromNames(ps: seq<Provision>, seen: set<string>)
    ensures forall i :: 0 <= i < |CollectFrom(ps, seen)| ==> NamedFrom(ps, seen, CollectFrom(ps, seen)[i])
  {
    if ps != [] {
      var aid := ActKey(ps[0]);
      var r := CollectFrom(ps, seen);
      if aid != "" && aid !in seen {
        var seen' := seen + {aid};
        CollectFromNames(ps[1..], seen');
        var rest := CollectFrom(ps[1..], seen');
        assert r == [ActEntry(aid, OrDefault(ps[0].actName, aid))] + rest;
        forall i | 0 <= i < |r| ensures NamedFrom(ps, seen, r[i]) {
          if i > 0 {
            var e := rest[i - 1];
            assert r[i] == e;
            assert NamedFrom(ps[1..], seen', e);
            assert e.actId != aid;
          }
        }
      } else {
        CollectFromNames(ps[1..], seen);
        var rest := CollectFrom(ps[1..], seen);
        assert r == rest;
        forall i | 0 <= i < |r| ensures NamedFrom(ps, seen, r[i]) {
          var e := rest[i];
          assert NamedFrom(ps[1..], seen, e);
          assert e.actId != aid;
        }
      }
    }
  }

  lemma {:induction false} ActKeysMembers(ps: seq<Provision>)
    ensures forall x :: x in ActKeys(ps) <==> x != "" && exists i :: 0 <= i < |ps| && ActKey(ps[i]) == x
  {
    if ps != [] {
      ActKeysMembers(ps[1..]);
      forall x | x != "" && (exists i :: 0 <= i < |ps| && ActKey(ps[i]) == x) ensures x in ActKeys(ps) {
        var i :| 0 <= i < |ps| && ActKey(ps[i]) == x;
        if i > 0 {
          assert ActKey(ps[1..][i - 1]) == x;
        }
      }
      forall x | x in ActKeys(ps[1..]) ensures exists i :: 0 <= i < |ps| && ActKey(ps[i]) == x {
        var j :| 0 <= j < |ps| - 1 && ActKey(ps[1..][j]) == x;
        assert ActKey(ps[j + 1]) == x;
      }
    }
  }

  /** One entry per distinct non-empty Act id of the sections and then the
      articles, in order of first appearance (sections first); each named by
      the first provision of its Act, or by its id when that has no name. */
  lemma CollectActsSpec(sections: seq<Provision>, articles: seq<Provision>)
    ensures var r := CollectActs(sections, articles);
      && ActIds(r) == Dedupe(ActKeys(sections + articles))
      && Distinct(ActIds(r))
      && (forall x :: x in ActIds(r) <==>
            x != "" && exists i :: 0 <= i < |sections + articles| && ActKey((sections + articles)[i]) == x)
      && (forall i :: 0 <= i < |r| ==> r[i].actName == NameFor(sections + articles, r[i].actId))
  {
    CollectFromIds(sections + articles, {});
    CollectFromNames(sections + articles, {});
    DedupeSpec(ActKeys(sections + articles));
    ActKeysMembers(sections + articles);
  }

  // ----- the nodes -----

  /** `node_query_parser`. */
  function ParserNode(s: State): State
  {
    s.(parsed := Some(P.Parse(s.userQuery)))
  }

  /** `node_graph_retriever`: on success the constraints (unless empty), the
      metadata, the Acts and no error; on a failed lookup no constraints, no
      metadata, no Acts and the error. */
  function GraphNode(db: GraphDb, s: State): State
  {
    var q := if s.parsed.Some? then s.parsed.value else P.ParsedQuery("", [], [], map[], None, None);
    match Resolve(db, q.sectionNumbers, q.articleNumbers, q.sectionActId, q.articleActId)
    case Err(e) =>
      s.(constraints := None, metadata := None, acts := [], graphError := Some(GRAPH_ERROR_PREFIX + e))
    case Ok(m) =>
      s.(constraints := KeptConstraints(m), metadata := Some(m), acts := CollectActs(m.sections, m.articles),
         graphError := None)
  }

  /** `node_query_rephrase`. */
  function RephraseNode(llm: Llm, s: State): State
  {
    var question := Strip(s.userQuery);
    if question == "" then s.(legalQuery := Some(""))
    else
      match llm(RephrasePrompt(question))
      case Err(_) => s.(legalQuery := Some(question))
      case Ok(reply) =>
        var legal := Strip(reply);
        s.(legalQuery := Some(if legal != "" then legal else question))
  }

  /** The query the vector node searches with: the legal query, or the
      user's question when there is none, stripped. */
  function SearchQuery(s: State): string
  {
    Strip(if s.legalQuery.Some? && s.legalQuery.value != "" then s.legalQuery.value else s.userQuery)
  }

  /** `node_vector_retriever`. */
  function VectorNode(store: VectorStore, settings: RetrievalSettings, s: State): State
  {
    var r := R.Retrieve(store, settings, SearchQuery(s), Some(settings.topK), s.constraints);
    var s' := s.(topSimilarity := Some(r.topSimilarity), usedFallback := r.usedFallback);
    if r.error.Some? && r.error.value != "" then
      s'.(chunks := [], grouped := [], vectorError := r.error)
    else
      s'.(chunks := r.chunks, grouped := GroupBySource(r.chunks), vectorError := None)
  }

  /** The context of the answer prompt. */
  function AnswerContext(sv: Services, s: State): string
  {
    Combined(GraphBlock(s.metadata, true, ITEM_CHARS), RetrievalBlock(s.grouped, sv.scoreText))
  }

  /** `node_answer_generator`. */
  function AnswerNode(sv: Services, s: State): State
  {
    if s.vectorError.Some? && s.vectorError.value != "" then
      s.(answer := Some(VectorDownAnswer(s.vectorError.value)))
    else
      match sv.llm(AnswerPrompt(3, s.userQuery, AnswerContext(sv, s)))
      case Err(e) => s.(answer := Some(LlmDownAnswer(e, sv.modelName)))
      case Ok(reply) =>
        var p := sv.polish(reply);
        s.(answer := Some(p.answer), noApplicableLaws := Some(p.noApplicableLaws),
           noRelevantCases := Some(p.noRelevantCases))
  }

  /** The node function behind each node name. */
  function Step(sv: Services, n: Node, s: State): State
  {
    match n
    case QueryParser => ParserNode(s)
    case GraphRetriever => GraphNode(sv.db, s)
    case QueryRephrase => RephraseNode(sv.llm, s)
    case VectorRetriever => VectorNode(sv.store, sv.settings, s)
    case AnswerGenerator => AnswerNode(sv, s)
  }

  /** The nodes in the order `build_app` adds them. */
  const NODES: seq<Node> := [QueryParser, GraphRetriever, QueryRephrase, VectorRetriever, AnswerGenerator]

  /** The edges `build_app` adds. */
  const EDGES: seq<Edge> := [
    Edge(QueryParser, To(GraphRetriever)),
    Edge(GraphRetriever, To(QueryRephrase)),
    Edge(QueryRephrase, To(VectorRetriever)),
    Edge(VectorRetriever, To(AnswerGenerator)),
    Edge(AnswerGenerator, End)]

  const ENTRY: Node := QueryParser

  /** The node functions of a run with services `sv`. */
  function Steps(sv: Services): (Node, State) -> State
  {
    (n: Node, s: State) => Step(sv, n, s)
  }

  /** `app.invoke({"user_query": question})`. */
  function Run(sv: Services, question: string): State
  {
    RunNodes(Steps(sv), Path(EDGES, ENTRY, |NODES|), Initial(question))
  }

  // ----- properties -----

  /** The app is one chain from the parser to the answer generator and then
      the end, with no branch: every node has exactly one outgoing edge, and
      a run visits the five nodes in that order. */
  lemma Wiring()
    ensures IsChain(EDGES, NODES)
    ensures Path(EDGES, ENTRY, |NODES|) == NODES
    ensures forall n: Node :: |Successors(EDGES, n)| == 1
  {
    EdgesFrom(QueryParser);
    EdgesFrom(GraphRetriever);
    EdgesFrom(QueryRephrase);
    EdgesFrom(VectorRetriever);
    EdgesFrom(AnswerGenerator);
    assert IsChain(EDGES, NODES) by {
      forall i | 0 <= i < |NODES| - 1 ensures Successors(EDGES, NODES[i]) == [To(NODES[i + 1])] {
        if i == 0 {} else if i == 1 {} else if i == 2 {} else {}
      }
    }
    ChainPath(EDGES, NODES);
  }

  lemma RunPath()
    ensures Path(EDGES, ENTRY, |NODES|) == [QueryParser, GraphRetriever, QueryRephrase, VectorRetriever, AnswerGenerator]
  {
    Wiring();
  }

  /** Where the edge leaving each node leads. */
  function Next(n: Node): Target
  {
    match n
    case QueryParser => To(GraphRetriever)
    case GraphRetriever => To(QueryRephrase)
    case QueryRephrase => To(VectorRetriever)
    case VectorRetriever => To(AnswerGenerator)
    case AnswerGenerator => End
  }

  lemma EdgesFrom(n: Node)
    ensures Successors(EDGES, n) == [Next(n)]
  {
    var e4 := [Edge(AnswerGenerator, End)];
    var e3 := [Edge(VectorRetriever, To(AnswerGenerator))] + e4;
    var e2 := [Edge(QueryRephrase, To(VectorRetriever))] + e3;
    var e1 := [Edge(GraphRetriever, To(QueryRephrase))] + e2;
    assert EDGES == [Edge(QueryParser, To(GraphRetriever))] + e1;
    assert e4 == [Edge(AnswerGenerator, End)] + [];
    SuccessorsCons(Edge(AnswerGenerator, End), [], n);
    SuccessorsCons(Edge(VectorRetriever, To(AnswerGenerator)), e4, n);
    SuccessorsCons(Edge(QueryRephrase, To(VectorRetriever)), e3, n);
    SuccessorsCons(Edge(GraphRetriever, To(QueryRephrase)), e2, n);
    SuccessorsCons(Edge(QueryParser, To(GraphRetriever)), e1, n);
  }

  /** A run is the five nodes applied one after the other. */
  lemma RunIsChain(sv: Services, question: string)
    ensures Run(sv, question) ==
      AnswerNode(sv, VectorNode(sv.store, sv.settings, RephraseNode(sv.llm, GraphNode(sv.db, ParserNode(Initial(question))))))
  {
    RunAsSteps(sv, question);
    StepsChain(sv, Initial(question));
  }

  /** The step function applied along the five nodes is the five node
      functions applied one after the other. */
  lemma StepsChain(sv: Services, s0: State)
    ensures var f := Steps(sv);
      f(AnswerGenerator, f(VectorRetriever, f(QueryRephrase, f(GraphRetriever, f(QueryParser, s0)))))
      == AnswerNode(sv, VectorNode(sv.store, sv.settings, RephraseNode(sv.llm, GraphNode(sv.db, ParserNode(s0)))))
  {
    var s1 := ParserNode(s0);
    var s2 := GraphNode(sv.db, s1);
    var s3 := RephraseNode(sv.llm, s2);
    var s4 := VectorNode(sv.store, sv.settings, s3);
    ParserStep(sv, s0);
    GraphStep(sv, s1);
    RephraseStep(sv, s2);
    VectorStep(sv, s3);
    AnswerStep(sv, s4);
  }

  /** The step function at each node is that node's function. */
  lemma ParserStep(sv: Services, s: State)
    ensures Steps(sv)(QueryParser, s) == ParserNode(s)
  {
  }

  lemma GraphStep(sv: Services, s: State)
    ensures Steps(sv)(GraphRetriever, s) == GraphNode(sv.db, s)
  {
  }

  lemma RephraseStep(sv: Services, s: State)
    ensures Steps(sv)(QueryRephrase, s) == RephraseNode(sv.llm, s)
  {
  }

  lemma VectorStep(sv: Services, s: State)
    ensures Steps(sv)(VectorRetriever, s) == VectorNode(sv.store, sv.settings, s)
  {
  }

  lemma AnswerStep(sv: Services, s: State)
    ensures Steps(sv)(AnswerGenerator, s) == AnswerNode(sv, s)
  {
  }

  /** A run applies the step function along the five-node path. */
  lemma RunAsSteps(sv: Services, question: string)
    ensures var f := Steps(sv);
      Run(sv, question) == f(AnswerGenerator, f(VectorRetriever, f(QueryRephrase, f(GraphRetriever, f(QueryParser, Initial(question))))))
  {
    RunPath();
    RunFive(Steps(sv), QueryParser, GraphRetriever, QueryRephrase, VectorRetriever, AnswerGenerator, Initial(question));
  }

  /** When the graph resolves, the graph error is cleared and the metadata
      kept; the constraints are dropped exactly when no case, section or
      article id was resolved. */
  lemma GraphNodeResolved(db: GraphDb, s: State, m: GraphMetadata)
    requires var q := if s.parsed.Some? then s.parsed.value else P.ParsedQuery("", [], [], map[], None, None);
      Resolve(db, q.sectionNumbers, q.articleNumbers, q.sectionActId, q.articleActId) == Ok(m)
    ensures var r := GraphNode(db, s);
      && r.graphError.None? && r.metadata == Some(m)
      && (r.constraints.None? <==> CaseIds(m.cases) == [] && ProvisionIds(m.sections) == [] && ProvisionIds(m.articles) == [])
      && (r.constraints.Some? ==> r.constraints.value == GraphConstraints(CaseIds(m.cases), ProvisionIds(m.sections), ProvisionIds(m.articles)))
      && r.acts == CollectActs(m.sections, m.articles)
      && r.userQuery == s.userQuery && r.parsed == s.parsed
  {
  }

  /** A failed lookup leaves no constraints, no metadata (not even what was
      looked up before the failure), no Acts, and the error with its prefix. */
  lemma GraphNodeFailed(db: GraphDb, s: State, e: string)
    requires var q := if s.parsed.Some? then s.parsed.value else P.ParsedQuery("", [], [], map[], None, None);
      Resolve(db, q.sectionNumbers, q.articleNumbers, q.sectionActId, q.articleActId) == Err(e)
    ensures var r := GraphNode(db, s);
      && r.constraints.None? && r.metadata.None? && r.acts == []
      && r.graphError == Some(GRAPH_ERROR_PREFIX + e)
      && r.userQuery == s.userQuery && r.parsed == s.parsed
  {
  }

  /** A question citing no section or article never reaches the graph: the
      node succeeds with empty metadata and no constraints even when every
      graph query would fail. */
  lemma GraphNodeWithoutNumbers(db: GraphDb, s: State)
    requires s.parsed.Some? && s.parsed.value.sectionNumbers == [] && s.parsed.value.articleNumbers == []
    ensures var r := GraphNode(db, s);
      r.graphError.None? && r.constraints.None? && r.metadata == Some(GraphMetadata([], [], [])) && r.acts == []
  {
    ResolveNothing(db, s.parsed.value.sectionActId, s.parsed.value.articleActId);
  }

  /** The legal query is always stripped, and empty exactly when the
      question is blank; a failed or empty rewrite falls back to the
      stripped question. */
  lemma RephraseSpec(llm: Llm, s: State)
    ensures var r := RephraseNode(llm, s);
      var question := Strip(s.userQuery);
      && r.legalQuery.Some?
      && Strip(r.legalQuery.value) == r.legalQuery.value
      && (r.legalQuery.value == "" <==> question == "")
      && (question != "" && (llm(RephrasePrompt(question)).Err? || Strip(llm(RephrasePrompt(question)).value) == "") ==>
            r.legalQuery.value == question)
      && (question != "" && llm(RephrasePrompt(question)).Ok? && Strip(llm(RephrasePrompt(question)).value) != "" ==>
            r.legalQuery.value == Strip(llm(RephrasePrompt(question)).value))
      && r.(legalQuery := s.legalQuery) == s
  {
    StripIdempotent(s.userQuery);
    var question := Strip(s.userQuery);
    if question != "" {
      var reply := llm(RephrasePrompt(question));
      if reply.Ok? {
        StripIdempotent(reply.value);
      }
    }
  }

  /** On a retrieval error the node keeps no chunks and no groups and
      records the error; otherwise it keeps the chunks, groups them by
      source, and clears the error. The search uses the legal query, or the
      question when there is none, with the constraints of the graph node. */
  lemma VectorNodeSpec(store: VectorStore, settings: RetrievalSettings, s: State)
    ensures var res := R.Retrieve(store, settings, SearchQuery(s), Some(settings.topK), s.constraints);
      var r := VectorNode(store, settings, s);
      && r.topSimilarity == Some(res.topSimilarity) && r.usedFallback == res.usedFallback
      && (res.error.Some? && res.error.value != "" ==> r.chunks == [] && r.grouped == [] && r.vectorError == res.error)
      && (res.error.None? ==> r.chunks == res.chunks && r.grouped == GroupBySource(res.chunks) && r.vectorError.None?)
      && r.(topSimilarity := s.topSimilarity, usedFallback := s.usedFallback, chunks := s.chunks,
            grouped := s.grouped, vectorError := s.vectorError) == s
  {
  }

  /** An unloaded store ends the retrieval with no chunks and the store's
      error; a loaded one never reports an error. */
  lemma VectorNodeStore(store: VectorStore, settings: RetrievalSettings, s: State)
    ensures var r := VectorNode(store, settings, s);
      && (store.Unavailable? ==>
            r.chunks == [] && r.grouped == [] && r.vectorError == Some(UNAVAILABLE_PREFIX + store.reason)
            && !r.usedFallback && r.topSimilarity == Some(0.0))
      && (store.Ready? ==> r.vectorError.None? && r.grouped == GroupBySource(r.chunks))
  {
    if store.Unavailable? {
      R.RetrieveUnavailable(store, settings, SearchQuery(s), Some(settings.topK), s.constraints);
    } else {
      var res := R.Retrieve(store, settings, SearchQuery(s), Some(settings.topK), s.constraints);
      assert res.error.None?;
    }
  }

  /** After a retrieval error the answer is the error message and the model
      is not consulted: any other model gives the same state. */
  lemma AnswerAfterVectorError(sv: Services, s: State, other: Llm)
    requires s.vectorError.Some? && s.vectorError.value != ""
    ensures AnswerNode(sv, s).answer == Some(VectorDownAnswer(s.vectorError.value))
    ensures AnswerNode(sv, s) == AnswerNode(sv.(llm := other), s)
  {
  }

  /** Otherwise the model is asked once, with the question and a context in
      which a non-empty graph block precedes the retrieval block; a failed
      call becomes an explanatory answer rather than an error. */
  lemma AnswerSpec(sv: Services, s: State)
    requires s.vectorError.None? || s.vectorError.value == ""
    ensures var ctx := AnswerContext(sv, s);
      var graph := GraphBlock(s.metadata, true, ITEM_CHARS);
      var reply := sv.llm(AnswerPrompt(3, s.userQuery, ctx));
      var r := AnswerNode(sv, s);
      && (graph != "" ==> ctx == graph + "\n\n" + StripRight(RetrievalBlock(s.grouped, sv.scoreText)))
      && (graph == "" ==> ctx == RetrievalBlock(s.grouped, sv.scoreText))
      && (reply.Err? ==>
            r == s.(answer := Some(LlmDownAnswer(reply.message, sv.modelName))))
      && (reply.Ok? ==>
            && r.answer == Some(sv.polish(reply.value).answer)
            && r.noApplicableLaws == Some(sv.polish(reply.value).noApplicableLaws)
            && r.noRelevantCases == Some(sv.polish(reply.value).noRelevantCases))
  {
    CombinedSpec(s.metadata, true, s.grouped, sv.scoreText);
  }

  /** End to end: with an unloaded vector store the run answers with the
      store's error, whatever the graph and the model do. */
  lemma RunWithoutStore(sv: Services, question: string)
    requires sv.store.Unavailable?
    ensures Run(sv, question).answer == Some(VectorDownAnswer(UNAVAILABLE_PREFIX + sv.store.reason))
    ensures Run(sv, question).chunks == []
  {
    RunIsChain(sv, question);
    var s := RephraseNode(sv.llm, GraphNode(sv.db, ParserNode(Initial(question))));
    VectorNodeStore(sv.store, sv.settings, s);
  }

  /** A section lookup that fails fails the whole graph step when the
      question cites a section. */
  lemma GraphNodeDown(db: GraphDb, s: State, e: string)
    requires forall q: set<string>, a: Option<string> :: db.sectionsQuery(q, a) == Err(e)
    requires s.parsed.Some? && exists i :: 0 <= i < |s.parsed.value.sectionNumbers| && s.parsed.value.sectionNumbers[i] != ""
    ensures var r := GraphNode(db, s);
      r.graphError == Some(GRAPH_ERROR_PREFIX + e) && r.constraints.None? && r.metadata.None?
  {
    var q := s.parsed.value;
    var i :| 0 <= i < |q.sectionNumbers| && q.sectionNumbers[i] != "";
    assert q.sectionNumbers[i] in Requested(q.sectionNumbers);
  }

  /** The sections the parser finds are non-empty strings. */
  lemma ParsedSectionsNonEmpty(question: string)
    ensures forall i :: 0 <= i < |P.Parse(question).sectionNumbers| ==> P.Parse(question).sectionNumbers[i] != ""
  {
    P.ParseAgreesWithV1(question);
    Q1.ParseSpec(question);
  }

  /** End to end: when the graph cannot be reached the run still answers,
      searching without constraints, and reports the graph error. */
  lemma RunWithoutGraph(sv: Services, question: string, e: string)
    requires forall q: set<string>, a: Option<string> :: sv.db.sectionsQuery(q, a) == Err(e)
    requires P.Parse(question).sectionNumbers != []
    requires sv.store.Ready?
    ensures var r := Run(sv, question);
      && r.graphError == Some(GRAPH_ERROR_PREFIX + e) && r.constraints.None? && r.metadata.None?
      && !r.usedFallback && r.vectorError.None? && r.answer.Some?
  {
    RunIsChain(sv, question);
    var s1 := ParserNode(Initial(question));
    ParsedSectionsNonEmpty(question);
    assert s1.parsed.value.sectionNumbers[0] != "";
    GraphNodeDown(sv.db, s1, e);
    AfterGraphDown(sv, GraphNode(sv.db, s1));
  }

  /** The nodes after the graph step when it found nothing to constrain by:
      the search is unconstrained and, with a loaded store, succeeds, and
      an answer is produced; the graph step's outcome is kept. */
  lemma AfterGraphDown(sv: Services, s: State)
    requires s.constraints.None? && sv.store.Ready?
    ensures var r := AnswerNode(sv, VectorNode(sv.store, sv.settings, RephraseNode(sv.llm, s)));
      && r.graphError == s.graphError && r.constraints.None? && r.metadata == s.metadata
      && !r.usedFallback && r.vectorError.None? && r.answer.Some?
  {
    var s3 := RephraseNode(sv.llm, s);
    RephraseSpec(sv.llm, s);
    R.RetrieveUnconstrained(sv.store, sv.settings, SearchQuery(s3), Some(sv.settings.topK), s3.constraints);
    VectorNodeSpec(sv.store, sv.settings, s3);
    AnswerFrame(sv, VectorNode(sv.store, sv.settings, s3));
  }

  /** The answer node sets the answer and touches nothing but the answer
      and its two flags. */
  lemma AnswerFrame(sv: Services, s: State)
    ensures var r := AnswerNode(sv, s);
      && r.answer.Some?
      && r.(answer := s.answer, noApplicableLaws := s.noApplicableLaws, noRelevantCases := s.noRelevantCases) == s
  {
  }
}

=== FILE: wrappers.dfy ===
/** Optional and fallible values used throughout the model. */
module Wrappers {

  /** Python's `None` versus a present value. */
  datatype Option<+T> = None | Some(value: T)

  /** Either a value or the message of the error that was raised instead. */
  datatype Result<+T> = Ok(value: T) | Err(message: string)
}
